=== FILE: README.md ===
# A verified model of the back-ms-users code generators

The repository generates a hexagonal Spring Boot service from OpenAPI
documents and a project configuration. It also includes small companion
tools: an OpenAPI-to-JSON-Schema converter, a fake-data schema preparer and
an SQL-table extractor. This project models, in Dafny, the decisions those
tools make before anything is rendered or written:

- the package layout and the Mustache context built from the configuration
  (`Config`);
- the operations, schemas and entities read from the OpenAPI documents
  (`OpenApi`);
- the contexts of the DTO, application, infrastructure and test generators
  (`Dto`, `Application`, `Infrastructure`, `TestGen`);
- the naming helpers they share (`Naming`);
- the source tree's paths (`Layout`);
- the mapper's unmapped-field analysis (`MapperFields`);
- the schema converter (`SchemaConverter`);
- the fake-data schema preparation (`FakeData`);
- the SQL generator's table extraction and text cleaning (`SqlTables`).

The supporting modules are:

- `Wrappers`: `Option`, `Result`, and the generic `MapResult`/`FirstSome`;
- `Strings`: Python string operations on ASCII text, plus sorting;
- `Json`: a JSON tree whose objects are ordered key/value lists with Python
  `dict` semantics, where an assignment keeps the key's position and the
  last binding of a key wins;
- `Converter`: the property converter, taken as a parameter.

Every generator stops at the template context: rendering a template and
writing the file are the caller's business. Anything the code reads from
disk is a parameter:

- the set of existing files;
- a directory listing, in listing order;
- the parsed JSON document.

Python exceptions such as `KeyError` are modelled as `Err` results where the
source would raise one.

## Model

| member | source | states |
|---|---|---|
| Config.PackageStructure | libs/pyjava-backend-codegen/core/config_loader.py:41-57 | `root` is the base package; every other key is the base package followed by that key's own suffix, in the literal's order |
| Config.PackageStructureKeys | libs/pyjava-backend-codegen/core/config_loader.py:41-57 | the structure has exactly fifteen keys, pairwise distinct |
| Config.PackageExtensions | libs/pyjava-backend-codegen/core/config_loader.py:50-56 | the entity, repository and adapter packages extend the output-persistence package; the exceptions package extends the configuration package |
| Config.DbType | libs/pyjava-backend-codegen/core/config_loader.py:88-89 | the database type is lower case; it is `h2` for a false or empty entry and for an entry without `sgbd`; otherwise it is `sgbd` lowered |
| Config.DbFlagsExclusive | libs/pyjava-backend-codegen/core/config_loader.py:93-97 | the five flags, in order; at most one is true; `sqlserver` is true exactly for `sqlserver` and `msserver`; an unknown type sets none |
| Config.Database | libs/pyjava-backend-codegen/core/config_loader.py:90-98 | the `database` entry is the configuration's own entry with the flags written over it, and it succeeds only on a mapping |
| Config.Member | libs/pyjava-backend-codegen/core/config_loader.py:72 | a subscript succeeds exactly when the key is present and yields its value |
| Config.GetOrDefault | libs/pyjava-backend-codegen/core/config_loader.py:77-79 | `get` with a default yields the bound value when the key is present and the default otherwise |
| Config.ReadParts | libs/pyjava-backend-codegen/core/config_loader.py:72-88 | reading `project`, `params`, `configOptions`, `general` and `database` succeeds with exactly the values the configuration holds at those keys |
| Config.MustacheContext | libs/pyjava-backend-codegen/core/config_loader.py:60-107 | the context fails exactly when a subscript fails; otherwise every key holds its value from the last layer that writes it |
| Config.Layers | libs/pyjava-backend-codegen/core/config_loader.py:60-107 | ten layers at most, in assignment order: `params` seventh, then `infra` when configured, then the database entry, then `maven` when configured |
| Config.ContextConstants | libs/pyjava-backend-codegen/core/config_loader.py:99-100 | `smithyModel` and `generatorVersion` hold their constants whatever the configuration says |
| Config.InfraMavenRestored | libs/pyjava-backend-codegen/core/config_loader.py:84-105 | `infra` and `maven` keep the configuration's values even when `params` rebinds them |
| Config.InfraRestored | libs/pyjava-backend-codegen/core/config_loader.py:84-85 | the context's `infra` is the configuration's `infra` |
| Config.MavenRestored | libs/pyjava-backend-codegen/core/config_loader.py:104-105 | the context's `maven` is the configuration's `maven` |
| Config.ParamsOverride | libs/pyjava-backend-codegen/core/config_loader.py:72-81 | a key that `params` binds, other than the five written later, takes its value from `params`, overriding the options, packages, author and versions |
| Config.ContextDefaultsToH2 | libs/pyjava-backend-codegen/core/config_loader.py:88-97 | without a `database` entry the context's database flags select H2 and neither PostgreSQL nor SQL Server |
| Config.ContextDatabase | libs/pyjava-backend-codegen/core/config_loader.py:90-98 | the context's `database` is the flagged entry, whatever `params` holds |
| Config.DatabaseDefault | libs/pyjava-backend-codegen/core/config_loader.py:88-97 | an absent entry reads as `{}`, so H2 is on and the others are off |
| MapperFields.SchemaOf | libs/utils/mapper_field_analyzer.py:23-25 | `schemas.get(name, {})`: the bound schema, or the empty object when the name is missing |
| MapperFields.Missing | libs/utils/mapper_field_analyzer.py:33-34 | a name is kept exactly when it is a domain field in neither the request nor the excluded set |
| MapperFields.Unmapped | libs/utils/mapper_field_analyzer.py:28-34 | strictly sorted; holds exactly the domain's property names that are neither request properties nor excluded names |
| MapperFields.AnalyzeEntityMappings | libs/utils/mapper_field_analyzer.py:19-40 | both lists are sorted and hold exactly the fields each request leaves unmapped; the flag is set iff some field is unmapped; the status, timestamps and primary key never appear |
| MapperFields.NoRequestSchemas | libs/utils/mapper_field_analyzer.py:23-34 | without request schemas both lists are equal and hold every domain field that is not excluded |
| MapperFields.UnmappedBySets | libs/utils/mapper_field_analyzer.py:28-34 | the result depends only on the sets of property names, not on their order or repetition |
| MapperFields.RepositoryPortContext | libs/utils/mapper_field_analyzer.py:42-49 | the port context names the entity and its lower-case variable, with pagination and search on |
| MapperFields.GenerateMapperContext | libs/utils/mapper_field_analyzer.py:51-69 | the merged context carries the analysis of the document's schemas unchanged, plus the port entries |
| Dto.GenerateDto | libs/pyjava-backend-codegen/generators/dto_generator.py:18-44 | one converted variable per property, in schema order; the imports are strictly sorted and are exactly the variables' imports; package `{dto}.{service}` |
| Dto.MethodComposites | libs/pyjava-backend-codegen/generators/dto_generator.py:58-64 | an operation of a path is chosen iff it is a PUT or POST with a request body whose id starts with `Create` or `Update` |
| Dto.PathComposites | libs/pyjava-backend-codegen/generators/dto_generator.py:57-64 | the chosen operations of a document are exactly those chosen in one of its paths |
| Dto.PathCompositesStep | libs/pyjava-backend-codegen/generators/dto_generator.py:57-64 | the operations chosen in a document are those of its earlier paths followed by those of its last path |
| Dto.CompositeOps | libs/pyjava-backend-codegen/generators/dto_generator.py:50-64 | the chosen operations of all documents are exactly those chosen in one of them |
| Dto.PathCompositesChosen | libs/pyjava-backend-codegen/generators/dto_generator.py:59-64 | an operation chosen in a document has a body and a `Create` or `Update` id, and keeps the document's service |
| Dto.CompositeOpsChosen | libs/pyjava-backend-codegen/generators/dto_generator.py:50-64 | every chosen operation has a request body and a `Create`/`Update` id, and its service is one of the documents' |
| Dto.PathParams | libs/pyjava-backend-codegen/generators/dto_generator.py:74-76 | a parameter is kept iff it is `in: path` and truthily required; the kept ones are `Filter` of the list, so parameter order and repeats are kept |
| Dto.PathVars | libs/pyjava-backend-codegen/generators/dto_generator.py:75-87 | succeeds iff every kept parameter has a `name`; then there is one `@NotNull String` variable per parameter, carrying its name |
| Dto.BodyVars | libs/pyjava-backend-codegen/generators/dto_generator.py:90-105 | a `body` variable exists iff the body schema has a non-empty `$ref`; its type is the text after the reference's last `/` |
| Dto.BodyTypeIsRefName | libs/pyjava-backend-codegen/generators/dto_generator.py:90-105 | a reference `…/<name>`, `<name>` without `/`, types the body with `<name>` |
| Dto.BodyImports | libs/pyjava-backend-codegen/generators/dto_generator.py:107-108 | one import per body variable: the referenced DTO in the service's DTO package |
| Dto.CompositeRequest | libs/pyjava-backend-codegen/generators/dto_generator.py:66-124 | succeeds iff the path variables do; there is no DTO iff there are no path parameters and no body reference; otherwise it is `{id}Request`, holding the path variables and then the body |
| Converter.Required | libs/pyjava-backend-codegen/generators/dto_generator.py:23 | the `required` list handed to the property converter is the schema's own when it has one, and empty otherwise |
| Converter.ImportList | libs/pyjava-backend-codegen/generators/dto_generator.py:26-32 | a name is collected exactly when some variable asks for it with a non-empty `import` string |
| Converter.SortedImports | libs/pyjava-backend-codegen/generators/dto_generator.py:26-40 | the imports are every requested import exactly once, in strictly ascending order |
| Application.RepositoryMethod | libs/pyjava-springboot-backend-codegen/generators/application_generator.py:240-245 | the method starts with `find`; for a `Get…` id it is `find` followed by the rest of the id, and otherwise `findAll` |
| Application.RepositoryMethodInverse | libs/pyjava-springboot-backend-codegen/generators/application_generator.py:242-244 | putting `Get` back in front of a `Get…` id's repository method gives back the id |
| Application.MethodName | libs/pyjava-springboot-backend-codegen/generators/application_generator.py:163 | same length as the id; the first letter is lowered and the rest is kept |
| Application.MethodNameInverse | libs/pyjava-springboot-backend-codegen/generators/application_generator.py:163 | raising the first letter of a capitalised id's method name gives back the id |
| Application.WithHasMore | libs/pyjava-springboot-backend-codegen/generators/application_generator.py:259-260 | names and types are kept; `hasMore` is true on every variable but the last |
| Application.PathVariables | libs/pyjava-springboot-backend-codegen/generators/application_generator.py:247-264 | at most one variable; there is one exactly for the three known ids, as a `String`, with `hasMore` false |
| Application.PathVariablesOnlyKnown | libs/pyjava-springboot-backend-codegen/generators/application_generator.py:251-256 | any other id has no path variables |
| Application.UseCaseInfo | libs/pyjava-springboot-backend-codegen/generators/application_generator.py:163-171 | the use-case entry carries the operation id, its lowered method name and its path variables; its response type is `{op}ResponseContent`; it has path variables iff the list is non-empty; it has no repository method |
| Application.ServiceInfo | libs/pyjava-springboot-backend-codegen/generators/application_generator.py:207-217 | the service entry is the use-case entry plus the operation's repository method |
| Application.ServiceOf | libs/pyjava-springboot-backend-codegen/generators/application_generator.py:149 | the service of the first operation, or the lower-cased entity when there is none |
| Application.WithResponse | libs/pyjava-springboot-backend-codegen/generators/application_generator.py:161-162 | a complex operation is kept iff its `{op}ResponseContent` DTO exists; the result is `Filter` of the operations, so their order is kept |
| Application.DtoFlags | libs/pyjava-springboot-backend-codegen/generators/application_generator.py:153-157 | create and update need both their request and response DTOs; get, delete and list need their response DTO |
| Application.UseCaseComplex | libs/pyjava-springboot-backend-codegen/generators/application_generator.py:159-171 | the use case lists one entry per complex operation with a response DTO, in order, each the use-case entry of that operation; the flag is set iff the list is non-empty |
| Application.UseCases | libs/pyjava-springboot-backend-codegen/generators/application_generator.py:147-187 | the service, the lower-cased entity, the file-based flags under the service's DTO folder, and the filtered complex operations |
| Application.OpFlags | libs/pyjava-springboot-backend-codegen/generators/application_generator.py:198-202 | create, get, update and delete are set iff some id has that prefix and contains the entity; list is set iff some id is exactly `List{entity}s` |
| Application.ServiceComplex | libs/pyjava-springboot-backend-codegen/generators/application_generator.py:204-217 | the service lists every complex operation, in order, each with its repository method; the flag is set iff there are any |
| Application.Service | libs/pyjava-springboot-backend-codegen/generators/application_generator.py:193-234 | the service, the lower-cased entity, the id-based flags, and every complex operation |
| Application.ServiceCreateIsLoose | libs/pyjava-springboot-backend-codegen/generators/application_generator.py:198 | another entity's `Create…` id whose name extends the entity's sets the create flag |
| Application.ServiceListIsExact | libs/pyjava-springboot-backend-codegen/generators/application_generator.py:202 | a `List{entity}sResponse` id does not set the list flag |
| Application.FirstSchema | libs/pyjava-springboot-backend-codegen/generators/application_generator.py:36-42 | the schema of the first name that contains both the entity and the marker, every earlier name failing that test; none iff no schema name contains both |
| Application.PerDocument | libs/pyjava-springboot-backend-codegen/generators/application_generator.py:36-42 | one property table per document: that of its first matching schema |
| Application.AllKeys | libs/pyjava-springboot-backend-codegen/generators/application_generator.py:41 | a field is a domain field iff some document's table binds it |
| Application.RelationsOf | libs/pyjava-springboot-backend-codegen/generators/application_generator.py:50-58 | a mapping exists iff the request property ends in `Id`, is not the entity's own id, and names a domain field; its target drops the `Id` |
| Application.RelationMappings | libs/pyjava-springboot-backend-codegen/generators/application_generator.py:45-59 | every mapping qualifies and comes from some document's first request schema |
| Application.RelationMappingsComplete | libs/pyjava-springboot-backend-codegen/generators/application_generator.py:45-59 | every qualifying property of every document's first request schema yields its mapping |
| Application.LastHolding | libs/pyjava-springboot-backend-codegen/generators/application_generator.py:76-96 | the last folder holding one of the six DTOs, and no later folder holds one |
| Application.ScanService | libs/pyjava-springboot-backend-codegen/generators/application_generator.py:76-96 | the service becomes the name of the last folder holding one of the DTOs, and is unchanged when there is none |
| Application.FirstHolding | libs/pyjava-springboot-backend-codegen/generators/application_generator.py:114-118 | the delete import's folder is the first folder holding the delete DTO; none iff no folder holds it |
| Application.MapperDefaultService | libs/pyjava-springboot-backend-codegen/generators/application_generator.py:21-29 | a given service is kept; otherwise the service of the first document mentioning the entity when that name is non-empty, else the lowered entity |
| Application.FindNaming | libs/pyjava-springboot-backend-codegen/generators/application_generator.py:23-26 | none iff no document has a schema name containing the entity; otherwise the service name of the first document that has one |
| Application.Scan | libs/pyjava-springboot-backend-codegen/generators/application_generator.py:68-96 | each flag is set iff some folder holds that DTO; the delete folder is the first one holding the delete DTO; the service is the last folder's name |
| Application.FlagImports | libs/pyjava-springboot-backend-codegen/generators/application_generator.py:99-111 | two imports each for create and update, one each for response, list and get, in that order, all under the scanned service: each flagged import comes after exactly the imports flagged before it |
| Application.MapperImports | libs/pyjava-springboot-backend-codegen/generators/application_generator.py:113-118 | the flagged imports, then the delete import under the first folder holding the delete DTO |
| Application.Mapper | libs/pyjava-springboot-backend-codegen/generators/application_generator.py:17-141 | the context's service is the scanned one; the imports and the relation mappings are as above |
| Application.MapperImportsCanDisagree | libs/pyjava-springboot-backend-codegen/generators/application_generator.py:76-118 | with the delete DTO in one folder and the get DTO in a later one, the service is the later folder while the delete import names the earlier one |
| OpenApi.Stem | libs/pyjava-backend-codegen/core/openapi_processor.py:56 | the stem of a path has no `/` in it |
| OpenApi.ServiceName | libs/pyjava-backend-codegen/core/openapi_processor.py:46-62 | the service name has no upper-case letter and is no longer than the file's stem |
| OpenApi.ServiceNameOfFile | libs/pyjava-backend-codegen/core/openapi_processor.py:56-62 | for `<dir>/<name>.openapi.json`, the service name is `name` without one trailing `Service`, lower-cased |
| OpenApi.StemOfOpenApiFile | libs/pyjava-backend-codegen/core/openapi_processor.py:56 | the stem of `<dir>/<name>.openapi.json` is `<name>.openapi` |
| OpenApi.ServiceNameUserService | libs/pyjava-backend-codegen/core/openapi_processor.py:56-62 | `UserService.openapi.json` belongs to service `user` |
| OpenApi.MemberObject | libs/pyjava-backend-codegen/core/openapi_processor.py:83-84 | `get(k, {})` fails exactly when the container is not an object or the bound value is not one; otherwise it yields the bound fields, or none when the key is absent |
| OpenApi.SchemaBindings | libs/pyjava-backend-codegen/core/openapi_processor.py:86-91 | one entry per schema, keyed `{service}_{name}` and holding the data, the service and the original name |
| OpenApi.OperationId | libs/pyjava-backend-codegen/core/openapi_processor.py:96-98 | on an object, the test reads the `operationId` binding; a match on a list or string makes the subscript fail |
| OpenApi.MethodOperations | libs/pyjava-backend-codegen/core/openapi_processor.py:95-100 | one operation per method entry that has an `operationId`, carrying that id and the document's service, and no other operation |
| OpenApi.PathOperations | libs/pyjava-backend-codegen/core/openapi_processor.py:94-100 | every path item is an object, and every method entry with an id yields its operation under the document's service |
| OpenApi.PathOperationsCount | libs/pyjava-backend-codegen/core/openapi_processor.py:94-100 | a document yields exactly one operation per method entry that carries an `operationId` |
| OpenApi.PathOperationsSound | libs/pyjava-backend-codegen/core/openapi_processor.py:94-100 | every operation read comes from some method entry of some path item, carrying that entry's id and the document's service |
| OpenApi.EntityOf | libs/pyjava-backend-codegen/core/openapi_processor.py:103-110 | an entity is named only by a `Response` or `ResponseContent` name; it is non-empty and no longer than the name |
| OpenApi.EntityOfResponseContent | libs/pyjava-backend-codegen/core/openapi_processor.py:104-107 | `Get<N>ResponseContent` names the entity `<N>Content`, because `Response` is removed first |
| OpenApi.EntityOfResponse | libs/pyjava-backend-codegen/core/openapi_processor.py:103-110 | a `<g>Response` name, `g` without `R`, names `g` less one leading `Get`, and nothing when that is empty |
| OpenApi.EntityOfGetResponse | libs/pyjava-backend-codegen/core/openapi_processor.py:103-110 | `Get<N>Response` names `N` for any non-empty `N` without `R` |
| OpenApi.EntityOfPlainResponse | libs/pyjava-backend-codegen/core/openapi_processor.py:103-110 | `<N>Response` names `N` for any non-empty `N` without `R` that does not start with `Get` |
| OpenApi.EntityOfGetUserResponseContent | libs/pyjava-backend-codegen/core/openapi_processor.py:104-107 | `GetUserResponseContent` names `UserContent` |
| OpenApi.EntitiesOf | libs/pyjava-backend-codegen/core/openapi_processor.py:103-110 | an entity belongs to a document iff one of its schema names names it |
| OpenApi.SpecOperations | libs/pyjava-backend-codegen/core/openapi_processor.py:84-100 | every operation of a document carries its service |
| OpenApi.SpecOperationsOfPaths | libs/pyjava-backend-codegen/core/openapi_processor.py:84-100 | a document's operations are those of its `paths` object; without `paths` there are none; a document that is not an object, or whose `paths` is not, fails |
| OpenApi.ReadDocument | libs/pyjava-backend-codegen/core/openapi_processor.py:78-110 | reading a document succeeds iff its schemas and its operations can be read; it yields them and the entities its schemas name |
| OpenApi.ReadAll | libs/pyjava-backend-codegen/core/openapi_processor.py:78-110 | every document is read, in order, or the call fails as soon as one cannot be |
| OpenApi.AllSchemas | libs/pyjava-backend-codegen/core/openapi_processor.py:74-91 | every stored entry is keyed by its service and name; a key is stored iff some document writes it |
| OpenApi.AllSchemasLastWins | libs/pyjava-backend-codegen/core/openapi_processor.py:86-91 | a key the last document writes holds that document's entry |
| OpenApi.AllSchemasComplete | libs/pyjava-backend-codegen/core/openapi_processor.py:86-91 | every schema of every document is stored under `{service}_{name}` |
| OpenApi.AllOperations | libs/pyjava-backend-codegen/core/openapi_processor.py:75-100 | the operations are exactly those of the documents |
| OpenApi.AllOperationsAppend | libs/pyjava-backend-codegen/core/openapi_processor.py:75-100 | the operations of two batches of documents are those of the first batch followed by those of the second, so document order and repeats are kept |
| OpenApi.AllEntities | libs/pyjava-backend-codegen/core/openapi_processor.py:76-110 | the entities are exactly those of the documents |
| OpenApi.Extract | libs/pyjava-backend-codegen/core/openapi_processor.py:64-112 | fails iff some document cannot be read; otherwise the schemas are keyed by service and name, every operation carries the service of some document, and the result is the schema table, the operations and the entities of the documents read |
| OpenApi.CrudIdUnique | libs/pyjava-backend-codegen/core/openapi_processor.py:131-136 | an id is a CRUD id of at most one entity |
| OpenApi.EntityFor | libs/pyjava-backend-codegen/core/openapi_processor.py:131-136 | the entity found lists the id among its CRUD ids; none is found iff no entity does |
| OpenApi.Matching | libs/pyjava-backend-codegen/core/openapi_processor.py:127-141 | an operation is kept iff its id is one of the entity's CRUD ids |
| OpenApi.MatchingInOrder | libs/pyjava-backend-codegen/core/openapi_processor.py:127-141 | an entity's operations are `Filter` of the operation list, so they keep its order |
| OpenApi.Group | libs/pyjava-backend-codegen/core/openapi_processor.py:114-143 | the groups are keyed by exactly the non-empty entities that have a matching operation, each holding its matching operations in order |
| OpenApi.GroupUnchangedBy | libs/pyjava-backend-codegen/core/openapi_processor.py:138-141 | an operation of no entity leaves every group as it was |
| OpenApi.GroupOrderIndependent | libs/pyjava-backend-codegen/core/openapi_processor.py:131-136 | the grouping depends only on the set of entities, not on the order the set is iterated in |
| OpenApi.ComplexFor | libs/pyjava-backend-codegen/core/openapi_processor.py:159-166 | fails iff a non-string id outside the group reaches `startswith`; otherwise the ids that pass the complex-operation test, one per operation, in operation order |
| OpenApi.FindComplex | libs/pyjava-backend-codegen/core/openapi_processor.py:145-170 | every grouped entity gets a list, and nothing else does; an id is in an entity's list iff it passes that entity's test; the call fails iff some entity's scan does |
| OpenApi.ComplexIsNotCrud | libs/pyjava-backend-codegen/core/openapi_processor.py:158-166 | a complex operation is not one of the entity's CRUD ids; it starts with `Get` and contains `By`; it names the entity case-insensitively, unless the entity is `Location` and the id names one of its parts |
| Infrastructure.SelectedIff | libs/pyjava-backend-codegen/generators/infrastructure_generator.py:31-35 | a property becomes a variable iff it is neither the entity's own key nor one of `createdAt`, `updatedAt`, `status` |
| Infrastructure.SelectedProps | libs/pyjava-backend-codegen/generators/infrastructure_generator.py:29-35 | a property is kept iff it is selected; the result is `Filter` of the properties, so schema order is kept |
| Infrastructure.EntityVars | libs/pyjava-backend-codegen/generators/infrastructure_generator.py:29-41 | one converted variable per selected property, in schema order, with the four flags the loop sets |
| Infrastructure.EntityVarFlags | libs/pyjava-backend-codegen/generators/infrastructure_generator.py:37-40 | no emitted variable is flagged as key, timestamp or status; the relation flag is set iff the name ends in `Id` |
| Infrastructure.Entity | libs/pyjava-backend-codegen/generators/infrastructure_generator.py:18-62 | `vars` and `imports` are set iff the schema is truthy; `vars` are the entity variables of the schema's properties; the imports are strictly sorted and exactly the variables'; the table name is the lower-cased entity pluralised, lower case and ending in `s` |
| Infrastructure.SearchFields | libs/pyjava-backend-codegen/generators/infrastructure_generator.py:71-79 | a property is a search field iff it is a string whose lower-cased name mentions name, title, description or status, or is `username` or `email`; schema order |
| Infrastructure.SearchFieldsInOrder | libs/pyjava-backend-codegen/generators/infrastructure_generator.py:71-79 | the search fields are the names of `Filter` of the properties, so schema order is kept |
| Infrastructure.SearchQuery | libs/pyjava-backend-codegen/generators/infrastructure_generator.py:81-88 | the id clause when there are no fields; one field gives its clause; with more, the first field's clause, then ` OR `, then the query of the remaining fields, so every field's clause appears once, in field order |
| Infrastructure.JoinContains | libs/pyjava-backend-codegen/generators/infrastructure_generator.py:88 | every part of a join occurs in the joined text |
| Infrastructure.Repository | libs/pyjava-backend-codegen/generators/infrastructure_generator.py:68-100 | without a schema there are no fields and the id clause is used; the flag is set iff there are fields; the query is the ` OR `-joined query of the search fields |
| Infrastructure.CrudOps | libs/pyjava-backend-codegen/generators/infrastructure_generator.py:128 | an operation is CRUD iff it starts with a CRUD prefix followed by the entity, or is exactly `List{entity}s`; the result is `Filter` of the operations, in order |
| Infrastructure.CrudOp | libs/pyjava-backend-codegen/generators/infrastructure_generator.py:128 | an operation is CRUD for the entity iff it starts with `Create`, `Get`, `Update` or `Delete` followed by the entity, or is exactly `List{entity}s` |
| Infrastructure.ComplexOps | libs/pyjava-backend-codegen/generators/infrastructure_generator.py:129 | the complex operations are exactly the given ones that are not CRUD, as `Filter` of the operations, in order |
| Infrastructure.CrudComplexPartition | libs/pyjava-backend-codegen/generators/infrastructure_generator.py:128-129 | together, the CRUD and complex lists are a permutation of the operations |
| Infrastructure.PrefixedIsCrud | libs/pyjava-backend-codegen/generators/infrastructure_generator.py:128 | `Get{entity}…`, such as `GetUserByEmail`, counts as CRUD and is never a complex operation |
| Infrastructure.PathSegment | libs/pyjava-backend-codegen/generators/infrastructure_generator.py:157 | the path segment has no capital; a non-`Get` operation is just lower-cased |
| Infrastructure.ReplaceNoUpper | libs/pyjava-backend-codegen/generators/infrastructure_generator.py:157 | replacing with lower-case text keeps a lower-case text lower case |
| Infrastructure.PathSegmentGet | libs/pyjava-backend-codegen/generators/infrastructure_generator.py:157 | for `Get<w>` the segment removes every `get` from lower-cased `w` and widens each `by` to `-by-` |
| Infrastructure.ControllerInfo | libs/pyjava-backend-codegen/generators/infrastructure_generator.py:155-163 | an entry keeps the id, has the lowered method name, the `{op}ResponseContent` type and the operation's path segment, which has no capitals |
| Infrastructure.ControllerFlags | libs/pyjava-backend-codegen/generators/infrastructure_generator.py:173-177 | each flag is set iff its exact id is among the operations |
| Infrastructure.CrudImports | libs/pyjava-backend-codegen/generators/infrastructure_generator.py:131-147 | create request and response, get, update request and response, delete, list, each present iff flagged: each flagged import comes after exactly the imports flagged before it |
| Infrastructure.ControllerImports | libs/pyjava-backend-codegen/generators/infrastructure_generator.py:131-150 | the CRUD imports, then one response import per complex operation, in order |
| Infrastructure.Controller | libs/pyjava-backend-codegen/generators/infrastructure_generator.py:126-185 | the flags, one entry per complex operation, the complex flag iff there are any, the imports, and the paths `{entity}s` and `{{entity}Id}` |
| Infrastructure.AdapterPlural | libs/pyjava-backend-codegen/generators/infrastructure_generator.py:114 | the plural is longer than the name; for a capitalised name it is, lower-cased, the lower-case plural of the lowered name |
| Naming.PluralLower | libs/pyjava-backend-codegen/generators/infrastructure_generator.py:228-234 | the lower-case plural is longer, ends in `s`, keeps all but the last character, and stays lower case |
| Naming.Pluralize | libs/pyjava-backend-codegen/generators/infrastructure_generator.py:215-234 | the plural is longer than the name; a capitalised name gives one capital followed by lower case; any other name gives a plural ending in `s` |
| Naming.PluralizeCapitalised | libs/pyjava-backend-codegen/generators/infrastructure_generator.py:217-226 | a capitalised plural ends in `s` and differs from the lower-case plural of the lowered name only in letter case |
| Naming.PluralizeCapitalisedForm | libs/pyjava-backend-codegen/generators/infrastructure_generator.py:218-226 | a capitalised name is lowered, pluralised, then capitalised |
| Naming.CapitalizeNoUpper | libs/pyjava-backend-codegen/generators/infrastructure_generator.py:226 | `capitalize()` of a lower-case text changes only the first letter's case |
| Naming.PluralizeCity | libs/pyjava-backend-codegen/generators/infrastructure_generator.py:217-226 | `City` becomes `Cities` |
| Naming.PluralLowerPlain | libs/pyjava-backend-codegen/generators/infrastructure_generator.py:233-234 | a name not ending in `y`, `s`, `h`, `x` or `z` takes `s` |
| Naming.PluralLowerSibilant | libs/pyjava-backend-codegen/generators/infrastructure_generator.py:231-232 | a name ending in `s`, `sh`, `ch`, `x` or `z` takes `es` |
| Naming.PluralLowerY | libs/pyjava-backend-codegen/generators/infrastructure_generator.py:229-230 | a name ending in `y` trades it for `ies` |
| Naming.PluralLowerOtherH | libs/pyjava-backend-codegen/generators/infrastructure_generator.py:231-234 | a name ending in `h` after anything but `s` or `c` is not sibilant and takes `s` |
| Naming.PluralLowerMoth | libs/pyjava-backend-codegen/generators/infrastructure_generator.py:231-234 | `moth` becomes `moths` |
| Naming.PluralizeLowersInner | libs/pyjava-backend-codegen/generators/infrastructure_generator.py:219-226 | every inner character of a capitalised name comes out lower-cased, so inner capitals are lost |
| Naming.PluralizeCountry | libs/pyjava-backend-codegen/generators/infrastructure_generator.py:229-230 | `country` becomes `countries` |
| Naming.PluralizeLowered | libs/pyjava-backend-codegen/generators/infrastructure_generator.py:51 | the table name of any entity is lower case and ends in `s` |
| Naming.SplitBeforeWords | libs/pygenerate-sql-from-openapi/core/openapi_processor.py:89 | the first substitution only inserts underscores |
| Naming.SplitLowerUpper | libs/pygenerate-sql-from-openapi/core/openapi_processor.py:90 | the second substitution only inserts underscores |
| Naming.SnakeCaseOnlyInserts | libs/pygenerate-sql-from-openapi/core/openapi_processor.py:89-90 | the snake-case name is lower case, no shorter than the name, and equal to the lowered name once underscores are dropped |
| Naming.SnakeCase | libs/pygenerate-sql-from-openapi/core/openapi_processor.py:89-90 | the snake-case name is lower case and equals the lowered name once underscores are dropped |
| Naming.SnakeCaseOneWord | libs/pygenerate-sql-from-openapi/core/openapi_processor.py:89-90 | a single capitalised word is only lower-cased |
| Naming.SplitBeforeWordsCopies | libs/pygenerate-sql-from-openapi/core/openapi_processor.py:89 | a prefix in which no capitalised word starts is copied unchanged |
| Naming.SplitBeforeWordsTwoWords | libs/pygenerate-sql-from-openapi/core/openapi_processor.py:89 | two capitalised words are split by one underscore |
| Naming.SplitLowerUpperTwoWords | libs/pygenerate-sql-from-openapi/core/openapi_processor.py:90 | two capitalised words already split are left unchanged |
| Naming.SnakeCaseTwoWords | libs/pygenerate-sql-from-openapi/core/openapi_processor.py:89-90 | two capitalised words, such as `OrderItem`, become `order_item` |
| SqlTables.CleanTextAsWritten | libs/pygenerate-sql-from-openapi/core/openapi_processor.py:127-142 | the cleaning as written keeps empty text, and a cleaned text never ends in `.`, `,` or `;` |
| SqlTables.DecodeAsWrittenTwice | libs/pygenerate-sql-from-openapi/core/openapi_processor.py:133-137 | the written decoding turns `&amp;lt;` followed by plain text into `<`, where one decoding gives `&lt;`; an escaped `&amp;quot;` becomes `&quot;`, since `&quot;` is replaced before `&amp;` |
| SqlTables.EscapedQuotDecodedOnce | libs/pygenerate-sql-from-openapi/core/openapi_processor.py:133-137 | an escaped `&amp;quot;` followed by plain text decodes to `&quot;` as written |
| SqlTables.DecodeAsWritten | libs/pygenerate-sql-from-openapi/core/openapi_processor.py:133-137 | the written decoding never lengthens the text and leaves a text without `&` alone |
| SqlTables.Decode | libs/pygenerate-sql-from-openapi/core/openapi_processor.py:133-137 | a single-pass decoding never lengthens the text |
| SqlTables.Escape | libs/pygenerate-sql-from-openapi/core/openapi_processor.py:133-137 | escaping the five characters never shortens the text |
| SqlTables.DecodeEscapeChar | libs/pygenerate-sql-from-openapi/core/openapi_processor.py:133-137 | decoding an escaped character in front of any text gives back the character |
| SqlTables.DecodeEscape | libs/pygenerate-sql-from-openapi/core/openapi_processor.py:133-137 | decoding undoes escaping: `Decode(Escape(s)) == s` |
| SqlTables.DecodePlain | libs/pygenerate-sql-from-openapi/core/openapi_processor.py:133-137 | a text without `&` is left alone |
| SqlTables.CleanText | libs/pygenerate-sql-from-openapi/core/openapi_processor.py:127-142 | empty text is kept, and a cleaned text never ends in `.`, `,` or `;` |
| SqlTables.CleanEscaped | libs/pygenerate-sql-from-openapi/core/openapi_processor.py:127-142 | cleaning an escaped text gives it back, except for trailing punctuation |
| SqlTables.CleanPlain | libs/pygenerate-sql-from-openapi/core/openapi_processor.py:127-142 | on a text without `&`, both cleanings only strip trailing punctuation, so they agree |
| SqlTables.CleanDescriptions | libs/pygenerate-sql-from-openapi/core/openapi_processor.py:102-125 | the same schemas under the same names, in order, with only the schema and property descriptions cleaned, by the cleaning as written |
| SqlTables.CleanDescriptionPlain | libs/pygenerate-sql-from-openapi/core/openapi_processor.py:111-119 | a description without `&` only loses its trailing `.`, `,` and `;` |
| SqlTables.CleanDescriptionDecodesTwice | libs/pygenerate-sql-from-openapi/core/openapi_processor.py:111-137 | a description `&amp;lt;<t>` comes out as `<<t>`, where the single decoding gives `&lt;<t>` |
| SqlTables.CleanSchemaCleans | libs/pygenerate-sql-from-openapi/core/openapi_processor.py:106-123 | cleaning a schema changes its description and its properties' descriptions, and nothing else |
| SqlTables.LookupCleaned | libs/pygenerate-sql-from-openapi/core/openapi_processor.py:102-125 | looking a name up after cleaning finds that schema cleaned, and finds nothing where there was nothing |
| SqlTables.TableName | libs/pygenerate-sql-from-openapi/core/openapi_processor.py:78-100 | the table name is lower case and ends in `s`; it is longer than the snake-case name, which is the stripped name lowered with underscores inserted |
| SqlTables.StrippedResponseName | libs/pygenerate-sql-from-openapi/core/openapi_processor.py:81-98 | a `<stem>Response`, `<stem>Status` or `<stem>ResponseContent` name, with none of those three words in the stem, gives the stem without a leading `Get`, in snake case and pluralised |
| SqlTables.TableNameCountry | libs/pygenerate-sql-from-openapi/core/openapi_processor.py:81-98 | `CountryResponse` gets the table `countries` |
| SqlTables.EnumKey | libs/pygenerate-sql-from-openapi/core/openapi_processor.py:55 | an enum's table key is lower case and ends in `s` |
| SqlTables.TabledSchemas | libs/pygenerate-sql-from-openapi/core/openapi_processor.py:52-74 | a schema yields a table iff it is a string enum, or a response, status or response-content name outside the CRUD and error families; the result is `Filter` of the schemas, in order |
| SqlTables.TableEntries | libs/pygenerate-sql-from-openapi/core/openapi_processor.py:52-74 | one entry per table-yielding schema, in order: the enum table or the schema under its table name |
| SqlTables.TableKeysShape | libs/pygenerate-sql-from-openapi/core/openapi_processor.py:55-73 | every table key is lower case and ends in `s` |
| SqlTables.ExtractResponseSchemas | libs/pygenerate-sql-from-openapi/core/openapi_processor.py:40-76 | every key holds its last entry among the table entries of the schemas cleaned as written; every key is lower case and ends in `s` |
| SqlTables.EntryFromSchema | libs/pygenerate-sql-from-openapi/core/openapi_processor.py:52-74 | every table entry comes from a schema that yields a table |
| SqlTables.SchemaToEntry | libs/pygenerate-sql-from-openapi/core/openapi_processor.py:52-74 | every schema that yields a table contributes its entry |
| TestGen.StemEntityInverse | libs/pyjava-springboot-backend-codegen/generators/test_generator.py:24-57 | a file stem made of an entity and a suffix gives the entity back when the suffix's first letter does not occur in the entity |
| TestGen.StemEntity | libs/pyjava-springboot-backend-codegen/generators/test_generator.py:24-57 | the entity is no longer than the stem, and a stem without the suffix's first letter is kept whole |
| TestGen.StemEntityDropsInner | libs/pyjava-springboot-backend-codegen/generators/test_generator.py:24-57 | every occurrence of the suffix is removed, inner ones included |
| TestGen.RepositoryEntityInverse | libs/pyjava-springboot-backend-codegen/generators/test_generator.py:41 | `Jpa{E}Repository` gives `E` back for an entity without `J` or `R` |
| TestGen.RepositoryEntity | libs/pyjava-springboot-backend-codegen/generators/test_generator.py:41 | the entity is no longer than the stem, and a stem without `J` or `R` is kept whole |
| TestGen.StripAffixes | libs/pyjava-springboot-backend-codegen/generators/test_generator.py:41 | the three removals strip a prefix and suffix that cannot occur inside the entity |
| TestGen.SpecsOperations | libs/pyjava-springboot-backend-codegen/generators/test_generator.py:331-346 | the walk fails iff some document's operations cannot be read; otherwise it yields exactly the operations of the documents |
| TestGen.SpecsOperationsStep | libs/pyjava-springboot-backend-codegen/generators/test_generator.py:331-346 | one more document appends its operations after those of the earlier ones, and fails the walk iff it cannot be read |
| TestGen.SpecsOperationsAppend | libs/pyjava-springboot-backend-codegen/generators/test_generator.py:331-346 | the operations of two batches of documents are those of the first batch followed by those of the second |
| TestGen.CrudOperations | libs/pyjava-springboot-backend-codegen/generators/test_generator.py:338-346 | an operation is kept iff its id starts with a CRUD prefix followed by the entity, or is exactly `List{E}s` |
| TestGen.FindOperations | libs/pyjava-springboot-backend-codegen/generators/test_generator.py:329-347 | fails iff the walk fails or some id is not a string; otherwise exactly the entity's CRUD operations |
| TestGen.ComplexOperations | libs/pyjava-springboot-backend-codegen/generators/test_generator.py:356-374 | an id is listed iff it is not CRUD and contains the entity ignoring case; each entry has the lowered method name and the `{id}ResponseContent` type |
| TestGen.ComplexOperationsInOrder | libs/pyjava-springboot-backend-codegen/generators/test_generator.py:356-374 | one entry per complex operation, in operation order: the entries are a map over `Filter` of the operations |
| TestGen.FindComplex | libs/pyjava-springboot-backend-codegen/generators/test_generator.py:349-375 | finding the complex operations fails exactly when finding the CRUD ones does; on success it lists the complex operations of all documents' operations |
| TestGen.FindDisjoint | libs/pyjava-springboot-backend-codegen/generators/test_generator.py:359-366 | no complex operation is one of the entity's CRUD operations |
| TestGen.ServiceFor | libs/pyjava-springboot-backend-codegen/generators/test_generator.py:320-327 | the service of the first document with a schema name containing the entity, or the lowered entity when there is none |
| TestGen.ServiceTestContext | libs/pyjava-springboot-backend-codegen/generators/test_generator.py:67-104 | the id-based flags; the delete DTO is reported iff there is a delete and its file exists; the CRUD imports |
| TestGen.MapperTestContext | libs/pyjava-springboot-backend-codegen/generators/test_generator.py:180-200 | each flag is set iff its DTO file exists; the imports are the two create DTOs, then the two update DTOs, then the get DTO, each pair only when flagged, and the `{E}Response` import is always last |
| TestGen.ControllerTestImports | libs/pyjava-springboot-backend-codegen/generators/test_generator.py:227-256 | the CRUD imports, then one import per complex operation's response type |
| TestGen.JavaType | libs/pyjava-springboot-backend-codegen/generators/test_generator.py:139-148 | `Double` iff a number with format `double`; `BigDecimal` iff any other number; `Integer`, `Boolean` by type; `String` otherwise |
| TestGen.MakeRepoProp | libs/pyjava-springboot-backend-codegen/generators/test_generator.py:150-160 | a property is never both string and e-mail nor both double and decimal; long implies integer; e-mail iff the name mentions it; required iff listed |
| TestGen.KeptProps | libs/pyjava-springboot-backend-codegen/generators/test_generator.py:133-134 | a property is kept iff it is not the key, a timestamp or the status; the result is `Filter` of the properties, so schema order is kept |
| TestGen.RepoProps | libs/pyjava-springboot-backend-codegen/generators/test_generator.py:128-161 | one entry per kept property, in schema order |
| TestGen.FirstEntitySchema | libs/pyjava-springboot-backend-codegen/generators/test_generator.py:120-123 | the first schema named `{E}Response` or `Get{E}ResponseContent`; none iff no such name |
| TestGen.EntitySchema | libs/pyjava-springboot-backend-codegen/generators/test_generator.py:117-125 | the schema found is truthy: the first match of the first document whose first match is truthy, and none iff no document has one |
| TestGen.RepositoryTestProps | libs/pyjava-springboot-backend-codegen/generators/test_generator.py:128-161 | no properties without a truthy entity schema; otherwise one entry per kept property of that schema, in schema order, never the key, timestamps or status |
| TestGen.MakeDtoProp | libs/pyjava-springboot-backend-codegen/generators/test_generator.py:391-398 | never both string and e-mail; required iff listed |
| TestGen.DtoProps | libs/pyjava-springboot-backend-codegen/generators/test_generator.py:387-399 | one entry per property, in schema order |
| TestGen.DtoProperties | libs/pyjava-springboot-backend-codegen/generators/test_generator.py:377-401 | the properties of the DTO in the first document that has it; none when no document has it |
| TestGen.TestPackageMismatch | libs/pyjava-springboot-backend-codegen/generators/test_generator.py:94 | as written, every package containing `main` is declared under a different name |
| TestGen.TestPackageAsWritten | libs/pyjava-springboot-backend-codegen/generators/test_generator.py:94 | as written, the declared package is no longer than the package, and equals it when `main` does not occur |
| TestGen.DomainPackageMismatch | libs/pyjava-springboot-backend-codegen/generators/test_generator.py:94 | as written, `com.acme.domain` is declared as another package |
| TestGen.TestPackageMatchesDirectory | libs/pyjava-springboot-backend-codegen/generators/test_generator.py:108-109 | the corrected package names the directory the test is written to |
| TestGen.TestPackage | libs/pyjava-springboot-backend-codegen/generators/test_generator.py:94 | the corrected package agrees with the written one exactly when the package does not contain `main` |
| Layout.Split | libs/pyjava-springboot-backend-codegen/utils/file_manager.py:24 | `split` gives at least one piece, no piece holds the separator, and joining the pieces gives the text back |
| Layout.JoinPath | libs/pyjava-springboot-backend-codegen/utils/file_manager.py:24 | joining a rooted path gives that path; otherwise the components are appended |
| Layout.PackageText | libs/pyjava-springboot-backend-codegen/utils/file_manager.py:24 | every `.` of the package becomes `/`, and no `.` is left |
| Layout.PackagePath | libs/pyjava-springboot-backend-codegen/utils/file_manager.py:14-24 | the package directory is `src/main/java` followed by the package's names, unless the package text is rooted |
| Layout.TestPackagePath | libs/pyjava-springboot-backend-codegen/utils/file_manager.py:26-36 | the same directory under `src/test/java` |
| Layout.MainTestDiffer | libs/pyjava-springboot-backend-codegen/utils/file_manager.py:14-36 | the main and test directories differ only in `main`/`test`, unless the package is rooted |
| Layout.PackagePartsNames | libs/pyjava-springboot-backend-codegen/utils/file_manager.py:24 | the directory of a well-formed package is its dot-separated names |
| Layout.PackagePathText | libs/pyjava-springboot-backend-codegen/utils/file_manager.py:24-36 | a well-formed package's directory prints as `src/{kind}/java/` followed by the package with dots as slashes |
| Layout.TestPathText | libs/pyjava-springboot-backend-codegen/utils/file_manager.py:36 | the test directory prints as `src/test/java/` followed by the package with dots as slashes |
| Layout.NotRooted | libs/pyjava-springboot-backend-codegen/utils/file_manager.py:24 | a well-formed package is never read as a rooted path |
| Layout.DtoExistsDirectly | libs/pyjava-springboot-backend-codegen/utils/file_manager.py:73-85 | a DTO exists iff `{name}.java` directly under the base directory exists |
| SchemaConverter.WithTitle | libs/pygenerate-schemasgen/schema_converter.py:41-42 | a truthy title is written under `title`; a falsy one leaves the old title; every other key keeps its value |
| SchemaConverter.DropOpenApiOnly | libs/pygenerate-schemasgen/schema_converter.py:44-46 | `discriminator`, `xml`, `externalDocs` and `example` are absent afterwards and every other key keeps its value |
| SchemaConverter.NullableType | libs/pygenerate-schemasgen/schema_converter.py:52-56 | a list type gains `"null"` only when it lacks it; any other type becomes `[type, "null"]`; the result always admits `"null"` |
| SchemaConverter.DropNullable | libs/pygenerate-schemasgen/schema_converter.py:48-57 | `nullable` is gone; `type` is widened exactly when `nullable` and `type` are both truthy; no other key changes |
| SchemaConverter.PutIf | libs/pygenerate-schemasgen/schema_converter.py:59-75 | writing a converted member replaces that key only |
| SchemaConverter.Convert | libs/pygenerate-schemasgen/schema_converter.py:35-77 | an object converts to an object and any other value is returned unchanged |
| SchemaConverter.ConvertMembers | libs/pygenerate-schemasgen/schema_converter.py:59-65 | every property is converted under its own title and the property names stay in place |
| SchemaConverter.ConvertLookup | libs/pygenerate-schemasgen/schema_converter.py:35-77 | each key of a converted object holds what the header step and the three recursive steps put there |
| SchemaConverter.ConvertProperties | libs/pygenerate-schemasgen/schema_converter.py:59-65 | an object-valued `properties` has each member converted, titled `id` for names ending in `Id` and by the name otherwise |
| SchemaConverter.ConvertItems | libs/pygenerate-schemasgen/schema_converter.py:67-70 | `items` is converted under the title `item` |
| SchemaConverter.ConvertAdditional | libs/pygenerate-schemasgen/schema_converter.py:72-75 | an object-valued `additionalProperties` is converted under the title `additional` |
| SchemaConverter.ConvertKeepsHeader | libs/pygenerate-schemasgen/schema_converter.py:35-77 | away from the three recursive keys a converted object holds exactly what the header step made |
| SchemaConverter.ConvertNamesDraft | libs/pygenerate-schemasgen/schema_converter.py:39 | every converted object names the 2020-12 draft under `$schema` |
| SchemaConverter.ConvertKeeps | libs/pygenerate-schemasgen/schema_converter.py:35-77 | a key the conversion does not touch keeps its value |
| SchemaConverter.ConvertDrops | libs/pygenerate-schemasgen/schema_converter.py:44-57 | a converted object holds no OpenAPI-only keyword and no `nullable` |
| SchemaConverter.ConvertEveryLevel | libs/pygenerate-schemasgen/schema_converter.py:35-77 | conversion reaches every nested property, item and object-valued additional schema: each names the draft and drops the OpenAPI-only keys |
| SchemaConverter.ConvertedProperties | libs/pygenerate-schemasgen/schema_converter.py:59-65 | every member of a converted object-valued `properties` is converted at every level |
| SchemaConverter.ConvertedItems | libs/pygenerate-schemasgen/schema_converter.py:67-70 | the `items` of a converted object is converted at every level |
| SchemaConverter.ConvertedAdditional | libs/pygenerate-schemasgen/schema_converter.py:72-75 | an `additionalProperties` is converted at every level or is not an object at all |
| SchemaConverter.PropertiesKept | libs/pygenerate-schemasgen/schema_converter.py:59-65 | a `properties` that is not an object is left as it was |
| SchemaConverter.ItemsAbsent | libs/pygenerate-schemasgen/schema_converter.py:67 | conversion invents no `items` |
| SchemaConverter.AdditionalKept | libs/pygenerate-schemasgen/schema_converter.py:72 | an `additionalProperties` that is not an object, such as `true`, is left as it was |
| SchemaConverter.ParamNames | libs/pygenerate-schemasgen/schema_converter.py:111-113 | the names succeed exactly when every path parameter has a string `name`, and are those names in order |
| SchemaConverter.RefSchema | libs/pygenerate-schemasgen/schema_converter.py:138-141 | a body-only composite holds exactly `$ref` and `title` |
| SchemaConverter.ObjectSchema | libs/pygenerate-schemasgen/schema_converter.py:146-152 | the object composite has `type` object, the given properties and required list, the draft and the title |
| SchemaConverter.CompositePairs | libs/pygenerate-schemasgen/schema_converter.py:110-135 | the properties are assigned path parameter by path parameter, then `body` when there is a body reference |
| SchemaConverter.RequiredNames | libs/pygenerate-schemasgen/schema_converter.py:116-135 | `required` gets one name per assignment, in order, repeats included |
| SchemaConverter.RequiredNamesAreProperties | libs/pygenerate-schemasgen/schema_converter.py:105-135 | every required name is a property, every property is required, and some property exists when anything was assigned |
| SchemaConverter.ParamList | libs/pygenerate-schemasgen/schema_converter.py:110-112 | the parameters iterated: the items of a list of objects, or nothing for an absent, empty-object or empty-text value; `Err` for any other value, since iterating it or calling `param.get` on its elements raises |
| SchemaConverter.BodyReference | libs/pygenerate-schemasgen/schema_converter.py:120-127 | the body reference, which equals the composite DTO's reading when it succeeds; `Err` exactly when a truthy body, its `content`, its media entry or its `schema` is not an object, or a truthy `$ref` is not text |
| SchemaConverter.BuildComposite | libs/pygenerate-schemasgen/schema_converter.py:103-152 | building succeeds exactly when the operation is an object, its parameters can be iterated, every path parameter has a text name and the body reference can be read; on success it yields nothing exactly when there is neither a path parameter nor a body reference |
| SchemaConverter.BuildCompositeRaises | libs/pygenerate-schemasgen/schema_converter.py:110-112 | an operation that is not an object, parameters that are null or a boolean, and a parameter list holding a non-object each make building fail |
| SchemaConverter.BodyReferenceRaises | libs/pygenerate-schemasgen/schema_converter.py:120-127 | a truthy body whose `content` or media entry is not an object, or a truthy `$ref` that is not text, makes building fail |
| SchemaConverter.NumericRefRaises | libs/pygenerate-schemasgen/schema_converter.py:124-127 | `"$ref": 5` under a request body fails at `.split` |
| SchemaConverter.TextParamRaises | libs/pygenerate-schemasgen/schema_converter.py:110-112 | `"parameters": ["id"]` fails at `param.get` |
| SchemaConverter.BodyOnlyComposite | libs/pygenerate-schemasgen/schema_converter.py:136-141 | when building does not raise and there are no path parameters, a body reference alone becomes `{"$ref", "title": "<id>Request"}` |
| SchemaConverter.ObjectComposite | libs/pygenerate-schemasgen/schema_converter.py:143-152 | with path parameters the composite is an object schema titled `<id>Request` naming the draft |
| SchemaConverter.ObjectCompositeIs | libs/pygenerate-schemasgen/schema_converter.py:110-152 | with path parameters the composite's properties and required list are those of the parameters followed by `body` |
| SchemaConverter.CompositeMatchesDto | libs/pygenerate-schemasgen/schema_converter.py:103-152 | a composite schema exists exactly when the composite request DTO of the same operation does |
| SchemaConverter.CompositeRequiresDtoVars | libs/pygenerate-schemasgen/schema_converter.py:110-135 | the composite schema requires the composite DTO's variable names in the DTO's order |
| SchemaConverter.CompositeMetadata | libs/pygenerate-schemasgen/schema_converter.py:95-97 | a composite's metadata is the run's metadata with its schema name and `composite: true` |
| SchemaConverter.WithMetadata | libs/pygenerate-schemasgen/schema_converter.py:95 | tagging sets `x-metadata` and changes no other key |
| SchemaConverter.CompositeOf | libs/pygenerate-schemasgen/schema_converter.py:91-97 | tagging fails or yields nothing exactly when building does, and the result carries the composite metadata |
| SchemaConverter.Collect | libs/pygenerate-schemasgen/schema_converter.py:99 | collecting succeeds exactly when every build succeeded |
| SchemaConverter.CollectNames | libs/pygenerate-schemasgen/schema_converter.py:99 | a name is stored exactly when some build under that name yielded a schema |
| SchemaConverter.CollectFrom | libs/pygenerate-schemasgen/schema_converter.py:99 | what is stored under a name is a schema some build under that name yielded |
| SchemaConverter.NamedComposites | libs/pygenerate-schemasgen/schema_converter.py:91-93 | each chosen operation is stored under `<operationId>Request` |
| SchemaConverter.CompositeSchemasFail | libs/pygenerate-schemasgen/schema_converter.py:91-99 | the composites of the chosen operations fail exactly when building one of them fails, with every raising case of `_build_composite_schema` |
| SchemaConverter.InTest | libs/pygenerate-schemasgen/schema_converter.py:86 | `'requestBody' in operation`: a key test on an object, an item test on a list, a substring test on text; `Err` on any other value |
| SchemaConverter.MethodChoice | libs/pygenerate-schemasgen/schema_converter.py:85-90 | an entry is chosen exactly when the composite DTO generator chooses it, under the same id; it fails exactly for a PUT or POST entry that cannot be tested with `in`, that passes the test without being an object, or whose `operationId` is not text |
| SchemaConverter.MethodChoices | libs/pygenerate-schemasgen/schema_converter.py:85-90 | a path item's walk fails exactly when one entry fails, and otherwise chooses the composite DTO generator's operations in the same order |
| SchemaConverter.PathChoices | libs/pygenerate-schemasgen/schema_converter.py:84-90 | the walk over the paths fails exactly when a path item is not an object or one of its entries fails, and otherwise equals the composite DTO generator's choice, in order |
| SchemaConverter.CompositeChoices | libs/pygenerate-schemasgen/schema_converter.py:82-90 | the walk fails on a document or `paths` that is not an object, and otherwise as the path items do; on success it equals the composite DTO generator's choice |
| SchemaConverter.CompositeChoicesRaise | libs/pygenerate-schemasgen/schema_converter.py:82-90 | a non-object `paths` or path item, a PUT or POST entry that is neither an object, a list nor text, and a chosen-looking entry with a non-text `operationId` each make the walk fail |
| SchemaConverter.GenerateCompositeRequestSchemas | libs/pygenerate-schemasgen/schema_converter.py:79-101 | the composite schemas of a document fail exactly when choosing fails or building one chosen operation fails; otherwise they are the collected composites of the operations the composite DTO generator chooses |
| SchemaConverter.CompositeSchemasNames | libs/pygenerate-schemasgen/schema_converter.py:84-99 | the stored names are exactly `<id>Request` for the chosen operations that yield a composite |
| SchemaConverter.CompositeSchemasTagged | libs/pygenerate-schemasgen/schema_converter.py:95-99 | every stored composite carries the composite metadata under its own stored name |
| SchemaConverter.RefTarget | libs/pygenerate-schemasgen/schema_converter.py:167-171 | a node points at a known schema exactly when its `$ref` is a string starting `#/components/schemas/` whose last segment names a schema of the document |
| SchemaConverter.ExpandRefs | libs/pygenerate-schemasgen/schema_converter.py:164-191 | values other than objects and lists come back unchanged |
| SchemaConverter.ExpandRefsMembers | libs/pygenerate-schemasgen/schema_converter.py:164-187 | an object without `$ref` keeps its keys in order, each member expanded in place |
| SchemaConverter.ExpandRefsLookup | libs/pygenerate-schemasgen/schema_converter.py:164-187 | key by key, an object without `$ref` holds the expansion of each value |
| SchemaConverter.ExpandRefsItems | libs/pygenerate-schemasgen/schema_converter.py:188-189 | a list is expanded element by element, keeping its length |
| SchemaConverter.ExpandRef | libs/pygenerate-schemasgen/schema_converter.py:167-181 | a reference that is not local or names no known schema stays as it is; a known one becomes its converted schema, an object exactly when the schema is one |
| SchemaConverter.ExpandWithoutRefs | libs/pygenerate-schemasgen/schema_converter.py:182-191 | a value with no `$ref` at any depth comes back unchanged |
| SchemaConverter.UnknownRefKept | libs/pygenerate-schemasgen/schema_converter.py:177-181 | a non-local reference or one to an unknown schema is kept as it is |
| SchemaConverter.KnownRefConverted | libs/pygenerate-schemasgen/schema_converter.py:169-176 | a local reference to a known schema becomes that schema converted under the node's title or the schema's name, converted at every level |
| SchemaConverter.ExpandedRefDropsMetadata | libs/pygenerate-schemasgen/schema_converter.py:173-176 | an expanded reference carries no `x-metadata` when the referenced schema has none |
| SchemaConverter.ConvertAddsNoMetadata | libs/pygenerate-schemasgen/schema_converter.py:35-77 | conversion adds no `x-metadata` |
| SchemaConverter.ExpandAll | libs/pygenerate-schemasgen/schema_converter.py:154-162 | every composite is expanded against the document's schemas, names kept in order |
| SchemaConverter.SchemaMetadata | libs/pygenerate-schemasgen/schema_converter.py:214-216 | a converted schema's metadata is the run's metadata with its schema name and the source file |
| SchemaConverter.ConvertSchema | libs/pygenerate-schemasgen/schema_converter.py:211-216 | each schema is converted under its own name and tagged; no other key differs from the conversion |
| SchemaConverter.ConvertSchemas | libs/pygenerate-schemasgen/schema_converter.py:211-218 | every schema of the document is converted and tagged, names in order |
| SchemaConverter.SchemasMember | libs/pygenerate-schemasgen/schema_converter.py:202 | reading the schemas fails exactly when the document or its `components` is not an object; on success the value read is the object behind `ComponentSchemas`, or a non-object that reads as no schemas |
| SchemaConverter.ExtractSchemas | libs/pygenerate-schemasgen/schema_converter.py:193-228 | a falsy document or falsy schemas yield nothing; a truthy document or `components` that is not an object, or truthy schemas that are not an object, fail; otherwise extraction succeeds exactly when every schema is an object that conversion can walk and the composites succeed |
| SchemaConverter.ExtractSchemasRaises | libs/pygenerate-schemasgen/schema_converter.py:198-211 | a truthy non-object document, a non-object `components` and truthy non-object schemas each make extraction fail |
| SchemaConverter.SchemaListRaises | libs/pygenerate-schemasgen/schema_converter.py:202-211 | a document whose `schemas` is a list fails at `.items()` |
| SchemaConverter.ExtractLookup | libs/pygenerate-schemasgen/schema_converter.py:207-225 | the value stored under a name is the expanded composite of that name if any, else the converted schema, else nothing |
| SchemaConverter.ExtractConverted | libs/pygenerate-schemasgen/schema_converter.py:211-225 | a schema no composite replaces is stored converted at every level and tagged with its name and file |
| SchemaConverter.ExtractedConvertible | libs/pygenerate-schemasgen/schema_converter.py:211-212 | a successful extraction means every schema of the document could be walked |
| SchemaConverter.ConvertSchemaConverted | libs/pygenerate-schemasgen/schema_converter.py:211-216 | a converted and tagged schema is converted at every level |
| FakeData.UnresolvedRefsAnywhere | libs/pyfake-datagen/jsf_generator.py:72-84 | a schema has unresolved references exactly when some object at some depth has a string `$ref` starting `#/` |
| FakeData.HasUnresolvedRefs | libs/pyfake-datagen/jsf_generator.py:72-84 | an object with a string `$ref` starting `#/`, or a value or item holding one at any depth |
| FakeData.UnresolvedRefsObject | libs/pyfake-datagen/jsf_generator.py:74-79 | for an object: its own local `$ref`, or one in some value |
| FakeData.UnresolvedRefsArray | libs/pyfake-datagen/jsf_generator.py:80-83 | for a list: one in some item |
| FakeData.Loaded | libs/pyfake-datagen/jsf_generator.py:98-103 | a referenced object comes back with `x-metadata` deleted and nothing else changed |
| FakeData.RefName | libs/pyfake-datagen/jsf_generator.py:91-94 | a name is found exactly when `$ref` is a string under `#/components/schemas/`, and it is the segment after the last slash |
| FakeData.AllResolved | libs/pyfake-datagen/jsf_generator.py:113-116 | the members resolve together exactly when each of them resolves, and each result is kept in place |
| FakeData.ResolveRefs | libs/pyfake-datagen/jsf_generator.py:86-136 | an object without `$ref` keeps its keys in order, a list keeps its length and scalars are returned unchanged |
| FakeData.ResolveRefsMembers | libs/pyfake-datagen/jsf_generator.py:107-119 | an object without `$ref` resolves iff every member does, and then holds each resolved member under the same key and in the same place |
| FakeData.ResolveRefsItems | libs/pyfake-datagen/jsf_generator.py:120-131 | a list resolves iff every element does, and then holds each resolved element in place |
| FakeData.ResolveRef | libs/pyfake-datagen/jsf_generator.py:90-106 | a `$ref` resolves only when it names a schema under `#/components/schemas/` whose file exists; an object file comes back without its `x-metadata` |
| FakeData.ResolveFails | libs/pyfake-datagen/jsf_generator.py:86-136 | resolution fails exactly when it reaches a reference that is not under `#/components/schemas/`, names a missing file or cannot drop its metadata |
| FakeData.ResolveFailsObject | libs/pyfake-datagen/jsf_generator.py:107-119 | an object without `$ref` fails exactly when one of its values does |
| FakeData.ResolveFailsArray | libs/pyfake-datagen/jsf_generator.py:120-131 | a list fails exactly when one of its items does |
| FakeData.ResolveArrayNone | libs/pyfake-datagen/jsf_generator.py:125-128 | a list fails to resolve exactly when one of its items fails |
| FakeData.ResolveWithoutRefs | libs/pyfake-datagen/jsf_generator.py:107-133 | with no `$ref` on the way, resolution returns the schema unchanged, key and item order included |
| FakeData.ResolveWithoutRefsObject | libs/pyfake-datagen/jsf_generator.py:107-119 | an object without references resolves to itself |
| FakeData.ResolveWithoutRefsArray | libs/pyfake-datagen/jsf_generator.py:120-131 | a list without references resolves to itself |
| FakeData.ResolveKnownRef | libs/pyfake-datagen/jsf_generator.py:92-103 | a reference to an existing schema file becomes that file's schema without `x-metadata` |
| FakeData.ResolvedNotSearchedAgain | libs/pyfake-datagen/jsf_generator.py:97-103 | the loaded schema is not resolved in turn: a reference inside it survives |
| FakeData.PrepareSchema | libs/pyfake-datagen/jsf_generator.py:51-56 | a schema without local references is used as loaded; otherwise the result is the resolved schema, and it is non-empty |
| FakeData.OtherLocalRefSkipped | libs/pyfake-datagen/jsf_generator.py:90-106 | a local reference outside `#/components/schemas/` makes the schema unusable |
| FakeData.FakerTagIsFirstKeyword | libs/pyfake-datagen/jsf_generator.py:145-158 | the tag is that of the first of `id`, `firstname`, `lastname`, `name`, `date` the lower-cased name contains, else `email` only as the whole name |
| FakeData.FakerTag | libs/pyfake-datagen/jsf_generator.py:145-158 | a field gets no tag only when its lower-cased name contains none of `id`, `name`, `date` and is not `email`; a tag is one of the five faker paths |
| FakeData.WidthIsUuid | libs/pyfake-datagen/jsf_generator.py:147-148 | `width` and `valid` are tagged as uuids |
| FakeData.UserNameIsFirstName | libs/pyfake-datagen/jsf_generator.py:153-154 | `userName` is tagged as a first name |
| FakeData.TagProperty | libs/pyfake-datagen/jsf_generator.py:143-162 | an untyped property schema is unchanged; a typed one stays typed and takes its name's tag |
| FakeData.ApplyFaker | libs/pyfake-datagen/jsf_generator.py:138-169 | an object stays an object with the same keys in order; anything else is unchanged |
| FakeData.TaggedProperties | libs/pyfake-datagen/jsf_generator.py:141-142 | tagged properties exist exactly when `properties` is an object, with the same names in order |
| FakeData.ApplyFakerMembers | libs/pyfake-datagen/jsf_generator.py:138-169 | tagging an object is tagging each member in place |
| FakeData.ApplyFakerLookup | libs/pyfake-datagen/jsf_generator.py:141-167 | an object-valued `properties` is replaced by its tagged properties, other object values are tagged in turn, and everything else, lists included, is kept |
| FakeData.PropertyTagged | libs/pyfake-datagen/jsf_generator.py:143-158 | every typed property with a tag carries that tag under `faker`, in its place |
| FakeData.TagBeforeRecursing | libs/pyfake-datagen/jsf_generator.py:148-162 | writing the tag before recursing gives the same schema as writing it after |
| FakeData.FindRequestSchemas | libs/pyfake-datagen/schema_processor.py:24-31 | the chosen stems are exactly those of the listing that contain `Request` and neither `Response` nor `Content` |
| FakeData.FindRequestSchemasAppend | libs/pyfake-datagen/schema_processor.py:24-31 | the choice is a filter of the listing that keeps its order |
| FakeData.ExcludedStemsRedundant | libs/pyfake-datagen/schema_processor.py:26-29 | the exclusion of `all_schemas` and `generation_report` by name changes nothing |

## Left out

- Rendering and writing: every generator stops at its template context. Template rendering, `write_file`, `ensure_directory` and `create_test_directories` are not modelled.
- Reading files: the glob-based `load_openapi_specs` (libs/pyjava-backend-codegen/core/openapi_processor.py:16-44) and the SQL tool's `find_openapi_files` and `load_openapi_spec` are not modelled, and neither are `load_projects_config` (libs/pyjava-backend-codegen/core/config_loader.py:13-28) and the JSON loading of the schema and fake-data tools. Their results enter the model as parameters: parsed documents, directory listings in listing order, and a set of existing files.
- The property converter: `property_converter.py` is not part of this model. `Converter` takes its `convert_openapi_property` as a parameter about which nothing is assumed.
- Randomness, clocks and the user name:
  - the JSF generation and the Faker values of `generate_from_schema` and `_apply_custom_fake_data`;
  - `_create_metadata` (current time and `getpass`).
  The run's metadata is a parameter.
- `FakeData.ApplyFaker`: `_apply_faker_patterns` is modelled although nothing in the source calls it. A `properties` member that is not an object is left alone, where the source raises on `.items()`.
- `FakeData.PrepareSchema`: a `$ref` that is not a string counts as no reference. The source raises there, and `generate_from_schema` then returns nothing for the file.
- `SchemaConverter.RefTarget`: a `$ref` that is not a string is kept as it is, where `_expand_refs_in_schema` raises on `.startswith`.
- `SchemaConverter.ParamNames`: a path parameter whose `name` is not a string is an error, where Python would use any hashable name as a key.
- `SqlTables.CleanDescriptions`: a truthy description that is not a string is kept, where `_clean_text` raises on `.replace`. A schema, a `properties` member or a property definition that is not an object is kept as it is, where Python's `.copy()` or `.items()` may raise.
- `Dto.OperationIdText`: an `operationId` that is present but not a string reads as the empty id, so the operation is not chosen for a composite DTO. In `generate_composite_request_dtos` the `.startswith` call would raise there. `SchemaConverter.MethodChoice` fails in that case, and agrees with this reading wherever it succeeds.
- Other lenient readings: `d.get(k, {})` and `d.get(k, [])` on a value of the wrong kind read as empty in the context builders, where Python would raise later. The exception is where a model states an `Err` result: `Config`, `OpenApi`, and `SchemaConverter`'s walk through the document, its paths, parameters and request bodies. Its remaining lenient readings are the `RefTarget` and `ParamNames` lines above.
- `Json.Fields`: an object is a list of key/value pairs, and nothing keeps its keys distinct. `Lookup` takes the last binding of a key and `Put` rebinds every binding in place, so a Python dict read from JSON is modelled faithfully. The model never needs a distinct-keys invariant.
- `Converter.Imports`: a truthy `import` value that is not a string is ignored, where the source would add it to the import set as it is.
- `OpenApi.Group`: the result is a Dafny map, so the insertion order of the source's grouping dict is not modelled. The order of the operations inside each group is kept.
- Python aliasing: the shallow copy in `_convert_openapi_schema_to_jsonschema` and the in-place updates of `_apply_faker_patterns` change their inputs. The model computes new values and does not model the sharing.
- Python's `lower`, `upper`, `capitalize` and `isupper` are modelled on ASCII letters only. Unicode case mapping is not modelled.
- `generate_tests_for_existing_components` is modelled only as far as mapping a file stem to an entity. Its directory globbing is file-system I/O.
- The conflict and internal-server-error exception contexts, and the logging-utils and logback test contexts, are fixed text around constant package and class names. Beyond those names they are not modelled.
- The command-line drivers, the Backstage generators, the GitHub and branch-protection scripts and the logging setup are not part of this model. They only run subprocesses, copy fixed files or talk to the network.

## Findings

| source | as written | input that shows it | evidently intended | confidence | as-written member | corrected member |
|---|---|---|---|---|---|---|
| libs/pyjava-springboot-backend-codegen/generators/test_generator.py:94 | the test class's package is the package under test with every `main` replaced by `test`. Lines 164, 203, 259, 284, 297 and 313 do the same. | base package `com.acme.domain`: the test is written under `src/test/java/com/acme/domain/…` but declares `package com.acme.dotest…` | the test shares the package of the class it tests, since the `main`/`test` split lives in the directory, not the package | high (not executed) | TestGen.TestPackageAsWritten, TestGen.TestPackageMismatch, TestGen.DomainPackageMismatch | TestGen.TestPackage, TestGen.TestPackageMatchesDirectory |
| libs/pygenerate-sql-from-openapi/core/openapi_processor.py:133-137 | `&amp;` is decoded before `&lt;` and `&gt;`, so an escaped `&lt;` or `&gt;` is decoded twice, while an escaped `&quot;` is decoded once. `_clean_descriptions` (lines 111 and 119) cleans every description this way, so the model's tables carry the doubly decoded text. | `&amp;lt;b` becomes `<b` | one decoding of each entity: `&amp;lt;b` becomes `&lt;b`, and cleaning gives any escaped text back | medium (not executed) | SqlTables.DecodeAsWritten, SqlTables.DecodeAsWrittenTwice, SqlTables.CleanDescriptionDecodesTwice | SqlTables.Decode, SqlTables.DecodeEscape, SqlTables.CleanText, SqlTables.CleanEscaped |

=== FILE: application.dfy ===
/**
  The application layer of the Spring Boot generator
  (generators/application_generator.py): the context of an entity's mapper
  (its service, the DTOs found on disk, the relation mappings `xId → x`), of
  its consolidated use-case interface and of its consolidated service, with
  the repository method and path variables of each complex operation.
  Rendering and file writing are left to the caller; these functions stop at
  the context.
 */
module Application {
  import opened Wrappers
  import opened Strings
  import opened Json
  import opened OpenApi
  import opened Layout

  // ---------------------------------------------------------------------
  // Complex operations.

  /** `_convert_operation_to_repository_method`. */
  function RepositoryMethod(id: string): (r: string)
    ensures StartsWith(r, "find")
    ensures StartsWith(id, "Get") ==> r[4..] == id[3..]
    ensures !StartsWith(id, "Get") ==> r == "findAll"
  {
    if StartsWith(id, "Get") then "find" + id[3..] else "findAll"
  }

  /** A `Get…` id is recovered from its repository method by swapping `find` back for `Get`. */
  lemma RepositoryMethodInverse(id: string)
    requires StartsWith(id, "Get")
    ensures "Get" + RepositoryMethod(id)[4..] == id
  {
    assert id == id[..3] + id[3..];
  }

  /** `op[0].lower() + op[1:] if op else ''`. */
  function MethodName(op: string): (r: string)
    ensures |r| == |op|
    ensures |op| > 0 ==> r[0] == LowerChar(op[0]) && r[1..] == op[1..]
  {
    if |op| == 0 then "" else [LowerChar(op[0])] + op[1..]
  }

  /** An id that starts with a capital letter is its method name with the first letter raised again. */
  lemma MethodNameInverse(op: string)
    requires |op| > 0 && IsUpperChar(op[0])
    ensures [UpperChar(MethodName(op)[0])] + MethodName(op)[1..] == op
  {
    assert op == [op[0]] + op[1..];
  }

  /** A path variable of a complex operation, with its `hasMore` flag. */
  datatype PathVar = PathVar(name: string, typ: string, hasMore: bool)

  /** `var['hasMore'] = i < len(path_variables) - 1` for every variable. */
  function WithHasMore(vars: seq<PathVar>): (r: seq<PathVar>)
    ensures |r| == |vars|
    ensures forall i | 0 <= i < |r| :: r[i].name == vars[i].name && r[i].typ == vars[i].typ
    ensures forall i | 0 <= i < |r| :: r[i].hasMore <==> i < |r| - 1
  {
    seq(|vars|, i requires 0 <= i < |vars| => vars[i].(hasMore := i < |vars| - 1))
  }

  /** The path variable an id is known to carry: only three ids have one. */
  function KnownPathVar(id: string): Option<string> {
    if id == "GetRegionsByCountry" then Some("countryId")
    else if id == "GetCitiesByRegion" then Some("regionId")
    else if id == "GetNeighborhoodsByCity" then Some("cityId")
    else None
  }

  /** `_extract_path_info_from_operation(...)['pathVariables']`. */
  function PathVariables(id: string): (r: seq<PathVar>)
    ensures |r| <= 1
    ensures |r| == 1 <==> KnownPathVar(id).Some?
    ensures |r| == 1 ==> r[0] == PathVar(KnownPathVar(id).value, "String", false)
    ensures forall i | 0 <= i < |r| :: r[i].hasMore <==> i < |r| - 1
  {
    var vars := match KnownPathVar(id)
      case Some(n) => [PathVar(n, "String", true)]
      case None => [];
    WithHasMore(vars)
  }

  /** Every other id yields no path variable at all. */
  lemma PathVariablesOnlyKnown(id: string)
    requires id != "GetRegionsByCountry" && id != "GetCitiesByRegion" && id != "GetNeighborhoodsByCity"
    ensures PathVariables(id) == []
  {
  }

  /** One element of `complexOperations`; only the service carries a repository method. */
  datatype ComplexInfo = ComplexInfo(
    operationId: string,
    methodName: string,
    responseType: string,
    repositoryMethod: Option<string>,
    pathVariables: seq<PathVar>,
    hasPathVariables: bool)

  function UseCaseInfo(op: string): (r: ComplexInfo)
    ensures r.operationId == op && r.methodName == MethodName(op) && r.pathVariables == PathVariables(op)
    ensures r.hasPathVariables <==> |r.pathVariables| > 0
    ensures r.responseType == op + "ResponseContent" && r.repositoryMethod.None?
  {
    var vars := PathVariables(op);
    ComplexInfo(op, MethodName(op), op + "ResponseContent", None, vars, |vars| > 0)
  }

  function ServiceInfo(op: string): (r: ComplexInfo)
    ensures r.hasPathVariables <==> |r.pathVariables| > 0
    ensures r.repositoryMethod == Some(RepositoryMethod(op))
    ensures r.(repositoryMethod := None) == UseCaseInfo(op)
  {
    var vars := PathVariables(op);
    ComplexInfo(op, MethodName(op), op + "ResponseContent", Some(RepositoryMethod(op)), vars, |vars| > 0)
  }

  // ---------------------------------------------------------------------
  // The consolidated use case.

  /** `operations[0]['service'] if operations else entity.lower()`. */
  function ServiceOf(ops: seq<Operation>, entity: string): (r: string)
    ensures |ops| > 0 ==> r == ops[0].service
    ensures |ops| == 0 ==> r == Lower(entity)
  {
    if |ops| > 0 then ops[0].service else Lower(entity)
  }

  /** The directory of a service's DTOs: output directory / DTO package / service. */
  function DtoDir(outputDir: Path, dtoPackage: string, service: string): Path {
    JoinPath(JoinPath(outputDir, PackagePath(dtoPackage)), ParsePath(service))
  }

  /** Whether `{op}ResponseContent` exists in `dir`. */
  function HasResponseIn(existing: set<Path>, dir: Path): string -> bool {
    op => DtoExists(existing, dir, op + "ResponseContent")
  }

  /** The complex operations whose `{op}ResponseContent` exists, in order. */
  function WithResponse(existing: set<Path>, dir: Path, ops: seq<string>): (r: seq<string>)
    ensures forall op :: op in r <==> op in ops && DtoExists(existing, dir, op + "ResponseContent")
    ensures |r| <= |ops|
    ensures r == Filter(ops, HasResponseIn(existing, dir))
  {
    if |ops| == 0 then []
    else
      var n := |ops| - 1;
      assert ops == ops[..n] + [ops[n]];
      WithResponse(existing, dir, ops[..n]) + (if DtoExists(existing, dir, ops[n] + "ResponseContent") then [ops[n]] else [])
  }

  /** The five CRUD flags of a context. */
  datatype Flags = Flags(hasCreate: bool, hasGet: bool, hasUpdate: bool, hasDelete: bool, hasList: bool)

  /**
    The use case's flags: create and update need both their request and their
    response DTO in the service's directory, the others their response DTO.
   */
  function DtoFlags(existing: set<Path>, dir: Path, entity: string): (r: Flags)
    ensures r.hasCreate <==> DtoExists(existing, dir, "Create" + entity + "RequestContent") && DtoExists(existing, dir, "Create" + entity + "ResponseContent")
    ensures r.hasUpdate <==> DtoExists(existing, dir, "Update" + entity + "RequestContent") && DtoExists(existing, dir, "Update" + entity + "ResponseContent")
    ensures r.hasGet <==> DtoExists(existing, dir, "Get" + entity + "ResponseContent")
    ensures r.hasDelete <==> DtoExists(existing, dir, "Delete" + entity + "ResponseContent")
    ensures r.hasList <==> DtoExists(existing, dir, "List" + entity + "sResponseContent")
  {
    Flags(
      DtoExists(existing, dir, "Create" + entity + "RequestContent") && DtoExists(existing, dir, "Create" + entity + "ResponseContent"),
      DtoExists(existing, dir, "Get" + entity + "ResponseContent"),
      DtoExists(existing, dir, "Update" + entity + "RequestContent") && DtoExists(existing, dir, "Update" + entity + "ResponseContent"),
      DtoExists(existing, dir, "Delete" + entity + "ResponseContent"),
      DtoExists(existing, dir, "List" + entity + "sResponseContent"))
  }

  /** The `hasComplexOperations`/`complexOperations` pair; only the service carries repository methods. */
  datatype Complex = Complex(hasComplexOperations: bool, complexOperations: seq<ComplexInfo>)

  datatype UseCaseContext = UseCaseContext(serviceName: string, entityVarName: string, flags: Flags, complex: Complex)

  /** The operation ids of a list of complex operations. */
  function OpIds(infos: seq<ComplexInfo>): (r: seq<string>)
    ensures |r| == |infos| && forall i | 0 <= i < |infos| :: r[i] == infos[i].operationId
  {
    seq(|infos|, i requires 0 <= i < |infos| => infos[i].operationId)
  }

  /** The use case's complex operations: those whose response DTO exists, in order. */
  function UseCaseComplex(existing: set<Path>, dir: Path, complexOps: seq<string>): (r: Complex)
    ensures OpIds(r.complexOperations) == WithResponse(existing, dir, complexOps)
    ensures forall i | 0 <= i < |r.complexOperations| ::
      (r.complexOperations[i].repositoryMethod.None?
       && r.complexOperations[i].responseType == r.complexOperations[i].operationId + "ResponseContent")
    ensures r.hasComplexOperations <==> |r.complexOperations| > 0
    ensures var kept := WithResponse(existing, dir, complexOps);
      |r.complexOperations| == |kept| && forall i | 0 <= i < |kept| :: r.complexOperations[i] == UseCaseInfo(kept[i])
  {
    var kept := WithResponse(existing, dir, complexOps);
    var infos := seq(|kept|, i requires 0 <= i < |kept| => UseCaseInfo(kept[i]));
    Complex(|infos| > 0, infos)
  }

  /** `generate_consolidated_use_cases` up to rendering. */
  function UseCases(existing: set<Path>, outputDir: Path, dtoPackage: string, entity: string,
                    ops: seq<Operation>, complexOps: seq<string>): (r: UseCaseContext)
    ensures r.serviceName == ServiceOf(ops, entity) && r.entityVarName == Lower(entity)
    ensures r.flags == DtoFlags(existing, DtoDir(outputDir, dtoPackage, r.serviceName), entity)
    ensures r.complex == UseCaseComplex(existing, DtoDir(outputDir, dtoPackage, r.serviceName), complexOps)
  {
    var service := ServiceOf(ops, entity);
    var dir := DtoDir(outputDir, dtoPackage, service);
    UseCaseContext(service, Lower(entity), DtoFlags(existing, dir, entity), UseCaseComplex(existing, dir, complexOps))
  }

  // ---------------------------------------------------------------------
  // The consolidated service.

  /** Every operation handed over has a string id (`op['id'].startswith` needs one). */
  predicate StringIds(ops: seq<Operation>) {
    forall i | 0 <= i < |ops| :: ops[i].id.JStr?
  }

  /** `any(op['id'].startswith(prefix) and entity in op['id'] for op in operations)`. */
  predicate AnyPrefixed(ops: seq<Operation>, prefix: string, entity: string)
    requires StringIds(ops)
  {
    exists i | 0 <= i < |ops| :: StartsWith(ops[i].id.s, prefix) && Contains(ops[i].id.s, entity)
  }

  /**
    The service's flags: create, get, update and delete ask for an id with
    the prefix that contains the entity name anywhere; list asks for the exact
    id `List{entity}s`.
   */
  function OpFlags(ops: seq<Operation>, entity: string): (r: Flags)
    requires StringIds(ops)
    ensures r.hasCreate <==> exists i | 0 <= i < |ops| :: StartsWith(ops[i].id.s, "Create") && Contains(ops[i].id.s, entity)
    ensures r.hasGet <==> exists i | 0 <= i < |ops| :: StartsWith(ops[i].id.s, "Get") && Contains(ops[i].id.s, entity)
    ensures r.hasUpdate <==> exists i | 0 <= i < |ops| :: StartsWith(ops[i].id.s, "Update") && Contains(ops[i].id.s, entity)
    ensures r.hasDelete <==> exists i | 0 <= i < |ops| :: StartsWith(ops[i].id.s, "Delete") && Contains(ops[i].id.s, entity)
    ensures r.hasList <==> exists i | 0 <= i < |ops| :: ops[i].id == JStr("List" + entity + "s")
  {
    Flags(AnyPrefixed(ops, "Create", entity), AnyPrefixed(ops, "Get", entity), AnyPrefixed(ops, "Update", entity),
      AnyPrefixed(ops, "Delete", entity), exists i | 0 <= i < |ops| :: ops[i].id == JStr("List" + entity + "s"))
  }

  /** The service's complex operations: every one given, each with its repository method. */
  function ServiceComplex(complexOps: seq<string>): (r: Complex)
    ensures OpIds(r.complexOperations) == complexOps
    ensures forall i | 0 <= i < |complexOps| ::
      (r.complexOperations[i].repositoryMethod == Some(RepositoryMethod(complexOps[i]))
       && r.complexOperations[i].(repositoryMethod := None) == UseCaseInfo(complexOps[i]))
    ensures r.hasComplexOperations <==> |complexOps| > 0
  {
    var infos := seq(|complexOps|, i requires 0 <= i < |complexOps| => ServiceInfo(complexOps[i]));
    Complex(|infos| > 0, infos)
  }

  datatype ServiceContext = ServiceContext(serviceName: string, entityVarName: string, flags: Flags, complex: Complex)

  /** `generate_consolidated_service` up to rendering. */
  function Service(entity: string, ops: seq<Operation>, complexOps: seq<string>): (r: ServiceContext)
    requires StringIds(ops)
    ensures r.serviceName == ServiceOf(ops, entity) && r.entityVarName == Lower(entity)
    ensures r.flags == OpFlags(ops, entity)
    ensures r.complex == ServiceComplex(complexOps)
  {
    ServiceContext(ServiceOf(ops, entity), Lower(entity), OpFlags(ops, entity), ServiceComplex(complexOps))
  }

  /**
    The create flag only asks for the prefix and the entity name somewhere in
    the id, so another entity's create operation can set it: `CreateOrderItem`
    sets it for `Order`. The list flag asks for the exact id.
   */
  lemma ServiceCreateIsLoose(entity: string, more: string, service: string)
    requires |more| > 0
    ensures var ops := [Operation(JStr("Create" + entity + more), service)];
      Service(entity, ops, []).flags.hasCreate && !CrudId(ops[0].id, entity)
  {
    var id := "Create" + entity + more;
    assert StartsWith(id, "Create");
    assert OccursAt(id, entity, 6);
    assert |id| != |"Create" + entity|;
  }

  lemma ServiceListIsExact(entity: string, service: string)
    ensures !Service(entity, [Operation(JStr("List" + entity + "sResponse"), service)], []).flags.hasList
  {
    assert |"List" + entity + "sResponse"| != |"List" + entity + "s"|;
  }

  // ---------------------------------------------------------------------
  // The mapper.

  /** `spec.get('components', {}).get('schemas', {})`, empty where that would fail. */
  function SchemaTable(spec: Json): Fields {
    match SchemasOf(spec)
    case Ok(fs) => fs
    case Err(_) => []
  }

  /** The first schema whose name contains both the entity and `marker`. */
  function FirstSchema(schemas: Fields, entity: string, marker: string): (r: Option<Json>)
    ensures r.Some? ==> exists i | 0 <= i < |schemas| ::
      (schemas[i].1 == r.value && Contains(schemas[i].0, entity) && Contains(schemas[i].0, marker)
       && forall j | 0 <= j < i :: !(Contains(schemas[j].0, entity) && Contains(schemas[j].0, marker)))
    ensures r.None? <==> forall i | 0 <= i < |schemas| :: !(Contains(schemas[i].0, entity) && Contains(schemas[i].0, marker))
  {
    if |schemas| == 0 then None
    else if Contains(schemas[0].0, entity) && Contains(schemas[0].0, marker) then Some(schemas[0].1)
    else
      var r := FirstSchema(schemas[1..], entity, marker);
      assert forall i | 1 <= i < |schemas| :: schemas[i] == schemas[1..][i - 1];
      r
  }

  /** The properties of the first matching schema, or none. */
  function FirstProperties(spec: Json, entity: string, marker: string): Fields {
    match FirstSchema(SchemaTable(spec), entity, marker)
    case Some(schema) => Properties(schema)
    case None => []
  }

  /** The properties of the first schema of the entity marked `marker`, per document. */
  function PerDocument(specs: seq<SpecInfo>, entity: string, marker: string): (r: seq<Fields>)
    ensures |r| == |specs|
    ensures forall i | 0 <= i < |specs| :: r[i] == FirstProperties(specs[i].spec, entity, marker)
  {
    seq(|specs|, i requires 0 <= i < |specs| => FirstProperties(specs[i].spec, entity, marker))
  }

  /** `domain_fields.update(properties.keys())` for every element: the keys of all of them. */
  function AllKeys(ls: seq<Fields>): (r: set<string>)
    ensures forall f :: f in r <==> exists i | 0 <= i < |ls| :: HasKey(ls[i], f)
  {
    if |ls| == 0 then {}
    else
      var n := |ls| - 1;
      assert forall i | 0 <= i < n :: ls[..n][i] == ls[i];
      AllKeys(ls[..n]) + set k | k in Keys(ls[n])
  }

  /** The domain fields: the properties of the first `Response` schema of the entity in each document. */
  function DomainFields(specs: seq<SpecInfo>, entity: string): set<string> {
    AllKeys(PerDocument(specs, entity, "Response"))
  }

  datatype Relation = Relation(sourceField: string, targetField: string)

  /** A request property `xId` maps to `x` when it is not the entity's own id and `x` is a domain field. */
  predicate Qualifies(prop: string, entity: string, domain: set<string>) {
    EndsWith(prop, "Id") && prop != Lower(entity) + "Id" && prop[..|prop| - 2] in domain
  }

  /** The relation mappings of one request schema, in property order. */
  function RelationsOf(props: Fields, entity: string, domain: set<string>): (r: seq<Relation>)
    ensures forall m | m in r ::
      (Qualifies(m.sourceField, entity, domain)
       && m.targetField == m.sourceField[..|m.sourceField| - 2] && HasKey(props, m.sourceField))
    ensures forall i | 0 <= i < |props| && Qualifies(props[i].0, entity, domain) ::
      Relation(props[i].0, props[i].0[..|props[i].0| - 2]) in r
  {
    if |props| == 0 then []
    else
      var n := |props| - 1;
      var rest := RelationsOf(props[..n], entity, domain);
      var p := props[n].0;
      assert Keys(props) == Keys(props[..n]) + [p];
      assert forall i | 0 <= i < n :: props[..n][i] == props[i];
      rest + (if Qualifies(p, entity, domain) then [Relation(p, p[..|p| - 2])] else [])
  }

  /** The relation mappings of every document: those of its first `Request` schema of the entity. */
  function RelationMappings(requests: seq<Fields>, entity: string, domain: set<string>): (r: seq<Relation>)
    ensures forall m | m in r :: Qualifies(m.sourceField, entity, domain) && m.targetField == m.sourceField[..|m.sourceField| - 2]
    ensures forall m | m in r :: exists i | 0 <= i < |requests| :: HasKey(requests[i], m.sourceField)
  {
    if |requests| == 0 then []
    else
      var n := |requests| - 1;
      assert forall i | 0 <= i < n :: requests[..n][i] == requests[i];
      RelationMappings(requests[..n], entity, domain) + RelationsOf(requests[n], entity, domain)
  }

  /**
    Every qualifying property of a document's first request schema yields its
    mapping: the qualification is exact in both directions.
   */
  lemma {:induction false} RelationMappingsComplete(requests: seq<Fields>, entity: string, domain: set<string>, i: int, prop: string)
    requires 0 <= i < |requests|
    requires HasKey(requests[i], prop) && Qualifies(prop, entity, domain)
    ensures Relation(prop, prop[..|prop| - 2]) in RelationMappings(requests, entity, domain)
    decreases |requests|
  {
    var n := |requests| - 1;
    if i == n {
      var props := requests[i];
      var j :| 0 <= j < |props| && Keys(props)[j] == prop;
      assert props[j].0 == prop;
    } else {
      assert requests[..n][i] == requests[i];
      RelationMappingsComplete(requests[..n], entity, domain, i, prop);
    }
  }

  /** One entry of the DTO directory listing: a service folder and the files in it. */
  datatype Entry = Entry(name: string, isDir: bool, files: set<string>)

  /** The folders of the listing that hold `{file}.java`. */
  predicate HoldsIn(e: Entry, file: string) {
    e.isDir && file + ".java" in e.files
  }

  predicate AnyHolds(listing: seq<Entry>, file: string) {
    exists i | 0 <= i < |listing| :: HoldsIn(listing[i], file)
  }

  /** The six DTO names the mapper looks for. */
  function MapperDtos(entity: string): seq<string> {
    [ "Create" + entity + "RequestContent", "Update" + entity + "RequestContent", entity + "Response",
      "List" + entity + "sResponseContent", "Get" + entity + "ResponseContent", "Delete" + entity + "ResponseContent" ]
  }

  predicate HoldsAny(e: Entry, names: seq<string>) {
    exists j | 0 <= j < |names| :: HoldsIn(e, names[j])
  }

  /** The position of the last folder holding one of the DTOs, or -1. */
  function LastHolding(listing: seq<Entry>, names: seq<string>): (k: int)
    ensures -1 <= k < |listing|
    ensures k >= 0 ==> HoldsAny(listing[k], names)
    ensures forall m | k < m < |listing| :: !HoldsAny(listing[m], names)
  {
    if |listing| == 0 then -1
    else if HoldsAny(listing[|listing| - 1], names) then |listing| - 1
    else LastHolding(listing[..|listing| - 1], names)
  }

  /** The service after the scan: the last folder holding one of the DTOs names it; otherwise it stays. */
  function ScanService(listing: seq<Entry>, names: seq<string>, service: string): (r: string)
    ensures LastHolding(listing, names) < 0 ==> r == service
    ensures LastHolding(listing, names) >= 0 ==> r == listing[LastHolding(listing, names)].name
  {
    if |listing| == 0 then service
    else if HoldsAny(listing[|listing| - 1], names) then listing[|listing| - 1].name
    else ScanService(listing[..|listing| - 1], names, service)
  }

  /** The first folder holding `{file}.java`, as the delete import's loop finds it. */
  function FirstHolding(listing: seq<Entry>, file: string): (r: Option<string>)
    ensures r.Some? <==> AnyHolds(listing, file)
    ensures r.Some? ==> exists i | 0 <= i < |listing| ::
      (HoldsIn(listing[i], file) && r.value == listing[i].name
       && forall j | 0 <= j < i :: !HoldsIn(listing[j], file))
  {
    if |listing| == 0 then None
    else if HoldsIn(listing[0], file) then Some(listing[0].name)
    else
      var r := FirstHolding(listing[1..], file);
      assert forall i | 1 <= i < |listing| :: listing[i] == listing[1..][i - 1];
      r
  }

  /** `service` from the call, else the first document naming the entity in a schema, else `entity.lower()`. */
  function MapperDefaultService(entity: string, service: string, specs: seq<SpecInfo>): (r: string)
    ensures service != "" ==> r == service
    ensures service == "" ==> r == match FindNaming(specs, entity)
      case Some(name) => if name != "" then name else Lower(entity)
      case None => Lower(entity)
    ensures r != "" || (service == "" && Lower(entity) == "")
  {
    var s := if service != "" then service else match FindNaming(specs, entity)
      case Some(name) => name
      case None => "";
    if s == "" then Lower(entity) else s
  }

  /** Some schema name of the document contains the entity name. */
  predicate Mentions(spec: SpecInfo, entity: string) {
    exists i | 0 <= i < |SchemaTable(spec.spec)| :: Contains(SchemaTable(spec.spec)[i].0, entity)
  }

  /** The service name of the first document with a schema name containing the entity. */
  function FindNaming(specs: seq<SpecInfo>, entity: string): (r: Option<string>)
    ensures r.None? <==> forall k | 0 <= k < |specs| :: !Mentions(specs[k], entity)
    ensures r.Some? ==> exists k | 0 <= k < |specs| ::
      (Mentions(specs[k], entity) && r.value == specs[k].serviceName
       && forall j | 0 <= j < k :: !Mentions(specs[j], entity))
  {
    if |specs| == 0 then None
    else if Mentions(specs[0], entity) then Some(specs[0].serviceName)
    else
      var r := FindNaming(specs[1..], entity);
      assert forall i | 1 <= i < |specs| :: specs[i] == specs[1..][i - 1];
      r
  }

  /** What the scan of the DTO folders found. */
  datatype DtoScan = DtoScan(
    service: string,
    hasCreate: bool,
    hasUpdate: bool,
    hasResponse: bool,
    hasList: bool,
    hasGet: bool,
    hasDelete: bool,
    deleteFolder: Option<string>)

  /**
    The loop over the service folders: each flag is set when some folder holds
    its DTO, the service becomes the last folder holding any of them, and the
    delete import's loop stops at the first folder holding the delete DTO.
   */
  function Scan(listing: seq<Entry>, entity: string, service: string): (r: DtoScan)
    ensures r.hasCreate <==> AnyHolds(listing, "Create" + entity + "RequestContent")
    ensures r.hasUpdate <==> AnyHolds(listing, "Update" + entity + "RequestContent")
    ensures r.hasResponse <==> AnyHolds(listing, entity + "Response")
    ensures r.hasList <==> AnyHolds(listing, "List" + entity + "sResponseContent")
    ensures r.hasGet <==> AnyHolds(listing, "Get" + entity + "ResponseContent")
    ensures r.hasDelete <==> AnyHolds(listing, "Delete" + entity + "ResponseContent")
    ensures r.deleteFolder.Some? <==> r.hasDelete
    ensures r.deleteFolder == FirstHolding(listing, "Delete" + entity + "ResponseContent")
    ensures LastHolding(listing, MapperDtos(entity)) < 0 ==> r.service == service
    ensures LastHolding(listing, MapperDtos(entity)) >= 0 ==> r.service == listing[LastHolding(listing, MapperDtos(entity))].name
  {
    var names := MapperDtos(entity);
    DtoScan(ScanService(listing, names, service),
      AnyHolds(listing, names[0]), AnyHolds(listing, names[1]), AnyHolds(listing, names[2]),
      AnyHolds(listing, names[3]), AnyHolds(listing, names[4]), AnyHolds(listing, names[5]),
      FirstHolding(listing, names[5]))
  }

  /** `{application_dto}.{service}.{name}`. */
  function DtoImport(dtoPackage: string, service: string, name: string): string {
    dtoPackage + "." + service + "." + name
  }

  /**
    The imports the flags ask for, under the scanned service: create request
    and response, update request and response, response, list response, get
    response, each included when its flag is set.
   */
  function FlagImports(dtoPackage: string, entity: string, scan: DtoScan): (r: seq<string>)
    ensures |r| == (if scan.hasCreate then 2 else 0) + (if scan.hasUpdate then 2 else 0) + (if scan.hasResponse then 1 else 0)
      + (if scan.hasList then 1 else 0) + (if scan.hasGet then 1 else 0)
    ensures scan.hasCreate ==>
      (r[0] == DtoImport(dtoPackage, scan.service, "Create" + entity + "RequestContent")
       && r[1] == DtoImport(dtoPackage, scan.service, "Create" + entity + "ResponseContent"))
    ensures var u := if scan.hasCreate then 2 else 0;
      scan.hasUpdate ==>
        (r[u] == DtoImport(dtoPackage, scan.service, "Update" + entity + "RequestContent")
         && r[u + 1] == DtoImport(dtoPackage, scan.service, "Update" + entity + "ResponseContent"))
    ensures var e := (if scan.hasCreate then 2 else 0) + (if scan.hasUpdate then 2 else 0);
      scan.hasResponse ==> r[e] == DtoImport(dtoPackage, scan.service, entity + "Response")
    ensures var l := (if scan.hasCreate then 2 else 0) + (if scan.hasUpdate then 2 else 0) + (if scan.hasResponse then 1 else 0);
      scan.hasList ==> r[l] == DtoImport(dtoPackage, scan.service, "List" + entity + "sResponseContent")
    ensures scan.hasGet ==> r[|r| - 1] == DtoImport(dtoPackage, scan.service, "Get" + entity + "ResponseContent")
  {
    var svc := scan.service;
    (if scan.hasCreate then [DtoImport(dtoPackage, svc, "Create" + entity + "RequestContent"),
                             DtoImport(dtoPackage, svc, "Create" + entity + "ResponseContent")] else [])
    + (if scan.hasUpdate then [DtoImport(dtoPackage, svc, "Update" + entity + "RequestContent"),
                               DtoImport(dtoPackage, svc, "Update" + entity + "ResponseContent")] else [])
    + (if scan.hasResponse then [DtoImport(dtoPackage, svc, entity + "Response")] else [])
    + (if scan.hasList then [DtoImport(dtoPackage, svc, "List" + entity + "sResponseContent")] else [])
    + (if scan.hasGet then [DtoImport(dtoPackage, svc, "Get" + entity + "ResponseContent")] else [])
  }

  /** `dto_imports`: the flagged imports, then the delete response under the first folder holding it. */
  function MapperImports(dtoPackage: string, entity: string, scan: DtoScan): (r: seq<string>)
    ensures scan.deleteFolder.None? ==> r == FlagImports(dtoPackage, entity, scan)
    ensures scan.deleteFolder.Some? ==>
      r == FlagImports(dtoPackage, entity, scan) + [DtoImport(dtoPackage, scan.deleteFolder.value, "Delete" + entity + "ResponseContent")]
  {
    FlagImports(dtoPackage, entity, scan)
    + match scan.deleteFolder
      case Some(folder) => [DtoImport(dtoPackage, folder, "Delete" + entity + "ResponseContent")]
      case None => []
  }

  datatype MapperContext = MapperContext(
    serviceName: string,
    entityVarName: string,
    scan: DtoScan,
    dtoImports: seq<string>,
    relationMappings: seq<Relation>)

  /**
    `generate_mapper` up to rendering. `listing` is the DTO package directory
    in iteration order (empty when it does not exist).
   */
  function Mapper(entity: string, service: string, specs: seq<SpecInfo>, dtoPackage: string, listing: seq<Entry>): (r: MapperContext)
    ensures r.scan == Scan(listing, entity, MapperDefaultService(entity, service, specs))
    ensures r.serviceName == r.scan.service && r.entityVarName == Lower(entity)
    ensures r.dtoImports == MapperImports(dtoPackage, entity, r.scan)
    ensures forall m | m in r.relationMappings :: Qualifies(m.sourceField, entity, DomainFields(specs, entity))
    ensures forall m | m in r.relationMappings ::
      exists i | 0 <= i < |specs| :: HasKey(FirstProperties(specs[i].spec, entity, "Request"), m.sourceField)
  {
    var scan := Scan(listing, entity, MapperDefaultService(entity, service, specs));
    MapperContext(scan.service, Lower(entity), scan, MapperImports(dtoPackage, entity, scan),
      RelationMappings(PerDocument(specs, entity, "Request"), entity, DomainFields(specs, entity)))
  }

  /**
    The delete import names the first folder holding the delete DTO, while the
    other imports name the last folder holding any of the six: with two
    service folders the imports can disagree on the service.
   */
  lemma MapperImportsCanDisagree(entity: string, dtoPackage: string, a: string, b: string)
    requires a != b
    ensures var del := "Delete" + entity + "ResponseContent" + ".java";
      var get := "Get" + entity + "ResponseContent" + ".java";
      var listing := [Entry(a, true, {del}), Entry(b, true, {get})];
      var r := Mapper(entity, "s", [], dtoPackage, listing);
      r.serviceName == b && r.dtoImports[|r.dtoImports| - 1] == DtoImport(dtoPackage, a, "Delete" + entity + "ResponseContent")
  {
    var names := MapperDtos(entity);
    var del := "Delete" + entity + "ResponseContent" + ".java";
    var get := "Get" + entity + "ResponseContent" + ".java";
    var listing := [Entry(a, true, {del}), Entry(b, true, {get})];
    assert HoldsIn(listing[0], names[5]);
    assert HoldsIn(listing[1], names[4]);
    assert HoldsAny(listing[1], names);
  }
}

=== FILE: config.dfy ===
/**
  The project configuration of the OpenAPI to Java generator
  (pyjava-backend-codegen/core/config_loader.py): the hexagonal package map
  and the global template context merged from the project configuration.
 */
module Config {
  import opened Wrappers
  import opened Strings
  import opened Json

  // ---------------------------------------------------------------------
  // Package structure.

  const Infrastructure: string := "infrastructure"
  const InfraConfig: string := Infrastructure + ".config"
  const Persistence: string := Infrastructure + ".adapters.output.persistence"

  /** The package keys other than `root`, each with the suffix appended to the base package. */
  const PackageSuffixes: seq<(string, string)> := [
    ("utils", "utils"),
    ("domain_model", "domain.model"),
    ("domain_ports_input", "domain.ports.input"),
    ("domain_ports_output", "domain.ports.output"),
    ("application_service", "application.service"),
    ("application_dto", "application.dto"),
    ("application_mapper", "application.mapper"),
    ("infra_config", InfraConfig),
    ("infra_config_exceptions", InfraConfig + ".exceptions"),
    ("infra_adapters_input_rest", Infrastructure + ".adapters.input.rest"),
    ("infra_adapters_output_persistence", Persistence),
    ("infra_entity", Persistence + ".entity"),
    ("infra_repository", Persistence + ".repository"),
    ("infra_adapter", Persistence + ".adapter")
  ]

  /** `build_package_structure`: `root` is the base, every other package is the base plus a suffix. */
  function PackageStructure(base: string): (r: Fields)
    ensures |r| == 1 + |PackageSuffixes|
    ensures r[0] == ("root", JStr(base))
    ensures forall i | 0 <= i < |PackageSuffixes| ::
      r[i + 1] == (PackageSuffixes[i].0, JStr(base + "." + PackageSuffixes[i].1))
  {
    [("root", JStr(base))]
    + seq(|PackageSuffixes|, i requires 0 <= i < |PackageSuffixes| =>
        (PackageSuffixes[i].0, JStr(base + "." + PackageSuffixes[i].1)))
  }

  /** The map has 15 distinct keys. */
  lemma PackageStructureKeys(base: string)
    ensures |PackageStructure(base)| == 15
    ensures forall i, j | 0 <= i < j < 15 :: PackageStructure(base)[i].0 != PackageStructure(base)[j].0
  {
    var r := PackageStructure(base);
    forall i | 0 <= i < 15
      ensures PackageRank(r[i].0) == i
    {
      if i > 0 {
        assert r[i].0 == PackageSuffixes[i - 1].0;
      }
    }
  }

  /** The position of a package key in the map, or -1. */
  function PackageRank(k: string): int {
    if k == "root" then 0
    else if k == "utils" then 1
    else if k == "domain_model" then 2
    else if k == "domain_ports_input" then 3
    else if k == "domain_ports_output" then 4
    else if k == "application_service" then 5
    else if k == "application_dto" then 6
    else if k == "application_mapper" then 7
    else if k == "infra_config" then 8
    else if k == "infra_config_exceptions" then 9
    else if k == "infra_adapters_input_rest" then 10
    else if k == "infra_adapters_output_persistence" then 11
    else if k == "infra_entity" then 12
    else if k == "infra_repository" then 13
    else if k == "infra_adapter" then 14
    else -1
  }

  /**
    The persistence packages extend the output-persistence adapter package,
    and the exceptions package extends the configuration package.
   */
  lemma PackageExtensions(base: string)
    ensures var ps := PackageStructure(base);
      && ps[0] == ("root", JStr(base))
      && ps[11].0 == "infra_adapters_output_persistence" && ps[11].1.JStr?
      && ps[12] == ("infra_entity", JStr(ps[11].1.s + ".entity"))
      && ps[13] == ("infra_repository", JStr(ps[11].1.s + ".repository"))
      && ps[14] == ("infra_adapter", JStr(ps[11].1.s + ".adapter"))
      && ps[8].0 == "infra_config" && ps[8].1.JStr?
      && ps[9] == ("infra_config_exceptions", JStr(ps[8].1.s + ".exceptions"))
  {
    var ps := PackageStructure(base);
    var p := base + "." + Persistence;
    assert ps[11].1.s == p;
    assert base + "." + (Persistence + ".entity") == p + ".entity";
    assert base + "." + (Persistence + ".repository") == p + ".repository";
    assert base + "." + (Persistence + ".adapter") == p + ".adapter";
    var c := base + "." + InfraConfig;
    assert ps[8].1.s == c;
    assert base + "." + (InfraConfig + ".exceptions") == c + ".exceptions";
  }

  // ---------------------------------------------------------------------
  // Database flags.

  /**
    `db_config.get('sgbd', 'h2').lower() if db_config else 'h2'`: a false
    (empty or null) configuration means `h2`; a true one must be an object
    whose `sgbd`, if present, is a string.
   */
  function DbType(db: Json): (r: Result<string>)
    ensures r.Ok? ==> NoUpper(r.value)
    ensures !Truthy(db) ==> r == Ok("h2")
    ensures db.JObj? && !Has(db, "sgbd") ==> r == Ok("h2")
    ensures db.JObj? && Get(db, "sgbd").Some? && Get(db, "sgbd").value.JStr? ==> r == Ok(Lower(Get(db, "sgbd").value.s))
  {
    if !Truthy(db) then Ok("h2")
    else if !db.JObj? then Err("database configuration has no get")
    else match Lookup(db.fields, "sgbd")
      case None => Ok("h2")
      case Some(JStr(s)) => Ok(Lower(s))
      case Some(_) => Err("sgbd has no lower")
  }

  /** The five flags, in the order the dictionary literal lists them. */
  function DbFlags(dbType: string): Fields {
    [ ("postgresql", JBool(dbType == "postgresql")),
      ("mysql", JBool(dbType == "mysql")),
      ("oracle", JBool(dbType == "oracle")),
      ("sqlserver", JBool(dbType == "sqlserver" || dbType == "msserver")),
      ("h2", JBool(dbType == "" || dbType == "h2")) ]
  }

  /** The names of the flags. */
  const FlagNames: seq<string> := ["postgresql", "mysql", "oracle", "sqlserver", "h2"]

  /**
    At most one flag is true; `sqlserver` stands for both SQL Server
    spellings; an unknown database leaves every flag false.
   */
  lemma DbFlagsExclusive(dbType: string)
    ensures |DbFlags(dbType)| == 5 && Keys(DbFlags(dbType)) == FlagNames
    ensures forall i, j | 0 <= i < j < 5 :: !(DbFlags(dbType)[i].1 == JBool(true) && DbFlags(dbType)[j].1 == JBool(true))
    ensures DbFlags(dbType)[3].1 == JBool(true) <==> dbType in {"sqlserver", "msserver"}
    ensures dbType !in {"postgresql", "mysql", "oracle", "sqlserver", "msserver", "", "h2"} ==>
      forall i | 0 <= i < 5 :: DbFlags(dbType)[i].1 == JBool(false)
  {
  }

  /**
    The `database` entry: the configuration's own members with the flags
    written over them. Unpacking `**db_config` needs a mapping, so a false
    value other than `{}` (such as `null`) fails here.
   */
  function Database(db: Json): (r: Result<Json>)
    ensures r.Ok? ==> db.JObj? && r.value.JObj?
    ensures r.Ok? ==> DbType(db).Ok?
    ensures r.Ok? ==> forall k :: Lookup(r.value.fields, k) == Latest(db.fields, [DbFlags(DbType(db).value)], k)
  {
    var dbType :- DbType(db);
    if !db.JObj? then Err("database configuration is not a mapping")
    else
      var flags := DbFlags(dbType);
      Ok(JObj(Update(db.fields, flags)))
  }

  // ---------------------------------------------------------------------
  // The template context.

  const SmithyModel: string := "user-service.smithy"
  const GeneratorVersion: string := "1.0.0"

  /** `config[k]` on a value that must be an object holding `k`. */
  function Member(j: Json, k: string): (r: Result<Json>)
    ensures r.Ok? <==> Has(j, k)
    ensures r.Ok? ==> Get(j, k) == Some(r.value)
  {
    if Has(j, k) then Ok(Get(j, k).value) else Err("missing key " + k)
  }

  /** `d.get(k, default)` on an object. */
  function GetOrDefault(fs: Fields, k: string, default: Json): (r: Json)
    ensures HasKey(fs, k) ==> Some(r) == Lookup(fs, k)
    ensures !HasKey(fs, k) ==> r == default
  {
    match Lookup(fs, k)
    case Some(v) => v
    case None => default
  }

  /** The parts of the configuration the context is built from. */
  datatype Parts = Parts(project: Json, params: Fields, options: Fields, general: Fields, database: Json)

  /**
    Reads `project`, `project.params`, `project.params.configOptions`,
    `project.general` and the database entry, failing where Python's
    subscripts or `update` would.
   */
  function ReadParts(config: Json): (r: Result<Parts>)
    ensures r.Ok? ==> config.JObj? && Get(config, "project") == Some(r.value.project)
    ensures r.Ok? ==> Get(r.value.project, "params") == Some(JObj(r.value.params))
    ensures r.Ok? ==> Lookup(r.value.params, "configOptions") == Some(JObj(r.value.options))
    ensures r.Ok? ==> Get(r.value.project, "general") == Some(JObj(r.value.general))
    ensures r.Ok? ==> Database(if Has(config, "database") then Get(config, "database").value else JObj([])) == Ok(r.value.database)
  {
    if !config.JObj? then Err("configuration is not an object")
    else
      var project :- Member(config, "project");
      var params :- Member(project, "params");
      var options :- Member(params, "configOptions");
      if !options.JObj? then Err("configOptions is not a mapping")
      else
        var general :- Member(project, "general");
        if !general.JObj? then Err("general has no get")
        else
          var database :- Database(if Has(config, "database") then Get(config, "database").value else JObj([]));
          Ok(Parts(project, params.fields, options.fields, general.fields, database))
  }

  /**
    `build_mustache_context`: the configuration, then its `configOptions`,
    then the target packages, then author/version/artifactVersion/project,
    then `params`; `infra` is restored, the database entry and two constants
    are written, and `maven` is restored last. Each assignment `d[k] = v` is a
    one-entry update (`Json.PutIsUpdate`).
   */
  function MustacheContext(config: Json, targets: Fields): (r: Result<Fields>)
    ensures r.Ok? <==> ReadParts(config).Ok?
    ensures r.Ok? ==> forall k :: Lookup(r.value, k) == Latest(config.fields, Layers(config, targets, ReadParts(config).value), k)
  {
    var parts :- ReadParts(config);
    Ok(Merge(config.fields, Layers(config, targets, parts)))
  }

  /** The layers written over the configuration, first to last. */
  function Layers(config: Json, targets: Fields, parts: Parts): (ls: seq<Fields>)
    requires config.JObj?
    ensures |ls| == 8 + (if Has(config, "infra") then 1 else 0) + (if Has(config, "maven") then 1 else 0)
    ensures ls[6] == parts.params
    ensures Has(config, "infra") ==> ls[7] == [("infra", Get(config, "infra").value)]
    ensures ls[if Has(config, "infra") then 8 else 7] == DatabaseEntries(parts.database)
    ensures Has(config, "maven") ==> ls[|ls| - 1] == [("maven", Get(config, "maven").value)]
  {
    [ parts.options,
      targets,
      [("author", GetOrDefault(parts.general, "author", JStr("Generator")))],
      [("version", GetOrDefault(parts.general, "version", JStr("1.0.0")))],
      [("artifactVersion", GetOrDefault(parts.params, "artifactVersion", JStr("1.0.0")))],
      [("project", parts.project)],
      parts.params ]
    + (if Has(config, "infra") then [[("infra", Get(config, "infra").value)]] else [])
    + [DatabaseEntries(parts.database)]
    + (if Has(config, "maven") then [[("maven", Get(config, "maven").value)]] else [])
  }

  /** The dictionary of line 90: the database entry and the two constants. */
  function DatabaseEntries(database: Json): Fields {
    [("database", database), ("smithyModel", JStr(SmithyModel)), ("generatorVersion", JStr(GeneratorVersion))]
  }

  /** The two constants are present whatever the configuration says. */
  lemma ContextConstants(config: Json, targets: Fields, parts: Parts)
    requires config.JObj?
    ensures var ctx := Merge(config.fields, Layers(config, targets, parts));
      Lookup(ctx, "smithyModel") == Some(JStr("user-service.smithy"))
      && Lookup(ctx, "generatorVersion") == Some(JStr("1.0.0"))
  {
    var entries := DatabaseEntries(parts.database);
    var i := DatabaseLayer(config, targets, parts);
    assert Keys(entries) == ["database", "smithyModel", "generatorVersion"];
    LookupDistinct(entries, 1);
    LookupDistinct(entries, 2);
    LatestFrom(config.fields, Layers(config, targets, parts), "smithyModel", i);
    LatestFrom(config.fields, Layers(config, targets, parts), "generatorVersion", i);
  }

  /** The database layer, and what follows it: at most the `maven` entry. */
  lemma DatabaseLayer(config: Json, targets: Fields, parts: Parts) returns (i: int)
    requires config.JObj?
    ensures var ls := Layers(config, targets, parts);
      && 0 <= i < |ls| && ls[i] == DatabaseEntries(parts.database)
      && forall j | i < j < |ls| :: Has(config, "maven") && ls[j] == [("maven", Get(config, "maven").value)]
  {
    var ls := Layers(config, targets, parts);
    i := if Has(config, "infra") then 8 else 7;
  }

  /** `infra` and `maven` from the configuration survive whatever `params` says. */
  lemma InfraMavenRestored(config: Json, targets: Fields, parts: Parts)
    requires config.JObj?
    ensures var ctx := Merge(config.fields, Layers(config, targets, parts));
      && (Has(config, "infra") ==> Lookup(ctx, "infra") == Get(config, "infra"))
      && (Has(config, "maven") ==> Lookup(ctx, "maven") == Get(config, "maven"))
  {
    if Has(config, "infra") {
      InfraRestored(config, targets, parts);
    }
    if Has(config, "maven") {
      MavenRestored(config, targets, parts);
    }
  }

  lemma InfraRestored(config: Json, targets: Fields, parts: Parts)
    requires config.JObj? && Has(config, "infra")
    ensures Lookup(Merge(config.fields, Layers(config, targets, parts)), "infra") == Get(config, "infra")
  {
    var ls := Layers(config, targets, parts);
    var i := DatabaseLayer(config, targets, parts);
    assert i == 8;
    assert ls[7] == [("infra", Get(config, "infra").value)];
    forall j | 7 < j < |ls|
      ensures !HasKey(ls[j], "infra")
    {
      if j == i {
        assert Keys(ls[j]) == ["database", "smithyModel", "generatorVersion"];
      } else {
        assert Keys(ls[j]) == ["maven"];
      }
    }
    SingleLayerWins(config.fields, ls, 7, "infra", Get(config, "infra").value);
  }

  lemma MavenRestored(config: Json, targets: Fields, parts: Parts)
    requires config.JObj? && Has(config, "maven")
    ensures Lookup(Merge(config.fields, Layers(config, targets, parts)), "maven") == Get(config, "maven")
  {
    var ls := Layers(config, targets, parts);
    assert ls[|ls| - 1] == [("maven", Get(config, "maven").value)];
    SingleLayerWins(config.fields, ls, |ls| - 1, "maven", Get(config, "maven").value);
  }

  /** A one-entry layer that no later layer overrides decides its key. */
  lemma SingleLayerWins(base: Fields, ls: seq<Fields>, i: int, k: string, v: Json)
    requires 0 <= i < |ls| && ls[i] == [(k, v)]
    requires forall j | i < j < |ls| :: !HasKey(ls[j], k)
    ensures Latest(base, ls, k) == Some(v)
  {
    assert Keys(ls[i]) == [k];
    LatestFrom(base, ls, k, i);
  }

  /** A key `params` sets keeps its value unless one of the five later writes names it. */
  lemma ParamsOverride(config: Json, targets: Fields, parts: Parts, k: string)
    requires config.JObj? && HasKey(parts.params, k)
    requires k != "infra" && k != "database" && k != "smithyModel" && k != "generatorVersion" && k != "maven"
    ensures Lookup(Merge(config.fields, Layers(config, targets, parts)), k) == Lookup(parts.params, k)
  {
    LaterLayers(config, targets, parts);
    LayerSevenWins(config.fields, Layers(config, targets, parts), k);
  }

  /** Over layers of which all after the seventh are later layers, the seventh decides any other key. */
  lemma LayerSevenWins(base: Fields, ls: seq<Fields>, k: string)
    requires 7 < |ls| && HasKey(ls[6], k) && forall j | 6 < j < |ls| :: LaterLayer(ls[j])
    requires k != "infra" && k != "database" && k != "smithyModel" && k != "generatorVersion" && k != "maven"
    ensures Latest(base, ls, k) == Lookup(ls[6], k)
  {
    forall j | 6 < j < |ls|
      ensures !HasKey(ls[j], k)
    {
      assert LaterLayer(ls[j]);
    }
    LatestFrom(base, ls, k, 6);
  }

  /** A layer written after `params`: `infra`, the database entries, or `maven`. */
  predicate LaterLayer(l: Fields) {
    Keys(l) == ["infra"] || Keys(l) == ["database", "smithyModel", "generatorVersion"] || Keys(l) == ["maven"]
  }

  lemma LaterLayers(config: Json, targets: Fields, parts: Parts)
    requires config.JObj?
    ensures var ls := Layers(config, targets, parts);
      && 7 < |ls| && ls[6] == parts.params
      && forall j | 6 < j < |ls| :: LaterLayer(ls[j])
  {
    var ls := Layers(config, targets, parts);
    var i := DatabaseLayer(config, targets, parts);
    assert Keys(ls[i]) == ["database", "smithyModel", "generatorVersion"];
    if Has(config, "infra") {
      assert Keys(ls[7]) == ["infra"];
    }
  }

  /** Without a database entry the context selects H2 and no other database. */
  lemma ContextDefaultsToH2(config: Json, targets: Fields)
    requires MustacheContext(config, targets).Ok? && !Has(config, "database")
    ensures var db := Lookup(MustacheContext(config, targets).value, "database");
      db.Some? && db.value.JObj? && Lookup(db.value.fields, "h2") == Some(JBool(true))
      && Lookup(db.value.fields, "postgresql") == Some(JBool(false))
      && Lookup(db.value.fields, "sqlserver") == Some(JBool(false))
  {
    var parts := ReadParts(config).value;
    DatabaseDefault();
    ContextDatabase(config, targets, parts);
  }

  /** The context's `database` entry is the one read from the configuration. */
  lemma ContextDatabase(config: Json, targets: Fields, parts: Parts)
    requires config.JObj?
    ensures Lookup(Merge(config.fields, Layers(config, targets, parts)), "database") == Some(parts.database)
  {
    var entries := DatabaseEntries(parts.database);
    var i := DatabaseLayer(config, targets, parts);
    assert Keys(entries) == ["database", "smithyModel", "generatorVersion"];
    LookupDistinct(entries, 0);
    LatestFrom(config.fields, Layers(config, targets, parts), "database", i);
  }

  /** An absent database entry reads as `{}`: H2 is on and the others off. */
  lemma DatabaseDefault()
    ensures Database(JObj([])).Ok?
    ensures var fs := Database(JObj([])).value.fields;
      Lookup(fs, "h2") == Some(JBool(true)) && Lookup(fs, "postgresql") == Some(JBool(false))
      && Lookup(fs, "sqlserver") == Some(JBool(false))
  {
    var flags := DbFlags("h2");
    assert forall a, b | 0 <= a < b < 5 :: flags[a].0 != flags[b].0;
    LookupDistinct(flags, 0);
    LookupDistinct(flags, 3);
    LookupDistinct(flags, 4);
  }
}

=== FILE: converter.dfy ===
/**
  The interface of the property converter the generators share. Its
  `convert_openapi_property` is not part of this model: callers receive it as
  a function from a property's name, its schema and the schema's `required`
  list to the variable's dictionary. What the generators do with the
  dictionaries it returns (collecting their `import` entries) is modelled here.
 */
module Converter {
  import opened Wrappers
  import opened Strings
  import opened Json

  /** `convert_openapi_property(prop_name, prop_data, required_fields)`. */
  type Convert = (string, Json, Json) -> Fields

  /** `schema.get('required', [])`. */
  function Required(schema: Json): (r: Json)
    ensures Has(schema, "required") ==> Some(r) == Get(schema, "required")
    ensures !Has(schema, "required") ==> r == JArr([])
  {
    match Get(schema, "required")
    case Some(v) => v
    case None => JArr([])
  }

  /** The import a variable asks for: a truthy string under `import`. */
  predicate Imports(info: Fields, x: string) {
    Lookup(info, "import") == Some(JStr(x)) && x != ""
  }

  /** The `import` entries of the variables, in variable order, with repeats. */
  function ImportList(infos: seq<Fields>): (r: seq<string>)
    ensures forall x :: x in r <==> exists i | 0 <= i < |infos| :: Imports(infos[i], x)
  {
    if |infos| == 0 then []
    else
      var n := |infos| - 1;
      var rest := ImportList(infos[..n]);
      assert forall i | 0 <= i < n :: infos[..n][i] == infos[i];
      match Lookup(infos[n], "import")
      case Some(JStr(x)) => if x != "" then rest + [x] else rest
      case _ => rest
  }

  /** `[{'import': imp} for imp in sorted(imports)]`: every requested import once, in ascending order. */
  function SortedImports(infos: seq<Fields>): (r: seq<string>)
    ensures StrictlySorted(r)
    ensures forall x :: x in r <==> exists i | 0 <= i < |infos| :: Imports(infos[i], x)
  {
    SortedSet(ImportList(infos))
  }
}

=== FILE: dto.dfy ===
/**
  The DTO generator (generators/dto_generator.py): the variables and imports
  of a DTO built from a schema, the choice of operations that get a composite
  request DTO, and that DTO's variables (required path parameters, then the
  request body).
 */
module Dto {
  import opened Wrappers
  import opened Strings
  import opened Json
  import opened Converter
  import OpenApi
  import Application

  /** `{application_dto}.{service}`. */
  function DtoPackage(dtoBase: string, service: string): string {
    dtoBase + "." + service
  }

  datatype DtoContext = DtoContext(packageName: string, classname: string, vars: seq<Fields>, imports: seq<string>)

  /** `generate_dto` up to rendering: one variable per property, in schema order. */
  function GenerateDto(schemaName: string, schema: Json, service: string, dtoBase: string, convert: Convert): (r: DtoContext)
    ensures var props := Properties(schema);
      && |r.vars| == |props|
      && forall i | 0 <= i < |props| :: r.vars[i] == convert(props[i].0, props[i].1, Required(schema))
    ensures StrictlySorted(r.imports)
    ensures forall x :: x in r.imports <==> exists i | 0 <= i < |r.vars| :: Imports(r.vars[i], x)
    ensures r.packageName == DtoPackage(dtoBase, service) && r.classname == schemaName
  {
    var props := Properties(schema);
    var vars := seq(|props|, i requires 0 <= i < |props| => convert(props[i].0, props[i].1, Required(schema)));
    DtoContext(DtoPackage(dtoBase, service), schemaName, vars, SortedImports(vars))
  }

  // ---------------------------------------------------------------------
  // Which operations get a composite request DTO.

  /** `operation.get('operationId', '')`, read as text. */
  function OperationIdText(operation: Json): string {
    match Get(operation, "operationId")
    case Some(JStr(s)) => s
    case _ => ""
  }

  /** A PUT or POST operation with a request body whose id starts with `Create` or `Update`. */
  predicate WantsComposite(verb: string, operation: Json) {
    (Upper(verb) == "PUT" || Upper(verb) == "POST")
    && Has(operation, "requestBody")
    && (StartsWith(OperationIdText(operation), "Create") || StartsWith(OperationIdText(operation), "Update"))
  }

  /** An operation chosen for a composite DTO, with the service of its document. */
  datatype CompositeOp = CompositeOp(operation: Json, operationId: string, service: string)

  function Chosen(verb: string, operation: Json, service: string): CompositeOp {
    CompositeOp(operation, OperationIdText(operation), service)
  }

  /** The chosen operations of one path, in method order. */
  function MethodComposites(methods: Fields, service: string): (r: seq<CompositeOp>)
    ensures forall c | c in r :: exists j | 0 <= j < |methods| ::
      WantsComposite(methods[j].0, methods[j].1) && c == Chosen(methods[j].0, methods[j].1, service)
    ensures forall j | 0 <= j < |methods| && WantsComposite(methods[j].0, methods[j].1) ::
      Chosen(methods[j].0, methods[j].1, service) in r
  {
    if |methods| == 0 then []
    else
      var n := |methods| - 1;
      assert forall j | 0 <= j < n :: methods[..n][j] == methods[j];
      MethodComposites(methods[..n], service)
        + if WantsComposite(methods[n].0, methods[n].1) then [Chosen(methods[n].0, methods[n].1, service)] else []
  }

  /** The chosen operations of a document, path by path. */
  function PathComposites(paths: Fields, service: string): (r: seq<CompositeOp>)
    ensures forall c :: c in r <==> exists i | 0 <= i < |paths| :: c in MethodComposites(FieldsOf(paths[i].1), service)
  {
    var parts := seq(|paths|, i requires 0 <= i < |paths| => MethodComposites(FieldsOf(paths[i].1), service));
    assert forall i | 0 <= i < |paths| :: parts[i] == MethodComposites(FieldsOf(paths[i].1), service);
    Flatten(parts)
  }

  /** The operations chosen in a document are those of its earlier paths, then those of its last path. */
  lemma PathCompositesStep(paths: Fields, service: string)
    requires |paths| > 0
    ensures var n := |paths| - 1;
      PathComposites(paths, service) == PathComposites(paths[..n], service) + MethodComposites(FieldsOf(paths[n].1), service)
  {
    var n := |paths| - 1;
    var parts := seq(|paths|, i requires 0 <= i < |paths| => MethodComposites(FieldsOf(paths[i].1), service));
    assert parts[..n] == seq(n, i requires 0 <= i < n => MethodComposites(FieldsOf(paths[..n][i].1), service));
  }

  /** The chosen operations of one document. */
  function SpecComposites(spec: OpenApi.SpecInfo): seq<CompositeOp> {
    PathComposites(GetFields(spec.spec, "paths"), spec.serviceName)
  }

  /** `generate_composite_request_dtos`: the chosen operations of every document, in order. */
  function CompositeOps(specs: seq<OpenApi.SpecInfo>): (r: seq<CompositeOp>)
    ensures forall c :: c in r <==> exists k | 0 <= k < |specs| :: c in SpecComposites(specs[k])
  {
    var parts := seq(|specs|, k requires 0 <= k < |specs| => SpecComposites(specs[k]));
    assert forall k | 0 <= k < |specs| :: parts[k] == SpecComposites(specs[k]);
    Flatten(parts)
  }

  /** What every operation chosen in a document satisfies. */
  lemma PathCompositesChosen(paths: Fields, service: string, c: CompositeOp)
    requires c in PathComposites(paths, service)
    ensures Has(c.operation, "requestBody")
    ensures StartsWith(c.operationId, "Create") || StartsWith(c.operationId, "Update")
    ensures c.service == service
  {
    var i :| 0 <= i < |paths| && c in MethodComposites(FieldsOf(paths[i].1), service);
    var methods := FieldsOf(paths[i].1);
    var j :| 0 <= j < |methods| && WantsComposite(methods[j].0, methods[j].1) && c == Chosen(methods[j].0, methods[j].1, service);
  }

  /** Every chosen operation has a body and a `Create…` or `Update…` id, and keeps its document's service. */
  lemma CompositeOpsChosen(specs: seq<OpenApi.SpecInfo>, c: CompositeOp)
    requires c in CompositeOps(specs)
    ensures Has(c.operation, "requestBody")
    ensures StartsWith(c.operationId, "Create") || StartsWith(c.operationId, "Update")
    ensures exists k | 0 <= k < |specs| :: c.service == specs[k].serviceName
  {
    var k :| 0 <= k < |specs| && c in SpecComposites(specs[k]);
    PathCompositesChosen(GetFields(specs[k].spec, "paths"), specs[k].serviceName, c);
  }

  // ---------------------------------------------------------------------
  // The composite request DTO.

  /**
    A variable of a composite DTO. Every such variable is `required` and has
    validation, so only the name, the Java type and the annotations vary.
   */
  datatype RequestVar = RequestVar(name: Json, dataType: string, validationAnnotations: seq<string>)

  /** `param.get('in') == 'path' and param.get('required')`. */
  predicate PathParam(param: Json) {
    Get(param, "in") == Some(JStr("path")) && Get(param, "required").Some? && Truthy(Get(param, "required").value)
  }

  /** The required path parameters, in parameter order. */
  function PathParams(params: seq<Json>): (r: seq<Json>)
    ensures forall p :: p in r <==> p in params && PathParam(p)
    ensures r == Filter(params, PathParam)
  {
    if |params| == 0 then []
    else
      var n := |params| - 1;
      assert params == params[..n] + [params[n]];
      PathParams(params[..n]) + if PathParam(params[n]) then [params[n]] else []
  }

  /** `param['name']`, when present. */
  function NameOf(param: Json): Json {
    match Get(param, "name")
    case Some(v) => v
    case None => JNull
  }

  /** The variable of a required path parameter. */
  function PathVar(param: Json): RequestVar {
    RequestVar(NameOf(param), "String", ["@NotNull"])
  }

  /** The `String` variable of each required path parameter; `param['name']` fails when missing. */
  function PathVars(params: seq<Json>): (r: Result<seq<RequestVar>>)
    ensures r.Ok? <==> forall p | p in params :: Has(p, "name")
    ensures r.Ok? ==> (
      && |r.value| == |params|
      && forall i | 0 <= i < |params| :: Get(params[i], "name") == Some(r.value[i].name)
           && r.value[i].dataType == "String" && r.value[i].validationAnnotations == ["@NotNull"])
  {
    if |params| == 0 then Ok([])
    else
      var n := |params| - 1;
      assert params == params[..n] + [params[n]];
      var rest :- PathVars(params[..n]);
      if Has(params[n], "name") then
        Ok(rest + [PathVar(params[n])])
      else Err("KeyError: 'name'")
  }

  /** `obj.get(k, {})` chained through the request body. */
  function Member(j: Json, k: string): Json {
    match Get(j, k)
    case Some(v) => v
    case None => JObj([])
  }

  /** `requestBody.content['application/json'].schema['$ref']`, or `''`. */
  function BodyRef(operation: Json): string {
    var schema := Member(Member(Member(Member(operation, "requestBody"), "content"), "application/json"), "schema");
    match Get(schema, "$ref")
    case Some(JStr(s)) => s
    case _ => ""
  }

  /** The `body` variable a body reference adds: typed by the reference's last `/` segment. */
  function BodyVars(operation: Json): (r: seq<RequestVar>)
    ensures |r| <= 1 && (|r| == 1 <==> BodyRef(operation) != "")
    ensures |r| == 1 ==> (
      && r[0].name == JStr("body") && r[0].validationAnnotations == ["@NotNull", "@Valid"]
      && '/' !in r[0].dataType && EndsWith(BodyRef(operation), r[0].dataType)
      && r[0].dataType == LastSegment(BodyRef(operation), '/'))
  {
    var ref := BodyRef(operation);
    if ref != "" then [RequestVar(JStr("body"), LastSegment(ref, '/'), ["@NotNull", "@Valid"])] else []
  }

  /** A reference `…/<name>` types the body with `<name>`, the text after its last `/`. */
  lemma BodyTypeIsRefName(operation: Json, prefix: string, name: string)
    requires BodyRef(operation) == prefix + "/" + name && '/' !in name
    ensures |BodyVars(operation)| == 1 && BodyVars(operation)[0].dataType == name
  {
    LastSegmentAfter(prefix, name, '/');
    assert prefix + "/" + name == prefix + ['/'] + name;
  }

  /** The one import a body reference adds: the referenced DTO in the service's package. */
  function BodyImports(operation: Json, dtoBase: string, service: string): (r: seq<string>)
    ensures |r| == |BodyVars(operation)|
    ensures |r| == 1 ==> r[0] == Application.DtoImport(dtoBase, service, BodyVars(operation)[0].dataType)
  {
    if BodyRef(operation) != "" then [Application.DtoImport(dtoBase, service, LastSegment(BodyRef(operation), '/'))] else []
  }

  datatype CompositeDto = CompositeDto(packageName: string, classname: string, vars: seq<RequestVar>, imports: seq<string>)

  /**
    `_generate_composite_request_dto` up to rendering: the required path
    parameters, then the body; nothing when there is neither.
   */
  function CompositeRequest(op: CompositeOp, dtoBase: string): (r: Result<Option<CompositeDto>>)
    ensures var params := PathParams(GetItems(op.operation, "parameters"));
      && (r.Ok? <==> PathVars(params).Ok?)
      && (r.Ok? ==> (r.value.None? <==> |params| == 0 && BodyRef(op.operation) == ""))
      && (r.Ok? && r.value.Some? ==> (
           && r.value.value.classname == op.operationId + "Request"
           && r.value.value.packageName == DtoPackage(dtoBase, op.service)
           && r.value.value.vars == PathVars(params).value + BodyVars(op.operation)
           && r.value.value.imports == BodyImports(op.operation, dtoBase, op.service)))
  {
    var params := PathParams(GetItems(op.operation, "parameters"));
    var pathVars :- PathVars(params);
    var vars := pathVars + BodyVars(op.operation);
    if |vars| == 0 then Ok(None)
    else Ok(Some(CompositeDto(DtoPackage(dtoBase, op.service), op.operationId + "Request", vars,
      BodyImports(op.operation, dtoBase, op.service))))
  }
}

=== FILE: fakedata.dfy ===
/**
  The deterministic part of the fake-data generator
  (pyfake-datagen/jsf_generator.py and schema_processor.py): finding local
  references in a schema, resolving them against the schema files of the
  same directory, the faker tags chosen by field name, and the choice of
  request schema files. The schema directory is a map from schema name to
  the contents of `<name>.json`.
 */
module FakeData {
  import opened Wrappers
  import opened Strings
  import opened Json

  // ---------------------------------------------------------------------
  // Unresolved references.

  /** An object whose `$ref` is a string starting with `#/`. */
  predicate LocalRefNode(j: Json) {
    j.JObj? &&
    match Lookup(j.fields, "$ref")
    case Some(JStr(ref)) => StartsWith(ref, "#/")
    case _ => false
  }

  /** `_has_unresolved_refs`: the node itself, then its values or items in turn. */
  predicate HasUnresolvedRefs(j: Json)
    decreases j
  {
    match j
    case JObj(fs) => LocalRefNode(j) || exists i | 0 <= i < |fs| :: HasUnresolvedRefs(fs[i].1)
    case JArr(items) => exists i | 0 <= i < |items| :: HasUnresolvedRefs(items[i])
    case _ => false
  }

  /** Every value inside `j`, `j` first, at any depth. */
  function Nodes(j: Json): (r: seq<Json>)
    ensures |r| > 0 && r[0] == j
    decreases j
  {
    match j
    case JObj(fs) => [j] + Flatten(seq(|fs|, i requires 0 <= i < |fs| => Nodes(fs[i].1)))
    case JArr(items) => [j] + Flatten(seq(|items|, i requires 0 <= i < |items| => Nodes(items[i])))
    case _ => [j]
  }

  /** Some node of `ns` satisfies `p`. */
  predicate Any(ns: seq<Json>, p: Json -> bool) {
    exists n | n in ns :: p(n)
  }

  /** A node of a root followed by the nodes of its parts is the root or lies in one part. */
  lemma AnyRootOrPart(j: Json, parts: seq<seq<Json>>, p: Json -> bool)
    ensures Any([j] + Flatten(parts), p) <==> p(j) || exists k | 0 <= k < |parts| :: Any(parts[k], p)
  {
    var nodes := [j] + Flatten(parts);
    if Any(nodes, p) {
      var n :| n in nodes && p(n);
      if n != j {
        assert n in Flatten(parts);
        var k :| 0 <= k < |parts| && n in parts[k];
        assert Any(parts[k], p);
      }
    }
    if exists k | 0 <= k < |parts| :: Any(parts[k], p) {
      var k :| 0 <= k < |parts| && Any(parts[k], p);
      var n :| n in parts[k] && p(n);
      assert n in Flatten(parts);
      assert n in nodes;
    }
    assert j in nodes;
  }

  /** Some node of `ns` has a local reference. */
  predicate AnyLocalRef(ns: seq<Json>) {
    Any(ns, LocalRefNode)
  }

  /** A schema has unresolved references exactly when some object at some depth has a local `$ref`. */
  lemma {:induction false} UnresolvedRefsAnywhere(j: Json)
    ensures HasUnresolvedRefs(j) <==> AnyLocalRef(Nodes(j))
    decreases j, 1
  {
    match j
    case JObj(fs) => UnresolvedRefsObject(fs);
    case JArr(items) => UnresolvedRefsArray(items);
    case _ =>
      assert Nodes(j) == [j];
      assert forall n | n in [j] :: n == j;
  }

  lemma {:induction false} UnresolvedRefsObject(fs: Fields)
    ensures HasUnresolvedRefs(JObj(fs)) <==> AnyLocalRef(Nodes(JObj(fs)))
    decreases JObj(fs), 0
  {
    var parts := seq(|fs|, i requires 0 <= i < |fs| => Nodes(fs[i].1));
    forall i | 0 <= i < |fs|
      ensures HasUnresolvedRefs(fs[i].1) == AnyLocalRef(parts[i])
    {
      UnresolvedRefsAnywhere(fs[i].1);
    }
    ChildNodes(JObj(fs), parts, Nodes(JObj(fs)));
  }

  lemma {:induction false} UnresolvedRefsArray(items: seq<Json>)
    ensures HasUnresolvedRefs(JArr(items)) <==> AnyLocalRef(Nodes(JArr(items)))
    decreases JArr(items), 0
  {
    var parts := seq(|items|, i requires 0 <= i < |items| => Nodes(items[i]));
    forall i | 0 <= i < |items|
      ensures HasUnresolvedRefs(items[i]) == AnyLocalRef(parts[i])
    {
      UnresolvedRefsAnywhere(items[i]);
    }
    ChildNodes(JArr(items), parts, Nodes(JArr(items)));
  }

  /** A local reference below the root lies in the nodes of one child. */
  lemma ChildNodes(j: Json, parts: seq<seq<Json>>, nodes: seq<Json>)
    requires nodes == [j] + Flatten(parts)
    ensures AnyLocalRef(nodes) <==> LocalRefNode(j) || exists k | 0 <= k < |parts| :: AnyLocalRef(parts[k])
  {
    AnyRootOrPart(j, parts, LocalRefNode);
  }

  // ---------------------------------------------------------------------
  // Resolving references against the schema directory.

  const SchemaRefPrefix: string := "#/components/schemas/"

  /**
    A referenced file's contents with `x-metadata` deleted. Deleting from
    anything but an object raises unless the key is absent, and testing for
    the key raises on null, numbers and booleans: each of these gives nothing.
   */
  function Loaded(v: Json): (r: Option<Json>)
    ensures v.JObj? ==> r == Some(JObj(Remove(v.fields, "x-metadata")))
  {
    match v
    case JObj(fs) => Some(JObj(Remove(fs, "x-metadata")))
    case JArr(items) => if JStr("x-metadata") in items then None else Some(v)
    case JStr(s) => if Contains(s, "x-metadata") then None else Some(v)
    case _ => None
  }

  /** The schema name a `$ref` names, when it points under `#/components/schemas/`. */
  function RefName(fs: Fields): (r: Option<string>)
    ensures r.Some? <==> (
      && Lookup(fs, "$ref").Some? && Lookup(fs, "$ref").value.JStr?
      && StartsWith(Lookup(fs, "$ref").value.s, SchemaRefPrefix))
    ensures r.Some? ==> '/' !in r.value
  {
    match Lookup(fs, "$ref")
    case Some(JStr(ref)) => if StartsWith(ref, SchemaRefPrefix) then Some(LastSegment(ref, '/')) else None
    case _ => None
  }

  /**
    A node with `$ref`: the named file's schema when the reference is under
    `#/components/schemas/` and the file exists, nothing otherwise.
   */
  function ResolveRef(fs: Fields, dir: Fields): (r: Option<Json>)
    ensures r.Some? ==> RefName(fs).Some? && HasKey(dir, RefName(fs).value)
    ensures RefName(fs).Some? && HasKey(dir, RefName(fs).value) && Lookup(dir, RefName(fs).value).value.JObj? ==>
      r == Some(JObj(Remove(Lookup(dir, RefName(fs).value).value.fields, "x-metadata")))
  {
    match RefName(fs)
    case Some(name) => if HasKey(dir, name) then Loaded(Lookup(dir, name).value) else None
    case None => None
  }

  /** The results of the members, when every one of them resolved. */
  function AllResolved(rs: seq<Option<Json>>): (r: Option<seq<Json>>)
    ensures r.Some? <==> forall i | 0 <= i < |rs| :: rs[i].Some?
    ensures r.Some? ==> |r.value| == |rs| && forall i | 0 <= i < |rs| :: Some(r.value[i]) == rs[i]
  {
    if forall i | 0 <= i < |rs| :: rs[i].Some? then Some(seq(|rs|, i requires 0 <= i < |rs| => rs[i].value))
    else None
  }

  /**
    `_resolve_refs`: a node with `$ref` is replaced by the referenced schema,
    which is not searched again; other objects and lists are resolved member
    by member, scalars kept; any failure anywhere gives nothing. Resolving a
    scalar keeps it, so resolving every member is the same as resolving only
    the objects and lists among them.
   */
  function ResolveRefs(j: Json, dir: Fields): (r: Option<Json>)
    ensures j.JObj? && !HasKey(j.fields, "$ref") && r.Some? ==> r.value.JObj? && Keys(r.value.fields) == Keys(j.fields)
    ensures j.JArr? && r.Some? ==> r.value.JArr? && |r.value.items| == |j.items|
    ensures !j.JObj? && !j.JArr? ==> r == Some(j)
    decreases j
  {
    match j
    case JObj(fs) =>
      if HasKey(fs, "$ref") then ResolveRef(fs, dir)
      else
        var rs := AllResolved(seq(|fs|, i requires 0 <= i < |fs| => ResolveRefs(fs[i].1, dir)));
        if rs.None? then None
        else Some(JObj(seq(|fs|, i requires 0 <= i < |fs| => (fs[i].0, rs.value[i]))))
    case JArr(items) =>
      var rs := AllResolved(seq(|items|, i requires 0 <= i < |items| => ResolveRefs(items[i], dir)));
      if rs.None? then None else Some(JArr(rs.value))
    case _ => Some(j)
  }

  /**
    An object without `$ref` resolves when every member does; each member of
    the result is the resolved member, under the same key and in the same place.
   */
  lemma ResolveRefsMembers(fs: Fields, dir: Fields)
    requires !HasKey(fs, "$ref")
    ensures ResolveRefs(JObj(fs), dir).Some? <==> forall i | 0 <= i < |fs| :: ResolveRefs(fs[i].1, dir).Some?
    ensures ResolveRefs(JObj(fs), dir).Some? ==>
      var r := ResolveRefs(JObj(fs), dir).value;
      && r.JObj? && |r.fields| == |fs|
      && forall i | 0 <= i < |fs| :: r.fields[i].0 == fs[i].0 && Some(r.fields[i].1) == ResolveRefs(fs[i].1, dir)
  {
  }

  /** A list resolves when every element does; each element of the result is the resolved element. */
  lemma ResolveRefsItems(items: seq<Json>, dir: Fields)
    ensures ResolveRefs(JArr(items), dir).Some? <==> forall i | 0 <= i < |items| :: ResolveRefs(items[i], dir).Some?
    ensures ResolveRefs(JArr(items), dir).Some? ==>
      var r := ResolveRefs(JArr(items), dir).value;
      && r.JArr? && |r.items| == |items|
      && forall i | 0 <= i < |items| :: Some(r.items[i]) == ResolveRefs(items[i], dir)
  {
    var rs := seq(|items|, i requires 0 <= i < |items| => ResolveRefs(items[i], dir));
    assert forall i | 0 <= i < |items| :: rs[i] == ResolveRefs(items[i], dir);
    assert ResolveRefs(JArr(items), dir) == if AllResolved(rs).None? then None else Some(JArr(AllResolved(rs).value));
  }

  /** The nodes resolution visits: everything down to, and including, the nodes with `$ref`. */
  function Visited(j: Json): (r: seq<Json>)
    ensures |r| > 0 && r[0] == j
    decreases j
  {
    match j
    case JObj(fs) =>
      if HasKey(fs, "$ref") then [j]
      else [j] + Flatten(seq(|fs|, i requires 0 <= i < |fs| => Visited(fs[i].1)))
    case JArr(items) => [j] + Flatten(seq(|items|, i requires 0 <= i < |items| => Visited(items[i])))
    case _ => [j]
  }

  /** A node with a reference that does not resolve. */
  predicate Blocked(n: Json, dir: Fields) {
    n.JObj? && HasKey(n.fields, "$ref") && ResolveRef(n.fields, dir).None?
  }

  /** Some node of `ns` is blocked. */
  predicate AnyBlocked(ns: seq<Json>, dir: Fields) {
    Any(ns, BlockedBy(dir))
  }

  function BlockedBy(dir: Fields): Json -> bool {
    n => Blocked(n, dir)
  }

  /**
    Resolution fails exactly when it reaches a reference that does not
    resolve: one that is not under `#/components/schemas/`, names a missing
    file, or names a file that cannot lose its `x-metadata`.
   */
  lemma {:induction false} ResolveFails(j: Json, dir: Fields)
    ensures ResolveRefs(j, dir).None? <==> AnyBlocked(Visited(j), dir)
    decreases j, 1
  {
    match j
    case JObj(fs) =>
      if HasKey(fs, "$ref") {
        assert Visited(j) == [j];
        AnySingle(j, BlockedBy(dir));
      } else {
        ResolveFailsObject(fs, dir);
      }
    case JArr(items) => ResolveFailsArray(items, dir);
    case _ =>
      assert Visited(j) == [j];
      AnySingle(j, BlockedBy(dir));
  }

  lemma {:induction false} ResolveFailsObject(fs: Fields, dir: Fields)
    requires !HasKey(fs, "$ref")
    ensures ResolveRefs(JObj(fs), dir).None? <==> AnyBlocked(Visited(JObj(fs)), dir)
    decreases JObj(fs), 0
  {
    var parts := seq(|fs|, i requires 0 <= i < |fs| => Visited(fs[i].1));
    forall i | 0 <= i < |fs|
      ensures ResolveRefs(fs[i].1, dir).None? == AnyBlocked(parts[i], dir)
    {
      ResolveFails(fs[i].1, dir);
    }
    BlockedChild(JObj(fs), dir, parts, Visited(JObj(fs)));
  }

  lemma {:induction false} ResolveFailsArray(items: seq<Json>, dir: Fields)
    ensures ResolveRefs(JArr(items), dir).None? <==> AnyBlocked(Visited(JArr(items)), dir)
    decreases JArr(items), 0
  {
    var parts := seq(|items|, i requires 0 <= i < |items| => Visited(items[i]));
    forall i | 0 <= i < |items|
      ensures ResolveRefs(items[i], dir).None? == AnyBlocked(parts[i], dir)
    {
      ResolveFails(items[i], dir);
    }
    ResolveArrayNone(items, dir);
    BlockedChild(JArr(items), dir, parts, Visited(JArr(items)));
  }

  /** A list fails to resolve exactly when one of its items does. */
  lemma ResolveArrayNone(items: seq<Json>, dir: Fields)
    ensures ResolveRefs(JArr(items), dir).None? <==> exists i | 0 <= i < |items| :: ResolveRefs(items[i], dir).None?
  {
    var rs := seq(|items|, i requires 0 <= i < |items| => ResolveRefs(items[i], dir));
    assert forall i | 0 <= i < |items| :: rs[i] == ResolveRefs(items[i], dir);
  }

  /** `p` holds of some node of a single node exactly when it holds of that node. */
  lemma AnySingle(j: Json, p: Json -> bool)
    ensures Any([j], p) <==> p(j)
  {
    assert j in [j];
  }

  /** A blocked node below the root lies in what one child visits. */
  lemma BlockedChild(j: Json, dir: Fields, parts: seq<seq<Json>>, nodes: seq<Json>)
    requires nodes == [j] + Flatten(parts) && !Blocked(j, dir)
    ensures AnyBlocked(nodes, dir) <==> exists k | 0 <= k < |parts| :: AnyBlocked(parts[k], dir)
  {
    AnyRootOrPart(j, parts, BlockedBy(dir));
  }

  /** A node with `$ref` visited by resolution. */
  predicate RefNode(n: Json) {
    n.JObj? && HasKey(n.fields, "$ref")
  }

  /** Nothing in `ns` holds a reference. */
  predicate NoRefNode(ns: seq<Json>) {
    !Any(ns, RefNode)
  }

  /** Without any reference on the way, resolution gives the schema back as it is. */
  lemma {:induction false} ResolveWithoutRefs(j: Json, dir: Fields)
    requires NoRefNode(Visited(j))
    ensures ResolveRefs(j, dir) == Some(j)
    decreases j, 1
  {
    assert j in Visited(j);
    match j
    case JObj(fs) => ResolveWithoutRefsObject(fs, dir);
    case JArr(items) => ResolveWithoutRefsArray(items, dir);
    case _ =>
  }

  lemma {:induction false} ResolveWithoutRefsObject(fs: Fields, dir: Fields)
    requires !HasKey(fs, "$ref") && NoRefNode(Visited(JObj(fs)))
    ensures ResolveRefs(JObj(fs), dir) == Some(JObj(fs))
    decreases JObj(fs), 0
  {
    var parts := seq(|fs|, i requires 0 <= i < |fs| => Visited(fs[i].1));
    assert Visited(JObj(fs)) == [JObj(fs)] + Flatten(parts);
    forall i | 0 <= i < |fs|
      ensures ResolveRefs(fs[i].1, dir) == Some(fs[i].1)
    {
      NoRefNodePart(JObj(fs), parts, i);
      ResolveWithoutRefs(fs[i].1, dir);
    }
    assert ResolveRefs(JObj(fs), dir).value.fields == fs;
  }

  lemma {:induction false} ResolveWithoutRefsArray(items: seq<Json>, dir: Fields)
    requires NoRefNode(Visited(JArr(items)))
    ensures ResolveRefs(JArr(items), dir) == Some(JArr(items))
    decreases JArr(items), 0
  {
    var parts := seq(|items|, i requires 0 <= i < |items| => Visited(items[i]));
    assert Visited(JArr(items)) == [JArr(items)] + Flatten(parts);
    forall i | 0 <= i < |items|
      ensures ResolveRefs(items[i], dir) == Some(items[i])
    {
      NoRefNodePart(JArr(items), parts, i);
      ResolveWithoutRefs(items[i], dir);
    }
    assert ResolveRefs(JArr(items), dir).value.items == items;
  }

  /** What holds of every node holds of every node of a part. */
  lemma NoRefNodePart(j: Json, parts: seq<seq<Json>>, i: int)
    requires 0 <= i < |parts| && NoRefNode([j] + Flatten(parts))
    ensures NoRefNode(parts[i])
  {
    AnyRootOrPart(j, parts, RefNode);
  }

  /** A reference to an existing schema file is replaced by that file's schema without its `x-metadata`. */
  lemma ResolveKnownRef(fs: Fields, dir: Fields, name: string)
    requires RefName(fs) == Some(name) && HasKey(dir, name) && Lookup(dir, name).value.JObj?
    ensures ResolveRefs(JObj(fs), dir) == Some(JObj(Remove(Lookup(dir, name).value.fields, "x-metadata")))
    ensures !Has(ResolveRefs(JObj(fs), dir).value, "x-metadata")
  {
  }

  /**
    The referenced schema is not resolved in turn: a file whose schema
    refers to another one leaves that reference in the result.
   */
  lemma ResolvedNotSearchedAgain(fs: Fields, dir: Fields, name: string)
    requires RefName(fs) == Some(name) && HasKey(dir, name) && LocalRefNode(Lookup(dir, name).value)
    ensures ResolveRefs(JObj(fs), dir).Some?
    ensures HasUnresolvedRefs(ResolveRefs(JObj(fs), dir).value)
  {
    var v := Lookup(dir, name).value;
    assert Lookup(Remove(v.fields, "x-metadata"), "$ref") == Lookup(v.fields, "$ref");
    assert LocalRefNode(JObj(Remove(v.fields, "x-metadata")));
  }

  /**
    The schema handed to the faker library by `generate_from_schema`: as
    loaded when it has no local reference, resolved otherwise, and nothing
    when resolution fails or leaves an empty schema.
   */
  function PrepareSchema(schema: Json, dir: Fields): (r: Option<Json>)
    ensures !HasUnresolvedRefs(schema) ==> r == Some(schema)
    ensures r.Some? && HasUnresolvedRefs(schema) ==> Truthy(r.value) && Some(r.value) == ResolveRefs(schema, dir)
  {
    if !HasUnresolvedRefs(schema) then Some(schema)
    else
      match ResolveRefs(schema, dir)
      case Some(s) => if Truthy(s) then Some(s) else None
      case None => None
  }

  /**
    A local reference outside `#/components/schemas/` (a `#/definitions/…`
    one, say) makes the whole schema unusable, while a reference that is not
    local at all is handed on untouched.
   */
  lemma OtherLocalRefSkipped(fs: Fields, dir: Fields)
    requires Lookup(fs, "$ref").Some? && Lookup(fs, "$ref").value.JStr?
    requires var ref := Lookup(fs, "$ref").value.s; StartsWith(ref, "#/") && !StartsWith(ref, SchemaRefPrefix)
    ensures PrepareSchema(JObj(fs), dir) == None
  {
    assert LocalRefNode(JObj(fs));
  }

  // ---------------------------------------------------------------------
  // Faker tags by field name.

  /** The faker tag `_apply_faker_patterns` gives a field, tested in the source's order. */
  function FakerTag(name: string): (r: Option<string>)
    ensures r.None? ==> (var l := Lower(name);
      !Contains(l, "id") && !Contains(l, "name") && !Contains(l, "date") && l != "email")
    ensures r.Some? ==> r.value in {"datatype.uuid", "name.firstName", "name.lastName", "date.recent", "internet.email"}
  {
    var l := Lower(name);
    if Contains(l, "id") || EndsWith(l, "id") then Some("datatype.uuid")
    else if l == "firstname" || Contains(l, "firstname") then Some("name.firstName")
    else if l == "lastname" || Contains(l, "lastname") then Some("name.lastName")
    else if Contains(l, "name") && !Contains(l, "lastname") && !Contains(l, "firstname") then Some("name.firstName")
    else if Contains(l, "date") then Some("date.recent")
    else if l == "email" then Some("internet.email")
    else None
  }

  /** The tag of the first keyword a lower-cased name contains; `email` must be the whole name. */
  function FirstKeywordTag(l: string): Option<string> {
    if Contains(l, "id") then Some("datatype.uuid")
    else if Contains(l, "firstname") then Some("name.firstName")
    else if Contains(l, "lastname") then Some("name.lastName")
    else if Contains(l, "name") then Some("name.firstName")
    else if Contains(l, "date") then Some("date.recent")
    else if l == "email" then Some("internet.email")
    else None
  }

  /**
    The tests written out in the source add nothing to a plain first-match
    on keywords: a name ending in `id` contains `id`, a name equal to a
    keyword contains it, and by the `name` test the first and last names are
    already taken.
   */
  lemma FakerTagIsFirstKeyword(name: string)
    ensures FakerTag(name) == FirstKeywordTag(Lower(name))
  {
    var l := Lower(name);
    if EndsWith(l, "id") {
      EndsWithContains(l, "id");
    }
    if l == "firstname" {
      assert OccursAt(l, "firstname", 0);
    }
    if l == "lastname" {
      assert OccursAt(l, "lastname", 0);
    }
  }

  /** Any name holding `id` is a uuid, even when the letters belong to another word. */
  lemma WidthIsUuid()
    ensures FakerTag("width") == Some("datatype.uuid")
    ensures FakerTag("valid") == Some("datatype.uuid")
  {
    LowerOfNoUpper("width");
    LowerOfNoUpper("valid");
    assert OccursAt("width", "id", 1);
    assert OccursAt("valid", "id", 3);
  }

  /** A user name is faked as a first name. */
  lemma UserNameIsFirstName()
    ensures FakerTag("userName") == Some("name.firstName")
  {
    var l := Lower("userName");
    assert l == "username";
    assert 'i' !in l && 'f' !in l && 'l' !in l;
    if Contains(l, "id") { ContainsFirstChar(l, "id"); }
    if Contains(l, "firstname") { ContainsFirstChar(l, "firstname"); }
    if Contains(l, "lastname") { ContainsFirstChar(l, "lastname"); }
    assert OccursAt(l, "name", 4);
  }

  // ---------------------------------------------------------------------
  // Tagging a schema.

  /** A property schema that gets a tag: an object with a `type`. */
  predicate Typed(p: Json) {
    p.JObj? && HasKey(p.fields, "type")
  }

  /**
    One property under `_apply_faker_patterns`: a typed schema takes the
    tag of its name and, when it has properties of its own, is tagged in
    turn; any other property schema is left as it is. The source writes the
    tag first and recurses afterwards; `TagBeforeRecursing` shows the order
    does not matter.
   */
  function TagProperty(name: string, p: Json): (r: Json)
    ensures !Typed(p) ==> r == p
    ensures Typed(p) ==> r.JObj? && Lookup(r.fields, "type").Some?
    ensures Typed(p) && FakerTag(name).Some? ==> Get(r, "faker") == Some(JStr(FakerTag(name).value))
    decreases p, 1
  {
    if Typed(p) then
      var inner := if HasKey(p.fields, "properties") then ApplyFaker(p) else p;
      match FakerTag(name)
      case Some(t) => JObj(Put(inner.fields, "faker", JStr(t)))
      case None => inner
    else p
  }

  /**
    `_apply_faker_patterns`: the properties of an object tagged one by one,
    and every other object-valued member tagged in turn. Lists are not
    entered.
   */
  function ApplyFaker(j: Json): (r: Json)
    ensures j.JObj? <==> r.JObj?
    ensures j.JObj? ==> Keys(r.fields) == Keys(j.fields)
    ensures !j.JObj? ==> r == j
    decreases j, 0
  {
    match j
    case JObj(fs) =>
      var props := (
        match Lookup(fs, "properties")
        case Some(JObj(ps)) =>
          LookupIn(fs, "properties");
          Some(JObj(seq(|ps|, i requires 0 <= i < |ps| => (ps[i].0, TagProperty(ps[i].0, ps[i].1)))))
        case _ => None);
      JObj(seq(|fs|, i requires 0 <= i < |fs| =>
        if fs[i].0 == "properties" then (if props.Some? then ("properties", props.value) else fs[i])
        else if fs[i].1.JObj? then (fs[i].0, ApplyFaker(fs[i].1))
        else fs[i]))
    case _ => j
  }

  /** The properties of an object, each tagged under its own name. */
  function TaggedProperties(fs: Fields): (r: Option<Json>)
    ensures r.Some? <==> PropertyMembers(fs).Some?
    ensures r.Some? ==> r.value.JObj? && Keys(r.value.fields) == Keys(PropertyMembers(fs).value)
  {
    match PropertyMembers(fs)
    case Some(ps) => Some(JObj(MapValues(ps, TagProperty)))
    case None => None
  }

  /** What tagging does to the member `(k, v)` of an object whose tagged properties are `props`. */
  function MemberTagger(props: Option<Json>): (string, Json) -> Json {
    (k, v) =>
      if k == "properties" then (if props.Some? then props.value else v)
      else if v.JObj? then ApplyFaker(v)
      else v
  }

  /** Tagging an object is tagging each member in place. */
  lemma ApplyFakerMembers(fs: Fields)
    ensures ApplyFaker(JObj(fs)).fields == MapValues(fs, MemberTagger(TaggedProperties(fs)))
  {
    var props := TaggedProperties(fs);
    match Lookup(fs, "properties")
    case Some(JObj(ps)) =>
      assert JObj(seq(|ps|, i requires 0 <= i < |ps| => (ps[i].0, TagProperty(ps[i].0, ps[i].1)))) == props.value;
    case _ =>
  }

  /**
    Key by key: the properties are replaced by the tagged properties, other
    objects are tagged, and everything else, lists included, is kept.
   */
  lemma ApplyFakerLookup(fs: Fields, k: string)
    ensures Lookup(ApplyFaker(JObj(fs)).fields, k) ==
      if k == "properties" && PropertyMembers(fs).Some? then TaggedProperties(fs)
      else if HasKey(fs, k) && Lookup(fs, k).value.JObj? && k != "properties" then Some(ApplyFaker(Lookup(fs, k).value))
      else Lookup(fs, k)
  {
    ApplyFakerMembers(fs);
    LookupMapValues(fs, MemberTagger(TaggedProperties(fs)), k);
  }

  /** Every typed property takes the tag of its name. */
  lemma PropertyTagged(fs: Fields, i: int)
    requires PropertyMembers(fs).Some? && 0 <= i < |PropertyMembers(fs).value|
    requires Typed(PropertyMembers(fs).value[i].1) && FakerTag(PropertyMembers(fs).value[i].0).Some?
    ensures var tagged := Lookup(ApplyFaker(JObj(fs)).fields, "properties");
      && tagged.Some? && tagged.value.JObj? && |tagged.value.fields| > i
      && tagged.value.fields[i].0 == PropertyMembers(fs).value[i].0
      && Get(tagged.value.fields[i].1, "faker") == Some(JStr(FakerTag(PropertyMembers(fs).value[i].0).value))
  {
    ApplyFakerLookup(fs, "properties");
  }

  /**
    The source's order, tag first and then recurse, gives the same schema:
    tagging never touches the string under `faker`, and the tag then
    replaces whatever tagging did to an earlier `faker` member.
   */
  lemma TagBeforeRecursing(p: Json, t: string)
    requires p.JObj?
    ensures ApplyFaker(JObj(Put(p.fields, "faker", JStr(t)))) == JObj(Put(ApplyFaker(p).fields, "faker", JStr(t)))
  {
    var fs := p.fields;
    var gs := Put(fs, "faker", JStr(t));
    assert Lookup(gs, "properties") == Lookup(fs, "properties");
    assert TaggedProperties(gs) == TaggedProperties(fs);
    var f := MemberTagger(TaggedProperties(fs));
    ApplyFakerMembers(fs);
    ApplyFakerMembers(gs);
    assert f("faker", JStr(t)) == JStr(t);
    MapValuesPut(fs, f, "faker", JStr(t));
  }

  /** Writing a member that the map leaves as it is commutes with the map. */
  lemma MapValuesPut(fs: Fields, f: (string, Json) -> Json, k: string, v: Json)
    requires f(k, v) == v
    ensures MapValues(Put(fs, k, v), f) == Put(MapValues(fs, f), k, v)
  {
    var m := MapValues(fs, f);
    var lhs := MapValues(Put(fs, k, v), f);
    var rhs := Put(m, k, v);
    assert HasKey(m, k) == HasKey(fs, k);
    if HasKey(fs, k) {
      assert Put(fs, k, v) == Rebind(fs, k, v);
      assert rhs == Rebind(m, k, v);
      forall i | 0 <= i < |lhs|
        ensures lhs[i] == rhs[i]
      {
        assert m[i].0 == fs[i].0;
      }
    } else {
      assert Put(fs, k, v) == fs + [(k, v)];
      assert rhs == m + [(k, v)];
      forall i | 0 <= i < |lhs|
        ensures lhs[i] == rhs[i]
      {
        if i < |fs| {
          assert Put(fs, k, v)[i] == fs[i];
        }
      }
    }
  }

  // ---------------------------------------------------------------------
  // Choosing the request schema files.

  /** `find_request_schemas`' test on a file's stem. */
  predicate RequestStem(stem: string) {
    && Contains(stem, "Request")
    && !Contains(stem, "Response")
    && !Contains(stem, "Content")
    && stem !in ["all_schemas", "generation_report"]
  }

  /** The stems of the directory's `.json` files that name request schemas, in listing order. */
  function FindRequestSchemas(stems: seq<string>): (r: seq<string>)
    ensures forall s :: s in r <==> s in stems && RequestStem(s)
    ensures forall s | s in r :: Contains(s, "Request") && !Contains(s, "Response") && !Contains(s, "Content")
  {
    if |stems| == 0 then []
    else
      var n := |stems| - 1;
      assert stems == stems[..n] + [stems[n]];
      FindRequestSchemas(stems[..n]) + if RequestStem(stems[n]) then [stems[n]] else []
  }

  /** Choosing from two listings one after the other is choosing from each in turn: the order is kept. */
  lemma {:induction false} FindRequestSchemasAppend(a: seq<string>, b: seq<string>)
    ensures FindRequestSchemas(a + b) == FindRequestSchemas(a) + FindRequestSchemas(b)
    decreases |b|
  {
    if |b| > 0 {
      var n := |b| - 1;
      assert (a + b)[..|a + b| - 1] == a + b[..n];
      assert (a + b)[|a + b| - 1] == b[n];
      FindRequestSchemasAppend(a, b[..n]);
    } else {
      assert a + b == a;
    }
  }

  /** The two stems excluded by name cannot pass the first test anyway. */
  lemma ExcludedStemsRedundant(stem: string)
    ensures RequestStem(stem) <==> Contains(stem, "Request") && !Contains(stem, "Response") && !Contains(stem, "Content")
  {
    if stem == "all_schemas" || stem == "generation_report" {
      if Contains(stem, "Request") {
        ContainsFirstChar(stem, "Request");
      }
    }
  }
}

=== FILE: infrastructure.dfy ===
/**
  The infrastructure layer of the OpenAPI to Java generator
  (generators/infrastructure_generator.py): the fields of the JPA entity and
  its table name, the search query of the JPA repository, and the REST
  controller's split of an entity's operations into CRUD and complex ones
  with the DTO imports and path segments that follow.

  The property converter is a parameter (see the Converter module).
 */
module Infrastructure {
  import opened Wrappers
  import opened Strings
  import opened Json
  import opened Naming
  import opened Converter
  import Application

  // ---------------------------------------------------------------------
  // The JPA entity.

  /** The entity's own key, `{entity.lower()}Id`. */
  function PrimaryKey(entity: string): string {
    Lower(entity) + "Id"
  }

  /** The audit and status columns the entity class declares itself. */
  predicate Managed(name: string) {
    name == "createdAt" || name == "updatedAt" || name == "status"
  }

  /** `is_regular_field or is_relation_field`. */
  predicate Selected(name: string, entity: string) {
    var isPrimaryKey := name == PrimaryKey(entity);
    var isRelation := EndsWith(name, "Id") && !isPrimaryKey;
    var isRegular := !Managed(name) && !EndsWith(name, "Id");
    isRegular || isRelation
  }

  /** A property is kept exactly when it is neither the entity's key nor a managed column. */
  lemma SelectedIff(name: string, entity: string)
    ensures Selected(name, entity) <==> name != PrimaryKey(entity) && !Managed(name)
  {
    if Managed(name) {
      assert name[|name| - 1] != 'd';
    }
  }

  /**
    A variable of the entity: the converter's dictionary `info`, over which the
    generator writes the four flags `isIdField`, `isTimestampField`,
    `isStatusField` and `isRelationField`.
   */
  datatype EntityVar = EntityVar(
    name: string, info: Fields,
    isIdField: bool, isTimestampField: bool, isStatusField: bool, isRelationField: bool)

  /** The variable of one property. */
  function MakeVar(name: string, data: Json, entity: string, required: Json, convert: Convert): EntityVar {
    EntityVar(name, convert(name, data, required),
      name == PrimaryKey(entity), name == "createdAt" || name == "updatedAt", name == "status",
      EndsWith(name, "Id") && name != PrimaryKey(entity))
  }

  /** Whether a property is one of the entity's variables. */
  function SelectedFor(entity: string): ((string, Json)) -> bool {
    (x: (string, Json)) => Selected(x.0, entity)
  }

  /** The properties the entity declares as variables, in schema order. */
  function SelectedProps(props: Fields, entity: string): (r: Fields)
    ensures forall x :: x in r <==> x in props && Selected(x.0, entity)
    ensures r == Filter(props, SelectedFor(entity))
  {
    if |props| == 0 then []
    else
      var n := |props| - 1;
      assert props == props[..n] + [props[n]];
      SelectedProps(props[..n], entity) + if Selected(props[n].0, entity) then [props[n]] else []
  }

  /** The variables of the selected properties, in schema order. */
  function EntityVars(props: Fields, entity: string, required: Json, convert: Convert): (r: seq<EntityVar>)
    ensures var sel := SelectedProps(props, entity);
      && |r| == |sel|
      && forall i | 0 <= i < |r| :: r[i].name == sel[i].0 && r[i].info == convert(sel[i].0, sel[i].1, required)
  {
    var sel := SelectedProps(props, entity);
    seq(|sel|, i requires 0 <= i < |sel| => MakeVar(sel[i].0, sel[i].1, entity, required, convert))
  }

  /** No emitted variable is flagged as key, timestamp or status; the relation flag marks the `…Id` names. */
  lemma EntityVarFlags(props: Fields, entity: string, required: Json, convert: Convert, i: int)
    requires 0 <= i < |EntityVars(props, entity, required, convert)|
    ensures var v := EntityVars(props, entity, required, convert)[i];
      && !v.isIdField && !v.isTimestampField && !v.isStatusField
      && (v.isRelationField <==> EndsWith(v.name, "Id"))
      && v.name != PrimaryKey(entity) && !Managed(v.name)
  {
    var sel := SelectedProps(props, entity);
    assert sel[i] in sel;
    SelectedIff(sel[i].0, entity);
  }

  /** The converter's dictionaries of the variables. */
  function Infos(vars: seq<EntityVar>): (r: seq<Fields>)
    ensures |r| == |vars| && forall i | 0 <= i < |vars| :: r[i] == vars[i].info
  {
    seq(|vars|, i requires 0 <= i < |vars| => vars[i].info)
  }

  datatype EntityContext = EntityContext(
    vars: Option<seq<EntityVar>>,
    imports: Option<seq<string>>,
    entityVarName: string,
    tableName: string)

  /**
    `generate_entity` up to rendering. Without a (truthy) schema `vars` and
    `imports` are not set.
   */
  function Entity(entity: string, schema: Json, convert: Convert): (r: EntityContext)
    ensures r.vars.Some? <==> Truthy(schema)
    ensures r.imports.Some? <==> Truthy(schema)
    ensures r.vars.Some? ==> |r.vars.value| == |SelectedProps(Properties(schema), entity)|
    ensures r.vars.Some? ==> r.vars.value == EntityVars(Properties(schema), entity, Required(schema), convert)
    ensures r.imports.Some? ==> (
      && StrictlySorted(r.imports.value)
      && forall x :: x in r.imports.value <==> exists i | 0 <= i < |r.vars.value| :: Imports(r.vars.value[i].info, x))
    ensures r.tableName == PluralLower(Lower(entity))
    ensures NoUpper(r.tableName) && EndsWith(r.tableName, "s")
  {
    PluralizeLowered(entity);
    var table := Pluralize(Lower(entity));
    if Truthy(schema) then
      var vars := EntityVars(Properties(schema), entity, Required(schema), convert);
      EntityContext(Some(vars), Some(SortedImports(Infos(vars))), Lower(entity), table)
    else EntityContext(None, None, Lower(entity), table)
  }

  // ---------------------------------------------------------------------
  // The JPA repository.

  /** A string property whose lower-cased name mentions a searchable word, or a user name or e-mail. */
  predicate Searchable(name: string, data: Json) {
    Get(data, "type") == Some(JStr("string"))
    && (Contains(Lower(name), "name") || Contains(Lower(name), "title")
        || Contains(Lower(name), "description") || Contains(Lower(name), "status")
        || name == "username" || name == "email")
  }

  /** `Searchable` of a property. */
  predicate SearchableProp(x: (string, Json)) {
    Searchable(x.0, x.1)
  }

  /** The search fields, in schema order. */
  function SearchFields(props: Fields): (r: seq<string>)
    ensures |r| <= |props|
    ensures forall f | f in r :: exists i | 0 <= i < |props| :: props[i].0 == f && Searchable(f, props[i].1)
    ensures forall i | 0 <= i < |props| && Searchable(props[i].0, props[i].1) :: props[i].0 in r
  {
    if |props| == 0 then []
    else
      var n := |props| - 1;
      assert forall i | 0 <= i < n :: props[..n][i] == props[i];
      SearchFields(props[..n]) + if Searchable(props[n].0, props[n].1) then [props[n].0] else []
  }

  /** The search fields keep schema order: the names of a filter of the properties. */
  lemma {:induction false} SearchFieldsInOrder(props: Fields)
    ensures SearchFields(props) == Keys(Filter(props, SearchableProp))
  {
    if |props| > 0 {
      var n := |props| - 1;
      SearchFieldsInOrder(props[..n]);
      var front := Filter(props[..n], SearchableProp);
      var tail := if Searchable(props[n].0, props[n].1) then [props[n]] else [];
      assert Filter(props, SearchableProp) == front + tail;
      assert Keys(front + tail) == Keys(front) + Keys(tail);
    }
  }

  /** The condition for one field. */
  function FieldClause(field: string): string {
    "LOWER(e." + field + ") LIKE LOWER(CONCAT('%', :search, '%'))"
  }

  /** The condition used when there is no search field. */
  const IdClause: string := "LOWER(CAST(e.id AS string)) LIKE LOWER(CONCAT('%', :search, '%'))"

  /** The field conditions joined with ` OR `; the id condition alone when there are none. */
  function SearchQuery(fields: seq<string>): (r: string)
    ensures |fields| == 0 ==> r == IdClause
    ensures |fields| == 1 ==> r == FieldClause(fields[0])
    ensures |fields| >= 2 ==> r == FieldClause(fields[0]) + " OR " + SearchQuery(fields[1..])
    ensures forall f | f in fields :: Contains(r, FieldClause(f))
  {
    if |fields| == 0 then IdClause
    else
      var clauses := Map(fields, FieldClause);
      JoinContains(clauses, " OR ");
      assert clauses[1..] == Map(fields[1..], FieldClause);
      assert |fields| == 1 ==> Join(clauses, " OR ") == clauses[0];
      forall f | f in fields
        ensures Contains(Join(clauses, " OR "), FieldClause(f))
      {
        var i :| 0 <= i < |fields| && fields[i] == f;
        assert clauses[i] == FieldClause(f);
      }
      Join(clauses, " OR ")
  }

  /** Every part of a join occurs in it. */
  lemma {:induction false} JoinContains(parts: seq<string>, sep: string)
    ensures forall i | 0 <= i < |parts| :: Contains(Join(parts, sep), parts[i])
    decreases |parts|
  {
    if |parts| > 1 {
      JoinContains(parts[1..], sep);
      var j := Join(parts, sep);
      var rest := Join(parts[1..], sep);
      assert j == parts[0] + sep + rest;
      assert OccursAt(j, parts[0], 0) by {
        assert j[..|parts[0]|] == parts[0];
      }
      forall i | 1 <= i < |parts|
        ensures Contains(j, parts[i])
      {
        assert parts[1..][i - 1] == parts[i];
        var k :| 0 <= k <= |rest| && OccursAt(rest, parts[i], k);
        var off := |parts[0]| + |sep|;
        assert j[off + k..off + k + |parts[i]|] == rest[k..k + |parts[i]|];
        assert OccursAt(j, parts[i], off + k);
      }
    } else if |parts| == 1 {
      assert OccursAt(parts[0], parts[0], 0);
    }
  }

  datatype RepositoryContext = RepositoryContext(searchFields: seq<string>, searchQuery: string, hasSearchFields: bool)

  /** `generate_jpa_repository` up to rendering. */
  function Repository(schema: Json): (r: RepositoryContext)
    ensures !Truthy(schema) ==> r.searchFields == [] && r.searchQuery == IdClause
    ensures Truthy(schema) ==> r.searchFields == SearchFields(Properties(schema))
    ensures r.hasSearchFields <==> |r.searchFields| > 0
    ensures |r.searchFields| == 0 ==> r.searchQuery == IdClause
    ensures forall f | f in r.searchFields :: Contains(r.searchQuery, FieldClause(f))
    ensures r.searchQuery == SearchQuery(r.searchFields)
  {
    var fields := if Truthy(schema) then SearchFields(Properties(schema)) else [];
    RepositoryContext(fields, SearchQuery(fields), |fields| > 0)
  }

  // ---------------------------------------------------------------------
  // The REST controller.

  /** `any(op.startswith(prefix + entity) ...) or op == f'List{entity}s'`. */
  predicate CrudOp(op: string, entity: string) {
    StartsWith(op, "Create" + entity) || StartsWith(op, "Get" + entity) || StartsWith(op, "Update" + entity)
    || StartsWith(op, "Delete" + entity) || op == "List" + entity + "s"
  }

  /** `CrudOp` for one entity. */
  function CrudOf(entity: string): string -> bool {
    op => CrudOp(op, entity)
  }

  /** Not `CrudOp` for one entity. */
  function ComplexOf(entity: string): string -> bool {
    op => !CrudOp(op, entity)
  }

  /** The CRUD operations, in order. */
  function CrudOps(ops: seq<string>, entity: string): (r: seq<string>)
    ensures forall x :: x in r <==> x in ops && CrudOp(x, entity)
    ensures r == Filter(ops, CrudOf(entity))
  {
    if |ops| == 0 then []
    else
      var n := |ops| - 1;
      assert ops == ops[..n] + [ops[n]];
      CrudOps(ops[..n], entity) + if CrudOp(ops[n], entity) then [ops[n]] else []
  }

  /** `[op for op in operations if op not in crud_operations]`. */
  function ComplexOps(ops: seq<string>, entity: string): (r: seq<string>)
    ensures forall x :: x in r <==> x in ops && !CrudOp(x, entity)
    ensures r == Filter(ops, ComplexOf(entity))
  {
    if |ops| == 0 then []
    else
      var n := |ops| - 1;
      assert ops == ops[..n] + [ops[n]];
      ComplexOps(ops[..n], entity) + if !(ops[n] in CrudOps(ops, entity)) then [ops[n]] else []
  }

  /** The CRUD and complex operations split the list: together they are a permutation of it. */
  lemma CrudComplexPartition(ops: seq<string>, entity: string)
    ensures multiset(CrudOps(ops, entity)) + multiset(ComplexOps(ops, entity)) == multiset(ops)
  {
    FilterSplit(ops, CrudOf(entity), ComplexOf(entity));
  }

  /**
    A CRUD test by prefix: `GetUserByEmail` counts as a CRUD operation of
    `User`, so it is not listed among the controller's complex operations.
   */
  lemma PrefixedIsCrud(entity: string, more: string)
    ensures CrudOp("Get" + entity + more, entity)
    ensures ComplexOps(["Get" + entity + more], entity) == []
  {
    assert ("Get" + entity + more)[..|"Get" + entity|] == "Get" + entity;
  }

  /**
    The path segment of a complex operation: a `Get…` operation is lower-cased,
    loses every `get` and has each `by` widened to `-by-`; any other is only
    lower-cased.
   */
  function PathSegment(op: string): (r: string)
    ensures NoUpper(r)
    ensures !StartsWith(op, "Get") ==> r == Lower(op)
  {
    if StartsWith(op, "Get") then
      var a := Replace(Lower(op), "get", "");
      ReplaceNoUpper(Lower(op), "get", "");
      ReplaceNoUpper(a, "by", "-by-");
      Replace(a, "by", "-by-")
    else Lower(op)
  }

  /** Replacing with lower-case text keeps a text free of capitals. */
  lemma {:induction false} ReplaceNoUpper(s: string, pat: string, rep: string)
    requires |pat| > 0 && NoUpper(s) && NoUpper(rep)
    ensures NoUpper(Replace(s, pat, rep))
    decreases |s|
  {
    if |s| >= |pat| {
      if s[..|pat|] == pat {
        ReplaceNoUpper(s[|pat|..], pat, rep);
      } else {
        ReplaceNoUpper(s[1..], pat, rep);
      }
    }
  }

  /** The `Get` prefix of an operation is dropped from its path segment. */
  lemma PathSegmentGet(w: string)
    ensures PathSegment("Get" + w) == Replace(Replace(Lower(w), "get", ""), "by", "-by-")
  {
    var op := "Get" + w;
    assert op[..3] == "Get";
    LowerAppend("Get", w);
    var g := Lower("Get");
    assert g == "get" by {
      assert |g| == 3 && g[0] == 'g' && g[1] == 'e' && g[2] == 't';
    }
    assert Lower(op) == "get" + Lower(w);
    ReplaceLeading("get", Lower(w), "");
    assert Replace(Lower(op), "get", "") == Replace(Lower(w), "get", "");
    assert StartsWith(op, "Get");
  }

  /** One element of the controller's `complexOperations`. */
  datatype ControllerOp = ControllerOp(operationId: string, methodName: string, pathSegment: string, responseType: string)

  function ControllerInfo(op: string): (r: ControllerOp)
    ensures r.operationId == op && r.responseType == op + "ResponseContent"
    ensures r.methodName == Application.MethodName(op) && NoUpper(r.pathSegment)
    ensures r.pathSegment == PathSegment(op)
  {
    ControllerOp(op, Application.MethodName(op), PathSegment(op), op + "ResponseContent")
  }

  /** `has…` by exact operation id. */
  function ControllerFlags(entity: string, ops: seq<string>): (r: Application.Flags)
    ensures r.hasCreate <==> "Create" + entity in ops
    ensures r.hasGet <==> "Get" + entity in ops
    ensures r.hasUpdate <==> "Update" + entity in ops
    ensures r.hasDelete <==> "Delete" + entity in ops
    ensures r.hasList <==> "List" + entity + "s" in ops
  {
    Application.Flags("Create" + entity in ops, "Get" + entity in ops, "Update" + entity in ops,
      "Delete" + entity in ops, "List" + entity + "s" in ops)
  }

  /**
    The imports the CRUD flags ask for, in the order create request and
    response, get, update request and response, delete, list: each flagged
    import sits after exactly the imports flagged before it.
   */
  function CrudImports(dtoPackage: string, service: string, entity: string, flags: Application.Flags): (r: seq<string>)
    ensures |r| == (if flags.hasCreate then 2 else 0) + (if flags.hasGet then 1 else 0)
      + (if flags.hasUpdate then 2 else 0) + (if flags.hasDelete then 1 else 0) + (if flags.hasList then 1 else 0)
    ensures flags.hasCreate ==>
      (r[0] == Application.DtoImport(dtoPackage, service, "Create" + entity + "RequestContent")
       && r[1] == Application.DtoImport(dtoPackage, service, "Create" + entity + "ResponseContent"))
    ensures var g := if flags.hasCreate then 2 else 0;
      flags.hasGet ==> r[g] == Application.DtoImport(dtoPackage, service, "Get" + entity + "ResponseContent")
    ensures var u := (if flags.hasCreate then 2 else 0) + (if flags.hasGet then 1 else 0);
      flags.hasUpdate ==>
        (r[u] == Application.DtoImport(dtoPackage, service, "Update" + entity + "RequestContent")
         && r[u + 1] == Application.DtoImport(dtoPackage, service, "Update" + entity + "ResponseContent"))
    ensures var d := (if flags.hasCreate then 2 else 0) + (if flags.hasGet then 1 else 0) + (if flags.hasUpdate then 2 else 0);
      flags.hasDelete ==> r[d] == Application.DtoImport(dtoPackage, service, "Delete" + entity + "ResponseContent")
    ensures flags.hasList ==> r[|r| - 1] == Application.DtoImport(dtoPackage, service, "List" + entity + "sResponseContent")
  {
    (if flags.hasCreate then [Application.DtoImport(dtoPackage, service, "Create" + entity + "RequestContent"),
                              Application.DtoImport(dtoPackage, service, "Create" + entity + "ResponseContent")] else [])
    + (if flags.hasGet then [Application.DtoImport(dtoPackage, service, "Get" + entity + "ResponseContent")] else [])
    + (if flags.hasUpdate then [Application.DtoImport(dtoPackage, service, "Update" + entity + "RequestContent"),
                                Application.DtoImport(dtoPackage, service, "Update" + entity + "ResponseContent")] else [])
    + (if flags.hasDelete then [Application.DtoImport(dtoPackage, service, "Delete" + entity + "ResponseContent")] else [])
    + (if flags.hasList then [Application.DtoImport(dtoPackage, service, "List" + entity + "sResponseContent")] else [])
  }

  datatype ControllerContext = ControllerContext(
    flags: Application.Flags,
    complexOperations: seq<ControllerOp>,
    hasComplexOperations: bool,
    dtoImports: seq<string>,
    entityPath: string,
    entityIdPath: string)

  /** The controller's DTO imports: the CRUD ones, then one response per complex operation. */
  function ControllerImports(dtoPackage: string, service: string, entity: string, flags: Application.Flags, complex: seq<string>): (r: seq<string>)
    ensures var crud := CrudImports(dtoPackage, service, entity, flags);
      && |r| == |crud| + |complex|
      && r[..|crud|] == crud
      && forall i | 0 <= i < |complex| :: r[|crud| + i] == Application.DtoImport(dtoPackage, service, complex[i] + "ResponseContent")
  {
    var crud := CrudImports(dtoPackage, service, entity, flags);
    var extra := seq(|complex|, i requires 0 <= i < |complex| => Application.DtoImport(dtoPackage, service, complex[i] + "ResponseContent"));
    assert (crud + extra)[..|crud|] == crud;
    crud + extra
  }

  /** `generate_rest_controller` up to rendering. */
  function Controller(entity: string, ops: seq<string>, service: string, dtoPackage: string): (r: ControllerContext)
    ensures r.flags == ControllerFlags(entity, ops)
    ensures var complex := ComplexOps(ops, entity);
      && |r.complexOperations| == |complex|
      && (forall i | 0 <= i < |complex| :: r.complexOperations[i] == ControllerInfo(complex[i]))
      && (r.hasComplexOperations <==> |complex| > 0)
      && r.dtoImports == ControllerImports(dtoPackage, service, entity, r.flags, complex)
    ensures r.entityPath == Lower(entity) + "s" && r.entityIdPath == "{" + Lower(entity) + "Id}"
  {
    var complex := ComplexOps(ops, entity);
    var flags := ControllerFlags(entity, ops);
    ControllerContext(flags,
      seq(|complex|, i requires 0 <= i < |complex| => ControllerInfo(complex[i])),
      |complex| > 0, ControllerImports(dtoPackage, service, entity, flags, complex),
      Lower(entity) + "s", "{" + Lower(entity) + "Id}")
  }

  /** `_pluralize_entity_name`, as the adapter's `entityNamePlural`. */
  lemma AdapterPlural(entity: string)
    ensures |Pluralize(entity)| > |entity|
    ensures |entity| > 0 && IsUpperChar(entity[0]) ==> Lower(Pluralize(entity)) == PluralLower(Lower(entity))
  {
    if |entity| > 0 && IsUpperChar(entity[0]) {
      PluralizeCapitalised(entity);
    }
  }
}

=== FILE: json.dfy ===
/**
  JSON values as the Python tools see them after `json.load`: objects keep
  their keys in insertion order, and writing a key behaves like Python's
  `dict.__setitem__` (an existing key keeps its place, a new key goes last).
 */
module Json {
  import opened Wrappers

  datatype Json =
    | JNull
    | JBool(b: bool)
    | JNum(n: real)
    | JStr(s: string)
    | JArr(items: seq<Json>)
    | JObj(fields: seq<(string, Json)>)

  type Fields = seq<(string, Json)>

  /** Python truthiness (`if value:`). */
  predicate Truthy(j: Json) {
    match j
    case JNull => false
    case JBool(b) => b
    case JNum(n) => n != 0.0
    case JStr(s) => |s| > 0
    case JArr(items) => |items| > 0
    case JObj(fs) => |fs| > 0
  }

  /** The keys of an object, in order. */
  function Keys(fs: Fields): (ks: seq<string>)
    ensures |ks| == |fs|
    ensures forall i | 0 <= i < |fs| :: ks[i] == fs[i].0
  {
    seq(|fs|, i requires 0 <= i < |fs| => fs[i].0)
  }

  /** A key that is found is bound in the object: its value is one of the members. */
  lemma {:induction false} LookupIn(fs: Fields, k: string)
    ensures Lookup(fs, k).Some? ==> (k, Lookup(fs, k).value) in fs
    decreases |fs|
  {
    if |fs| > 0 && fs[|fs| - 1].0 != k {
      LookupIn(fs[..|fs| - 1], k);
    }
  }

  /** Python's `k in d`. */
  predicate HasKey(fs: Fields, k: string) {
    k in Keys(fs)
  }

  /** Python's `d.get(k)`; when a key is repeated the last binding wins, as with `json.load`. */
  function Lookup(fs: Fields, k: string): (r: Option<Json>)
    ensures r.Some? <==> HasKey(fs, k)
  {
    if |fs| == 0 then None
    else if fs[|fs| - 1].0 == k then Some(fs[|fs| - 1].1)
    else
      assert Keys(fs) == Keys(fs[..|fs| - 1]) + [fs[|fs| - 1].0];
      Lookup(fs[..|fs| - 1], k)
  }

  lemma LookupAppend(fs: Fields, k: string, v: Json, k': string)
    ensures Lookup(fs + [(k, v)], k') == if k' == k then Some(v) else Lookup(fs, k')
  {
    assert (fs + [(k, v)])[..|fs|] == fs;
  }

  /** Rebinding every occurrence of `k` leaves the other keys' values alone. */
  lemma {:induction false} LookupRebind(fs: Fields, k: string, v: Json, k': string)
    ensures Lookup(Rebind(fs, k, v), k') == if k' == k && HasKey(fs, k) then Some(v) else Lookup(fs, k')
    decreases |fs|
  {
    if |fs| > 0 {
      var n := |fs| - 1;
      assert Rebind(fs, k, v)[..n] == Rebind(fs[..n], k, v);
      assert Keys(fs) == Keys(fs[..n]) + [fs[n].0];
      LookupRebind(fs[..n], k, v, k');
    }
  }

  function Rebind(fs: Fields, k: string, v: Json): (r: Fields)
    ensures |r| == |fs|
    ensures Keys(r) == Keys(fs)
  {
    seq(|fs|, i requires 0 <= i < |fs| => if fs[i].0 == k then (k, v) else fs[i])
  }

  /** Python's `d[k] = v`. */
  function Put(fs: Fields, k: string, v: Json): (r: Fields)
    ensures Lookup(r, k) == Some(v)
    ensures forall k' | k' != k :: Lookup(r, k') == Lookup(fs, k')
    ensures Keys(r) == if HasKey(fs, k) then Keys(fs) else Keys(fs) + [k]
  {
    if HasKey(fs, k) then
      var r := Rebind(fs, k, v);
      assert forall k' :: Lookup(r, k') == if k' == k then Some(v) else Lookup(fs, k') by {
        forall k' ensures Lookup(r, k') == if k' == k then Some(v) else Lookup(fs, k') {
          LookupRebind(fs, k, v, k');
        }
      }
      r
    else
      var r := fs + [(k, v)];
      assert forall k' :: Lookup(r, k') == if k' == k then Some(v) else Lookup(fs, k') by {
        forall k' ensures Lookup(r, k') == if k' == k then Some(v) else Lookup(fs, k') {
          LookupAppend(fs, k, v, k');
        }
      }
      assert Keys(r) == Keys(fs) + [k];
      r
  }

  /** Python's `d.update(other)`: the bindings of `other` win. */
  function Update(a: Fields, b: Fields): (r: Fields)
    ensures forall k :: Lookup(r, k) == if HasKey(b, k) then Lookup(b, k) else Lookup(a, k)
  {
    if |b| == 0 then a
    else
      var n := |b| - 1;
      assert Keys(b) == Keys(b[..n]) + [b[n].0];
      Put(Update(a, b[..n]), b[n].0, b[n].1)
  }

  /** With distinct keys, looking up the key at position `i` finds the value at position `i`. */
  lemma {:induction false} LookupDistinct(fs: Fields, i: int)
    requires 0 <= i < |fs|
    requires forall a, b | 0 <= a < b < |fs| :: fs[a].0 != fs[b].0
    ensures Lookup(fs, fs[i].0) == Some(fs[i].1)
    decreases |fs|
  {
    if i < |fs| - 1 {
      LookupDistinct(fs[..|fs| - 1], i);
    }
  }

  /** Every binding `d[k] = v` leaves was already there or is the new one. */
  lemma PutOrigin(fs: Fields, k: string, v: Json)
    ensures forall x | x in Put(fs, k, v) :: x in fs || x == (k, v)
  {
    if HasKey(fs, k) {
      var r := Rebind(fs, k, v);
      assert forall i | 0 <= i < |r| :: r[i] == fs[i] || r[i] == (k, v);
    }
  }

  /** Every binding `a.update(b)` leaves comes from `a` or from `b`. */
  lemma {:induction false} UpdateOrigin(a: Fields, b: Fields)
    ensures forall x | x in Update(a, b) :: x in a || x in b
    decreases |b|
  {
    if |b| > 0 {
      var n := |b| - 1;
      UpdateOrigin(a, b[..n]);
      PutOrigin(Update(a, b[..n]), b[n].0, b[n].1);
      assert b == b[..n] + [b[n]];
    }
  }

  /** Python's `d[k] = v` is `d.update({k: v})`. */
  lemma PutIsUpdate(fs: Fields, k: string, v: Json)
    ensures Put(fs, k, v) == Update(fs, [(k, v)])
  {
    assert [(k, v)][..0] == [];
  }

  /** The value of `k` in the last layer that binds it, or in `base` when none does. */
  function Latest(base: Fields, layers: seq<Fields>, k: string): Option<Json> {
    if |layers| == 0 then Lookup(base, k)
    else if HasKey(layers[|layers| - 1], k) then Lookup(layers[|layers| - 1], k)
    else Latest(base, layers[..|layers| - 1], k)
  }

  /** `d.update(l)` for every layer `l` in turn: the last layer that binds a key wins. */
  function Merge(base: Fields, layers: seq<Fields>): (r: Fields)
    ensures forall k :: Lookup(r, k) == Latest(base, layers, k)
  {
    if |layers| == 0 then base
    else Update(Merge(base, layers[..|layers| - 1]), layers[|layers| - 1])
  }

  /** A layer that binds `k` decides its value unless a later layer binds it too. */
  lemma {:induction false} LatestFrom(base: Fields, layers: seq<Fields>, k: string, i: int)
    requires 0 <= i < |layers| && HasKey(layers[i], k)
    requires forall j | i < j < |layers| :: !HasKey(layers[j], k)
    ensures Latest(base, layers, k) == Lookup(layers[i], k)
    decreases |layers|
  {
    if i < |layers| - 1 {
      var pre := layers[..|layers| - 1];
      assert forall j | i < j < |pre| :: pre[j] == layers[j];
      LatestFrom(base, pre, k, i);
    }
  }

  /** Every value of an object passed through `f`; the keys stay in place. */
  function MapValues(fs: Fields, f: (string, Json) -> Json): (r: Fields)
    ensures Keys(r) == Keys(fs)
    ensures forall i | 0 <= i < |fs| :: r[i] == (fs[i].0, f(fs[i].0, fs[i].1))
  {
    seq(|fs|, i requires 0 <= i < |fs| => (fs[i].0, f(fs[i].0, fs[i].1)))
  }

  /** Looking a key up after `MapValues` finds the mapped value of the key's binding. */
  lemma {:induction false} LookupMapValues(fs: Fields, f: (string, Json) -> Json, k: string)
    ensures Lookup(MapValues(fs, f), k) == if HasKey(fs, k) then Some(f(k, Lookup(fs, k).value)) else None
    decreases |fs|
  {
    if |fs| > 0 {
      var n := |fs| - 1;
      assert MapValues(fs, f)[..n] == MapValues(fs[..n], f);
      assert Keys(fs) == Keys(fs[..n]) + [fs[n].0];
      LookupMapValues(fs[..n], f, k);
    }
  }

  /** Python's `d.pop(k, None)`. */
  function Remove(fs: Fields, k: string): (r: Fields)
    ensures !HasKey(r, k)
    ensures forall k' | k' != k :: Lookup(r, k') == Lookup(fs, k')
  {
    if |fs| == 0 then []
    else
      var n := |fs| - 1;
      var rest := Remove(fs[..n], k);
      assert Keys(fs) == Keys(fs[..n]) + [fs[n].0];
      if fs[n].0 == k then rest
      else
        assert forall k' :: Lookup(rest + [fs[n]], k') == if k' == fs[n].0 then Some(fs[n].1) else Lookup(rest, k') by {
          forall k' ensures Lookup(rest + [fs[n]], k') == if k' == fs[n].0 then Some(fs[n].1) else Lookup(rest, k') {
            LookupAppend(rest, fs[n].0, fs[n].1, k');
          }
        }
        assert Keys(rest + [fs[n]]) == Keys(rest) + [fs[n].0];
        rest + [fs[n]]
  }

  /** The members of an object, or none for any other value. */
  function FieldsOf(j: Json): Fields {
    if j.JObj? then j.fields else []
  }

  /** Python's `d.get(k)` on a value that should be an object. */
  function Get(j: Json, k: string): Option<Json> {
    if j.JObj? then Lookup(j.fields, k) else None
  }

  predicate Has(j: Json, k: string) {
    j.JObj? && HasKey(j.fields, k)
  }

  /** Python's `d.get(k, {})` used as a dictionary: the members found under `k`. */
  function GetFields(j: Json, k: string): Fields {
    match Get(j, k)
    case Some(JObj(fs)) => fs
    case _ => []
  }

  /** Python's `d.get(k, [])` used as a list. */
  function GetItems(j: Json, k: string): seq<Json> {
    match Get(j, k)
    case Some(JArr(items)) => items
    case _ => []
  }

  /** `k in d['required']` for a schema's `required` list. */
  predicate Listed(schema: Json, name: string) {
    JStr(name) in GetItems(schema, "required")
  }

  /** `spec.get('components', {}).get('schemas', {})`. */
  function ComponentSchemas(spec: Json): Fields {
    GetFields(JObj(GetFields(spec, "components")), "schemas")
  }

  /** The properties of a schema, when they form an object. */
  function PropertyMembers(fs: Fields): Option<Fields> {
    match Lookup(fs, "properties")
    case Some(JObj(ps)) => Some(ps)
    case _ => None
  }

  /** The `properties` member of a schema, in order. */
  function Properties(schema: Json): Fields {
    GetFields(schema, "properties")
  }
}

=== FILE: layout.dfy ===
/**
  The source layout of a generated project (utils/file_manager.py of the
  Spring Boot generator): a Java package becomes a directory under
  `src/main/java` or `src/test/java`, and a DTO class is looked up as
  `{name}.java` in a directory. Paths follow `pathlib`: a path is rooted or
  not, and its text splits on `/` into components with empty and `.` parts
  dropped; joining with a rooted right-hand side discards the left.
 */
module Layout {
  import opened Strings

  datatype Path = Path(absolute: bool, parts: seq<string>)

  /** Python's `s.split(c)`: the pieces between occurrences of `c`. */
  function Split(s: string, c: char): (r: seq<string>)
    ensures |r| >= 1
    ensures forall i | 0 <= i < |r| :: c !in r[i]
    ensures Join(r, [c]) == s
    decreases |s|
  {
    if |s| == 0 then [""]
    else if s[0] == c then
      var t := Split(s[1..], c);
      assert s == [c] + s[1..];
      [""] + t
    else
      var t := Split(s[1..], c);
      var r := [[s[0]] + t[0]] + t[1..];
      assert s == [s[0]] + s[1..];
      if |t| == 1 then r
      else
        assert Join(t, [c]) == t[0] + [c] + Join(t[1..], [c]);
        assert Join(r, [c]) == [s[0]] + t[0] + [c] + Join(t[1..], [c]) by {
          assert r[1..] == t[1..];
        }
        r
  }

  /** The pieces that are real path components: not empty and not `.`. */
  function Proper(xs: seq<string>): (r: seq<string>)
    ensures forall i | 0 <= i < |r| :: r[i] in xs && r[i] != "" && r[i] != "."
    ensures (forall i | 0 <= i < |xs| :: xs[i] != "" && xs[i] != ".") ==> r == xs
  {
    if |xs| == 0 then []
    else if xs[0] == "" || xs[0] == "." then Proper(xs[1..])
    else [xs[0]] + Proper(xs[1..])
  }

  /** The components `pathlib` finds in a path text. */
  function Components(s: string): (r: seq<string>)
    ensures forall i | 0 <= i < |r| :: '/' !in r[i] && r[i] != "" && r[i] != "."
  {
    Proper(Split(s, '/'))
  }

  /** `Path(s)`. */
  function ParsePath(s: string): Path {
    Path(|s| > 0 && s[0] == '/', Components(s))
  }

  /** `a / b`: a rooted right-hand side replaces the left. */
  function JoinPath(a: Path, b: Path): (r: Path)
    ensures b.absolute ==> r == b
    ensures !b.absolute ==> r.absolute == a.absolute && r.parts == a.parts + b.parts
  {
    if b.absolute then b else Path(a.absolute, a.parts + b.parts)
  }

  /** `str(p)`: an empty relative path prints as `.`. */
  function Render(p: Path): string {
    if p.absolute then "/" + Join(p.parts, "/")
    else if |p.parts| == 0 then "."
    else Join(p.parts, "/")
  }

  /** `s.replace(a, b)` for single characters: every `a` becomes `b`. */
  function Translate(s: string, a: char, b: char): (r: string)
    ensures |r| == |s|
    ensures forall i | 0 <= i < |s| :: r[i] == if s[i] == a then b else s[i]
  {
    seq(|s|, i requires 0 <= i < |s| => if s[i] == a then b else s[i])
  }

  lemma {:induction false} ReplaceChar(s: string, a: char, b: char)
    ensures Replace(s, [a], [b]) == Translate(s, a, b)
    decreases |s|
  {
    if |s| > 0 {
      ReplaceChar(s[1..], a, b);
      assert Translate(s, a, b) == [Translate(s, a, b)[0]] + Translate(s[1..], a, b);
    }
  }

  /** The package with every `.` made a `/`, as `package_name.replace(".", "/")`. */
  function PackageText(pkg: string): (r: string)
    ensures r == Translate(pkg, '.', '/')
    ensures '.' !in r
  {
    ReplaceChar(pkg, '.', '/');
    Replace(pkg, ".", "/")
  }

  /** The components of the package directory. */
  function PackageParts(pkg: string): seq<string> {
    Components(PackageText(pkg))
  }

  /**
    `get_package_path`: `Root("main")` is `Path("src/main/java")`
    (`RootParsed`). A package that starts with `.` or `/` reads as a
    rooted path and replaces the source root altogether.
   */
  function PackagePath(pkg: string): (r: Path)
    ensures forall i | 0 <= i < |PackageParts(pkg)| :: '.' !in PackageParts(pkg)[i] && '/' !in PackageParts(pkg)[i]
    ensures Rooted(pkg) ==> r == Path(true, PackageParts(pkg))
    ensures !Rooted(pkg) ==> r == Path(false, ["src", "main", "java"] + PackageParts(pkg))
  {
    PackagePartsClean(pkg);
    JoinPath(Root("main"), ParsePath(PackageText(pkg)))
  }

  /** `get_test_package_path`: the same mapping under `src/test/java`. */
  function TestPackagePath(pkg: string): (r: Path)
    ensures Rooted(pkg) ==> r == Path(true, PackageParts(pkg))
    ensures !Rooted(pkg) ==> r == Path(false, ["src", "test", "java"] + PackageParts(pkg))
  {
    PackagePartsClean(pkg);
    JoinPath(Root("test"), ParsePath(PackageText(pkg)))
  }

  /** A package text that `pathlib` reads as rooted. */
  predicate Rooted(pkg: string) {
    |pkg| > 0 && (pkg[0] == '.' || pkg[0] == '/')
  }

  lemma PackagePartsClean(pkg: string)
    ensures forall i | 0 <= i < |PackageParts(pkg)| :: '.' !in PackageParts(pkg)[i] && '/' !in PackageParts(pkg)[i]
    ensures ParsePath(PackageText(pkg)).absolute <==> Rooted(pkg)
  {
    var ps := PackageParts(pkg);
    var xs := Split(PackageText(pkg), '/');
    forall i | 0 <= i < |ps|
      ensures '.' !in ps[i]
    {
      assert ps[i] in xs;
      var j :| 0 <= j < |xs| && xs[j] == ps[i];
      SplitPiecesFrom(PackageText(pkg), '/', j);
    }
  }

  /** Each piece of a split is made of characters of the text. */
  lemma {:induction false} SplitPiecesFrom(s: string, c: char, j: int)
    requires 0 <= j < |Split(s, c)|
    ensures forall x | x in Split(s, c)[j] :: x in s
    decreases |s|
  {
    if |s| > 0 {
      var t := Split(s[1..], c);
      if s[0] == c {
        if j > 0 {
          SplitPiecesFrom(s[1..], c, j - 1);
        }
      } else {
        SplitPiecesFrom(s[1..], c, if j == 0 then 0 else j);
      }
    }
  }

  /** `Path("src/{kind}/java")`, the root of the main or test sources. */
  function Root(kind: string): Path {
    Path(false, ["src", kind, "java"])
  }

  /** `Path("src/main/java")` and `Path("src/test/java")` have three components. */
  lemma RootParsed(kind: string)
    requires kind == "main" || kind == "test"
    ensures ParsePath("src/" + kind + "/java") == Root(kind)
  {
    var k := kind;
    assert '/' !in k && k != "" && k != ".";
    assert "src/" + k + "/java" == "src" + "/" + k + "/" + "java";
    SplitWords("src", k, "java");
  }

  /** The printed form of a source root. */
  lemma RootText(kind: string)
    ensures Join(["src", kind, "java"], "/") == "src/" + kind + "/java"
  {
    assert ["src", kind, "java"][1..] == [kind, "java"];
    assert [kind, "java"][1..] == ["java"];
    assert Join([kind, "java"], "/") == kind + "/" + "java";
    assert Join(["src", kind, "java"], "/") == "src" + "/" + (kind + "/" + "java");
    assert "src" + "/" == "src/" && "/" + "java" == "/java";
  }

  lemma SplitWords(a: string, b: string, c: string)
    requires '/' !in a && '/' !in b && '/' !in c
    requires a != "" && a != "." && b != "" && b != "." && c != "" && c != "."
    ensures Components(a + "/" + b + "/" + c) == [a, b, c]
  {
    SplitAround(a, b + "/" + c, '/');
    SplitAround(b, c, '/');
    SplitPlain(c, '/');
    Slashes(a, b, c);
  }

  lemma Slashes(a: string, b: string, c: string)
    ensures a + "/" + b + "/" + c == a + ['/'] + (b + ['/'] + c)
  {
  }

  /** A piece without `c` followed by `c` starts the split. */
  lemma {:induction false} SplitAround(a: string, b: string, c: char)
    requires c !in a
    ensures Split(a + [c] + b, c) == [a] + Split(b, c)
    decreases |a|
  {
    if |a| == 0 {
      assert a + [c] + b == [c] + b;
      assert ([c] + b)[1..] == b;
    } else {
      assert (a + [c] + b)[1..] == a[1..] + [c] + b;
      SplitAround(a[1..], b, c);
      assert a == [a[0]] + a[1..];
    }
  }

  lemma {:induction false} SplitPlain(a: string, c: char)
    requires c !in a
    ensures Split(a, c) == [a]
    decreases |a|
  {
    if |a| > 0 {
      SplitPlain(a[1..], c);
      assert a == [a[0]] + a[1..];
    }
  }

  /**
    The main and test directories of a package differ only in their second
    component; a rooted package gives the same directory for both.
   */
  lemma MainTestDiffer(pkg: string)
    ensures !Rooted(pkg) ==>
      && |PackagePath(pkg).parts| == |TestPackagePath(pkg).parts|
      && PackagePath(pkg).parts[1] == "main" && TestPackagePath(pkg).parts[1] == "test"
      && forall i | 0 <= i < |PackagePath(pkg).parts| && i != 1 :: PackagePath(pkg).parts[i] == TestPackagePath(pkg).parts[i]
    ensures Rooted(pkg) ==> PackagePath(pkg) == TestPackagePath(pkg)
  {
    var ps := PackageParts(pkg);
    if !Rooted(pkg) {
      var m := PackagePath(pkg).parts;
      var t := TestPackagePath(pkg).parts;
      assert m == ["src", "main", "java"] + ps;
      assert t == ["src", "test", "java"] + ps;
    }
  }

  /** A package name whose dot-separated names are all non-empty and hold no `/`. */
  predicate WellFormedPackage(pkg: string) {
    '/' !in pkg && forall i | 0 <= i < |Split(pkg, '.')| :: Split(pkg, '.')[i] != ""
  }

  /** The directory of a package is its names in order. */
  lemma PackagePartsNames(pkg: string)
    requires WellFormedPackage(pkg)
    ensures PackageParts(pkg) == Split(pkg, '.')
  {
    SplitTranslate(pkg);
    var xs := Split(pkg, '.');
    forall i | 0 <= i < |xs|
      ensures xs[i] != "."
    {
      assert '.' !in xs[i];
    }
  }

  /** Splitting on `/` after turning each `.` into `/` splits on `.`. */
  lemma {:induction false} SplitTranslate(s: string)
    requires '/' !in s
    ensures Split(Translate(s, '.', '/'), '/') == Split(s, '.')
    decreases |s|
  {
    if |s| > 0 {
      var t := Translate(s, '.', '/');
      assert t[1..] == Translate(s[1..], '.', '/');
      assert '/' !in s[1..] by {
        assert forall x | x in s[1..] :: x in s;
      }
      SplitTranslate(s[1..]);
    }
  }

  /**
    For a well-formed package the directory prints as `src/main/java/`
    followed by the package with every `.` replaced by `/`.
   */
  lemma PackagePathText(pkg: string, kind: string)
    requires WellFormedPackage(pkg)
    requires kind == "main" || kind == "test"
    ensures kind == "main" ==> Render(PackagePath(pkg)) == "src/" + kind + "/java/" + Replace(pkg, ".", "/")
    ensures kind == "test" ==> Render(TestPackagePath(pkg)) == "src/" + kind + "/java/" + Replace(pkg, ".", "/")
  {
    NotRooted(pkg);
    RenderUnder(kind, pkg);
  }

  /** The test directory of a well-formed package. */
  lemma TestPathText(pkg: string)
    requires WellFormedPackage(pkg)
    ensures Render(TestPackagePath(pkg)) == "src/test/java/" + Replace(pkg, ".", "/")
  {
    PackagePathText(pkg, "test");
    TestRoot(Replace(pkg, ".", "/"));
  }

  lemma TestRoot(t: string)
    ensures "src/" + "test" + "/java/" + t == "src/test/java/" + t
  {
    assert "src/" + "test" + "/java/" == "src/test/java/";
  }

  lemma RenderUnder(kind: string, pkg: string)
    requires kind == "main" || kind == "test"
    requires WellFormedPackage(pkg)
    ensures Render(Path(false, ["src", kind, "java"] + PackageParts(pkg))) == "src/" + kind + "/java/" + Replace(pkg, ".", "/")
  {
    PackagePartsNames(pkg);
    var xs := Split(pkg, '.');
    SplitTranslate(pkg);
    assert Join(xs, "/") == PackageText(pkg);
    JoinAppend(["src", kind, "java"], xs, "/");
    RootText(kind);
    RootSlash(kind, PackageText(pkg));
  }

  lemma RootSlash(kind: string, t: string)
    ensures ("src/" + kind + "/java") + "/" + t == "src/" + kind + "/java/" + t
  {
    assert "/java" + "/" == "/java/";
  }

  /** A well-formed package does not start with `.` or `/`. */
  lemma NotRooted(pkg: string)
    requires WellFormedPackage(pkg)
    ensures !Rooted(pkg)
  {
    if |pkg| > 0 && pkg[0] == '.' {
      assert Split(pkg, '.') == [""] + Split(pkg[1..], '.');
    }
  }

  lemma {:induction false} JoinAppend(a: seq<string>, b: seq<string>, sep: string)
    requires |a| > 0 && |b| > 0
    ensures Join(a + b, sep) == Join(a, sep) + sep + Join(b, sep)
    decreases |a|
  {
    if |a| > 1 {
      assert (a + b)[1..] == a[1..] + b;
      JoinAppend(a[1..], b, sep);
    } else {
      assert (a + b)[1..] == b;
    }
  }

  /** `check_dto_exists`: whether `{name}.java` is among the existing files. */
  function DtoExists(existing: set<Path>, base: Path, name: string): bool {
    JoinPath(base, ParsePath(name + ".java")) in existing
  }

  /** For a class name without `/` the question is about one file directly under the base. */
  lemma DtoExistsDirectly(existing: set<Path>, base: Path, name: string)
    requires '/' !in name
    ensures DtoExists(existing, base, name) <==> Path(base.absolute, base.parts + [name + ".java"]) in existing
  {
    var f := name + ".java";
    assert '/' !in f;
    SplitPlain(f, '/');
    assert f != "" && f != "." by {
      assert f[|f| - 1] == 'a';
    }
  }
}

=== FILE: mapperfields.dfy ===
/**
  The mapper field analyzer (utils/mapper_field_analyzer.py): which fields of
  an entity's domain schema neither its create request nor its update request
  carries, so that the MapStruct mapper marks them as ignored.
 */
module MapperFields {
  import opened Wrappers
  import opened Strings
  import opened Json

  /** `schemas.get(name, {})`. */
  function SchemaOf(schemas: Fields, name: string): (r: Json)
    ensures HasKey(schemas, name) ==> Some(r) == Lookup(schemas, name)
    ensures !HasKey(schemas, name) ==> r == JObj([])
  {
    match Lookup(schemas, name)
    case Some(s) => s
    case None => JObj([])
  }

  /** `set(schema.get('properties', {}).keys())`. */
  function FieldNames(schema: Json): set<string> {
    set k | k in Keys(Properties(schema))
  }

  /** The fields no request needs to carry: the status, the timestamps and the primary key. */
  function Excluded(entity: string): set<string> {
    {"status", "createdAt", "updatedAt", Lower(entity) + "Id"}
  }

  /** The names of `domain` that are neither in `request` nor in `excluded`, in order. */
  function Missing(domain: seq<string>, request: set<string>, excluded: set<string>): (r: seq<string>)
    ensures forall x :: x in r <==> x in domain && x !in request && x !in excluded
  {
    if |domain| == 0 then []
    else
      var n := |domain| - 1;
      assert domain == domain[..n] + [domain[n]];
      Missing(domain[..n], request, excluded)
        + if domain[n] !in request && domain[n] !in excluded then [domain[n]] else []
  }

  /** `sorted(domain_fields - request_fields - excluded)`. */
  function Unmapped(domain: Json, request: Json, entity: string): (r: seq<string>)
    ensures StrictlySorted(r)
    ensures forall x :: x in r <==> x in FieldNames(domain) && x !in FieldNames(request) && x !in Excluded(entity)
  {
    SortedSet(Missing(Keys(Properties(domain)), FieldNames(request), Excluded(entity)))
  }

  /** The mapping part of the template context; each name stands for a `{'fieldName': name}` entry. */
  datatype MappingContext = MappingContext(unmappedTargetFields: seq<string>, unmappedUpdateFields: seq<string>, hasUnmappedFields: bool)

  /** A field the given request leaves unmapped. */
  predicate UnmappedBy(schemas: Fields, entity: string, request: string, x: string) {
    x in FieldNames(SchemaOf(schemas, entity))
    && x !in FieldNames(SchemaOf(schemas, request))
    && x !in Excluded(entity)
  }

  /** `analyze_entity_mappings`. */
  function AnalyzeEntityMappings(schemas: Fields, entity: string): (r: MappingContext)
    ensures StrictlySorted(r.unmappedTargetFields) && StrictlySorted(r.unmappedUpdateFields)
    ensures forall x :: x in r.unmappedTargetFields <==> UnmappedBy(schemas, entity, "Create" + entity + "RequestContent", x)
    ensures forall x :: x in r.unmappedUpdateFields <==> UnmappedBy(schemas, entity, "Update" + entity + "RequestContent", x)
    ensures r.hasUnmappedFields <==> exists x :: (
      || UnmappedBy(schemas, entity, "Create" + entity + "RequestContent", x)
      || UnmappedBy(schemas, entity, "Update" + entity + "RequestContent", x))
    ensures forall x | x in Excluded(entity) :: x !in r.unmappedTargetFields && x !in r.unmappedUpdateFields
  {
    var domain := SchemaOf(schemas, entity);
    var create := Unmapped(domain, SchemaOf(schemas, "Create" + entity + "RequestContent"), entity);
    var update := Unmapped(domain, SchemaOf(schemas, "Update" + entity + "RequestContent"), entity);
    assert |create| > 0 ==> create[0] in create;
    assert |update| > 0 ==> update[0] in update;
    MappingContext(create, update, |create| > 0 || |update| > 0)
  }

  /**
    Without request schemas every domain field except the status, the
    timestamps and the primary key is unmapped on both sides.
   */
  lemma NoRequestSchemas(schemas: Fields, entity: string)
    requires !HasKey(schemas, "Create" + entity + "RequestContent")
    requires !HasKey(schemas, "Update" + entity + "RequestContent")
    ensures var r := AnalyzeEntityMappings(schemas, entity);
      && r.unmappedTargetFields == r.unmappedUpdateFields
      && forall x :: x in r.unmappedTargetFields <==> x in FieldNames(SchemaOf(schemas, entity)) && x !in Excluded(entity)
  {
    assert FieldNames(JObj([])) == {};
  }

  /**
    The unmapped fields depend only on the sets of property names: the order
    and any repetition of the properties do not matter.
   */
  lemma UnmappedBySets(d1: Json, d2: Json, q1: Json, q2: Json, entity: string)
    requires FieldNames(d1) == FieldNames(d2) && FieldNames(q1) == FieldNames(q2)
    ensures Unmapped(d1, q1, entity) == Unmapped(d2, q2, entity)
  {
    SortedSetUnique(Unmapped(d1, q1, entity), Unmapped(d2, q2, entity));
  }

  /** Two strictly sorted sequences with the same members are equal. */
  lemma {:induction false} SortedSetUnique(a: seq<string>, b: seq<string>)
    requires StrictlySorted(a) && StrictlySorted(b)
    requires forall x :: x in a <==> x in b
    ensures a == b
    decreases |a|
  {
    if |a| > 0 && |b| > 0 {
      SortedHead(a);
      SortedHead(b);
      assert a[0] in b && b[0] in a;
      if a[0] != b[0] {
        LessTransitive(a[0], b[0], a[0]);
        LessIrreflexive(a[0]);
      }
      LessIrreflexive(a[0]);
      assert a == [a[0]] + a[1..] && b == [b[0]] + b[1..];
      assert forall x :: x in a[1..] <==> x in a && x != a[0];
      assert forall x :: x in b[1..] <==> x in b && x != b[0];
      assert StrictlySorted(a[1..]) by {
        forall i, j | 0 <= i < j < |a[1..]| ensures Less(a[1..][i], a[1..][j]) {
          assert a[1..][i] == a[i + 1] && a[1..][j] == a[j + 1];
        }
      }
      assert StrictlySorted(b[1..]) by {
        forall i, j | 0 <= i < j < |b[1..]| ensures Less(b[1..][i], b[1..][j]) {
          assert b[1..][i] == b[i + 1] && b[1..][j] == b[j + 1];
        }
      }
      SortedSetUnique(a[1..], b[1..]);
    } else {
      NonEmptyHasMember(a);
      NonEmptyHasMember(b);
    }
  }

  lemma NonEmptyHasMember(a: seq<string>)
    ensures |a| > 0 ==> exists x :: x in a
  {
    if |a| > 0 {
      assert a[0] in a;
    }
  }

  /** The head of a strictly sorted sequence is below every other member. */
  lemma SortedHead(a: seq<string>)
    requires StrictlySorted(a) && |a| > 0
    ensures forall x | x in a && x != a[0] :: Less(a[0], x)
  {
  }

  /** `generate_repository_port_context`: the entity and its lower-case variable; both method groups on. */
  datatype PortContext = PortContext(entityName: string, entityVarName: string, hasPaginationMethods: bool, hasSearchMethods: bool)

  function RepositoryPortContext(entity: string): (r: PortContext)
    ensures r.entityName == entity && r.entityVarName == Lower(entity)
    ensures r.hasPaginationMethods && r.hasSearchMethods
  {
    PortContext(entity, Lower(entity), true, true)
  }

  /** The combined template context of `generate_mapper_context`. */
  datatype MapperContext = MapperContext(
    unmappedTargetFields: seq<string>, unmappedUpdateFields: seq<string>, hasUnmappedFields: bool,
    entityName: string, entityVarName: string, hasPaginationMethods: bool, hasSearchMethods: bool)

  /**
    `generate_mapper_context`: the mapping context merged with the port
    context. The entity name and variable written once more at the end bind
    the values the port context already holds.
   */
  function GenerateMapperContext(spec: Json, entity: string): (r: MapperContext)
    ensures var m := AnalyzeEntityMappings(ComponentSchemas(spec), entity);
      && r.unmappedTargetFields == m.unmappedTargetFields
      && r.unmappedUpdateFields == m.unmappedUpdateFields
      && r.hasUnmappedFields == m.hasUnmappedFields
    ensures r.entityName == entity && r.entityVarName == Lower(entity) && NoUpper(r.entityVarName)
    ensures r.hasPaginationMethods && r.hasSearchMethods
  {
    var m := AnalyzeEntityMappings(ComponentSchemas(spec), entity);
    var p := RepositoryPortContext(entity);
    MapperContext(m.unmappedTargetFields, m.unmappedUpdateFields, m.hasUnmappedFields,
      p.entityName, p.entityVarName, p.hasPaginationMethods, p.hasSearchMethods)
  }
}

=== FILE: naming.dfy ===
/**
  Naming rules shared by the generators: the English pluralisation that
  infrastructure_generator.py and test_generator.py each carry a verbatim copy
  of (and the SQL tool a third), and the CamelCase to snake_case conversion of
  the SQL tool.
 */
module Naming {
  import opened Strings

  /** The `endswith(('s', 'sh', 'ch', 'x', 'z'))` test. */
  predicate SibilantEnding(s: string) {
    EndsWith(s, "s") || EndsWith(s, "sh") || EndsWith(s, "ch") || EndsWith(s, "x") || EndsWith(s, "z")
  }

  /**
    The lower-case branch of `_pluralize_entity_name`: `y` becomes `ies`, a
    sibilant ending takes `es`, anything else takes `s`.
   */
  function PluralLower(s: string): (r: string)
    ensures |r| > |s|
    ensures EndsWith(r, "s")
    ensures |s| > 0 ==> r[..|s| - 1] == s[..|s| - 1]
    ensures NoUpper(s) ==> NoUpper(r)
  {
    if EndsWith(s, "y") then s[..|s| - 1] + "ies"
    else if SibilantEnding(s) then s + "es"
    else s + "s"
  }

  /**
    `_pluralize_entity_name`: a name that starts with a capital is lower-cased,
    pluralised, then passed through `capitalize()`, so inner capitals are lost.
   */
  function Pluralize(name: string): (r: string)
    ensures |r| > |name|
    ensures |name| > 0 && IsUpperChar(name[0]) ==> IsUpperChar(r[0]) && NoUpper(r[1..])
    ensures !(|name| > 0 && IsUpperChar(name[0])) ==> EndsWith(r, "s")
  {
    if |name| > 0 && IsUpperChar(name[0]) then
      var p := PluralLower(Lower(name));
      assert p[0] == Lower(name)[0] || (|name| == 1 && p[0] == 'i');
      Capitalize(p)
    else PluralLower(name)
  }

  /** A capitalised plural ends in `s` as well; only the case of its letters changes. */
  lemma PluralizeCapitalised(name: string)
    requires |name| > 0 && IsUpperChar(name[0])
    ensures EndsWith(Pluralize(name), "s")
    ensures Lower(Pluralize(name)) == PluralLower(Lower(name))
  {
    PluralizeCapitalisedForm(name);
    var p := PluralLower(Lower(name));
    CapitalizeNoUpper(p);
    CapitalizeEndsWith(p);
  }

  lemma CapitalizeEndsWith(p: string)
    requires |p| >= 2 && NoUpper(p) && EndsWith(p, "s")
    ensures EndsWith(Capitalize(p), "s")
  {
    CapitalizeNoUpper(p);
    assert p[|p| - 1..] == [p[|p| - 1]];
    assert Capitalize(p)[|p| - 1..] == [Capitalize(p)[|p| - 1]];
  }

  /** Capitalising a word without capitals changes only the case of its first letter. */
  lemma CapitalizeNoUpper(p: string)
    requires |p| >= 2 && NoUpper(p)
    ensures Lower(Capitalize(p)) == p
    ensures Capitalize(p)[|p| - 1] == p[|p| - 1]
  {
    var q := p[1..];
    LowerOfNoUpper(q);
    assert Capitalize(p) == [UpperChar(p[0])] + q;
    LowerAppend([UpperChar(p[0])], q);
    assert Lower([UpperChar(p[0])]) == [p[0]];
    assert [p[0]] + q == p;
  }

  /** A capitalised name is lower-cased, pluralised, then capitalised. */
  lemma PluralizeCapitalisedForm(name: string)
    requires |name| > 0 && IsUpperChar(name[0])
    ensures Pluralize(name) == Capitalize(PluralLower(Lower(name)))
  {
  }

  lemma PluralizeCity()
    ensures Pluralize("City") == "Cities"
  {
    PluralizeCapitalisedForm("City");
    assert Lower("City") == "city";
    assert PluralLower("city") == "cities";
  }

  /** A word that does not end in `y`, `s`, `h`, `x` or `z` just takes `s`. */
  lemma PluralLowerPlain(s: string)
    requires |s| > 0 && s[|s| - 1] !in {'y', 's', 'h', 'x', 'z'}
    ensures PluralLower(s) == s + "s"
  {
    NotEndsWith(s, "y");
    NotEndsWith(s, "s");
    NotEndsWith(s, "sh");
    NotEndsWith(s, "ch");
    NotEndsWith(s, "x");
    NotEndsWith(s, "z");
  }

  /** A word whose last character differs from the suffix's last character does not end with it. */
  lemma NotEndsWith(s: string, p: string)
    requires |s| > 0 && |p| > 0 && s[|s| - 1] != p[|p| - 1]
    ensures !EndsWith(s, p)
  {
    if |p| <= |s| {
      assert s[|s| - |p|..][|p| - 1] == s[|s| - 1];
    }
  }

  /** A word ending in `s`, `sh`, `ch`, `x` or `z` takes `es`. */
  lemma PluralLowerSibilant(s: string)
    requires SibilantEnding(s)
    ensures PluralLower(s) == s + "es"
  {
    assert s[|s| - 1] in {'s', 'h', 'x', 'z'} by {
      if EndsWith(s, "sh") || EndsWith(s, "ch") {
        assert s[|s| - 2..][1] == s[|s| - 1];
      } else {
        assert s[|s| - 1..][0] == s[|s| - 1];
      }
    }
    NotEndsWith(s, "y");
  }

  /** A word ending in `y` trades it for `ies`. */
  lemma PluralLowerY(s: string)
    requires EndsWith(s, "y")
    ensures PluralLower(s) == s[..|s| - 1] + "ies"
  {
  }

  /** An `h` after anything but `s` or `c` is not sibilant: `moth` becomes `moths`. */
  lemma PluralLowerOtherH(s: string)
    requires |s| >= 2 && s[|s| - 1] == 'h' && s[|s| - 2] != 's' && s[|s| - 2] != 'c'
    ensures PluralLower(s) == s + "s"
  {
    NotEndsWith(s, "y");
    NotEndsWith(s, "s");
    NotEndsWith(s, "x");
    NotEndsWith(s, "z");
    assert !EndsWith(s, "sh") && !EndsWith(s, "ch") by {
      assert s[|s| - 2..][0] == s[|s| - 2];
    }
  }

  lemma PluralLowerMoth()
    ensures PluralLower("moth") == "moths"
  {
    PluralLowerOtherH("moth");
  }

  /**
    Inner capitals are lost: every letter of a capitalised name but the first
    and the last comes out lower-cased, so `OrderItem` becomes `Orderitems`.
   */
  lemma PluralizeLowersInner(name: string, i: int)
    requires |name| > 0 && IsUpperChar(name[0])
    requires 0 < i < |name| - 1
    ensures Pluralize(name)[i] == LowerChar(name[i])
  {
    var s := Lower(name);
    var p := PluralLower(s);
    assert p[..|s| - 1] == s[..|s| - 1];
    assert p[i] == s[..|s| - 1][i];
    var r := Capitalize(p);
    assert r[i] == Lower(p[1..])[i - 1];
    assert p[1..][i - 1] == p[i];
    LowerOfNoUpper(p[1..]);
  }

  lemma PluralizeCountry()
    ensures Pluralize("country") == "countries"
  {
  }

  /** Lower-cased input always takes the lower-case branch, as the table-name call does. */
  lemma PluralizeLowered(name: string)
    ensures Pluralize(Lower(name)) == PluralLower(Lower(name))
    ensures NoUpper(Pluralize(Lower(name))) && EndsWith(Pluralize(Lower(name)), "s")
  {
  }

  // ---------------------------------------------------------------------
  // CamelCase to snake_case (pygenerate-sql-from-openapi).

  /** The end of the run of lower-case letters that starts at `j`. */
  function LowerRunEnd(s: string, j: nat): (k: nat)
    requires j <= |s|
    ensures j <= k <= |s|
    decreases |s| - j
  {
    if j < |s| && IsLowerChar(s[j]) then LowerRunEnd(s, j + 1) else j
  }

  /** A capital followed by a lower-case letter starts a word at `i + 1`, unless `s[i]` is a newline. */
  predicate WordAfter(s: string, i: int) {
    0 <= i && i + 2 < |s| && s[i] != '\n' && IsUpperChar(s[i + 1]) && IsLowerChar(s[i + 2])
  }

  /**
    `re.sub('(.)([A-Z][a-z]+)', r'\1_\2', s)`: a character other than a newline
    followed by a capital and a run of lower-case letters gets `_` after it; the
    search resumes after the run.
   */
  function SplitBeforeWords(s: string): (r: string)
    ensures Without(r, '_') == Without(s, '_')
    decreases |s|
  {
    if WordAfter(s, 0) then
      var k := LowerRunEnd(s, 3);
      var rest := SplitBeforeWords(s[k..]);
      assert s == [s[0]] + s[1..k] + s[k..];
      WithoutAppend([s[0]] + s[1..k], s[k..], '_');
      WithoutAppend([s[0]], s[1..k], '_');
      WithoutAppend([s[0], '_'] + s[1..k], rest, '_');
      WithoutAppend([s[0], '_'], s[1..k], '_');
      [s[0], '_'] + s[1..k] + rest
    else if |s| == 0 then ""
    else
      var rest := SplitBeforeWords(s[1..]);
      assert s == [s[0]] + s[1..];
      WithoutAppend([s[0]], s[1..], '_');
      WithoutAppend([s[0]], rest, '_');
      [s[0]] + rest
  }

  /** `re.sub('([a-z0-9])([A-Z])', r'\1_\2', s)`. */
  function SplitLowerUpper(s: string): (r: string)
    ensures Without(r, '_') == Without(s, '_')
    decreases |s|
  {
    if |s| >= 2 && (IsLowerChar(s[0]) || IsDigitChar(s[0])) && IsUpperChar(s[1]) then
      var rest := SplitLowerUpper(s[2..]);
      assert s == [s[0], s[1]] + s[2..];
      WithoutAppend([s[0], s[1]], s[2..], '_');
      WithoutAppend([s[0], '_', s[1]], rest, '_');
      [s[0], '_', s[1]] + rest
    else if |s| == 0 then ""
    else
      var rest := SplitLowerUpper(s[1..]);
      assert s == [s[0]] + s[1..];
      WithoutAppend([s[0]], s[1..], '_');
      WithoutAppend([s[0]], rest, '_');
      [s[0]] + rest
  }

  /** The two substitutions followed by `.lower()`. */
  function SnakeCase(s: string): (r: string)
    ensures NoUpper(r)
    ensures Without(r, '_') == Lower(Without(s, '_'))
  {
    WithoutLower(SplitLowerUpper(SplitBeforeWords(s)));
    Lower(SplitLowerUpper(SplitBeforeWords(s)))
  }

  /** Lower-casing never creates or removes an underscore. */
  lemma {:induction false} WithoutLower(s: string)
    ensures Without(Lower(s), '_') == Lower(Without(s, '_'))
    decreases |s|
  {
    if |s| > 0 {
      assert Lower(s) == [LowerChar(s[0])] + Lower(s[1..]);
      assert Lower(s)[1..] == Lower(s[1..]);
      WithoutLower(s[1..]);
      if s[0] != '_' {
        LowerAppend([s[0]], Without(s[1..], '_'));
      }
    }
  }

  /**
    The snake-case step only inserts underscores and lower-cases: the result has
    no capital, and deleting every underscore from it gives the lower-cased input
    with its own underscores deleted.
   */
  lemma SnakeCaseOnlyInserts(s: string)
    ensures NoUpper(SnakeCase(s))
    ensures Without(SnakeCase(s), '_') == Lower(Without(s, '_'))
    ensures |SnakeCase(s)| >= |s|
  {
    WithoutLower(SplitLowerUpper(SplitBeforeWords(s)));
    SplitLengths(s);
  }

  lemma SplitLengths(s: string)
    ensures |SplitLowerUpper(SplitBeforeWords(s))| >= |s|
  {
    SplitBeforeWordsGrows(s);
    SplitLowerUpperGrows(SplitBeforeWords(s));
  }

  lemma {:induction false} SplitBeforeWordsGrows(s: string)
    ensures |SplitBeforeWords(s)| >= |s|
    decreases |s|
  {
    if WordAfter(s, 0) {
      SplitBeforeWordsGrows(s[LowerRunEnd(s, 3)..]);
    } else if |s| > 0 {
      SplitBeforeWordsGrows(s[1..]);
    }
  }

  lemma {:induction false} SplitLowerUpperGrows(s: string)
    ensures |SplitLowerUpper(s)| >= |s|
    decreases |s|
  {
    if |s| >= 2 && (IsLowerChar(s[0]) || IsDigitChar(s[0])) && IsUpperChar(s[1]) {
      SplitLowerUpperGrows(s[2..]);
    } else if |s| > 0 {
      SplitLowerUpperGrows(s[1..]);
    }
  }

  /** Where no word starts at the first character, the first character is copied. */
  lemma SplitBeforeWordsStep(s: string)
    requires |s| > 0 && !WordAfter(s, 0)
    ensures SplitBeforeWords(s) == [s[0]] + SplitBeforeWords(s[1..])
  {
  }

  /** Without a lower-case letter or digit before a capital the second substitution changes nothing. */
  lemma {:induction false} SplitLowerUpperNone(s: string)
    requires forall i | 0 <= i < |s| - 1 :: !((IsLowerChar(s[i]) || IsDigitChar(s[i])) && IsUpperChar(s[i + 1]))
    ensures SplitLowerUpper(s) == s
    decreases |s|
  {
    if |s| > 0 {
      SplitLowerUpperNone(s[1..]);
    }
  }

  /** A prefix after none of whose characters a word starts is copied unchanged. */
  lemma {:induction false} SplitBeforeWordsCopies(s: string, n: nat)
    requires n <= |s|
    requires forall i | 0 <= i < n :: !WordAfter(s, i)
    ensures SplitBeforeWords(s) == s[..n] + SplitBeforeWords(s[n..])
    decreases n
  {
    if n > 0 {
      assert !WordAfter(s, 0);
      SplitBeforeWordsStep(s);
      ShiftNoWord(s, n);
      SplitBeforeWordsCopies(s[1..], n - 1);
      PrefixJoin(s, n, SplitBeforeWords(s[n..]));
    }
  }

  lemma ShiftNoWord(s: string, n: nat)
    requires 0 < n <= |s|
    requires forall i | 0 <= i < n :: !WordAfter(s, i)
    ensures forall i | 0 <= i < n - 1 :: !WordAfter(s[1..], i)
  {
    forall i | 0 <= i < n - 1
      ensures !WordAfter(s[1..], i)
    {
      assert !WordAfter(s, i + 1);
    }
  }

  lemma PrefixJoin(s: string, n: nat, u: string)
    requires 0 < n <= |s|
    ensures s[1..][n - 1..] == s[n..]
    ensures [s[0]] + (s[1..][..n - 1] + u) == s[..n] + u
  {
    assert [s[0]] + s[1..][..n - 1] == s[..n];
  }

  /** A capital followed only by lower-case letters. */
  predicate CapitalWord(w: string) {
    |w| > 0 && IsUpperChar(w[0]) && forall i | 0 < i < |w| :: IsLowerChar(w[i])
  }

  lemma {:induction false} LowerRunToEnd(s: string, j: nat)
    requires j <= |s|
    requires forall i | j <= i < |s| :: IsLowerChar(s[i])
    ensures LowerRunEnd(s, j) == |s|
    decreases |s| - j
  {
    if j < |s| {
      LowerRunToEnd(s, j + 1);
    }
  }

  /**
    Two capitalised words run together get an underscore between them; the
    second word needs at least one lower-case letter to match `[A-Z][a-z]+`.
   */
  lemma SplitBeforeWordsTwoWords(a: string, b: string)
    requires CapitalWord(a) && CapitalWord(b) && |b| >= 2
    ensures SplitBeforeWords(a + b) == a + "_" + b
  {
    var s := a + b;
    var n := |a| - 1;
    forall i | 0 <= i < n
      ensures !WordAfter(s, i)
    {
      assert s[i + 1] == a[i + 1];
    }
    SplitBeforeWordsCopies(s, n);
    assert s[n..] == [a[n]] + b;
    SplitBeforeWordsLastWord(a[n], b);
    JoinAtLast(a, b);
  }

  lemma JoinAtLast(a: string, b: string)
    requires |a| > 0
    ensures (a + b)[..|a| - 1] + ([a[|a| - 1], '_'] + b) == a + "_" + b
  {
    assert (a + b)[..|a| - 1] + [a[|a| - 1], '_'] == a + "_";
  }

  /** A letter followed by one capitalised word: the underscore goes between them. */
  lemma SplitBeforeWordsLastWord(c: char, b: string)
    requires IsUpperChar(c) || IsLowerChar(c)
    requires CapitalWord(b) && |b| >= 2
    ensures SplitBeforeWords([c] + b) == [c, '_'] + b
  {
    var t := [c] + b;
    assert WordAfter(t, 0);
    forall i | 3 <= i < |t|
      ensures IsLowerChar(t[i])
    {
      assert t[i] == b[i - 1];
    }
    LowerRunToEnd(t, 3);
    assert t[|t|..] == [];
    assert t[1..|t|] == b;
  }

  /** No lower-case letter or digit of `a + "_" + b` is followed by a capital. */
  lemma SplitLowerUpperTwoWords(a: string, b: string)
    requires CapitalWord(a) && CapitalWord(b)
    ensures SplitLowerUpper(a + "_" + b) == a + "_" + b
  {
    var s := a + "_" + b;
    forall i | 0 <= i < |s| - 1
      ensures !((IsLowerChar(s[i]) || IsDigitChar(s[i])) && IsUpperChar(s[i + 1]))
    {
      if i < |a| - 1 {
        assert s[i + 1] == a[i + 1];
      } else if i == |a| {
        assert s[i] == '_';
      } else if i > |a| {
        assert s[i + 1] == b[i - |a|];
      }
    }
    SplitLowerUpperNone(s);
  }

  /**
    `OrderItem` becomes `order_item`: two capitalised words run together are
    lower-cased and joined by one underscore.
   */
  lemma SnakeCaseTwoWords(a: string, b: string)
    requires CapitalWord(a) && CapitalWord(b) && |b| >= 2
    ensures SnakeCase(a + b) == Lower(a) + "_" + Lower(b)
  {
    SplitBeforeWordsTwoWords(a, b);
    SplitLowerUpperTwoWords(a, b);
    LowerAppend(a + "_", b);
    LowerAppend(a, "_");
  }

  /** A single capitalised word has no word boundary inside it and is only lower-cased. */
  lemma SnakeCaseOneWord(w: string)
    requires CapitalWord(w)
    ensures SnakeCase(w) == Lower(w)
  {
    forall i | 0 <= i < |w|
      ensures !WordAfter(w, i)
    {
      if i + 2 < |w| {
        assert IsLowerChar(w[i + 1]);
      }
    }
    SplitBeforeWordsCopies(w, |w|);
    assert w[..|w|] == w && w[|w|..] == "";
    assert SplitBeforeWords(w) == w;
    forall i | 0 <= i < |w| - 1
      ensures !((IsLowerChar(w[i]) || IsDigitChar(w[i])) && IsUpperChar(w[i + 1]))
    {
      assert IsLowerChar(w[i + 1]);
    }
    SplitLowerUpperNone(w);
    assert SplitLowerUpper(SplitBeforeWords(w)) == w;
  }
}

=== FILE: openapi.dfy ===
/**
  The discovery step of the OpenAPI to Java generator
  (pyjava-backend-codegen/core/openapi_processor.py): service names from file
  names, the schema and operation tables of every specification, the entities
  named by response schemas, the grouping of CRUD operations by entity and the
  "complex" `Get…By…` operations of each entity.

  A specification is a parsed JSON document. Where the Python code would raise
  (a `.get` or `.items()` on a value that is not an object, indexing a list or
  a string with `'operationId'`), the model returns `Err`.
 */
module OpenApi {
  import opened Wrappers
  import opened Strings
  import opened Json

  // ---------------------------------------------------------------------
  // Service names.

  /** pathlib's `Path(p).stem`: the last component without its final suffix. */
  function Stem(path: string): (r: string)
    ensures '/' !in r
  {
    var name := LastSegment(RStrip(path, {'/'}), '/');
    var i := LastIndexOf(name, '.');
    if 0 < i < |name| - 1 then name[..i] else name
  }

  /**
    `_extract_service_name_from_path`: the stem loses every `.openapi`, then one
    trailing `Service`, then is lower-cased.
   */
  function ServiceName(path: string): (r: string)
    ensures NoUpper(r)
    ensures |r| <= |Stem(path)|
  {
    var s := Replace(Stem(path), ".openapi", "");
    Lower(if EndsWith(s, "Service") then s[..|s| - 7] else s)
  }

  /**
    For a file `<dir>/<name>.openapi.json` whose name holds no dot, the service
    name is the name without one trailing `Service`, lower-cased.
   */
  lemma ServiceNameOfFile(dir: string, name: string)
    requires '.' !in name && '/' !in name
    ensures ServiceName(dir + "/" + name + ".openapi.json")
         == Lower(if EndsWith(name, "Service") then name[..|name| - 7] else name)
  {
    StemOfOpenApiFile(dir, name);
    DropOpenApiSuffix(name);
  }

  lemma StemOfOpenApiFile(dir: string, name: string)
    requires '.' !in name && '/' !in name
    ensures Stem(dir + "/" + name + ".openapi.json") == name + ".openapi"
  {
    var path := dir + "/" + name + ".openapi.json";
    var file := name + ".openapi.json";
    assert path[|path| - 1] == 'n';
    assert RStrip(path, {'/'}) == path;
    assert path == dir + ['/'] + file;
    assert '/' !in file;
    LastSegmentAfter(dir, file, '/');
    assert file[|name| + 8] == '.';
    assert forall j | |name| + 8 < j < |file| :: file[j] != '.';
    assert LastIndexOf(file, '.') == |name| + 8;
    assert file[..|name| + 8] == name + ".openapi";
  }

  lemma DropOpenApiSuffix(name: string)
    requires '.' !in name
    ensures Replace(name + ".openapi", ".openapi", "") == name
  {
    forall k | 0 <= k < |name| ensures !OccursAt(name + ".openapi", ".openapi", k) {
      assert (name + ".openapi")[k] == name[k];
    }
    ReplaceSkip(name, ".openapi", ".openapi", "");
    ReplaceLeading(".openapi", "", "");
    assert ".openapi" + "" == ".openapi";
    assert Replace("", ".openapi", "") == "";
    assert name + "" == name;
  }

  lemma ServiceNameUserService()
    ensures ServiceName("openapi" + "/" + "UserService" + ".openapi.json") == "user"
  {
    ServiceNameOfFile("openapi", "UserService");
    UserServiceParts();
  }

  lemma UserServiceParts()
    ensures EndsWith("UserService", "Service") && "UserService"[..4] == "User" && Lower("User") == "user"
  {
    assert EndsWith("UserService", "Service");
    assert "UserService"[..4] == "User";
  }

  // ---------------------------------------------------------------------
  // Schemas, operations and entities of the loaded specifications.

  /** One entry of `openapi_specs`: the parsed document and its service name. */
  datatype SpecInfo = SpecInfo(spec: Json, serviceName: string)

  /** One entry of `all_operations`. */
  datatype Operation = Operation(id: Json, service: string)

  /** Python's `d.get(k, {})` followed by dictionary use: `Err` when the value is not an object. */
  function MemberObject(j: Json, k: string): (r: Result<Fields>)
    ensures r.Ok? && Has(j, k) ==> Get(j, k) == Some(JObj(r.value))
    ensures r.Ok? && !Has(j, k) ==> r.value == []
    ensures r.Err? <==> !j.JObj? || (Has(j, k) && !Get(j, k).value.JObj?)
  {
    if !j.JObj? then Err("'" + k + "' read from a value that is not an object")
    else match Lookup(j.fields, k)
      case None => Ok([])
      case Some(JObj(fs)) => Ok(fs)
      case Some(_) => Err("'" + k + "' is not an object")
  }

  /** `spec.get('components', {}).get('schemas', {})`. */
  function SchemasOf(spec: Json): Result<Fields> {
    var components :- MemberObject(spec, "components");
    MemberObject(JObj(components), "schemas")
  }

  /** The entry stored for a schema: its data, its service and its own name. */
  function SchemaEntry(data: Json, service: string, name: string): Json {
    JObj([("data", data), ("service", JStr(service)), ("original_name", JStr(name))])
  }

  /** The writes to `all_schemas` for one document, in order. */
  function SchemaBindings(service: string, schemas: Fields): (r: Fields)
    ensures |r| == |schemas|
    ensures forall i | 0 <= i < |r| ::
      r[i] == (service + "_" + schemas[i].0, SchemaEntry(schemas[i].1, service, schemas[i].0))
    ensures KeyedByServiceAndName(r)
  {
    seq(|schemas|, i requires 0 <= i < |schemas| =>
      (service + "_" + schemas[i].0, SchemaEntry(schemas[i].1, service, schemas[i].0)))
  }

  /** A stored entry names the service and schema name its key is made of. */
  predicate WellKeyed(binding: (string, Json)) {
    var v := binding.1;
    v.JObj? && |v.fields| == 3
    && v.fields[0].0 == "data" && v.fields[1].0 == "service" && v.fields[2].0 == "original_name"
    && v.fields[1].1.JStr? && v.fields[2].1.JStr?
    && binding.0 == v.fields[1].1.s + "_" + v.fields[2].1.s
  }

  predicate KeyedByServiceAndName(all: Fields) {
    forall b | b in all :: WellKeyed(b)
  }

  /**
    Whether `'operationId' in operation` and, if so, its value. The test is
    legal on any container: on a list it asks for an element, on a string for a
    substring; the subsequent `operation['operationId']` then fails on both.
   */
  function OperationId(operation: Json): (r: Result<Option<Json>>)
    ensures operation.JObj? ==> r == Ok(Lookup(operation.fields, "operationId"))
    ensures r.Ok? && r.value.Some? ==> operation.JObj?
  {
    match operation
    case JObj(fs) => Ok(Lookup(fs, "operationId"))
    case JArr(items) =>
      if JStr("operationId") in items then Err("list indices must be integers") else Ok(None)
    case JStr(s) =>
      if Contains(s, "operationId") then Err("string indices must be integers") else Ok(None)
    case _ => Err("argument of type is not iterable")
  }

  /** The number of method entries that carry an `operationId`. */
  function CountWithId(methods: Fields): nat {
    if |methods| == 0 then 0
    else
      var n := |methods| - 1;
      CountWithId(methods[..n]) + (if Has(methods[n].1, "operationId") then 1 else 0)
  }

  /** The operations of one path item, in method order. */
  function MethodOperations(methods: Fields, service: string): (r: Result<seq<Operation>>)
    ensures r.Ok? ==> |r.value| == CountWithId(methods)
    ensures r.Ok? ==> forall op | op in r.value :: op.service == service
    ensures r.Ok? ==> forall i | 0 <= i < |methods| && Has(methods[i].1, "operationId") ::
      Operation(Get(methods[i].1, "operationId").value, service) in r.value
    ensures r.Ok? ==> forall op | op in r.value :: exists i | 0 <= i < |methods| ::
      Has(methods[i].1, "operationId") && op == Operation(Get(methods[i].1, "operationId").value, service)
  {
    if |methods| == 0 then Ok([])
    else
      var n := |methods| - 1;
      var front :- MethodOperations(methods[..n], service);
      var id :- OperationId(methods[n].1);
      assert forall i | 0 <= i < n :: methods[..n][i] == methods[i];
      match id
      case Some(v) => Ok(front + [Operation(v, service)])
      case None => Ok(front)
  }

  /** The number of method entries, over all path items, that carry an `operationId`. */
  function CountInPaths(paths: Fields): nat {
    if |paths| == 0 then 0
    else
      var n := |paths| - 1;
      CountInPaths(paths[..n]) + CountWithId(FieldsOf(paths[n].1))
  }

  /** Whether `op` is read from method entry `j` of path item `i`. */
  predicate ReadFrom(paths: Fields, service: string, op: Operation, i: int, j: int) {
    0 <= i < |paths| && paths[i].1.JObj? && 0 <= j < |paths[i].1.fields|
    && Has(paths[i].1.fields[j].1, "operationId")
    && op == Operation(Get(paths[i].1.fields[j].1, "operationId").value, service)
  }

  /** The operations of one document, path by path. */
  function PathOperations(paths: Fields, service: string): (r: Result<seq<Operation>>)
    ensures r.Ok? ==> forall op | op in r.value :: op.service == service
    ensures r.Ok? ==> forall i | 0 <= i < |paths| :: paths[i].1.JObj? && forall j | 0 <= j < |paths[i].1.fields| && Has(paths[i].1.fields[j].1, "operationId") ::
      Operation(Get(paths[i].1.fields[j].1, "operationId").value, service) in r.value
  {
    if |paths| == 0 then Ok([])
    else
      var n := |paths| - 1;
      var front :- PathOperations(paths[..n], service);
      if !paths[n].1.JObj? then Err("a path item is not an object")
      else
        var here :- MethodOperations(paths[n].1.fields, service);
        assert forall i | 0 <= i < n :: paths[..n][i] == paths[i];
        Ok(front + here)
  }

  /** A document yields one operation per method entry that carries an `operationId`. */
  lemma {:induction false} PathOperationsCount(paths: Fields, service: string)
    requires PathOperations(paths, service).Ok?
    ensures |PathOperations(paths, service).value| == CountInPaths(paths)
  {
    if |paths| > 0 {
      var n := |paths| - 1;
      PathOperationsCount(paths[..n], service);
    }
  }

  /** Every operation read from a document comes from some method entry with an `operationId`. */
  lemma {:induction false} PathOperationsSound(paths: Fields, service: string)
    requires PathOperations(paths, service).Ok?
    ensures forall op | op in PathOperations(paths, service).value :: exists i, j :: ReadFrom(paths, service, op, i, j)
  {
    if |paths| > 0 {
      var n := |paths| - 1;
      var front := PathOperations(paths[..n], service).value;
      var here := MethodOperations(paths[n].1.fields, service).value;
      PathOperationsSound(paths[..n], service);
      assert PathOperations(paths, service).value == front + here;
      forall op | op in front + here ensures exists i, j :: ReadFrom(paths, service, op, i, j) {
        if op in front {
          var i, j :| ReadFrom(paths[..n], service, op, i, j);
          assert paths[..n][i] == paths[i];
          assert ReadFrom(paths, service, op, i, j);
        } else {
          var j :| 0 <= j < |paths[n].1.fields| && Has(paths[n].1.fields[j].1, "operationId")
            && op == Operation(Get(paths[n].1.fields[j].1, "operationId").value, service);
          assert ReadFrom(paths, service, op, n, j);
        }
      }
    }
  }

  /**
    The entity a schema name stands for, if any: only names ending in
    `Response` or `ResponseContent`; every `Response` is removed before every
    `ResponseContent`, then one leading `Get`; an empty name is dropped.
   */
  function EntityOf(schemaName: string): (r: Option<string>)
    ensures r.Some? ==> |r.value| > 0 && |r.value| <= |schemaName|
    ensures r.Some? ==> EndsWith(schemaName, "Response") || EndsWith(schemaName, "ResponseContent")
  {
    if EndsWith(schemaName, "Response") || EndsWith(schemaName, "ResponseContent") then
      var e := Replace(Replace(schemaName, "Response", ""), "ResponseContent", "");
      var e' := if StartsWith(e, "Get") then e[3..] else e;
      if |e'| > 0 then Some(e') else None
    else None
  }

  /**
    A `<g>Response` name with no other `R` names `g`, less one leading `Get`,
    and nothing when that leaves the empty name.
   */
  lemma EntityOfResponse(g: string)
    requires 'R' !in g
    ensures EntityOf(g + "Response") == (var e := if StartsWith(g, "Get") then g[3..] else g; if |e| > 0 then Some(e) else None)
  {
    var s := g + "Response";
    assert EndsWith(s, "Response") by {
      assert s[|s| - 8..] == "Response";
    }
    ReplacePrefixWithoutFirstChar(g, "Response", "Response", "");
    assert "Response" + "" == "Response";
    ReplaceLeading("Response", "", "");
    assert Replace(s, "Response", "") == g;
    ReplaceWithoutFirstChar(g, "ResponseContent", "");
  }

  /** `Get<n>Response` names `n`. */
  lemma EntityOfGetResponse(n: string)
    requires 'R' !in n && |n| > 0
    ensures EntityOf("Get" + n + "Response") == Some(n)
  {
    var g := "Get" + n;
    assert g[..3] == "Get" && g[3..] == n;
    EntityOfResponse(g);
  }

  /** `<n>Response` names `n` when `n` does not itself start with `Get`. */
  lemma EntityOfPlainResponse(n: string)
    requires 'R' !in n && |n| > 0 && !StartsWith(n, "Get")
    ensures EntityOf(n + "Response") == Some(n)
  {
    EntityOfResponse(n);
  }

  /**
    Because `Response` goes first, a `…ResponseContent` name keeps its
    `Content`: `Get<N>ResponseContent` names `<N>Content`.
   */
  lemma EntityOfResponseContent(name: string)
    requires 'R' !in name
    ensures EntityOf("Get" + name + "ResponseContent") == Some(name + "Content")
  {
    var s := "Get" + name + "ResponseContent";
    assert EndsWith(s, "ResponseContent") by {
      assert s[|s| - 15..] == "ResponseContent";
    }
    BothRemovals(name);
    GetStripped(name);
  }

  lemma BothRemovals(name: string)
    requires 'R' !in name
    ensures Replace(Replace("Get" + name + "ResponseContent", "Response", ""), "ResponseContent", "") == "Get" + name + "Content"
  {
    var once := "Get" + name + "Content";
    DropResponse("Get" + name);
    assert 'R' !in once;
    ReplaceWithoutFirstChar(once, "ResponseContent", "");
  }

  lemma GetStripped(name: string)
    ensures StartsWith("Get" + name + "Content", "Get")
    ensures ("Get" + name + "Content")[3..] == name + "Content"
  {
    var once := "Get" + name + "Content";
    assert once[..3] == "Get";
  }

  /** Removing `Response` from `<g>ResponseContent` leaves `<g>Content` when `g` has no `R`. */
  lemma DropResponse(g: string)
    requires 'R' !in g
    ensures Replace(g + "ResponseContent", "Response", "") == g + "Content"
  {
    forall k | 0 <= k < |g| ensures !OccursAt(g + "ResponseContent", "Response", k) {
      assert (g + "ResponseContent")[k] == g[k];
    }
    assert g + "ResponseContent" == g + ("Response" + "Content");
    ReplaceSkip(g, "Response" + "Content", "Response", "");
    ReplaceLeading("Response", "Content", "");
    ReplaceWithoutFirstChar("Content", "Response", "");
    assert "" + "Content" == "Content";
  }

  lemma EntityOfGetUserResponseContent()
    ensures EntityOf("Get" + "User" + "ResponseContent") == Some("UserContent")
  {
    assert "User"[0] != 'R' && "User"[1] != 'R' && "User"[2] != 'R' && "User"[3] != 'R';
    EntityOfResponseContent("User");
    assert "User" + "Content" == "UserContent";
  }

  /** The entities named by the schema names of one document. */
  function EntitiesOf(schemas: Fields): (r: set<string>)
    ensures forall e :: e in r <==> exists i | 0 <= i < |schemas| :: EntityOf(schemas[i].0) == Some(e)
  {
    if |schemas| == 0 then {}
    else
      var n := |schemas| - 1;
      var front := EntitiesOf(schemas[..n]);
      assert forall i | 0 <= i < n :: schemas[..n][i] == schemas[i];
      match EntityOf(schemas[n].0)
      case Some(e) => front + {e}
      case None => front
  }

  /** `spec.get('paths', {})` and the operations of its path items. */
  function SpecOperations(info: SpecInfo): (r: Result<seq<Operation>>)
    ensures r.Ok? ==> forall op | op in r.value :: op.service == info.serviceName
  {
    var paths :- MemberObject(info.spec, "paths");
    PathOperations(paths, info.serviceName)
  }

  /**
    A document's operations are those of its `paths` object; a document
    without `paths` has none, and one that is not an object, or whose
    `paths` is not, fails.
   */
  lemma SpecOperationsOfPaths(info: SpecInfo)
    ensures !info.spec.JObj? ==> SpecOperations(info).Err?
    ensures info.spec.JObj? && !Has(info.spec, "paths") ==> SpecOperations(info) == Ok([])
    ensures Has(info.spec, "paths") && !Get(info.spec, "paths").value.JObj? ==> SpecOperations(info).Err?
    ensures Has(info.spec, "paths") && Get(info.spec, "paths").value.JObj? ==>
      SpecOperations(info) == PathOperations(Get(info.spec, "paths").value.fields, info.serviceName)
  {
  }

  /** What one pass of the loop reads from a document. */
  datatype Document = Document(service: string, schemas: Fields, operations: seq<Operation>, entities: set<string>)

  function ReadDocument(info: SpecInfo): (r: Result<Document>)
    ensures r.Ok? <==> SchemasOf(info.spec).Ok? && SpecOperations(info).Ok?
    ensures r.Ok? ==> r.value.service == info.serviceName
    ensures r.Ok? ==> SchemasOf(info.spec) == Ok(r.value.schemas) && SpecOperations(info) == Ok(r.value.operations)
    ensures r.Ok? ==> r.value.entities == EntitiesOf(r.value.schemas)
  {
    var schemas :- SchemasOf(info.spec);
    var operations :- SpecOperations(info);
    Ok(Document(info.serviceName, schemas, operations, EntitiesOf(schemas)))
  }

  /** Every document read, or the first failure. */
  function ReadAll(specs: seq<SpecInfo>): (r: Result<seq<Document>>)
    ensures r.Ok? <==> forall i | 0 <= i < |specs| :: ReadDocument(specs[i]).Ok?
    ensures r.Ok? ==> |r.value| == |specs| && forall i | 0 <= i < |specs| :: ReadDocument(specs[i]) == Ok(r.value[i])
  {
    MapResult(specs, ReadDocument)
  }

  /** The writes one document makes to `all_schemas`. */
  function DocBindings(doc: Document): Fields {
    SchemaBindings(doc.service, doc.schemas)
  }

  /** The schema table: every document's bindings, applied in order. */
  function AllSchemas(docs: seq<Document>): (r: Fields)
    ensures KeyedByServiceAndName(r)
    ensures forall k :: HasKey(r, k) <==> exists i | 0 <= i < |docs| :: HasKey(DocBindings(docs[i]), k)
  {
    if |docs| == 0 then []
    else
      var n := |docs| - 1;
      var pre := docs[..n];
      assert forall i | 0 <= i < n :: pre[i] == docs[i];
      var front := AllSchemas(pre);
      var b := DocBindings(docs[n]);
      var all := Update(front, b);
      UpdateOrigin(front, b);
      assert forall k :: HasKey(all, k) <==> HasKey(front, k) || HasKey(b, k) by {
        forall k ensures HasKey(all, k) <==> HasKey(front, k) || HasKey(b, k) {
          assert Lookup(all, k).Some? <==> HasKey(all, k);
        }
      }
      all
  }

  /** Documents later in the list win: the last one's schemas are stored as it gives them. */
  lemma AllSchemasLastWins(docs: seq<Document>, k: string)
    requires |docs| > 0 && HasKey(DocBindings(docs[|docs| - 1]), k)
    ensures Lookup(AllSchemas(docs), k) == Lookup(DocBindings(docs[|docs| - 1]), k)
  {
  }

  /** Every schema of every document is stored under `{service}_{name}`. */
  lemma AllSchemasComplete(docs: seq<Document>, i: int, j: int)
    requires 0 <= i < |docs| && 0 <= j < |docs[i].schemas|
    ensures HasKey(AllSchemas(docs), docs[i].service + "_" + docs[i].schemas[j].0)
  {
    var b := DocBindings(docs[i]);
    assert Keys(b)[j] == docs[i].service + "_" + docs[i].schemas[j].0;
  }

  /** The operations of all documents, in document order. */
  function AllOperations(docs: seq<Document>): (r: seq<Operation>)
    ensures forall op :: op in r <==> exists i | 0 <= i < |docs| :: op in docs[i].operations
  {
    if |docs| == 0 then []
    else
      var n := |docs| - 1;
      var pre := docs[..n];
      assert forall i | 0 <= i < n :: pre[i] == docs[i];
      AllOperations(pre) + docs[n].operations
  }

  /** Reading documents in two batches concatenates their operations, so the order is the documents' order. */
  lemma {:induction false} AllOperationsAppend(a: seq<Document>, b: seq<Document>)
    ensures AllOperations(a + b) == AllOperations(a) + AllOperations(b)
    decreases |b|
  {
    if |b| == 0 {
      assert a + b == a;
    } else {
      var n := |b| - 1;
      assert (a + b)[..|a| + n] == a + b[..n];
      assert (a + b)[|a| + n] == b[n];
      AllOperationsAppend(a, b[..n]);
    }
  }

  /** The entities of all documents. */
  function AllEntities(docs: seq<Document>): (r: set<string>)
    ensures forall e :: e in r <==> exists i | 0 <= i < |docs| :: e in docs[i].entities
  {
    if |docs| == 0 then {}
    else
      var n := |docs| - 1;
      var pre := docs[..n];
      assert forall i | 0 <= i < n :: pre[i] == docs[i];
      AllEntities(pre) + docs[n].entities
  }

  /** What `extract_schemas_and_operations` returns; the entity list comes from a set. */
  datatype Extracted = Extracted(schemas: Fields, operations: seq<Operation>, entities: set<string>)

  /**
    `extract_schemas_and_operations`: schemas re-keyed `{service}_{name}` (a
    later document overwrites an equal key), the operations that have an id,
    and the entities named by response schemas of any document. Any document
    the loop cannot read makes the whole call fail.
   */
  function Extract(specs: seq<SpecInfo>): (r: Result<Extracted>)
    ensures r.Ok? <==> forall i | 0 <= i < |specs| :: SchemasOf(specs[i].spec).Ok? && SpecOperations(specs[i]).Ok?
    ensures r.Ok? ==> KeyedByServiceAndName(r.value.schemas)
    ensures r.Ok? ==> forall op | op in r.value.operations :: exists i | 0 <= i < |specs| :: op.service == specs[i].serviceName
    ensures r.Ok? ==> ReadAll(specs).Ok? && var docs := ReadAll(specs).value;
      r.value == Extracted(AllSchemas(docs), AllOperations(docs), AllEntities(docs))
  {
    var docs :- ReadAll(specs);
    var ops := AllOperations(docs);
    assert forall op | op in ops :: exists i | 0 <= i < |specs| :: op.service == specs[i].serviceName by {
      forall op | op in ops ensures exists i | 0 <= i < |specs| :: op.service == specs[i].serviceName {
        var i :| 0 <= i < |docs| && op in docs[i].operations;
        assert ReadDocument(specs[i]) == Ok(docs[i]);
      }
    }
    Ok(Extracted(AllSchemas(docs), ops, AllEntities(docs)))
  }

  // ---------------------------------------------------------------------
  // Grouping operations by entity.

  /** The operation ids that belong to entity `e`. */
  predicate CrudId(id: Json, e: string) {
    id == JStr("Create" + e) || id == JStr("Get" + e) || id == JStr("Update" + e)
    || id == JStr("Delete" + e) || id == JStr("List" + e + "s")
  }

  /**
    The five prefixes start with five different letters, so an id belongs to
    at most one entity.
   */
  lemma CrudIdUnique(id: Json, e1: string, e2: string)
    requires CrudId(id, e1) && CrudId(id, e2)
    ensures e1 == e2
  {
    var s := id.s;
    assert s[0] in "CGUDL";
    if s[0] == 'C' {
      assert s == "Create" + e1 && s == "Create" + e2;
      assert e1 == s[6..] && e2 == s[6..];
    } else if s[0] == 'G' {
      assert e1 == s[3..] && e2 == s[3..];
    } else if s[0] == 'U' {
      assert e1 == s[6..] && e2 == s[6..];
    } else if s[0] == 'D' {
      assert e1 == s[6..] && e2 == s[6..];
    } else {
      assert e1 == s[4..|s| - 1] && e2 == s[4..|s| - 1];
    }
  }

  /** The first entity of the list whose CRUD ids include `id` (the loop's `break`). */
  function EntityFor(id: Json, entities: seq<string>): (r: Option<string>)
    ensures r.Some? ==> r.value in entities && CrudId(id, r.value)
    ensures r.None? ==> forall e | e in entities :: !CrudId(id, e)
  {
    if |entities| == 0 then None
    else if CrudId(id, entities[0]) then Some(entities[0])
    else EntityFor(id, entities[1..])
  }

  /** Whether an operation's id belongs to `e`. */
  function OfEntity(e: string): Operation -> bool {
    (op: Operation) => CrudId(op.id, e)
  }

  /** The operations of `ops` whose id belongs to `e`, in order. */
  function Matching(ops: seq<Operation>, e: string): (r: seq<Operation>)
    ensures forall op :: op in r <==> op in ops && CrudId(op.id, e)
  {
    if |ops| == 0 then []
    else
      var n := |ops| - 1;
      assert ops == ops[..n] + [ops[n]];
      Matching(ops[..n], e) + (if CrudId(ops[n].id, e) then [ops[n]] else [])
  }

  /** An entity's operations keep their order: `Matching` is a filter of the list. */
  lemma {:induction false} MatchingInOrder(ops: seq<Operation>, e: string)
    ensures Matching(ops, e) == Filter(ops, OfEntity(e))
  {
    if |ops| > 0 {
      MatchingInOrder(ops[..|ops| - 1], e);
    }
  }

  /**
    `group_operations_by_entity`: an operation joins the entity its id is a
    CRUD id of; ids of no entity are dropped, and so is an entity named by an
    empty (hence false) string. Key order is not modelled.
   */
  function Group(ops: seq<Operation>, entities: seq<string>): (r: map<string, seq<Operation>>)
    ensures forall e :: e in r <==> e != "" && e in entities && |Matching(ops, e)| > 0
    ensures forall e | e in r :: r[e] == Matching(ops, e)
  {
    if |ops| == 0 then map[]
    else
      var n := |ops| - 1;
      var g := Group(ops[..n], entities);
      var op := ops[n];
      match EntityFor(op.id, entities)
      case Some(e) =>
        if e == "" then
          GroupUnchangedBy(ops, entities, g);
          g
        else
          assert forall e' | CrudId(op.id, e') :: e' == e by {
            forall e' | CrudId(op.id, e') ensures e' == e {
              CrudIdUnique(op.id, e, e');
            }
          }
          g[e := (if e in g then g[e] else []) + [op]]
      case None =>
        GroupUnchangedBy(ops, entities, g);
        g
  }

  /** When the last operation belongs to no kept entity, dropping it changes no group. */
  lemma GroupUnchangedBy(ops: seq<Operation>, entities: seq<string>, g: map<string, seq<Operation>>)
    requires |ops| > 0
    requires EntityFor(ops[|ops| - 1].id, entities).None? || EntityFor(ops[|ops| - 1].id, entities) == Some("")
    requires forall e :: e in g <==> e != "" && e in entities && |Matching(ops[..|ops| - 1], e)| > 0
    requires forall e | e in g :: g[e] == Matching(ops[..|ops| - 1], e)
    ensures forall e :: e in g <==> e != "" && e in entities && |Matching(ops, e)| > 0
    ensures forall e | e in g :: g[e] == Matching(ops, e)
  {
    var n := |ops| - 1;
    forall e | e != "" && e in entities
      ensures Matching(ops, e) == Matching(ops[..n], e)
    {
      if CrudId(ops[n].id, e) {
        var found := EntityFor(ops[n].id, entities);
        if found.Some? {
          CrudIdUnique(ops[n].id, found.value, e);
        }
      }
    }
  }

  /** The grouping depends on the entities only as a set, so the set's iteration order does not matter. */
  lemma GroupOrderIndependent(ops: seq<Operation>, es1: seq<string>, es2: seq<string>)
    requires forall e :: e in es1 <==> e in es2
    ensures Group(ops, es1) == Group(ops, es2)
  {
    var g1 := Group(ops, es1);
    var g2 := Group(ops, es2);
    assert g1.Keys == g2.Keys;
    assert forall e | e in g1 :: g1[e] == g2[e];
  }

  // ---------------------------------------------------------------------
  // Complex operations.

  /** `any(related in op_id for related in ['Cities', 'Countries', 'Regions', 'Neighborhoods'])`. */
  predicate MentionsLocationPart(id: string) {
    Contains(id, "Cities") || Contains(id, "Countries") || Contains(id, "Regions") || Contains(id, "Neighborhoods")
  }

  /**
    The test at lines 162-166; Python's `and` binds tighter than `or`, so the
    location clause applies only when the entity is `Location`.
   */
  predicate IsComplexFor(id: string, groupIds: seq<Json>, e: string) {
    JStr(id) !in groupIds && StartsWith(id, "Get") && Contains(id, "By")
    && (Contains(Lower(id), Lower(e)) || (MentionsLocationPart(id) && e == "Location"))
  }

  function Ids(ops: seq<Operation>): (r: seq<Json>)
    ensures |r| == |ops|
    ensures forall i | 0 <= i < |ops| :: r[i] == ops[i].id
  {
    seq(|ops|, i requires 0 <= i < |ops| => ops[i].id)
  }

  /** Whether an operation has a string id that passes the complex-operation test for `e`. */
  function ComplexTest(groupIds: seq<Json>, e: string): Operation -> bool {
    (op: Operation) => op.id.JStr? && IsComplexFor(op.id.s, groupIds, e)
  }

  /** The text of a string id. */
  function IdText(op: Operation): string {
    if op.id.JStr? then op.id.s else ""
  }

  /**
    The complex operations of one entity, in operation order. An id that is
    not a string and not among the entity's own ids reaches `.startswith` and fails.
   */
  function ComplexFor(ops: seq<Operation>, groupIds: seq<Json>, e: string): (r: Result<seq<string>>)
    ensures r.Err? <==> exists op | op in ops :: !op.id.JStr? && op.id !in groupIds
    ensures r.Ok? ==> forall x :: x in r.value <==> JStr(x) in Ids(ops) && IsComplexFor(x, groupIds, e)
    ensures r.Ok? ==> r.value == Map(Filter(ops, ComplexTest(groupIds, e)), IdText)
  {
    if |ops| == 0 then Ok([])
    else
      var n := |ops| - 1;
      assert ops == ops[..n] + [ops[n]];
      assert Ids(ops) == Ids(ops[..n]) + [ops[n].id];
      var front := ComplexFor(ops[..n], groupIds, e);
      var id := ops[n].id;
      if front.Err? then front
      else if id in groupIds then front
      else if !id.JStr? then Err("operation id has no startswith")
      else if IsComplexFor(id.s, groupIds, e) then
        MapAppend(Filter(ops[..n], ComplexTest(groupIds, e)), [ops[n]], IdText);
        Ok(front.value + [id.s])
      else front
  }

  /**
    `find_complex_operations`: every grouped entity gets a list, possibly
    empty, of the operations that satisfy the complex-operation test for it.
   */
  function FindComplex(ops: seq<Operation>, grouped: map<string, seq<Operation>>): (r: Result<map<string, seq<string>>>)
    ensures r.Ok? ==> r.value.Keys == grouped.Keys
    ensures r.Ok? ==> forall e | e in grouped :: forall x ::
      x in r.value[e] <==> JStr(x) in Ids(ops) && IsComplexFor(x, Ids(grouped[e]), e)
    ensures r.Err? <==> exists e | e in grouped :: ComplexFor(ops, Ids(grouped[e]), e).Err?
  {
    if exists e | e in grouped :: ComplexFor(ops, Ids(grouped[e]), e).Err? then
      Err("operation id has no startswith")
    else
      Ok(map e | e in grouped :: ComplexFor(ops, Ids(grouped[e]), e).value)
  }

  /**
    A complex operation of an entity is never one of its CRUD operations,
    starts with `Get` and contains `By`; it names the entity case-insensitively
    unless the entity is `Location` and it names a part of one.
   */
  lemma ComplexIsNotCrud(ops: seq<Operation>, entities: seq<string>, e: string, x: string)
    requires var g := Group(ops, entities);
      e in g && FindComplex(ops, g).Ok? && x in FindComplex(ops, g).value[e]
    ensures !CrudId(JStr(x), e)
    ensures StartsWith(x, "Get") && Contains(x, "By")
    ensures Contains(Lower(x), Lower(e)) || (e == "Location" && MentionsLocationPart(x))
  {
    assert JStr(x) in Ids(ops);
  }
}

=== FILE: schemaconverter.dfy ===
/**
  The JSON Schema generator (pygenerate-schemasgen/schema_converter.py): an
  OpenAPI schema becomes a 2020-12 JSON Schema at every level, composite
  request schemas are assembled from path parameters and request bodies, and
  local references inside those composites are expanded once.
 */
module SchemaConverter {
  import opened Wrappers
  import opened Strings
  import opened Json
  import Dto

  const Draft: string := "https://json-schema.org/draft/2020-12/schema"

  /** The OpenAPI-only keywords that are dropped at every level. */
  predicate OpenApiOnly(k: string) {
    k == "discriminator" || k == "xml" || k == "externalDocs" || k == "example"
  }

  /** The keys no converted level keeps: the OpenAPI-only keywords and `nullable`. */
  predicate Dropped(k: string) {
    OpenApiOnly(k) || k == "nullable"
  }

  /** The keys the header step may touch. */
  predicate HeaderKey(k: string) {
    OpenApiOnly(k) || k == "$schema" || k == "title" || k == "nullable" || k == "type"
  }

  // ---------------------------------------------------------------------
  // One level of conversion.

  /** `if title: json_schema["title"] = title`. */
  function WithTitle(fs: Fields, title: Json): (r: Fields)
    ensures Lookup(r, "title") == if Truthy(title) then Some(title) else Lookup(fs, "title")
    ensures forall k | k != "title" :: Lookup(r, k) == Lookup(fs, k)
  {
    if Truthy(title) then Put(fs, "title", title) else fs
  }

  /** `json_schema.pop(field, None)` for each OpenAPI-only keyword. */
  function DropOpenApiOnly(fs: Fields): (r: Fields)
    ensures forall k | OpenApiOnly(k) :: !HasKey(r, k)
    ensures forall k | !OpenApiOnly(k) :: Lookup(r, k) == Lookup(fs, k)
  {
    var a := Remove(fs, "discriminator");
    var b := Remove(a, "xml");
    var c := Remove(b, "externalDocs");
    var r := Remove(c, "example");
    assert !HasKey(r, "discriminator") by {
      assert Lookup(r, "discriminator") == Lookup(c, "discriminator") == Lookup(b, "discriminator") == Lookup(a, "discriminator");
    }
    assert !HasKey(r, "xml") by {
      assert Lookup(r, "xml") == Lookup(c, "xml") == Lookup(b, "xml");
    }
    assert !HasKey(r, "externalDocs") by {
      assert Lookup(r, "externalDocs") == Lookup(c, "externalDocs");
    }
    r
  }

  /** The type a true `nullable` leaves: `null` joined to a truthy type. */
  function NullableType(t: Json): (r: Json)
    ensures t.JArr? ==> r == JArr(if JStr("null") in t.items then t.items else t.items + [JStr("null")])
    ensures !t.JArr? ==> r == JArr([t, JStr("null")])
    ensures r.JArr? && JStr("null") in r.items
  {
    if t.JArr? then
      if JStr("null") in t.items then t else JArr(t.items + [JStr("null")])
    else JArr([t, JStr("null")])
  }

  /** The `nullable` step: the type widened when the flag and the type are truthy, the flag dropped. */
  function DropNullable(fs: Fields): (r: Fields)
    ensures !HasKey(r, "nullable")
    ensures var widen := HasKey(fs, "nullable") && Truthy(Lookup(fs, "nullable").value)
        && HasKey(fs, "type") && Truthy(Lookup(fs, "type").value);
      Lookup(r, "type") == if widen then Some(NullableType(Lookup(fs, "type").value)) else Lookup(fs, "type")
    ensures forall k | k != "nullable" && k != "type" :: Lookup(r, k) == Lookup(fs, k)
  {
    if HasKey(fs, "nullable") then
      var typed :=
        if Truthy(Lookup(fs, "nullable").value) && HasKey(fs, "type") && Truthy(Lookup(fs, "type").value)
        then Put(fs, "type", NullableType(Lookup(fs, "type").value))
        else fs;
      Remove(typed, "nullable")
    else fs
  }

  /** A true `nullable` next to a truthy `type`: the case in which the type is widened. */
  predicate Widens(fs: Fields) {
    && HasKey(fs, "nullable") && Truthy(Lookup(fs, "nullable").value)
    && HasKey(fs, "type") && Truthy(Lookup(fs, "type").value)
  }

  /**
    What a schema holds under `k` after the header step, key by key: the
    draft, the title when one is given, nothing for the dropped keywords, the
    widened type, and the original member everywhere else.
   */
  function HeaderValue(fs: Fields, title: Json, k: string): Option<Json> {
    if k == "$schema" then Some(JStr(Draft))
    else if k == "title" && Truthy(title) then Some(title)
    else if Dropped(k) then None
    else if k == "type" && Widens(fs) then Some(NullableType(Lookup(fs, "type").value))
    else Lookup(fs, k)
  }

  /** Everything `_convert_openapi_schema_to_jsonschema` does before it recurses. */
  function Header(fs: Fields, title: Json): Fields {
    DropNullable(DropOpenApiOnly(WithTitle(Put(fs, "$schema", JStr(Draft)), title)))
  }

  /** The header step agrees with its key-by-key reading. */
  lemma HeaderLookup(fs: Fields, title: Json, k: string)
    ensures Lookup(Header(fs, title), k) == HeaderValue(fs, title, k)
  {
    var a := Put(fs, "$schema", JStr(Draft));
    var b := WithTitle(a, title);
    var c := DropOpenApiOnly(b);
    DropNullableLookup(c, k);
    DropOpenApiOnlyLookup(b, k);
    WithTitleLookup(a, title, k);
    if k == "type" {
      HeaderWidens(fs, title);
    }
  }

  /** The header step reads `nullable` and `type` as the schema has them. */
  lemma HeaderWidens(fs: Fields, title: Json)
    ensures Widens(DropOpenApiOnly(WithTitle(Put(fs, "$schema", JStr(Draft)), title))) == Widens(fs)
  {
    var a := Put(fs, "$schema", JStr(Draft));
    var b := WithTitle(a, title);
    DropOpenApiOnlyLookup(b, "nullable");
    DropOpenApiOnlyLookup(b, "type");
    WithTitleLookup(a, title, "nullable");
    WithTitleLookup(a, title, "type");
  }

  lemma WithTitleLookup(fs: Fields, title: Json, k: string)
    ensures Lookup(WithTitle(fs, title), k) == if k == "title" && Truthy(title) then Some(title) else Lookup(fs, k)
  {
  }

  lemma DropOpenApiOnlyLookup(fs: Fields, k: string)
    ensures Lookup(DropOpenApiOnly(fs), k) == if OpenApiOnly(k) then None else Lookup(fs, k)
  {
  }

  lemma DropNullableLookup(fs: Fields, k: string)
    ensures Lookup(DropNullable(fs), k) ==
      if k == "nullable" then None
      else if k == "type" && Widens(fs) then Some(NullableType(Lookup(fs, "type").value))
      else Lookup(fs, k)
  {
  }

  /** `"id"` for a property whose name ends in `Id`, the name otherwise. */
  function PropertyTitle(name: string): string {
    if EndsWith(name, "Id") then "id" else name
  }

  // ---------------------------------------------------------------------
  // The recursive conversion.

  /** `d[k] = v` when there is a value to write, `d` unchanged otherwise. */
  function PutIf(fs: Fields, k: string, v: Option<Json>): (r: Fields)
    ensures Lookup(r, k) == if v.Some? then v else Lookup(fs, k)
    ensures forall k' | k' != k :: Lookup(r, k') == Lookup(fs, k')
  {
    if v.Some? then Put(fs, k, v.value) else fs
  }

  /**
    `_convert_openapi_schema_to_jsonschema`: the header step, then every
    property, the `items` schema and an object-valued `additionalProperties`
    converted in turn, each with its own title.
   */
  function Convert(s: Json, title: Json): (r: Json)
    ensures s.JObj? <==> r.JObj?
    ensures !s.JObj? ==> r == s
    decreases s
  {
    if !s.JObj? then s
    else
      var fs := s.fields;
      var props := (
        match Lookup(fs, "properties")
        case Some(JObj(ps)) =>
          LookupIn(fs, "properties");
          Some(JObj(seq(|ps|, i requires 0 <= i < |ps| => (ps[i].0, Convert(ps[i].1, JStr(PropertyTitle(ps[i].0)))))))
        case _ => None);
      var items := (
        match Lookup(fs, "items")
        case Some(it) =>
          LookupIn(fs, "items");
          Some(Convert(it, JStr("item")))
        case None => None);
      var additional := (
        match Lookup(fs, "additionalProperties")
        case Some(JObj(ap)) =>
          LookupIn(fs, "additionalProperties");
          Some(Convert(JObj(ap), JStr("additional")))
        case _ => None);
      JObj(PutIf(PutIf(PutIf(Header(fs, title), "properties", props), "items", items), "additionalProperties", additional))
  }

  /** Each property converted under its own title; the names stay in place. */
  function ConvertMembers(ps: Fields): (r: Fields)
    ensures |r| == |ps| && Keys(r) == Keys(ps)
    ensures forall i | 0 <= i < |ps| :: r[i] == (ps[i].0, Convert(ps[i].1, JStr(PropertyTitle(ps[i].0))))
  {
    seq(|ps|, i requires 0 <= i < |ps| => (ps[i].0, Convert(ps[i].1, JStr(PropertyTitle(ps[i].0)))))
  }

  /** An `additionalProperties` that is itself a schema object. */
  predicate ObjectAdditional(fs: Fields) {
    HasKey(fs, "additionalProperties") && Lookup(fs, "additionalProperties").value.JObj?
  }

  /**
    What a converted object holds under `k`, key by key: the converted
    properties, items and object-valued additional properties, and the
    header step's reading everywhere else.
   */
  function ConvertValue(fs: Fields, title: Json, k: string): Option<Json> {
    if k == "properties" && PropertyMembers(fs).Some? then Some(JObj(ConvertMembers(PropertyMembers(fs).value)))
    else if k == "items" && HasKey(fs, "items") then Some(Convert(Lookup(fs, "items").value, JStr("item")))
    else if k == "additionalProperties" && ObjectAdditional(fs) then
      Some(Convert(Lookup(fs, "additionalProperties").value, JStr("additional")))
    else HeaderValue(fs, title, k)
  }

  /** Conversion agrees with its key-by-key reading. */
  lemma ConvertLookup(s: Json, title: Json, k: string)
    requires s.JObj?
    ensures Lookup(Convert(s, title).fields, k) == ConvertValue(s.fields, title, k)
  {
    var fs := s.fields;
    HeaderLookup(fs, title, k);
    if k == "properties" && PropertyMembers(fs).Some? {
      ConvertProperties(s, title);
    } else if k == "items" && HasKey(fs, "items") {
      ConvertItems(s, title);
    } else if k == "additionalProperties" && ObjectAdditional(fs) {
      ConvertAdditional(s, title);
    } else {
      ConvertKeepsHeader(s, title, k);
    }
  }

  lemma ConvertProperties(s: Json, title: Json)
    requires s.JObj? && PropertyMembers(s.fields).Some?
    ensures Lookup(Convert(s, title).fields, "properties") == Some(JObj(ConvertMembers(PropertyMembers(s.fields).value)))
  {
    var ps := PropertyMembers(s.fields).value;
    assert JObj(seq(|ps|, i requires 0 <= i < |ps| => (ps[i].0, Convert(ps[i].1, JStr(PropertyTitle(ps[i].0)))))) == JObj(ConvertMembers(ps));
  }

  lemma ConvertItems(s: Json, title: Json)
    requires s.JObj? && HasKey(s.fields, "items")
    ensures Lookup(Convert(s, title).fields, "items") == Some(Convert(Lookup(s.fields, "items").value, JStr("item")))
  {
  }

  lemma ConvertAdditional(s: Json, title: Json)
    requires s.JObj? && ObjectAdditional(s.fields)
    ensures Lookup(Convert(s, title).fields, "additionalProperties") == Some(Convert(Lookup(s.fields, "additionalProperties").value, JStr("additional")))
  {
  }

  lemma ConvertKeepsHeader(s: Json, title: Json, k: string)
    requires s.JObj?
    requires k == "properties" ==> PropertyMembers(s.fields).None?
    requires k == "items" ==> !HasKey(s.fields, "items")
    requires k == "additionalProperties" ==> !ObjectAdditional(s.fields)
    ensures Lookup(Convert(s, title).fields, k) == Lookup(Header(s.fields, title), k)
  {
  }

  /**
    No OpenAPI-only keyword and no `nullable` at any level that conversion
    reaches, and the draft named at each of them.
   */
  ghost predicate Converted(j: Json)
    decreases j, 1
  {
    if !j.JObj? then true
    else
      var fs := j.fields;
      && Lookup(fs, "$schema") == Some(JStr(Draft))
      && (forall k | Dropped(k) :: !HasKey(fs, k))
      && PropertiesConverted(fs)
      && MemberConverted(fs, "items")
      && MemberConverted(fs, "additionalProperties")
  }

  /** Every property of an object-valued `properties` is converted. */
  ghost predicate PropertiesConverted(fs: Fields)
    decreases JObj(fs), 0
  {
    match PropertyMembers(fs)
    case Some(ps) =>
      LookupIn(fs, "properties");
      forall i | 0 <= i < |ps| :: Converted(ps[i].1)
    case None => true
  }

  /** The member under `k`, when there is one, is converted. */
  ghost predicate MemberConverted(fs: Fields, k: string)
    decreases JObj(fs), 0
  {
    match Lookup(fs, k)
    case Some(v) =>
      LookupIn(fs, k);
      Converted(v)
    case None => true
  }

  /** A converted object names the draft. */
  lemma ConvertNamesDraft(s: Json, title: Json)
    requires s.JObj?
    ensures Lookup(Convert(s, title).fields, "$schema") == Some(JStr(Draft))
  {
    ConvertKeepsHeader(s, title, "$schema");
    HeaderLookup(s.fields, title, "$schema");
  }

  /** A key the header step does not touch keeps its member. */
  lemma HeaderKeeps(fs: Fields, title: Json, k: string)
    requires !HeaderKey(k)
    ensures Lookup(Header(fs, title), k) == Lookup(fs, k)
  {
    HeaderLookup(fs, title, k);
  }

  /**
    A key neither the header step touches nor conversion recurses into
    keeps its member; so do `properties` that are not an object, a missing
    `items` and an `additionalProperties` that is not an object.
   */
  lemma ConvertKeeps(s: Json, title: Json, k: string)
    requires s.JObj? && !HeaderKey(k)
    requires k == "properties" ==> PropertyMembers(s.fields).None?
    requires k == "items" ==> !HasKey(s.fields, "items")
    requires k == "additionalProperties" ==> !ObjectAdditional(s.fields)
    ensures Lookup(Convert(s, title).fields, k) == Lookup(s.fields, k)
  {
    ConvertKeepsHeader(s, title, k);
    HeaderKeeps(s.fields, title, k);
  }

  /** A converted object holds none of the dropped keys. */
  lemma ConvertDrops(s: Json, title: Json, k: string)
    requires s.JObj? && Dropped(k)
    ensures !HasKey(Convert(s, title).fields, k)
  {
    ConvertKeepsHeader(s, title, k);
    HeaderDrops(s.fields, title, k);
  }

  lemma HeaderDrops(fs: Fields, title: Json, k: string)
    requires Dropped(k)
    ensures !HasKey(Header(fs, title), k)
  {
    HeaderLookup(fs, title, k);
  }

  /** Conversion reaches every level it recurses into. */
  lemma {:induction false} ConvertEveryLevel(s: Json, title: Json)
    ensures Converted(Convert(s, title))
    decreases s, 2
  {
    if s.JObj? {
      var r := Convert(s, title).fields;
      ConvertNamesDraft(s, title);
      forall k | Dropped(k)
        ensures !HasKey(r, k)
      {
        ConvertDrops(s, title, k);
      }
      ConvertedProperties(s, title);
      ConvertedItems(s, title);
      ConvertedAdditional(s, title);
    }
  }

  lemma ConvertedProperties(s: Json, title: Json)
    requires s.JObj?
    ensures PropertiesConverted(Convert(s, title).fields)
    decreases s, 1
  {
    match PropertyMembers(s.fields)
    case Some(ps) =>
      ConvertProperties(s, title);
      ConvertedMembers(s, title, ps);
      PropertiesConvertedFrom(Convert(s, title).fields, ConvertMembers(ps));
    case None =>
      PropertiesKept(s, title);
      assert PropertyMembers(Convert(s, title).fields) == PropertyMembers(s.fields);
  }

  /** Properties that do not form an object stay as they are. */
  lemma PropertiesKept(s: Json, title: Json)
    requires s.JObj? && PropertyMembers(s.fields).None?
    ensures Lookup(Convert(s, title).fields, "properties") == Lookup(s.fields, "properties")
  {
    ConvertKeeps(s, title, "properties");
  }

  lemma {:induction false} ConvertedMembers(s: Json, title: Json, ps: Fields)
    requires s.JObj? && PropertyMembers(s.fields) == Some(ps)
    ensures forall i | 0 <= i < |ps| :: Converted(ConvertMembers(ps)[i].1)
    decreases s, 0
  {
    LookupIn(s.fields, "properties");
    forall i | 0 <= i < |ps|
      ensures Converted(ConvertMembers(ps)[i].1)
    {
      assert ps[i] in ps;
      ConvertEveryLevel(ps[i].1, JStr(PropertyTitle(ps[i].0)));
    }
  }

  lemma PropertiesConvertedFrom(r: Fields, qs: Fields)
    requires Lookup(r, "properties") == Some(JObj(qs))
    requires forall i | 0 <= i < |qs| :: Converted(qs[i].1)
    ensures PropertiesConverted(r)
  {
  }

  lemma ConvertedItems(s: Json, title: Json)
    requires s.JObj?
    ensures MemberConverted(Convert(s, title).fields, "items")
    decreases s, 1
  {
    var fs := s.fields;
    var r := Convert(s, title).fields;
    if HasKey(fs, "items") {
      LookupIn(fs, "items");
      ConvertItems(s, title);
      ConvertEveryLevel(Lookup(fs, "items").value, JStr("item"));
      MemberConvertedFrom(r, "items", Lookup(r, "items"));
    } else {
      ItemsAbsent(s, title);
      MemberConvertedFrom(r, "items", None);
    }
  }

  lemma ConvertedAdditional(s: Json, title: Json)
    requires s.JObj?
    ensures MemberConverted(Convert(s, title).fields, "additionalProperties")
    decreases s, 1
  {
    var fs := s.fields;
    var r := Convert(s, title).fields;
    if ObjectAdditional(fs) {
      LookupIn(fs, "additionalProperties");
      ConvertAdditional(s, title);
      ConvertEveryLevel(Lookup(fs, "additionalProperties").value, JStr("additional"));
      MemberConvertedFrom(r, "additionalProperties", Lookup(r, "additionalProperties"));
    } else {
      AdditionalKept(s, title);
      MemberConvertedFrom(r, "additionalProperties", Lookup(r, "additionalProperties"));
    }
  }

  /** Conversion adds no `items`. */
  lemma ItemsAbsent(s: Json, title: Json)
    requires s.JObj? && !HasKey(s.fields, "items")
    ensures !HasKey(Convert(s, title).fields, "items")
  {
    ConvertKeeps(s, title, "items");
  }

  /** An `additionalProperties` that is not an object stays as it is. */
  lemma AdditionalKept(s: Json, title: Json)
    requires s.JObj? && !ObjectAdditional(s.fields)
    ensures Lookup(Convert(s, title).fields, "additionalProperties") == Lookup(s.fields, "additionalProperties")
  {
    ConvertKeeps(s, title, "additionalProperties");
  }

  /** A member that is converted, or that is not an object at all, satisfies `MemberConverted`. */
  lemma MemberConvertedFrom(r: Fields, k: string, v: Option<Json>)
    requires Lookup(r, k) == v
    requires v.Some? ==> (Converted(v.value) || !v.value.JObj?)
    ensures MemberConverted(r, k)
  {
  }

  // ---------------------------------------------------------------------
  // Composite request schemas.

  /** `param['name']` used as a property name; a missing name aborts the run. */
  function ParamNames(params: seq<Json>): (r: Result<seq<string>>)
    ensures r.Ok? <==> forall p | p in params :: Get(p, "name").Some? && Get(p, "name").value.JStr?
    ensures r.Ok? ==> |r.value| == |params| && forall i | 0 <= i < |params| :: Get(params[i], "name") == Some(JStr(r.value[i]))
  {
    if |params| == 0 then Ok([])
    else
      var n := |params| - 1;
      assert params == params[..n] + [params[n]];
      var rest :- ParamNames(params[..n]);
      match Get(params[n], "name")
      case Some(JStr(name)) => Ok(rest + [name])
      case Some(_) => Err("TypeError: unsupported parameter name")
      case None => Err("KeyError: 'name'")
  }

  /** `param.get('schema', {'type': 'string'})`. */
  function ParamSchema(param: Json): Json {
    match Get(param, "schema")
    case Some(v) => v
    case None => JObj([("type", JStr("string"))])
  }

  /** The property that wraps the body next to path parameters. */
  function BodyProperty(ref: string): Json {
    JObj([("$ref", JStr(ref)), ("title", JStr("body"))])
  }

  /** `{"$ref": ref, "title": title}`: a schema that stands for the body alone. */
  function RefSchema(ref: string, title: string): (r: Json)
    ensures Get(r, "$ref") == Some(JStr(ref)) && Get(r, "title") == Some(JStr(title))
    ensures Keys(r.fields) == ["$ref", "title"]
  {
    JObj(Put(Put([], "$ref", JStr(ref)), "title", JStr(title)))
  }

  /** The object schema of the composite: its `type`, members, draft and title, in that order. */
  function ObjectSchema(properties: Fields, required: seq<Json>, title: string): (r: Json)
    ensures Get(r, "type") == Some(JStr("object"))
    ensures Get(r, "properties") == Some(JObj(properties))
    ensures Get(r, "required") == Some(JArr(required))
    ensures Get(r, "$schema") == Some(JStr(Draft))
    ensures Get(r, "title") == Some(JStr(title))
  {
    var fs := [("type", JStr("object")), ("properties", JObj(properties)), ("required", JArr(required)),
      ("$schema", JStr(Draft)), ("title", JStr(title))];
    LookupDistinct(fs, 0);
    LookupDistinct(fs, 1);
    LookupDistinct(fs, 2);
    LookupDistinct(fs, 3);
    LookupDistinct(fs, 4);
    JObj(fs)
  }

  /** Every required name is a property and every property is required. */
  predicate RequiredAreProperties(properties: Fields, required: seq<Json>) {
    && (forall x | x in required :: x.JStr? && HasKey(properties, x.s))
    && (forall k | k in Keys(properties) :: JStr(k) in required)
  }

  /** The members of a composite in assignment order: each path parameter, then the body. */
  function CompositePairs(names: seq<string>, params: seq<Json>, ref: string): (r: Fields)
    requires |names| == |params|
    ensures |r| == |names| + (if ref != "" then 1 else 0)
    ensures forall i | 0 <= i < |names| :: r[i] == (names[i], ParamSchema(params[i]))
    ensures ref != "" ==> r[|names|] == ("body", BodyProperty(ref))
  {
    seq(|names|, i requires 0 <= i < |names| => (names[i], ParamSchema(params[i])))
      + (if ref != "" then [("body", BodyProperty(ref))] else [])
  }

  /** `required`: one entry per assignment, repeats included. */
  function RequiredNames(pairs: Fields): (r: seq<Json>)
    ensures |r| == |pairs| && forall i | 0 <= i < |pairs| :: r[i] == JStr(pairs[i].0)
  {
    seq(|pairs|, i requires 0 <= i < |pairs| => JStr(pairs[i].0))
  }

  /** The properties built by assignment list exactly the required names. */
  lemma RequiredNamesAreProperties(pairs: Fields)
    ensures RequiredAreProperties(Update([], pairs), RequiredNames(pairs))
    ensures |pairs| > 0 ==> |Update([], pairs)| > 0
  {
    var properties := Update([], pairs);
    var required := RequiredNames(pairs);
    forall x | x in required
      ensures x.JStr? && HasKey(properties, x.s)
    {
      var i :| 0 <= i < |required| && required[i] == x;
      assert Keys(pairs)[i] == x.s;
      assert x.s in Keys(pairs);
      assert Lookup(properties, x.s) == Lookup(pairs, x.s);
    }
    forall k | k in Keys(properties)
      ensures JStr(k) in required
    {
      assert Lookup(properties, k).Some?;
      var i :| 0 <= i < |pairs| && Keys(pairs)[i] == k;
      assert required[i] == JStr(k);
    }
    if |pairs| > 0 {
      assert Keys(pairs)[0] == pairs[0].0;
      assert Lookup(properties, pairs[0].0).Some?;
    }
  }

  /**
    `for param in operation.get('parameters', [])` followed by `param.get`:
    a list yields its items, each of which must be an object. An empty object
    or text yields nothing. A non-empty one yields keys or characters, and
    `.get` raises on those. Anything else is not iterable.
   */
  function ParamList(operation: Json): (r: Result<seq<Json>>)
    ensures r.Ok? ==> r.value == GetItems(operation, "parameters") && forall p | p in r.value :: p.JObj?
    ensures Get(operation, "parameters").None? ==> r == Ok([])
    ensures Get(operation, "parameters").Some? ==> var v := Get(operation, "parameters").value;
      r.Ok? <==> (v.JArr? && forall p | p in v.items :: p.JObj?) || ((v.JObj? || v.JStr?) && !Truthy(v))
  {
    match Get(operation, "parameters")
    case None => Ok([])
    case Some(JArr(items)) =>
      if forall p | p in items :: p.JObj? then Ok(items) else Err("AttributeError: a parameter is not an object")
    case Some(JObj(fs)) => if |fs| == 0 then Ok([]) else Err("AttributeError: a parameter is a key")
    case Some(JStr(s)) => if |s| == 0 then Ok([]) else Err("AttributeError: a parameter is a character")
    case Some(_) => Err("TypeError: the parameters are not iterable")
  }

  /**
    The body reference under a truthy `requestBody`: the chain
    `.get('content', {}).get('application/json', {}).get('schema', {}).get('$ref', '')`
    needs an object at every step, and a truthy reference must be text for
    `.split`. A falsy body or reference gives `''`.
   */
  function BodyReference(operation: Json): (r: Result<string>)
    ensures r.Ok? ==> r.value == Dto.BodyRef(operation)
    ensures var body := Dto.Member(operation, "requestBody");
      var content := Dto.Member(body, "content");
      var media := Dto.Member(content, "application/json");
      var schema := Dto.Member(media, "schema");
      r.Err? <==> (Truthy(body) && (
        || !body.JObj? || !content.JObj? || !media.JObj? || !schema.JObj?
        || (Get(schema, "$ref").Some? && Truthy(Get(schema, "$ref").value) && !Get(schema, "$ref").value.JStr?)))
  {
    var body := Dto.Member(operation, "requestBody");
    if !Truthy(body) then Ok("")
    else if !body.JObj? then Err("AttributeError: 'requestBody' is not an object")
    else
      var content := Dto.Member(body, "content");
      if !content.JObj? then Err("AttributeError: 'content' is not an object")
      else
        var media := Dto.Member(content, "application/json");
        if !media.JObj? then Err("AttributeError: 'application/json' is not an object")
        else
          var schema := Dto.Member(media, "schema");
          if !schema.JObj? then Err("AttributeError: 'schema' is not an object")
          else match Get(schema, "$ref")
            case None => Ok("")
            case Some(ref) =>
              if !Truthy(ref) then Ok("")
              else if ref.JStr? then Ok(ref.s)
              else Err("AttributeError: '$ref' is not text")
  }

  /**
    `_build_composite_schema`: the required path parameters as string-typed
    (or their own) properties, the body wrapped as `body` beside them or,
    without path parameters, the body reference alone; nothing when there is
    neither. It fails where Python raises: on an operation, a parameter or a
    body step that is not an object, on a path parameter without a text
    `name`, and on a truthy reference that is not text.
   */
  function BuildComposite(operation: Json, operationId: string): (r: Result<Option<Json>>)
    ensures var params := Dto.PathParams(GetItems(operation, "parameters"));
      && (r.Ok? <==> operation.JObj? && ParamList(operation).Ok? && ParamNames(params).Ok? && BodyReference(operation).Ok?)
      && (r.Ok? ==> (r.value.None? <==> |params| == 0 && Dto.BodyRef(operation) == ""))
  {
    if !operation.JObj? then Err("AttributeError: the operation is not an object")
    else
      var items :- ParamList(operation);
      var params := Dto.PathParams(items);
      var names :- ParamNames(params);
      var ref :- BodyReference(operation);
      if ref != "" && |params| == 0 then Ok(Some(RefSchema(ref, operationId + "Request")))
      else
        var pairs := CompositePairs(names, params, ref);
        var properties := Update([], pairs);
        RequiredNamesAreProperties(pairs);
        if |properties| == 0 then Ok(None)
        else Ok(Some(ObjectSchema(properties, RequiredNames(pairs), operationId + "Request")))
  }

  /**
    The operations `_build_composite_schema` raises on before the body: one
    that is not an object, and parameters that are not iterable or hold a
    non-object.
   */
  lemma BuildCompositeRaises(operation: Json, operationId: string)
    ensures !operation.JObj? ==> BuildComposite(operation, operationId).Err?
    ensures Get(operation, "parameters") in {Some(JNull), Some(JBool(true)), Some(JBool(false))} ==> BuildComposite(operation, operationId).Err?
    ensures (Get(operation, "parameters").Some? && Get(operation, "parameters").value.JArr?
        && exists p | p in Get(operation, "parameters").value.items :: !p.JObj?)
      ==> BuildComposite(operation, operationId).Err?
  {
    if operation.JObj? && Get(operation, "parameters").Some? {
      var v := Get(operation, "parameters").value;
      if v.JArr? && exists p | p in v.items :: !p.JObj? {
        assert ParamList(operation).Err?;
      }
    }
  }

  /**
    The bodies `_build_composite_schema` raises on: a truthy body whose
    `content` or media entry is not an object, and a truthy body reference
    that is not text.
   */
  lemma BodyReferenceRaises(operation: Json, operationId: string)
    ensures var body := Dto.Member(operation, "requestBody");
      (Truthy(body) && (!body.JObj? || !Dto.Member(body, "content").JObj?
          || !Dto.Member(Dto.Member(body, "content"), "application/json").JObj?))
      ==> BuildComposite(operation, operationId).Err?
    ensures var schema := Dto.Member(Dto.Member(Dto.Member(Dto.Member(operation, "requestBody"), "content"), "application/json"), "schema");
      (Get(schema, "$ref").Some? && Truthy(Get(schema, "$ref").value) && !Get(schema, "$ref").value.JStr?)
      ==> BuildComposite(operation, operationId).Err?
  {
    var body := Dto.Member(operation, "requestBody");
    var content := Dto.Member(body, "content");
    var media := Dto.Member(content, "application/json");
    var schema := Dto.Member(media, "schema");
    if Get(schema, "$ref").Some? {
      assert schema.JObj? && media.JObj? && content.JObj? && body.JObj?;
      assert Truthy(body) by {
        assert Lookup(body.fields, "content").Some?;
      }
    }
    if Truthy(body) && (!body.JObj? || !content.JObj? || !media.JObj?) {
      assert BodyReference(operation).Err?;
    }
  }

  /** Without path parameters the composite is the body reference alone, titled after the operation. */
  lemma BodyOnlyComposite(operation: Json, operationId: string)
    requires |Dto.PathParams(GetItems(operation, "parameters"))| == 0 && Dto.BodyRef(operation) != ""
    requires operation.JObj? && ParamList(operation).Ok? && BodyReference(operation).Ok?
    ensures BuildComposite(operation, operationId) == Ok(Some(RefSchema(Dto.BodyRef(operation), operationId + "Request")))
  {
  }

  /**
    With path parameters the composite is an object schema under the draft,
    titled after the operation, whose `required` list names exactly its
    properties.
   */
  lemma ObjectComposite(operation: Json, operationId: string)
    requires |Dto.PathParams(GetItems(operation, "parameters"))| > 0
    requires BuildComposite(operation, operationId).Ok?
    ensures var r := BuildComposite(operation, operationId).value;
      && r.Some?
      && Get(r.value, "type") == Some(JStr("object"))
      && Get(r.value, "$schema") == Some(JStr(Draft))
      && Get(r.value, "title") == Some(JStr(operationId + "Request"))
      && RequiredAreProperties(GetFields(r.value, "properties"), GetItems(r.value, "required"))
  {
    var params := Dto.PathParams(GetItems(operation, "parameters"));
    var pairs := CompositePairs(ParamNames(params).value, params, Dto.BodyRef(operation));
    ObjectCompositeIs(operation, operationId);
    RequiredNamesAreProperties(pairs);
    ObjectSchemaMembers(Update([], pairs), RequiredNames(pairs), operationId + "Request");
  }

  lemma ObjectCompositeIs(operation: Json, operationId: string)
    requires |Dto.PathParams(GetItems(operation, "parameters"))| > 0
    requires BuildComposite(operation, operationId).Ok?
    ensures var params := Dto.PathParams(GetItems(operation, "parameters"));
      var pairs := CompositePairs(ParamNames(params).value, params, Dto.BodyRef(operation));
      BuildComposite(operation, operationId) == Ok(Some(ObjectSchema(Update([], pairs), RequiredNames(pairs), operationId + "Request")))
  {
    var params := Dto.PathParams(GetItems(operation, "parameters"));
    var pairs := CompositePairs(ParamNames(params).value, params, Dto.BodyRef(operation));
    RequiredNamesAreProperties(pairs);
  }

  lemma ObjectSchemaMembers(properties: Fields, required: seq<Json>, title: string)
    ensures GetFields(ObjectSchema(properties, required, title), "properties") == properties
    ensures GetItems(ObjectSchema(properties, required, title), "required") == required
  {
  }


  /** The composite schema exists exactly when the composite DTO does. */
  lemma CompositeMatchesDto(op: Dto.CompositeOp, dtoBase: string)
    requires BuildComposite(op.operation, op.operationId).Ok?
    ensures Dto.CompositeRequest(op, dtoBase).Ok?
    ensures BuildComposite(op.operation, op.operationId).value.None? <==> Dto.CompositeRequest(op, dtoBase).value.None?
  {
    var params := Dto.PathParams(GetItems(op.operation, "parameters"));
    assert forall p | p in params :: Has(p, "name");
  }

  /** With path parameters the composite schema requires the composite DTO's variables, in order. */
  lemma CompositeRequiresDtoVars(op: Dto.CompositeOp, dtoBase: string)
    requires BuildComposite(op.operation, op.operationId).Ok?
    requires |Dto.PathParams(GetItems(op.operation, "parameters"))| > 0
    ensures Dto.CompositeRequest(op, dtoBase).Ok? && Dto.CompositeRequest(op, dtoBase).value.Some?
    ensures var vars := Dto.CompositeRequest(op, dtoBase).value.value.vars;
      GetItems(BuildComposite(op.operation, op.operationId).value.value, "required")
        == seq(|vars|, i requires 0 <= i < |vars| => vars[i].name)
  {
    var params := Dto.PathParams(GetItems(op.operation, "parameters"));
    var names := ParamNames(params).value;
    CompositeMatchesDto(op, dtoBase);
    var pairs := CompositePairs(names, params, Dto.BodyRef(op.operation));
    ObjectCompositeIs(op.operation, op.operationId);
    ObjectSchemaMembers(Update([], pairs), RequiredNames(pairs), op.operationId + "Request");
    var vars := Dto.CompositeRequest(op, dtoBase).value.value.vars;
    RequiredMatchesVars(names, params, Dto.BodyRef(op.operation), Dto.PathVars(params).value, Dto.BodyVars(op.operation), vars);
  }

  lemma RequiredMatchesVars(names: seq<string>, params: seq<Json>, ref: string,
                            pathVars: seq<Dto.RequestVar>, bodyVars: seq<Dto.RequestVar>, vars: seq<Dto.RequestVar>)
    requires |names| == |params| == |pathVars|
    requires forall i | 0 <= i < |params| :: Get(params[i], "name") == Some(JStr(names[i])) && Get(params[i], "name") == Some(pathVars[i].name)
    requires |bodyVars| <= 1 && (|bodyVars| == 1 <==> ref != "")
    requires |bodyVars| == 1 ==> bodyVars[0].name == JStr("body")
    requires vars == pathVars + bodyVars
    ensures RequiredNames(CompositePairs(names, params, ref)) == seq(|vars|, i requires 0 <= i < |vars| => vars[i].name)
  {
    var pairs := CompositePairs(names, params, ref);
    forall i | 0 <= i < |vars|
      ensures RequiredNames(pairs)[i] == vars[i].name
    {
      if i < |params| {
        assert vars[i] == pathVars[i];
      } else {
        assert vars[i] == bodyVars[0];
      }
    }
  }

  /** `x-metadata` of a composite: the run's metadata, the schema's name and the composite flag. */
  function CompositeMetadata(metadata: Fields, name: string): (r: Json)
    ensures Get(r, "schema_name") == Some(JStr(name)) && Get(r, "composite") == Some(JBool(true))
    ensures forall k | k != "schema_name" && k != "composite" :: Get(r, k) == Lookup(metadata, k)
  {
    JObj(Put(Put(metadata, "schema_name", JStr(name)), "composite", JBool(true)))
  }

  /** `schema["x-metadata"] = meta`. */
  function WithMetadata(schema: Json, meta: Json): (r: Json)
    ensures Get(r, "x-metadata") == Some(meta)
    ensures forall k | k != "x-metadata" :: Get(r, k) == Get(schema, k)
  {
    JObj(Put(FieldsOf(schema), "x-metadata", meta))
  }

  /** The composite of one chosen operation, tagged with its metadata, when there is one. */
  function CompositeOf(op: Dto.CompositeOp, metadata: Fields): (r: Result<Option<Json>>)
    ensures r.Ok? <==> BuildComposite(op.operation, op.operationId).Ok?
    ensures r.Ok? ==> (r.value.Some? <==> BuildComposite(op.operation, op.operationId).value.Some?)
    ensures r.Ok? && r.value.Some? ==> Get(r.value.value, "x-metadata") == Some(CompositeMetadata(metadata, op.operationId + "Request"))
  {
    var built :- BuildComposite(op.operation, op.operationId);
    match built
    case None => Ok(None)
    case Some(schema) => Ok(Some(WithMetadata(schema, CompositeMetadata(metadata, op.operationId + "Request"))))
  }

  /**
    Storing named results in turn, `d[name] = value` for each one that holds
    a value, a later one replacing an earlier one of the same name; the first
    failure aborts.
   */
  function Collect(built: seq<(string, Result<Option<Json>>)>): (r: Result<Fields>)
    ensures r.Ok? <==> forall i | 0 <= i < |built| :: built[i].1.Ok?
  {
    if |built| == 0 then Ok([])
    else
      var n := |built| - 1;
      assert forall i | 0 <= i < n :: built[..n][i] == built[i];
      var prev :- Collect(built[..n]);
      var c :- built[n].1;
      Ok(PutIf(prev, built[n].0, c))
  }

  /** A name is stored exactly when some result under that name holds a value. */
  lemma {:induction false} CollectNames(built: seq<(string, Result<Option<Json>>)>, k: string)
    requires Collect(built).Ok?
    ensures HasKey(Collect(built).value, k) <==> exists i | 0 <= i < |built| :: built[i].0 == k && built[i].1.value.Some?
  {
    if |built| > 0 {
      var n := |built| - 1;
      assert forall i | 0 <= i < n :: built[..n][i] == built[i];
      CollectNames(built[..n], k);
      if built[n].0 == k && built[n].1.value.Some? {
        assert Lookup(Collect(built).value, k).Some?;
      }
    }
  }

  /** What is stored under a name is the value of some result under that name. */
  lemma {:induction false} CollectFrom(built: seq<(string, Result<Option<Json>>)>, k: string)
    requires Collect(built).Ok? && HasKey(Collect(built).value, k)
    ensures exists i | 0 <= i < |built| :: built[i].0 == k && built[i].1.value == Some(Lookup(Collect(built).value, k).value)
  {
    var n := |built| - 1;
    assert forall i | 0 <= i < n :: built[..n][i] == built[i];
    if built[n].0 == k && built[n].1.value.Some? {
      assert built[n].1.value == Some(Lookup(Collect(built).value, k).value);
    } else {
      CollectFrom(built[..n], k);
    }
  }

  /** Each chosen operation with the name its composite is stored under. */
  function NamedComposites(ops: seq<Dto.CompositeOp>, metadata: Fields): (r: seq<(string, Result<Option<Json>>)>)
    ensures |r| == |ops|
    ensures forall i | 0 <= i < |ops| :: r[i] == (ops[i].operationId + "Request", CompositeOf(ops[i], metadata))
  {
    seq(|ops|, i requires 0 <= i < |ops| => (ops[i].operationId + "Request", CompositeOf(ops[i], metadata)))
  }

  /** The loop of `_generate_composite_request_schemas` over the chosen operations. */
  function CompositeSchemas(ops: seq<Dto.CompositeOp>, metadata: Fields): Result<Fields> {
    Collect(NamedComposites(ops, metadata))
  }

  /** The composite schemas fail exactly when building one of them fails. */
  lemma CompositeSchemasFail(ops: seq<Dto.CompositeOp>, metadata: Fields)
    ensures CompositeSchemas(ops, metadata).Ok? <==> forall i | 0 <= i < |ops| :: BuildComposite(ops[i].operation, ops[i].operationId).Ok?
  {
    var built := NamedComposites(ops, metadata);
    assert forall i | 0 <= i < |ops| :: built[i].1.Ok? == BuildComposite(ops[i].operation, ops[i].operationId).Ok?;
  }

  /** The names stored are those of the operations that yield a composite. */
  lemma CompositeSchemasNames(ops: seq<Dto.CompositeOp>, metadata: Fields, k: string)
    requires CompositeSchemas(ops, metadata).Ok?
    ensures HasKey(CompositeSchemas(ops, metadata).value, k) <==> exists i | 0 <= i < |ops| ::
      BuildComposite(ops[i].operation, ops[i].operationId).value.Some? && k == ops[i].operationId + "Request"
  {
    var built := NamedComposites(ops, metadata);
    CollectNames(built, k);
    CompositeSchemasFail(ops, metadata);
    assert forall i | 0 <= i < |ops| :: built[i].1.value.Some? == BuildComposite(ops[i].operation, ops[i].operationId).value.Some?;
  }

  /** Every stored composite carries the composite metadata under its own name. */
  lemma CompositeSchemasTagged(ops: seq<Dto.CompositeOp>, metadata: Fields, k: string)
    requires CompositeSchemas(ops, metadata).Ok? && HasKey(CompositeSchemas(ops, metadata).value, k)
    ensures Get(Lookup(CompositeSchemas(ops, metadata).value, k).value, "x-metadata") == Some(CompositeMetadata(metadata, k))
  {
    var built := NamedComposites(ops, metadata);
    var tagged := (name: string, v: Json) => Get(v, "x-metadata") == Some(CompositeMetadata(metadata, name));
    forall i | 0 <= i < |built| && built[i].1.Ok? && built[i].1.value.Some?
      ensures tagged(built[i].0, built[i].1.value.value)
    {
      assert built[i].1 == CompositeOf(ops[i], metadata);
    }
    CollectAll(built, tagged, k);
  }

  /** What holds of every value collected holds of every value stored. */
  lemma CollectAll(built: seq<(string, Result<Option<Json>>)>, p: (string, Json) -> bool, k: string)
    requires Collect(built).Ok? && HasKey(Collect(built).value, k)
    requires forall i | 0 <= i < |built| && built[i].1.Ok? && built[i].1.value.Some? :: p(built[i].0, built[i].1.value.value)
    ensures p(k, Lookup(Collect(built).value, k).value)
  {
    CollectFrom(built, k);
  }

  /** `method.upper() in ['PUT', 'POST']`. */
  predicate PutOrPost(verb: string) {
    Upper(verb) == "PUT" || Upper(verb) == "POST"
  }

  /** `k in j`: a key of an object, an item of a list, a substring of a text; any other value raises. */
  function InTest(j: Json, k: string): (r: Result<bool>)
    ensures r.Ok? <==> j.JObj? || j.JArr? || j.JStr?
    ensures j.JObj? ==> r == Ok(Has(j, k))
    ensures j.JArr? ==> r == Ok(JStr(k) in j.items)
    ensures j.JStr? ==> r == Ok(Contains(j.s, k))
  {
    match j
    case JObj(fs) => Ok(HasKey(fs, k))
    case JArr(items) => Ok(JStr(k) in items)
    case JStr(s) => Ok(Contains(s, k))
    case _ => Err("TypeError: argument is not iterable")
  }

  /**
    One method entry of a path item: the operation's id when it is chosen.
    `'requestBody' in operation` is tested for PUT and POST only. An
    operation that passes it must be an object (`.get`) whose `operationId`,
    if present, is text (`.startswith`).
   */
  function MethodChoice(verb: string, operation: Json): (r: Result<Option<string>>)
    ensures r.Ok? ==> (r.value.Some? <==> Dto.WantsComposite(verb, operation))
    ensures r.Ok? && r.value.Some? ==> r.value.value == Dto.OperationIdText(operation)
    ensures r.Err? <==> (PutOrPost(verb) && (
      || InTest(operation, "requestBody").Err?
      || (InTest(operation, "requestBody") == Ok(true) && !operation.JObj?)
      || (Has(operation, "requestBody") && Get(operation, "operationId").Some? && !Get(operation, "operationId").value.JStr?)))
  {
    if !PutOrPost(verb) then Ok(None)
    else
      var hasBody :- InTest(operation, "requestBody");
      if !hasBody then Ok(None)
      else if !operation.JObj? then Err("AttributeError: the operation is not an object")
      else match Get(operation, "operationId")
        case None => Ok(None)
        case Some(JStr(id)) => if StartsWith(id, "Create") || StartsWith(id, "Update") then Ok(Some(id)) else Ok(None)
        case Some(_) => Err("AttributeError: 'operationId' is not text")
  }

  /** The chosen operations of one path item, in method order; the first failing entry aborts. */
  function MethodChoices(methods: Fields): (r: Result<seq<Dto.CompositeOp>>)
    ensures r.Ok? <==> forall j | 0 <= j < |methods| :: MethodChoice(methods[j].0, methods[j].1).Ok?
    ensures r.Ok? ==> r.value == Dto.MethodComposites(methods, "")
  {
    if |methods| == 0 then Ok([])
    else
      var n := |methods| - 1;
      assert forall j | 0 <= j < n :: methods[..n][j] == methods[j];
      var front :- MethodChoices(methods[..n]);
      var chosen :- MethodChoice(methods[n].0, methods[n].1);
      match chosen
      case None => Ok(front)
      case Some(id) => Ok(front + [Dto.CompositeOp(methods[n].1, id, "")])
  }

  /** A path item the walk gets through: an object (`methods.items()`) whose every entry can be tested. */
  predicate ChoosableItem(item: Json) {
    item.JObj? && MethodChoices(item.fields).Ok?
  }

  /** The chosen operations of the path items, in order; `methods.items()` needs every path item to be an object. */
  function PathChoices(paths: Fields): (r: Result<seq<Dto.CompositeOp>>)
    ensures r.Ok? <==> forall i | 0 <= i < |paths| :: ChoosableItem(paths[i].1)
    ensures r.Ok? ==> r.value == Dto.PathComposites(paths, "")
  {
    if |paths| == 0 then Ok([])
    else
      var n := |paths| - 1;
      var front := PathChoices(paths[..n]);
      if front.Err? then
        assert exists i | 0 <= i < n :: !ChoosableItem(paths[..n][i].1);
        Err(front.error)
      else if !paths[n].1.JObj? then Err("AttributeError: a path item is not an object")
      else
        var here := MethodChoices(paths[n].1.fields);
        if here.Err? then Err(here.error)
        else
          assert forall i | 0 <= i < n :: paths[..n][i] == paths[i];
          Dto.PathCompositesStep(paths, "");
          Ok(front.value + here.value)
  }

  /**
    The operations `_generate_composite_request_schemas` builds composites
    for: the document and its `paths` must be objects. When the walk
    succeeds, it chooses exactly the operations the composite DTOs are made
    for.
   */
  function CompositeChoices(spec: Json): (r: Result<seq<Dto.CompositeOp>>)
    ensures r.Ok? <==> spec.JObj? && match Get(spec, "paths")
      case None => true
      case Some(paths) => paths.JObj? && PathChoices(paths.fields).Ok?
    ensures r.Ok? ==> r.value == Dto.PathComposites(GetFields(spec, "paths"), "")
  {
    if !spec.JObj? then Err("AttributeError: the document is not an object")
    else match Get(spec, "paths")
      case None => Ok([])
      case Some(JObj(paths)) => PathChoices(paths)
      case Some(_) => Err("AttributeError: 'paths' is not an object")
  }

  /**
    The documents `_generate_composite_request_schemas` raises on: `paths`
    or a path item that is not an object, a PUT or POST entry that is neither
    an object, a list nor text, and a chosen-looking entry whose
    `operationId` is not text.
   */
  lemma CompositeChoicesRaise(spec: Json)
    requires spec.JObj?
    ensures Get(spec, "paths").Some? && !Get(spec, "paths").value.JObj? ==> CompositeChoices(spec).Err?
    ensures Get(spec, "paths").Some? && Get(spec, "paths").value.JObj?
      && (exists i | 0 <= i < |Get(spec, "paths").value.fields| :: !Get(spec, "paths").value.fields[i].1.JObj?)
      ==> CompositeChoices(spec).Err?
    ensures forall i, j | 0 <= i < |GetFields(spec, "paths")| && GetFields(spec, "paths")[i].1.JObj?
        && 0 <= j < |GetFields(spec, "paths")[i].1.fields| ::
      var entry := GetFields(spec, "paths")[i].1.fields[j];
      PutOrPost(entry.0) && (
        || !(entry.1.JObj? || entry.1.JArr? || entry.1.JStr?)
        || (Has(entry.1, "requestBody") && Get(entry.1, "operationId").Some? && !Get(entry.1, "operationId").value.JStr?))
      ==> CompositeChoices(spec).Err?
  {
  }

  /**
    `_generate_composite_request_schemas`: the composites of the operations
    chosen exactly as for the composite DTOs. It fails when choosing fails or
    when building a chosen operation's composite fails.
   */
  function GenerateCompositeRequestSchemas(spec: Json, metadata: Fields): (r: Result<Fields>)
    ensures r.Ok? <==> CompositeChoices(spec).Ok? && var ops := CompositeChoices(spec).value;
      forall i | 0 <= i < |ops| :: BuildComposite(ops[i].operation, ops[i].operationId).Ok?
    ensures r.Ok? ==> r == CompositeSchemas(Dto.PathComposites(GetFields(spec, "paths"), ""), metadata)
  {
    var ops :- CompositeChoices(spec);
    CompositeSchemasFail(ops, metadata);
    CompositeSchemas(ops, metadata)
  }

  // ---------------------------------------------------------------------
  // Expanding references in the composites.

  const LocalSchemas: string := "#/components/schemas/"

  /** The title an expanded reference takes: the referring node's own, or the schema's name. */
  function RefTitle(fs: Fields, name: string): Json {
    match Lookup(fs, "title")
    case Some(t) => t
    case None => JStr(name)
  }

  /** The name of the known schema a node's `$ref` points at locally, if any. */
  function RefTarget(fs: Fields, all: Fields): (r: Option<string>)
    ensures r.Some? <==> (
      && Lookup(fs, "$ref").Some? && Lookup(fs, "$ref").value.JStr?
      && StartsWith(Lookup(fs, "$ref").value.s, LocalSchemas)
      && HasKey(all, LastSegment(Lookup(fs, "$ref").value.s, '/')))
    ensures r.Some? ==> HasKey(all, r.value) && r.value == LastSegment(Lookup(fs, "$ref").value.s, '/')
  {
    match Lookup(fs, "$ref")
    case Some(JStr(ref)) =>
      if StartsWith(ref, LocalSchemas) && HasKey(all, LastSegment(ref, '/')) then Some(LastSegment(ref, '/'))
      else None
    case _ => None
  }

  /**
    A node holding `$ref`: a local reference to a known schema becomes that
    schema converted under the node's title; any other reference stays.
   */
  function ExpandRef(fs: Fields, all: Fields): (r: Json)
    ensures RefTarget(fs, all).None? ==> r == JObj(fs)
    ensures RefTarget(fs, all).Some? ==> (r.JObj? <==> Lookup(all, RefTarget(fs, all).value).value.JObj?)
  {
    match RefTarget(fs, all)
    case Some(name) => Convert(Lookup(all, name).value, RefTitle(fs, name))
    case None => JObj(fs)
  }

  /** `_expand_refs_in_schema`: members of objects and items of lists in turn, up to a reference. */
  function ExpandRefs(j: Json, all: Fields): (r: Json)
    ensures !j.JObj? && !j.JArr? ==> r == j
    decreases j
  {
    match j
    case JObj(fs) =>
      if HasKey(fs, "$ref") then ExpandRef(fs, all)
      else JObj(seq(|fs|, i requires 0 <= i < |fs| => (fs[i].0, ExpandRefs(fs[i].1, all))))
    case JArr(items) => JArr(seq(|items|, i requires 0 <= i < |items| => ExpandRefs(items[i], all)))
    case _ => j
  }

  /** An object without `$ref` keeps its keys, and each member is expanded in place. */
  lemma ExpandRefsMembers(fs: Fields, all: Fields)
    requires !HasKey(fs, "$ref")
    ensures var r := ExpandRefs(JObj(fs), all);
      && r.JObj? && |r.fields| == |fs| && Keys(r.fields) == Keys(fs)
      && forall i | 0 <= i < |fs| :: r.fields[i] == (fs[i].0, ExpandRefs(fs[i].1, all))
  {
    var r := ExpandRefs(JObj(fs), all);
    assert forall i | 0 <= i < |fs| :: Keys(r.fields)[i] == Keys(fs)[i];
  }

  /** Key by key: an object without `$ref` holds under each key the expansion of its value. */
  lemma ExpandRefsLookup(fs: Fields, all: Fields, k: string)
    requires !HasKey(fs, "$ref")
    ensures Lookup(ExpandRefs(JObj(fs), all).fields, k) ==
      if HasKey(fs, k) then Some(ExpandRefs(Lookup(fs, k).value, all)) else None
  {
    ExpandRefsMembers(fs, all);
    var f := (key: string, v: Json) => ExpandRefs(v, all);
    assert ExpandRefs(JObj(fs), all).fields == MapValues(fs, f);
    LookupMapValues(fs, f, k);
  }

  /** A list is expanded element by element, keeping its length. */
  lemma ExpandRefsItems(items: seq<Json>, all: Fields)
    ensures var r := ExpandRefs(JArr(items), all);
      && r.JArr? && |r.items| == |items|
      && forall i | 0 <= i < |items| :: r.items[i] == ExpandRefs(items[i], all)
  {
  }

  /** No `$ref` key at any depth. */
  ghost predicate NoRefs(j: Json)
    decreases j
  {
    match j
    case JObj(fs) => !HasKey(fs, "$ref") && forall i | 0 <= i < |fs| :: NoRefs(fs[i].1)
    case JArr(items) => forall i | 0 <= i < |items| :: NoRefs(items[i])
    case _ => true
  }

  /** A value without references comes back unchanged. */
  lemma {:induction false} ExpandWithoutRefs(j: Json, all: Fields)
    requires NoRefs(j)
    ensures ExpandRefs(j, all) == j
    decreases j
  {
    match j
    case JObj(fs) =>
      forall i | 0 <= i < |fs|
        ensures ExpandRefs(fs[i].1, all) == fs[i].1
      {
        ExpandWithoutRefs(fs[i].1, all);
      }
      assert ExpandRefs(j, all).fields == fs;
    case JArr(items) =>
      forall i | 0 <= i < |items|
        ensures ExpandRefs(items[i], all) == items[i]
      {
        ExpandWithoutRefs(items[i], all);
      }
      assert ExpandRefs(j, all).items == items;
    case _ =>
  }

  /** A reference that is not local, or names no known schema, is kept as it is. */
  lemma UnknownRefKept(fs: Fields, all: Fields)
    requires HasKey(fs, "$ref") && RefTarget(fs, all).None?
    ensures ExpandRefs(JObj(fs), all) == JObj(fs)
  {
  }

  /**
    A known local reference becomes the referenced schema as a full JSON
    Schema, converted at every level, without looking for references inside
    it again.
   */
  lemma KnownRefConverted(fs: Fields, all: Fields, name: string)
    requires HasKey(fs, "$ref") && RefTarget(fs, all) == Some(name)
    ensures ExpandRefs(JObj(fs), all) == Convert(Lookup(all, name).value, RefTitle(fs, name))
    ensures Converted(ExpandRefs(JObj(fs), all))
  {
    ConvertEveryLevel(Lookup(all, name).value, RefTitle(fs, name));
  }

  /**
    The expansion of a known reference keeps nothing of the referring node
    but its title: an `x-metadata` written next to the reference is gone
    unless the referenced schema has one of its own.
   */
  lemma ExpandedRefDropsMetadata(fs: Fields, all: Fields, name: string)
    requires HasKey(fs, "$ref") && RefTarget(fs, all) == Some(name)
    requires Lookup(all, name).value.JObj? && !HasKey(Lookup(all, name).value.fields, "x-metadata")
    ensures !Has(ExpandRefs(JObj(fs), all), "x-metadata")
  {
    KnownRefConverted(fs, all, name);
    ConvertAddsNoMetadata(Lookup(all, name).value, RefTitle(fs, name));
  }

  /** Conversion adds no `x-metadata` of its own. */
  lemma ConvertAddsNoMetadata(s: Json, title: Json)
    requires s.JObj? && !HasKey(s.fields, "x-metadata")
    ensures !Has(Convert(s, title), "x-metadata")
  {
    ConvertKeeps(s, title, "x-metadata");
  }

  /** `_expand_refs_in_schemas`: every composite expanded against the document's schemas, names in place. */
  function ExpandAll(composites: Fields, all: Fields): (r: Fields)
    ensures Keys(r) == Keys(composites)
    ensures forall i | 0 <= i < |composites| :: r[i].1 == ExpandRefs(composites[i].1, all)
  {
    MapValues(composites, (k, v) => ExpandRefs(v, all))
  }

  // ---------------------------------------------------------------------
  // Extracting the schemas of one document.

  /**
    The schemas conversion can walk through: an object whose `properties`,
    when present, is an object of such schemas, whose `items`, when present,
    is one, and whose object-valued `additionalProperties` is one. Anything
    else makes the conversion raise.
   */
  predicate Convertible(s: Json)
    decreases s
  {
    match s
    case JObj(fs) =>
      && (match Lookup(fs, "properties")
          case Some(JObj(ps)) =>
            LookupIn(fs, "properties");
            forall i | 0 <= i < |ps| :: Convertible(ps[i].1)
          case Some(_) => false
          case None => true)
      && (match Lookup(fs, "items")
          case Some(it) =>
            LookupIn(fs, "items");
            Convertible(it)
          case None => true)
      && (match Lookup(fs, "additionalProperties")
          case Some(JObj(ap)) =>
            LookupIn(fs, "additionalProperties");
            Convertible(JObj(ap))
          case _ => true)
    case _ => false
  }

  /** Every schema of a document can be walked through. */
  predicate AllConvertible(schemas: Fields) {
    forall i | 0 <= i < |schemas| :: Convertible(schemas[i].1)
  }

  /** The schema stored under a name, in a document whose schemas can all be walked through, can be. */
  lemma ConvertibleAt(schemas: Fields, k: string)
    requires AllConvertible(schemas) && HasKey(schemas, k)
    ensures Convertible(Lookup(schemas, k).value)
  {
    LookupIn(schemas, k);
    var i :| 0 <= i < |schemas| && schemas[i] == (k, Lookup(schemas, k).value);
  }

  /** `x-metadata` of a converted schema: the run's metadata, the schema's name and the source file. */
  function SchemaMetadata(metadata: Fields, name: string, file: string): (r: Json)
    ensures Get(r, "schema_name") == Some(JStr(name)) && Get(r, "original_file") == Some(JStr(file))
    ensures forall k | k != "schema_name" && k != "original_file" :: Get(r, k) == Lookup(metadata, k)
  {
    JObj(Put(Put(metadata, "schema_name", JStr(name)), "original_file", JStr(file)))
  }

  /** One schema of the document converted under its own name and tagged. */
  function ConvertSchema(name: string, def: Json, metadata: Fields, file: string): (r: Json)
    ensures Get(r, "x-metadata") == Some(SchemaMetadata(metadata, name, file))
    ensures forall k | k != "x-metadata" :: Get(r, k) == Get(Convert(def, JStr(name)), k)
  {
    WithMetadata(Convert(def, JStr(name)), SchemaMetadata(metadata, name, file))
  }

  /** Every schema of the document converted and tagged, in order. */
  function ConvertSchemas(schemas: Fields, metadata: Fields, file: string): (r: Fields)
    ensures Keys(r) == Keys(schemas)
    ensures forall i | 0 <= i < |schemas| :: r[i].1 == ConvertSchema(schemas[i].0, schemas[i].1, metadata, file)
  {
    MapValues(schemas, (name, def) => ConvertSchema(name, def, metadata, file))
  }

  /**
    `openapi_data.get("components", {}).get("schemas", {})`: the document and
    its `components` must be objects, and the schemas may be any value.
   */
  function SchemasMember(spec: Json): (r: Result<Json>)
    ensures r.Ok? <==> spec.JObj? && (Get(spec, "components").None? || Get(spec, "components").value.JObj?)
    ensures r.Ok? ==> ComponentSchemas(spec) == if r.value.JObj? then r.value.fields else []
  {
    if !spec.JObj? then Err("AttributeError: the document is not an object")
    else
      var components := Dto.Member(spec, "components");
      if !components.JObj? then Err("AttributeError: 'components' is not an object")
      else Ok(Dto.Member(components, "schemas"))
  }

  /**
    `extract_schemas_from_openapi` on a loaded document: nothing for an
    empty document or falsy schemas; otherwise every schema converted and
    tagged, then the composites with their references expanded, a composite
    replacing a schema of the same name. It fails where Python raises: on a
    document or `components` that is not an object (`.get`), on truthy
    schemas that are not an object (`.items()`), on a schema conversion
    cannot walk, and when the composites fail.
   */
  function ExtractSchemas(spec: Json, metadata: Fields, file: string): (r: Result<Fields>)
    ensures !Truthy(spec) ==> r == Ok([])
    ensures Truthy(spec) && SchemasMember(spec).Err? ==> r.Err?
    ensures Truthy(spec) && SchemasMember(spec).Ok? ==> var found := SchemasMember(spec).value;
      && (!Truthy(found) ==> r == Ok([]))
      && (Truthy(found) && !found.JObj? ==> r.Err?)
      && (Truthy(found) && found.JObj? ==>
            (r.Ok? <==> AllConvertible(found.fields) && GenerateCompositeRequestSchemas(spec, metadata).Ok?))
    ensures r.Ok? && Truthy(spec) && |ComponentSchemas(spec)| > 0 ==>
      SchemasMember(spec) == Ok(JObj(ComponentSchemas(spec)))
  {
    if !Truthy(spec) then Ok([])
    else
      var found :- SchemasMember(spec);
      if !Truthy(found) then Ok([])
      else if !found.JObj? then Err("AttributeError: 'schemas' is not an object")
      else
        var schemas := found.fields;
        if !AllConvertible(schemas) then Err("AttributeError: a schema is not an object")
        else
          var composites :- GenerateCompositeRequestSchemas(spec, metadata);
          Ok(Update(Update([], ConvertSchemas(schemas, metadata, file)), ExpandAll(composites, schemas)))
  }

  /**
    The documents `extract_schemas_from_openapi` raises on before the
    composites: a truthy document that is not an object, a `components`
    member that is not an object, and truthy schemas that are not an object.
   */
  lemma ExtractSchemasRaises(spec: Json, metadata: Fields, file: string)
    ensures Truthy(spec) && !spec.JObj? ==> ExtractSchemas(spec, metadata, file).Err?
    ensures spec.JObj? && Get(spec, "components").Some? && !Get(spec, "components").value.JObj?
      ==> ExtractSchemas(spec, metadata, file).Err?
    ensures spec.JObj? && Get(spec, "components").Some? && Get(spec, "components").value.JObj?
      && Get(Get(spec, "components").value, "schemas").Some?
      && Truthy(Get(Get(spec, "components").value, "schemas").value)
      && !Get(Get(spec, "components").value, "schemas").value.JObj?
      ==> ExtractSchemas(spec, metadata, file).Err?
  {
    if spec.JObj? && Get(spec, "components").Some? {
      assert Truthy(spec) by {
        assert Lookup(spec.fields, "components").Some?;
      }
    }
  }

  /** A document whose schemas form a list cannot be extracted: `.items()` raises on it. */
  lemma SchemaListRaises()
    ensures ExtractSchemas(JObj([("components", JObj([("schemas", JArr([JObj([("type", JStr("object"))])]))]))]), [], "f").Err?
  {
    ExtractSchemasRaises(JObj([("components", JObj([("schemas", JArr([JObj([("type", JStr("object"))])]))]))]), [], "f");
  }

  /** A body reference that is a number makes building raise at `.split`. */
  lemma NumericRefRaises()
    ensures BuildComposite(JObj([("requestBody", JObj([("content", JObj([("application/json",
      JObj([("schema", JObj([("$ref", JNum(5.0))]))]))]))]))]), "CreateUser").Err?
  {
    var schema := JObj([("$ref", JNum(5.0))]);
    var media := JObj([("schema", schema)]);
    var content := JObj([("application/json", media)]);
    var body := JObj([("content", content)]);
    var operation := JObj([("requestBody", body)]);
    assert Dto.Member(operation, "requestBody") == body;
    assert Dto.Member(body, "content") == content;
    assert Dto.Member(content, "application/json") == media;
    assert Dto.Member(media, "schema") == schema;
    assert Get(schema, "$ref") == Some(JNum(5.0));
    assert BodyReference(operation).Err?;
    assert ParamList(operation) == Ok([]);
  }

  /** A parameter that is text makes building raise at `param.get`. */
  lemma TextParamRaises()
    ensures BuildComposite(JObj([("parameters", JArr([JStr("id")]))]), "CreateUser").Err?
  {
    var operation := JObj([("parameters", JArr([JStr("id")]))]);
    assert Get(operation, "parameters") == Some(JArr([JStr("id")]));
    assert JStr("id") in [JStr("id")];
    BuildCompositeRaises(operation, "CreateUser");
  }

  /**
    What the extraction stores under a name: the expanded composite of that
    name if there is one, else the converted schema of that name, else
    nothing.
   */
  lemma ExtractLookup(spec: Json, metadata: Fields, file: string, k: string)
    requires ExtractSchemas(spec, metadata, file).Ok? && Truthy(spec) && |ComponentSchemas(spec)| > 0
    ensures var schemas := ComponentSchemas(spec);
      var composites := GenerateCompositeRequestSchemas(spec, metadata).value;
      Lookup(ExtractSchemas(spec, metadata, file).value, k) ==
        if HasKey(composites, k) then Some(ExpandRefs(Lookup(composites, k).value, schemas))
        else if HasKey(schemas, k) then Some(ConvertSchema(k, Lookup(schemas, k).value, metadata, file))
        else None
  {
    var schemas := ComponentSchemas(spec);
    var composites := GenerateCompositeRequestSchemas(spec, metadata).value;
    LookupMapValues(composites, (k, v) => ExpandRefs(v, schemas), k);
    LookupMapValues(schemas, (name, def) => ConvertSchema(name, def, metadata, file), k);
  }

  /** Tagging a converted schema with its metadata keeps it converted. */
  lemma ConvertedWithMetadata(j: Json, meta: Json)
    requires j.JObj? && Converted(j)
    ensures Converted(WithMetadata(j, meta))
  {
    var r := WithMetadata(j, meta);
    forall k | ConvertedKey(k)
      ensures Lookup(r.fields, k) == Lookup(j.fields, k)
    {
      assert Get(r, k) == Get(j, k);
    }
    ConvertedByKeys(j.fields, r.fields);
  }

  /** The keys `Converted` reads at one level. */
  predicate ConvertedKey(k: string) {
    k == "$schema" || Dropped(k) || k == "properties" || k == "items" || k == "additionalProperties"
  }

  /** Whether a level is converted depends only on the members under the keys it reads. */
  lemma ConvertedByKeys(fs: Fields, r: Fields)
    requires Converted(JObj(fs))
    requires forall k | ConvertedKey(k) :: Lookup(r, k) == Lookup(fs, k)
    ensures Converted(JObj(r))
  {
    forall k | Dropped(k)
      ensures !HasKey(r, k)
    {
      assert ConvertedKey(k);
    }
    assert ConvertedKey("$schema");
    assert ConvertedKey("properties");
    PropertiesConvertedSame(fs, r);
    assert ConvertedKey("items");
    MemberConvertedSame(fs, r, "items");
    assert ConvertedKey("additionalProperties");
    MemberConvertedSame(fs, r, "additionalProperties");
  }

  lemma PropertiesConvertedSame(fs: Fields, r: Fields)
    requires PropertiesConverted(fs) && Lookup(r, "properties") == Lookup(fs, "properties")
    ensures PropertiesConverted(r)
  {
    assert PropertyMembers(r) == PropertyMembers(fs);
  }

  lemma MemberConvertedSame(fs: Fields, r: Fields, k: string)
    requires MemberConverted(fs, k) && Lookup(r, k) == Lookup(fs, k)
    ensures MemberConverted(r, k)
  {
  }

  /**
    A schema of the document that no composite replaces is stored converted
    at every level and tagged with its name and the source file.
   */
  lemma ExtractConverted(spec: Json, metadata: Fields, file: string, k: string)
    requires ExtractSchemas(spec, metadata, file).Ok? && Truthy(spec)
    requires HasKey(ComponentSchemas(spec), k) && !HasKey(GenerateCompositeRequestSchemas(spec, metadata).value, k)
    ensures var stored := Lookup(ExtractSchemas(spec, metadata, file).value, k);
      && stored.Some? && Converted(stored.value)
      && Get(stored.value, "x-metadata") == Some(SchemaMetadata(metadata, k, file))
  {
    ExtractLookup(spec, metadata, file, k);
    ExtractedConvertible(spec, metadata, file, k);
    ConvertSchemaConverted(k, Lookup(ComponentSchemas(spec), k).value, metadata, file);
  }

  /** A successful extraction could walk through every schema of the document. */
  lemma ExtractedConvertible(spec: Json, metadata: Fields, file: string, k: string)
    requires ExtractSchemas(spec, metadata, file).Ok? && Truthy(spec) && HasKey(ComponentSchemas(spec), k)
    ensures Convertible(Lookup(ComponentSchemas(spec), k).value)
  {
    ConvertibleAt(ComponentSchemas(spec), k);
  }

  /** A converted and tagged schema is converted at every level. */
  lemma ConvertSchemaConverted(name: string, def: Json, metadata: Fields, file: string)
    requires def.JObj?
    ensures Converted(ConvertSchema(name, def, metadata, file))
  {
    ConvertEveryLevel(def, JStr(name));
    ConvertedWithMetadata(Convert(def, JStr(name)), SchemaMetadata(metadata, name, file));
  }
}

=== FILE: sqltables.dfy ===
/**
  The schema side of the SQL generator (pygenerate-sql-from-openapi,
  core/openapi_processor.py): descriptions are cleaned of HTML entities and
  trailing punctuation, and the schemas worth a table (string enums and
  response or status schemas outside the CRUD and error families) are keyed by
  their table names.
 */
module SqlTables {
  import opened Wrappers
  import opened Strings
  import opened Json
  import opened Naming

  // ---------------------------------------------------------------------
  // Cleaning text.

  /** The characters `rstrip('.,;')` removes. */
  const TrailingPunctuation: set<char> := {'.', ',', ';'}

  /**
    The entity decoding as `_clean_text` writes it: five replacements one
    after the other, `&amp;` before `&lt;` and `&gt;`.
   */
  function DecodeAsWritten(s: string): (r: string)
    ensures |r| <= |s|
    ensures '&' !in s ==> r == s
  {
    var r := Replace(Replace(Replace(Replace(Replace(s, "&#39;", "'"), "&quot;", "\""), "&amp;", "&"), "&lt;", "<"), "&gt;", ">");
    assert '&' !in s ==> r == s by {
      if '&' !in s {
        ReplaceWithoutFirstChar(s, "&#39;", "'");
        ReplaceWithoutFirstChar(s, "&quot;", "\"");
        ReplaceWithoutFirstChar(s, "&amp;", "&");
        ReplaceWithoutFirstChar(s, "&lt;", "<");
        ReplaceWithoutFirstChar(s, "&gt;", ">");
      }
    }
    Replace(Replace(Replace(Replace(Replace(s, "&#39;", "'"), "&quot;", "\""), "&amp;", "&"), "&lt;", "<"), "&gt;", ">")
  }

  /** `_clean_text` as written: empty text is returned as it is. */
  function CleanTextAsWritten(s: string): (r: string)
    ensures s == "" ==> r == ""
    ensures |r| > 0 ==> r[|r| - 1] !in TrailingPunctuation
  {
    if |s| == 0 then s else RStrip(DecodeAsWritten(s), TrailingPunctuation)
  }

  /**
    The decoding applied twice: in an escaped `&lt;` followed by any text
    without `&`, the `&amp;` becomes `&` and the `&lt;` so formed is decoded
    as well, where a single decoding gives `&lt;` back.
   */
  lemma DecodeAsWrittenTwice(t: string)
    requires '&' !in t
    ensures DecodeAsWritten("&amp;lt;" + t) == "<" + t
    ensures Decode("&amp;lt;" + t) == "&lt;" + t
    ensures DecodeAsWritten("&amp;quot;" + t) == "&quot;" + t
  {
    var s := "&amp;lt;" + t;
    EscapedLtKept(t);
    EscapedAmpDecoded(t);
    LtDecoded(t);
    DecodeOnce(t);
    EscapedQuotDecodedOnce(t);
  }

  /**
    `&quot;` is replaced before `&amp;`, so an escaped `&quot;` is decoded
    once: only the `&amp;` changes.
   */
  lemma EscapedQuotDecodedOnce(t: string)
    requires '&' !in t
    ensures DecodeAsWritten("&amp;quot;" + t) == "&quot;" + t
  {
    EscapedQuotKept(t);
    EscapedQuotAmpDecoded(t);
    QuotKept(t);
  }

  /** Neither `&#39;` nor `&quot;` occurs in `&amp;quot;` followed by text without `&`. */
  lemma EscapedQuotKept(t: string)
    requires '&' !in t
    ensures Replace("&amp;quot;" + t, "&#39;", "'") == "&amp;quot;" + t
    ensures Replace("&amp;quot;" + t, "&quot;", "\"") == "&amp;quot;" + t
  {
    var s := "&amp;quot;" + t;
    var rest := "amp;quot;" + t;
    assert s[1..] == rest;
    assert '&' !in "amp;quot;";
    assert s[..5][1] == 'a';
    ReplaceNotAtFront(s, "&#39;", "'");
    assert s[..6][1] == 'a';
    ReplaceNotAtFront(s, "&quot;", "\"");
  }

  /** The leading `&amp;` becomes `&`, which forms `&quot;` with what follows. */
  lemma EscapedQuotAmpDecoded(t: string)
    requires '&' !in t
    ensures Replace("&amp;quot;" + t, "&amp;", "&") == "&quot;" + t
  {
    var u := "quot;" + t;
    assert "&amp;quot;" + t == "&amp;" + u;
    ReplaceLeading("&amp;", u, "&");
    assert '&' !in "quot;";
    ReplaceWithoutFirstChar(u, "&amp;", "&");
    assert "&" + u == "&quot;" + t;
  }

  /** Neither `&lt;` nor `&gt;` occurs in `&quot;` followed by text without `&`. */
  lemma QuotKept(t: string)
    requires '&' !in t
    ensures Replace("&quot;" + t, "&lt;", "<") == "&quot;" + t
    ensures Replace("&quot;" + t, "&gt;", ">") == "&quot;" + t
  {
    var s := "&quot;" + t;
    var rest := "quot;" + t;
    assert s[1..] == rest;
    assert '&' !in "quot;";
    assert s[..4][1] == 'q';
    ReplaceNotAtFront(s, "&lt;", "<");
    ReplaceNotAtFront(s, "&gt;", ">");
  }

  /** Neither `&#39;` nor `&quot;` occurs in `&amp;lt;` followed by text without `&`. */
  lemma EscapedLtKept(t: string)
    requires '&' !in t
    ensures Replace("&amp;lt;" + t, "&#39;", "'") == "&amp;lt;" + t
    ensures Replace("&amp;lt;" + t, "&quot;", "\"") == "&amp;lt;" + t
  {
    var s := "&amp;lt;" + t;
    var rest := "amp;lt;" + t;
    assert s[1..] == rest;
    assert '&' !in rest by {
      assert forall k | 0 <= k < |rest| :: rest[k] == if k < 7 then "amp;lt;"[k] else t[k - 7];
    }
    assert s[..5][1] == 'a';
    ReplaceNotAtFront(s, "&#39;", "'");
    assert s[..6][1] == 'a';
    ReplaceNotAtFront(s, "&quot;", "\"");
  }

  /** The leading `&amp;` becomes `&`, which forms `&lt;` with what follows. */
  lemma EscapedAmpDecoded(t: string)
    requires '&' !in t
    ensures Replace("&amp;lt;" + t, "&amp;", "&") == "&lt;" + t
  {
    var u := "lt;" + t;
    assert "&amp;lt;" + t == "&amp;" + u;
    ReplaceLeading("&amp;", u, "&");
    NoAmpAfterLt(t);
    ReplaceWithoutFirstChar(u, "&amp;", "&");
    assert "&" + u == "&lt;" + t;
  }

  /** The `&lt;` so formed is decoded, and no `&gt;` remains. */
  lemma LtDecoded(t: string)
    requires '&' !in t
    ensures Replace("&lt;" + t, "&lt;", "<") == "<" + t
    ensures Replace("<" + t, "&gt;", ">") == "<" + t
  {
    ReplaceLeading("&lt;", t, "<");
    ReplaceWithoutFirstChar(t, "&lt;", "<");
    assert '&' !in "<" + t;
    ReplaceWithoutFirstChar("<" + t, "&gt;", ">");
  }

  /** One left-to-right pass decodes the `&amp;` only. */
  lemma DecodeOnce(t: string)
    requires '&' !in t
    ensures Decode("&amp;lt;" + t) == "&lt;" + t
  {
    var u := "lt;" + t;
    NoAmpAfterLt(t);
    DecodeEscapedPlain('&', u);
    AmpLtShape(t);
  }

  lemma AmpLtShape(t: string)
    ensures EscapeChar('&') + ("lt;" + t) == "&amp;lt;" + t
    ensures ['&'] + ("lt;" + t) == "&lt;" + t
  {
  }

  /** One escaped character before text without entities decodes to the character and the text. */
  lemma DecodeEscapedPlain(c: char, u: string)
    requires '&' !in u
    ensures Decode(EscapeChar(c) + u) == [c] + u
  {
    DecodeEscapeChar(c, u);
    DecodePlain(u);
  }

  lemma NoAmpAfterLt(t: string)
    requires '&' !in t
    ensures '&' !in "lt;" + t
  {
    var u := "lt;" + t;
    assert forall k | 0 <= k < |u| :: u[k] == if k < 3 then "lt;"[k] else t[k - 3];
  }

  /** Where `pat` does not start at the front and its first character occurs only there, nothing changes. */
  lemma ReplaceNotAtFront(s: string, pat: string, rep: string)
    requires |pat| > 0 && |s| > 0 && !OccursAt(s, pat, 0) && pat[0] !in s[1..]
    ensures Replace(s, pat, rep) == s
  {
    ReplaceNoMatchHere(s, pat, rep);
    ReplaceWithoutFirstChar(s[1..], pat, rep);
    assert s == [s[0]] + s[1..];
  }

  /** The character an entity at the front of `s` stands for, and the entity's length. */
  function EntityAt(s: string): Option<(char, nat)> {
    if StartsWith(s, "&#39;") then Some(('\'', 5))
    else if StartsWith(s, "&quot;") then Some(('"', 6))
    else if StartsWith(s, "&amp;") then Some(('&', 5))
    else if StartsWith(s, "&lt;") then Some(('<', 4))
    else if StartsWith(s, "&gt;") then Some(('>', 4))
    else None
  }

  /** One left-to-right pass that decodes each entity once. */
  function Decode(s: string): (r: string)
    ensures |r| <= |s|
    decreases |s|
  {
    if |s| == 0 then ""
    else match EntityAt(s)
      case Some((c, n)) => [c] + Decode(s[n..])
      case None => [s[0]] + Decode(s[1..])
  }

  /** The entity of each of the five characters, the character itself otherwise. */
  function EscapeChar(c: char): string {
    if c == '&' then "&amp;"
    else if c == '<' then "&lt;"
    else if c == '>' then "&gt;"
    else if c == '"' then "&quot;"
    else if c == '\'' then "&#39;"
    else [c]
  }

  /** HTML escaping of the five characters the decoding knows. */
  function Escape(s: string): (r: string)
    ensures |r| >= |s|
  {
    if |s| == 0 then "" else EscapeChar(s[0]) + Escape(s[1..])
  }

  /** Decoding one escaped character in front of any text. */
  lemma DecodeEscapeChar(c: char, t: string)
    ensures Decode(EscapeChar(c) + t) == [c] + Decode(t)
  {
    var u := EscapeChar(c) + t;
    var e := EscapeChar(c);
    assert u[..|e|] == e;
    assert u[|e|..] == t;
    if c == '&' {
      assert EntityAt(u) == Some(('&', 5)) by {
        assert u[1] == 'a';
      }
    } else if c == '<' {
      assert EntityAt(u) == Some(('<', 4)) by {
        assert u[1] == 'l';
      }
    } else if c == '>' {
      assert EntityAt(u) == Some(('>', 4)) by {
        assert u[1] == 'g';
      }
    } else if c == '"' {
      assert EntityAt(u) == Some(('"', 6)) by {
        assert u[1] == 'q';
      }
    } else if c == '\'' {
      assert EntityAt(u) == Some(('\'', 5));
    } else {
      assert u[0] == c && u[0] != '&';
      assert EntityAt(u) == None;
      assert u[1..] == t;
    }
  }

  /** Decoding undoes escaping: every character comes back exactly once. */
  lemma {:induction false} DecodeEscape(s: string)
    ensures Decode(Escape(s)) == s
  {
    if |s| > 0 {
      DecodeEscapeChar(s[0], Escape(s[1..]));
      DecodeEscape(s[1..]);
      assert s == [s[0]] + s[1..];
    }
  }

  /** A text without `&` holds no entity and is left alone. */
  lemma {:induction false} DecodePlain(s: string)
    requires '&' !in s
    ensures Decode(s) == s
  {
    if |s| > 0 {
      assert s[0] != '&';
      assert EntityAt(s) == None;
      assert s[1..] == s[..][1..];
      assert forall k | 0 <= k < |s[1..]| :: s[1..][k] == s[k + 1];
      DecodePlain(s[1..]);
      assert s == [s[0]] + s[1..];
    }
  }

  /** `_clean_text` with each entity decoded once. */
  function CleanText(s: string): (r: string)
    ensures s == "" ==> r == ""
    ensures |r| > 0 ==> r[|r| - 1] !in TrailingPunctuation
  {
    if |s| == 0 then s else RStrip(Decode(s), TrailingPunctuation)
  }

  /** Cleaning an escaped text gives it back, up to trailing punctuation. */
  lemma CleanEscaped(s: string)
    ensures CleanText(Escape(s)) == RStrip(s, TrailingPunctuation)
  {
    DecodeEscape(s);
    if |s| == 0 {
      assert Escape(s) == "";
    }
  }

  /** On a text without `&` both decodings only strip trailing punctuation. */
  lemma CleanPlain(s: string)
    requires '&' !in s
    ensures CleanText(s) == RStrip(s, TrailingPunctuation)
    ensures CleanTextAsWritten(s) == CleanText(s)
  {
    DecodePlain(s);
    ReplaceWithoutFirstChar(s, "&#39;", "'");
    ReplaceWithoutFirstChar(s, "&quot;", "\"");
    ReplaceWithoutFirstChar(s, "&amp;", "&");
    ReplaceWithoutFirstChar(s, "&lt;", "<");
    ReplaceWithoutFirstChar(s, "&gt;", ">");
  }

  // ---------------------------------------------------------------------
  // Cleaning the descriptions of schemas and their properties.

  /**
    A description that is a string is cleaned as `_clean_text` writes it, with
    the double decoding of `&amp;`; anything else is kept.
   */
  function CleanDescription(v: Json): Json {
    match v
    case JStr(s) => JStr(CleanTextAsWritten(s))
    case _ => v
  }

  /** A description without `&` only loses its trailing punctuation. */
  lemma CleanDescriptionPlain(s: string)
    requires '&' !in s
    ensures CleanDescription(JStr(s)) == JStr(RStrip(s, TrailingPunctuation))
  {
    CleanPlain(s);
  }

  /**
    A description holding an escaped `&lt;` comes out with `<`, where one
    decoding keeps `&lt;`: the descriptions differ from the intended ones.
   */
  lemma CleanDescriptionDecodesTwice(t: string)
    requires '&' !in t && |t| > 0 && t[|t| - 1] !in TrailingPunctuation
    ensures CleanDescription(JStr("&amp;lt;" + t)) == JStr("<" + t)
    ensures CleanText("&amp;lt;" + t) == "&lt;" + t
  {
    DecodeAsWrittenTwice(t);
    var x, y := "<" + t, "&lt;" + t;
    assert x[|x| - 1] == t[|t| - 1] && y[|y| - 1] == t[|t| - 1];
    assert RStrip(x, TrailingPunctuation) == x;
    assert RStrip(y, TrailingPunctuation) == y;
  }

  function DescriptionMember(k: string, v: Json): Json {
    if k == "description" then CleanDescription(v) else v
  }

  /** A property with its description cleaned. */
  function CleanProperty(p: Json): Json {
    if p.JObj? then JObj(MapValues(p.fields, DescriptionMember)) else p
  }

  function PropertyMember(name: string, p: Json): Json {
    CleanProperty(p)
  }

  function CleanProperties(v: Json): Json {
    if v.JObj? then JObj(MapValues(v.fields, PropertyMember)) else v
  }

  function SchemaMember(k: string, v: Json): Json {
    if k == "description" then CleanDescription(v)
    else if k == "properties" then CleanProperties(v)
    else v
  }

  /** A schema with its own and its properties' descriptions cleaned. */
  function CleanSchema(d: Json): Json {
    if d.JObj? then JObj(MapValues(d.fields, SchemaMember)) else d
  }

  function SchemaEntry(name: string, d: Json): Json {
    CleanSchema(d)
  }

  /** `b` is `a` with the `description` members cleaned, and nothing else changed. */
  predicate DescriptionsCleaned(a: Json, b: Json) {
    && (a.JObj? <==> b.JObj?)
    && (!a.JObj? ==> b == a)
    && (a.JObj? ==> (
      && Keys(b.fields) == Keys(a.fields)
      && forall i | 0 <= i < |a.fields| ::
           b.fields[i].1 == if a.fields[i].0 == "description" then CleanDescription(a.fields[i].1) else a.fields[i].1))
  }

  /** Every property of `b` is the property of `a` with its description cleaned. */
  predicate PropertiesCleaned(a: Json, b: Json) {
    && (a.JObj? <==> b.JObj?)
    && (!a.JObj? ==> b == a)
    && (a.JObj? ==> (
      && Keys(b.fields) == Keys(a.fields)
      && forall i | 0 <= i < |a.fields| :: DescriptionsCleaned(a.fields[i].1, b.fields[i].1)))
  }

  /** The schema's description and properties cleaned; every other member unchanged. */
  predicate SchemaCleaned(a: Json, b: Json) {
    && (a.JObj? <==> b.JObj?)
    && (!a.JObj? ==> b == a)
    && (a.JObj? ==> (
      && Keys(b.fields) == Keys(a.fields)
      && forall i | 0 <= i < |a.fields| :: (
           && (a.fields[i].0 == "description" ==> b.fields[i].1 == CleanDescription(a.fields[i].1))
           && (a.fields[i].0 == "properties" ==> PropertiesCleaned(a.fields[i].1, b.fields[i].1))
           && (a.fields[i].0 != "description" && a.fields[i].0 != "properties" ==> b.fields[i].1 == a.fields[i].1))))
  }

  /** `_clean_descriptions`: the same schemas under the same names, only descriptions cleaned. */
  function CleanDescriptions(schemas: Fields): (r: Fields)
    ensures Keys(r) == Keys(schemas)
    ensures forall i | 0 <= i < |schemas| :: SchemaCleaned(schemas[i].1, r[i].1)
  {
    var r := MapValues(schemas, SchemaEntry);
    assert forall i | 0 <= i < |schemas| :: SchemaCleaned(schemas[i].1, r[i].1) by {
      forall i | 0 <= i < |schemas| ensures SchemaCleaned(schemas[i].1, r[i].1) {
        CleanSchemaCleans(schemas[i].1);
      }
    }
    r
  }

  lemma CleanSchemaCleans(d: Json)
    ensures SchemaCleaned(d, CleanSchema(d))
  {
    if d.JObj? {
      var fs := d.fields;
      var gs := CleanSchema(d).fields;
      forall i | 0 <= i < |fs| && fs[i].0 == "properties"
        ensures PropertiesCleaned(fs[i].1, gs[i].1)
      {
        assert gs[i].1 == CleanProperties(fs[i].1);
      }
    }
  }

  /** Looking a schema up after cleaning finds the cleaned schema. */
  lemma LookupCleaned(schemas: Fields, name: string)
    ensures Lookup(CleanDescriptions(schemas), name) == if HasKey(schemas, name) then Some(CleanSchema(Lookup(schemas, name).value)) else None
  {
    LookupMapValues(schemas, SchemaEntry, name);
  }

  // ---------------------------------------------------------------------
  // Table names.

  /** Every `Response`, `Status` and `Content` removed, then one leading `Get`. */
  function StrippedName(schemaName: string): string {
    var name := Replace(Replace(Replace(schemaName, "Response", ""), "Status", ""), "Content", "");
    if StartsWith(name, "Get") then name[3..] else name
  }

  /** `_schema_to_table_name`: the stripped name in snake case, pluralised. */
  function TableName(schemaName: string): (r: string)
    ensures NoUpper(r) && EndsWith(r, "s")
    ensures var snake := SnakeCase(StrippedName(schemaName));
      Without(snake, '_') == Lower(Without(StrippedName(schemaName), '_')) && |r| > |snake|
  {
    var snake := SnakeCase(StrippedName(schemaName));
    SnakeCaseOnlyInserts(StrippedName(schemaName));
    PluralLower(snake)
  }

  /** A stem in which none of the words `_schema_to_table_name` removes occurs. */
  predicate PlainStem(stem: string) {
    !Contains(stem, "Response") && !Contains(stem, "Status") && !Contains(stem, "Content")
  }

  lemma ReplacedResponse(stem: string)
    requires PlainStem(stem)
    ensures Replace(Replace(Replace(stem + "Response", "Response", ""), "Status", ""), "Content", "") == stem
  {
    ReplaceAfterAbsent(stem, "Response", "Response", "");
    ReplaceLeading("Response", "", "");
    assert "Response" + "" == "Response";
    assert stem + ("" + "") == stem;
    ReplaceAbsent(stem, "Status", "");
    ReplaceAbsent(stem, "Content", "");
  }

  lemma ReplacedStatus(stem: string)
    requires PlainStem(stem)
    ensures Replace(Replace(Replace(stem + "Status", "Response", ""), "Status", ""), "Content", "") == stem
  {
    ReplaceAfterAbsent(stem, "Status", "Response", "");
    ReplaceShort("Status", "Response", "");
    ReplaceAfterAbsent(stem, "Status", "Status", "");
    ReplaceLeading("Status", "", "");
    assert "Status" + "" == "Status";
    assert stem + ("" + "") == stem;
    ReplaceAbsent(stem, "Content", "");
  }

  lemma ReplacedResponseContent(stem: string)
    requires PlainStem(stem)
    ensures Replace(Replace(Replace(stem + "ResponseContent", "Response", ""), "Status", ""), "Content", "") == stem
  {
    ReplaceAfterAbsent(stem, "ResponseContent", "Response", "");
    assert "ResponseContent" == "Response" + "Content";
    ReplaceLeading("Response", "Content", "");
    ReplaceShort("Content", "Response", "");
    assert "" + "Content" == "Content";
    ReplaceAfterAbsent(stem, "Content", "Status", "");
    ReplaceWithoutFirstChar("Content", "Status", "");
    ReplaceAfterAbsent(stem, "Content", "Content", "");
    ReplaceLeading("Content", "", "");
    assert "Content" + "" == "Content";
    assert stem + ("" + "") == stem;
  }

  /**
    A name built from a stem in which `Response`, `Status` and `Content` do
    not occur and one of the response suffixes loses exactly the suffix and
    then one leading `Get`: no occurrence can straddle the stem and the
    suffix, because none of the three words begins again inside itself.
   */
  lemma StrippedResponseName(stem: string, suffix: string)
    requires !Contains(stem, "Response") && !Contains(stem, "Status") && !Contains(stem, "Content")
    requires suffix == "Response" || suffix == "Status" || suffix == "ResponseContent"
    ensures StrippedName(stem + suffix) == if StartsWith(stem, "Get") then stem[3..] else stem
    ensures TableName(stem + suffix) == PluralLower(SnakeCase(if StartsWith(stem, "Get") then stem[3..] else stem))
  {
    if suffix == "Response" {
      ReplacedResponse(stem);
    } else if suffix == "Status" {
      ReplacedStatus(stem);
    } else {
      ReplacedResponseContent(stem);
    }
  }

  /** An entity whose name holds `C`, `R` and `S` letters still loses only its suffix. */
  lemma TableNameCountry()
    ensures TableName("CountryResponse") == "countries"
  {
    CountryStripped();
    CountrySnake();
  }

  lemma CountryStripped()
    ensures StrippedName("CountryResponse") == "Country"
  {
    var stem := "Country";
    CountryPlain();
    CountryNotGet();
    StrippedResponseName(stem, "Response");
    CountryJoin();
  }

  lemma CountryJoin()
    ensures "Country" + "Response" == "CountryResponse"
  {
  }

  lemma CountryNotGet()
    ensures !StartsWith("Country", "Get")
  {
    assert "Country"[0] != 'G';
  }

  lemma CountryPlain()
    ensures PlainStem("Country")
  {
    var stem := "Country";
    if Contains(stem, "Response") {
      ContainsFirstChar(stem, "Response");
    }
    if Contains(stem, "Status") {
      ContainsFirstChar(stem, "Status");
    }
    forall i | 0 <= i <= |stem|
      ensures !OccursAt(stem, "Content", i)
    {
      if i == 0 && |stem| == 7 {
        assert stem[0..7][2] != "Content"[2];
      }
    }
  }

  lemma CountrySnake()
    ensures PluralLower(SnakeCase("Country")) == "countries"
  {
    CountryLower();
    Naming.PluralizeCountry();
  }

  lemma CountryLower()
    ensures SnakeCase("Country") == "country"
  {
    CountryWord();
    SnakeCaseOneWord("Country");
    LowerCountry();
  }

  lemma CountryWord()
    ensures CapitalWord("Country")
  {
  }

  lemma LowerCountry()
    ensures Lower("Country") == "country"
  {
    var l := Lower("Country");
    assert |l| == 7 && l[0] == 'c' && l[1] == 'o' && l[2] == 'u' && l[3] == 'n' && l[4] == 't' && l[5] == 'r' && l[6] == 'y';
  }

  // ---------------------------------------------------------------------
  // Which schemas become tables.

  /** `schema_def.get('type') == 'string' and 'enum' in schema_def`. */
  predicate EnumSchema(d: Json) {
    Get(d, "type") == Some(JStr("string")) && Has(d, "enum")
  }

  predicate ResponseName(name: string) {
    EndsWith(name, "Response") || EndsWith(name, "Status") || EndsWith(name, "ResponseContent")
  }

  /** A CRUD operation's schema or an error schema. */
  predicate CrudOrError(name: string) {
    || StartsWith(name, "Create") || StartsWith(name, "Delete") || StartsWith(name, "List")
    || StartsWith(name, "Update") || StartsWith(name, "Get")
    || Contains(name, "Error") || Contains(name, "Validation") || Contains(name, "Conflict") || Contains(name, "NotFound")
  }

  /** The key of an enum's table: the lower-cased name with an `s`, without the `y` rule. */
  function EnumKey(name: string): (r: string)
    ensures NoUpper(r) && EndsWith(r, "s")
  {
    Lower(name) + "s"
  }

  /** `schema_def['enum']`. */
  function EnumValues(d: Json): Json {
    match Get(d, "enum")
    case Some(v) => v
    case None => JNull
  }

  /** The `enum_table` entry of an enum schema. */
  function EnumTable(name: string, d: Json): Json {
    JObj([("type", JStr("enum_table")), ("enum_values", EnumValues(d)), ("original_name", JStr(name))])
  }

  /** A schema that yields a table. */
  predicate Tabled(name: string, d: Json) {
    EnumSchema(d) || (ResponseName(name) && !CrudOrError(name))
  }

  /** The table entry of a schema that yields one. */
  function TableEntry(name: string, d: Json): (string, Json) {
    if EnumSchema(d) then (EnumKey(name), EnumTable(name, d)) else (TableName(name), d)
  }

  /** `Tabled` of a schema entry. */
  predicate TabledEntry(x: (string, Json)) {
    Tabled(x.0, x.1)
  }

  /** The schemas that yield a table, in order. */
  function TabledSchemas(schemas: Fields): (r: Fields)
    ensures forall x :: x in r <==> x in schemas && Tabled(x.0, x.1)
    ensures r == Filter(schemas, TabledEntry)
  {
    if |schemas| == 0 then []
    else
      var n := |schemas| - 1;
      assert schemas == schemas[..n] + [schemas[n]];
      TabledSchemas(schemas[..n]) + if Tabled(schemas[n].0, schemas[n].1) then [schemas[n]] else []
  }

  /** The table entries in schema order, before later entries overwrite earlier ones. */
  function TableEntries(schemas: Fields): (r: Fields)
    ensures var tabled := TabledSchemas(schemas);
      && |r| == |tabled|
      && forall i | 0 <= i < |tabled| :: r[i] == TableEntry(tabled[i].0, tabled[i].1)
  {
    var tabled := TabledSchemas(schemas);
    seq(|tabled|, i requires 0 <= i < |tabled| => TableEntry(tabled[i].0, tabled[i].1))
  }

  /** Every table key is lower case and ends in `s`. */
  lemma TableKeysShape(schemas: Fields, t: string)
    requires HasKey(TableEntries(schemas), t)
    ensures NoUpper(t) && EndsWith(t, "s")
  {
    var es := TableEntries(schemas);
    var i :| 0 <= i < |es| && Keys(es)[i] == t;
    var tabled := TabledSchemas(schemas);
    assert es[i] == TableEntry(tabled[i].0, tabled[i].1);
  }

  /**
    `extract_response_schemas`: the cleaned schemas that yield a table, keyed
    by table name; a later schema with the same table name wins.
   */
  function ExtractResponseSchemas(spec: Json): (r: Fields)
    ensures var cleaned := CleanDescriptions(ComponentSchemas(spec));
      forall t :: Lookup(r, t) == Lookup(TableEntries(cleaned), t)
    ensures forall t | HasKey(r, t) :: NoUpper(t) && EndsWith(t, "s")
  {
    var cleaned := CleanDescriptions(ComponentSchemas(spec));
    var r := Update([], TableEntries(cleaned));
    assert forall t | HasKey(r, t) :: NoUpper(t) && EndsWith(t, "s") by {
      forall t | HasKey(r, t) ensures NoUpper(t) && EndsWith(t, "s") {
        TableKeysShape(cleaned, t);
      }
    }
    r
  }

  /** Each table entry comes from a schema that yields a table. */
  lemma EntryFromSchema(schemas: Fields, x: (string, Json))
    requires x in TableEntries(schemas)
    ensures exists j | 0 <= j < |schemas| :: Tabled(schemas[j].0, schemas[j].1) && x == TableEntry(schemas[j].0, schemas[j].1)
  {
    var tabled := TabledSchemas(schemas);
    var es := TableEntries(schemas);
    var i :| 0 <= i < |es| && es[i] == x;
    assert tabled[i] in tabled;
    var j :| 0 <= j < |schemas| && schemas[j] == tabled[i];
    assert Tabled(schemas[j].0, schemas[j].1);
  }

  /** Each schema that yields a table contributes its entry. */
  lemma SchemaToEntry(schemas: Fields, j: int)
    requires 0 <= j < |schemas| && Tabled(schemas[j].0, schemas[j].1)
    ensures TableEntry(schemas[j].0, schemas[j].1) in TableEntries(schemas)
  {
    var tabled := TabledSchemas(schemas);
    var es := TableEntries(schemas);
    assert schemas[j] in tabled;
    var i :| 0 <= i < |tabled| && tabled[i] == schemas[j];
    assert es[i] == TableEntry(schemas[j].0, schemas[j].1);
  }
}

=== FILE: strings.dfy ===
/**
  Python `str` operations the generators rely on, stated over `seq<char>`.

  Case mapping covers ASCII only: `lower()`, `upper()`, `capitalize()` and
  `isupper()` act on 'A'..'Z' / 'a'..'z' and leave every other character as it is.
 */
module Strings {

  predicate IsUpperChar(c: char) {
    'A' <= c <= 'Z'
  }

  predicate IsLowerChar(c: char) {
    'a' <= c <= 'z'
  }

  predicate IsDigitChar(c: char) {
    '0' <= c <= '9'
  }

  function LowerChar(c: char): (r: char)
    ensures !IsUpperChar(r)
    ensures IsUpperChar(c) ==> IsLowerChar(r)
  {
    if IsUpperChar(c) then (c as int + 32) as char else c
  }

  function UpperChar(c: char): (r: char)
    ensures !IsLowerChar(r)
    ensures IsLowerChar(c) ==> IsUpperChar(r)
  {
    if IsLowerChar(c) then (c as int - 32) as char else c
  }

  /** No ASCII capital anywhere in `s`. */
  predicate NoUpper(s: string) {
    forall i | 0 <= i < |s| :: !IsUpperChar(s[i])
  }

  /** Python's `s.lower()`. */
  function Lower(s: string): (r: string)
    ensures |r| == |s|
    ensures NoUpper(r)
  {
    seq(|s|, i requires 0 <= i < |s| => LowerChar(s[i]))
  }

  /** Python's `s.upper()`. */
  function Upper(s: string): (r: string)
    ensures |r| == |s|
    ensures forall i | 0 <= i < |r| :: !IsLowerChar(r[i])
  {
    seq(|s|, i requires 0 <= i < |s| => UpperChar(s[i]))
  }

  lemma LowerAppend(a: string, b: string)
    ensures Lower(a + b) == Lower(a) + Lower(b)
  {
  }

  lemma LowerOfNoUpper(s: string)
    requires NoUpper(s)
    ensures Lower(s) == s
  {
  }

  /** Python's `s.capitalize()`: first character upper-cased, all the others lower-cased. */
  function Capitalize(s: string): (r: string)
    ensures |r| == |s|
    ensures |s| > 0 ==> !IsLowerChar(r[0]) && NoUpper(r[1..])
  {
    if |s| == 0 then "" else [UpperChar(s[0])] + Lower(s[1..])
  }

  /** Python's `text.startswith(p)`. */
  predicate StartsWith(s: string, p: string) {
    |p| <= |s| && s[..|p|] == p
  }

  /** Python's `text.endswith(p)`. */
  predicate EndsWith(s: string, p: string) {
    |p| <= |s| && s[|s| - |p|..] == p
  }

  /** `p` occurs in `s` starting at index `i`. */
  predicate OccursAt(s: string, p: string, i: int) {
    0 <= i && i + |p| <= |s| && s[i..i + |p|] == p
  }

  /** Python's `p in s` on two strings. */
  predicate Contains(s: string, p: string) {
    exists i | 0 <= i <= |s| :: OccursAt(s, p, i)
  }

  lemma StartsWithContains(s: string, p: string)
    requires StartsWith(s, p)
    ensures Contains(s, p)
  {
    assert OccursAt(s, p, 0);
  }

  lemma EndsWithContains(s: string, p: string)
    requires EndsWith(s, p)
    ensures Contains(s, p)
  {
    assert OccursAt(s, p, |s| - |p|);
  }

  /** An occurrence of a literal pattern must start with the pattern's first character. */
  lemma OccursAtFirstChar(s: string, p: string, i: int)
    requires |p| > 0 && OccursAt(s, p, i)
    ensures s[i] == p[0]
  {
    assert s[i..i + |p|][0] == s[i];
  }

  lemma ContainsFirstChar(s: string, p: string)
    requires |p| > 0 && Contains(s, p)
    ensures p[0] in s
  {
    var i :| 0 <= i <= |s| && OccursAt(s, p, i);
    OccursAtFirstChar(s, p, i);
  }

  /**
    Python's `s.replace(pat, rep)` for a non-empty `pat`: occurrences are
    found left to right and never overlap.
   */
  function Replace(s: string, pat: string, rep: string): (r: string)
    requires |pat| > 0
    ensures |rep| <= |pat| ==> |r| <= |s|
    decreases |s|
  {
    if |s| < |pat| then s
    else if s[..|pat|] == pat then rep + Replace(s[|pat|..], pat, rep)
    else [s[0]] + Replace(s[1..], pat, rep)
  }

  /** Replacing in a text that begins with `pat` starts with `rep`. */
  lemma ReplaceLeading(pat: string, t: string, rep: string)
    requires |pat| > 0
    ensures Replace(pat + t, pat, rep) == rep + Replace(t, pat, rep)
  {
    assert (pat + t)[..|pat|] == pat;
    assert (pat + t)[|pat|..] == t;
  }

  /**
    A prefix `s` in which no occurrence of `pat` starts is copied through unchanged;
    the replacing carries on in what follows.
   */
  lemma {:induction false} ReplaceSkip(s: string, t: string, pat: string, rep: string)
    requires |pat| > 0
    requires forall i | 0 <= i < |s| :: !OccursAt(s + t, pat, i)
    ensures Replace(s + t, pat, rep) == s + Replace(t, pat, rep)
    decreases |s|
  {
    var u := s + t;
    if |s| == 0 {
      assert u == t;
    } else {
      assert !OccursAt(u, pat, 0);
      ReplaceNoMatchHere(u, pat, rep);
      assert u[1..] == s[1..] + t;
      forall i | 0 <= i < |s[1..]|
        ensures !OccursAt(s[1..] + t, pat, i)
      {
        OccursShift(u, pat, i);
      }
      ReplaceSkip(s[1..], t, pat, rep);
      assert s == [s[0]] + s[1..];
    }
  }

  /** Where `pat` does not start at the front, the first character is copied. */
  lemma ReplaceNoMatchHere(u: string, pat: string, rep: string)
    requires |pat| > 0 && |u| > 0 && !OccursAt(u, pat, 0)
    ensures Replace(u, pat, rep) == [u[0]] + Replace(u[1..], pat, rep)
  {
    if |u| < |pat| {
      ReplaceShort(u[1..], pat, rep);
      assert u == [u[0]] + u[1..];
    }
  }

  lemma OccursShift(u: string, pat: string, i: nat)
    requires |u| > 0
    ensures OccursAt(u, pat, i + 1) <==> OccursAt(u[1..], pat, i)
  {
    if i + 1 + |pat| <= |u| {
      assert u[i + 1..i + 1 + |pat|] == u[1..][i..i + |pat|];
    }
  }

  lemma ReplaceShort(t: string, pat: string, rep: string)
    requires |pat| > 0 && |t| < |pat|
    ensures Replace(t, pat, rep) == t
  {
  }

  /** Without an occurrence of `pat` the text is unchanged. */
  lemma ReplaceAbsent(s: string, pat: string, rep: string)
    requires |pat| > 0 && !Contains(s, pat)
    ensures Replace(s, pat, rep) == s
  {
    forall i | 0 <= i < |s|
      ensures !OccursAt(s + "", pat, i)
    {
      assert s + "" == s;
    }
    ReplaceSkip(s, "", pat, rep);
    assert s + "" == s;
  }

  /** A text without the first character of `pat` cannot contain `pat`. */
  lemma ReplaceWithoutFirstChar(s: string, pat: string, rep: string)
    requires |pat| > 0 && pat[0] !in s
    ensures Replace(s, pat, rep) == s
  {
    if Contains(s, pat) {
      ContainsFirstChar(s, pat);
    }
    ReplaceAbsent(s, pat, rep);
  }

  /** A prefix without the first character of `pat` is copied through unchanged. */
  lemma ReplacePrefixWithoutFirstChar(s: string, t: string, pat: string, rep: string)
    requires |pat| > 0 && pat[0] !in s
    ensures Replace(s + t, pat, rep) == s + Replace(t, pat, rep)
  {
    forall i | 0 <= i < |s|
      ensures !OccursAt(s + t, pat, i)
    {
      assert (s + t)[i] == s[i];
      assert i + |pat| <= |s + t| ==> (s + t)[i..i + |pat|][0] == (s + t)[i];
    }
    ReplaceSkip(s, t, pat, rep);
  }

  /**
    A prefix that does not contain `pat` is copied through unchanged when the
    text after it starts with a character `pat` holds only at its front, so
    that no occurrence can straddle the two.
   */
  lemma ReplaceAfterAbsent(s: string, t: string, pat: string, rep: string)
    requires |pat| > 0 && |t| > 0 && !Contains(s, pat) && t[0] !in pat[1..]
    ensures Replace(s + t, pat, rep) == s + Replace(t, pat, rep)
  {
    var u := s + t;
    forall i | 0 <= i < |s|
      ensures !OccursAt(u, pat, i)
    {
      if i + |pat| <= |s| {
        assert u[i..i + |pat|] == s[i..i + |pat|];
        assert !OccursAt(s, pat, i);
      } else if i + |pat| <= |u| {
        var k := |s| - i;
        assert u[i..i + |pat|][k] == t[0];
        assert pat[1..][k - 1] == pat[k];
      }
    }
    ReplaceSkip(s, t, pat, rep);
  }

  /** Python's `sep.join(parts)`. */
  function Join(parts: seq<string>, sep: string): string
  {
    if |parts| == 0 then ""
    else if |parts| == 1 then parts[0]
    else parts[0] + sep + Join(parts[1..], sep)
  }

  /** Python's `s.split(sep)[-1]`: the text after the last `sep`. */
  function LastSegment(s: string, sep: char): (r: string)
    ensures sep !in r
    ensures |r| <= |s| && r == s[|s| - |r|..]
    ensures |r| == |s| || s[|s| - |r| - 1] == sep
  {
    if |s| == 0 then ""
    else if s[|s| - 1] == sep then ""
    else LastSegment(s[..|s| - 1], sep) + [s[|s| - 1]]
  }

  /** The text after the last `sep` is everything after a `sep` the rest does not contain. */
  lemma LastSegmentAfter(a: string, b: string, sep: char)
    requires sep !in b
    ensures LastSegment(a + [sep] + b, sep) == b
  {
    var s := a + [sep] + b;
    var r := LastSegment(s, sep);
    assert s[|a|] == sep;
    assert s[|s| - |b|..] == b;
  }

  /** Python's `s.rfind(c)` for a single character: -1 when absent. */
  function LastIndexOf(s: string, c: char): (i: int)
    ensures -1 <= i < |s|
    ensures i >= 0 ==> s[i] == c
    ensures forall j | i < j < |s| :: s[j] != c
  {
    if |s| == 0 then -1
    else if s[|s| - 1] == c then |s| - 1
    else LastIndexOf(s[..|s| - 1], c)
  }

  /** Python's `s.rstrip(chars)`. */
  function RStrip(s: string, chars: set<char>): (r: string)
    ensures |r| <= |s| && r == s[..|r|]
    ensures |r| > 0 ==> r[|r| - 1] !in chars
    ensures forall i | |r| <= i < |s| :: s[i] in chars
  {
    if |s| > 0 && s[|s| - 1] in chars then RStrip(s[..|s| - 1], chars) else s
  }

  /** `s` with every occurrence of the character `c` deleted. */
  function Without(s: string, c: char): (r: string)
    ensures c !in r
  {
    if |s| == 0 then ""
    else if s[0] == c then Without(s[1..], c)
    else [s[0]] + Without(s[1..], c)
  }

  lemma {:induction false} WithoutAppend(a: string, b: string, c: char)
    ensures Without(a + b, c) == Without(a, c) + Without(b, c)
    decreases |a|
  {
    if |a| == 0 {
      assert a + b == b;
    } else {
      assert (a + b)[1..] == a[1..] + b;
      WithoutAppend(a[1..], b, c);
    }
  }

  // ---------------------------------------------------------------------
  // Code-point order on strings, as Python's `sorted` uses it.

  /** Python's `a < b` on strings: lexicographic by code point. */
  predicate Less(a: string, b: string)
    decreases |a|
  {
    if |a| == 0 then |b| > 0
    else if |b| == 0 then false
    else if a[0] < b[0] then true
    else if a[0] == b[0] then Less(a[1..], b[1..])
    else false
  }

  lemma {:induction false} LessIrreflexive(a: string)
    ensures !Less(a, a)
    decreases |a|
  {
    if |a| > 0 {
      LessIrreflexive(a[1..]);
    }
  }

  lemma {:induction false} LessTransitive(a: string, b: string, c: string)
    requires Less(a, b) && Less(b, c)
    ensures Less(a, c)
    decreases |a|
  {
    if |a| > 0 && |b| > 0 && |c| > 0 && a[0] == b[0] && b[0] == c[0] {
      LessTransitive(a[1..], b[1..], c[1..]);
    }
  }

  lemma {:induction false} LessTotal(a: string, b: string)
    requires a != b
    ensures Less(a, b) || Less(b, a)
    decreases |a|
  {
    if |a| > 0 && |b| > 0 && a[0] == b[0] {
      assert a == [a[0]] + a[1..];
      assert b == [b[0]] + b[1..];
      LessTotal(a[1..], b[1..]);
    }
  }

  /** Strictly ascending, hence free of duplicates. */
  predicate StrictlySorted(xs: seq<string>) {
    forall i, j | 0 <= i < j < |xs| :: Less(xs[i], xs[j])
  }

  lemma StrictlySortedDistinct(xs: seq<string>)
    requires StrictlySorted(xs)
    ensures forall i, j | 0 <= i < j < |xs| :: xs[i] != xs[j]
  {
    forall i, j | 0 <= i < j < |xs|
      ensures xs[i] != xs[j]
    {
      if xs[i] == xs[j] {
        LessIrreflexive(xs[i]);
      }
    }
  }

  /** Inserts `x` into a strictly sorted list unless it is already there. */
  function Insert(x: string, xs: seq<string>): (r: seq<string>)
    requires StrictlySorted(xs)
    ensures StrictlySorted(r)
    ensures forall y :: y in r <==> y == x || y in xs
  {
    if |xs| == 0 then [x]
    else if x == xs[0] then xs
    else if Less(x, xs[0]) then
      assert forall j | 0 < j < |xs| :: Less(x, xs[j]) by {
        forall j | 0 < j < |xs| ensures Less(x, xs[j]) {
          LessTransitive(x, xs[0], xs[j]);
        }
      }
      [x] + xs
    else
      LessTotal(x, xs[0]);
      var rest := Insert(x, xs[1..]);
      assert forall y | y in rest :: Less(xs[0], y);
      [xs[0]] + rest
  }

  /** Python's `sorted(set(xs))`: the distinct elements of `xs` in ascending order. */
  function SortedSet(xs: seq<string>): (r: seq<string>)
    ensures StrictlySorted(r)
    ensures forall y :: y in r <==> y in xs
  {
    if |xs| == 0 then []
    else
      var r := Insert(xs[|xs| - 1], SortedSet(xs[..|xs| - 1]));
      assert forall y :: y in xs <==> y in xs[..|xs| - 1] || y == xs[|xs| - 1] by {
        assert xs == xs[..|xs| - 1] + [xs[|xs| - 1]];
      }
      r
  }

  // ---------------------------------------------------------------------
  // Sequences of sequences.

  /** The lists one after the other, as nested comprehensions produce them. */
  function Flatten<T(!new)>(parts: seq<seq<T>>): (r: seq<T>)
    ensures forall x :: x in r <==> exists k | 0 <= k < |parts| :: x in parts[k]
  {
    if |parts| == 0 then []
    else
      var n := |parts| - 1;
      assert forall k | 0 <= k < n :: parts[..n][k] == parts[k];
      Flatten(parts[..n]) + parts[n]
  }
}

=== FILE: testgen.dfy ===
/**
  The test generator of the Spring Boot generator
  (generators/test_generator.py): the entity names recovered from generated
  file names, the operations it finds for an entity, the flags and imports
  of the service, mapper and controller tests, the classification of the
  properties a repository test fills in, the DTO properties a controller test
  sends, and the package the tests declare.
 */
module TestGen {
  import opened Wrappers
  import opened Strings
  import opened Json
  import opened Layout
  import OpenApi
  import Application
  import Infrastructure

  // ---------------------------------------------------------------------
  // Entity names from file stems.

  /** `stem.replace(suffix, '')`, as used for mappers, services, adapters and controllers. */
  function StemEntity(stem: string, suffix: string): (r: string)
    requires |suffix| > 0
    ensures |r| <= |stem|
    ensures suffix[0] !in stem ==> r == stem
  {
    assert suffix[0] !in stem ==> Replace(stem, suffix, "") == stem by {
      if suffix[0] !in stem {
        ReplaceWithoutFirstChar(stem, suffix, "");
      }
    }
    Replace(stem, suffix, "")
  }

  /** A stem made of an entity and the suffix gives the entity back when the suffix's first letter is not in it. */
  lemma StemEntityInverse(entity: string, suffix: string)
    requires |suffix| > 0 && suffix[0] !in entity
    ensures StemEntity(entity + suffix, suffix) == entity
  {
    forall i | 0 <= i < |entity|
      ensures !OccursAt(entity + suffix, suffix, i)
    {
      if OccursAt(entity + suffix, suffix, i) {
        OccursAtFirstChar(entity + suffix, suffix, i);
      }
    }
    ReplaceSkip(entity, suffix, suffix, "");
    assert suffix == suffix + "";
    ReplaceLeading(suffix, "", "");
    assert entity + "" == entity;
  }

  /**
    `stem.replace(suffix, '')` removes every occurrence: an entity whose name
    contains the suffix loses that part too.
   */
  lemma StemEntityDropsInner(a: string, b: string, suffix: string)
    requires |suffix| > 0 && suffix[0] !in a && suffix[0] !in b
    ensures StemEntity(a + suffix + b + suffix, suffix) == a + b
  {
    var s := a + suffix + b + suffix;
    forall i | 0 <= i < |a|
      ensures !OccursAt(a + (suffix + b + suffix), suffix, i)
    {
      if OccursAt(a + (suffix + b + suffix), suffix, i) {
        OccursAtFirstChar(a + (suffix + b + suffix), suffix, i);
      }
    }
    assert s == a + (suffix + b + suffix);
    ReplaceSkip(a, suffix + b + suffix, suffix, "");
    ReplaceLeading(suffix, b + suffix, "");
    assert suffix + b + suffix == suffix + (b + suffix);
    StemEntityInverse(b, suffix);
  }

  /** `stem.replace('JpaRepository', '').replace('Jpa', '').replace('Repository', '')`. */
  function RepositoryEntity(stem: string): (r: string)
    ensures |r| <= |stem|
    ensures 'J' !in stem && 'R' !in stem ==> r == stem
  {
    var r := Replace(Replace(Replace(stem, "JpaRepository", ""), "Jpa", ""), "Repository", "");
    assert 'J' !in stem && 'R' !in stem ==> r == stem by {
      if 'J' !in stem && 'R' !in stem {
        ReplaceWithoutFirstChar(stem, "JpaRepository", "");
        ReplaceWithoutFirstChar(stem, "Jpa", "");
        ReplaceWithoutFirstChar(stem, "Repository", "");
      }
    }
    Replace(Replace(Replace(stem, "JpaRepository", ""), "Jpa", ""), "Repository", "")
  }

  /** `Jpa{E}Repository` gives `E` back for an entity without `J` or `R`. */
  lemma RepositoryEntityInverse(entity: string)
    requires 'J' !in entity && 'R' !in entity
    ensures RepositoryEntity("Jpa" + entity + "Repository") == entity
  {
    var p, q := "Jpa", "Repository";
    assert p + q == "JpaRepository";
    assert p[0] !in p[1..] && p[0] !in q && q[0] != p[0];
    StripAffixes(p, q, entity);
  }

  /**
    Removing `p + q`, then `p`, then `q` from `p + e + q` gives `e` back when
    the first letters of `p` and `q` occur nowhere else.
   */
  lemma StripAffixes(p: string, q: string, e: string)
    requires |p| > 0 && |q| > 0
    requires p[0] !in p[1..] && p[0] !in q && p[0] !in e && q[0] !in e && q[0] != p[0]
    ensures Replace(Replace(Replace(p + e + q, p + q, ""), p, ""), q, "") == e
  {
    var s := p + e + q;
    var pq := p + q;
    var rest := e + q;
    assert s == p + rest;
    if |e| == 0 {
      assert s == pq + "";
      ReplaceLeading(pq, "", "");
    } else {
      forall i | 0 <= i <= |s|
        ensures !OccursAt(s, pq, i)
      {
        if i == 0 {
          assert s[|p|] == e[0] && pq[|p|] == q[0];
          assert |pq| <= |s| ==> s[0..|pq|][|p|] == s[|p|];
        } else if i < |s| {
          if i < |p| {
            assert s[i] == p[1..][i - 1];
            assert p[1..][i - 1] in p[1..];
          } else if i < |p| + |e| {
            assert s[i] == e[i - |p|];
          } else {
            assert s[i] == q[i - |p| - |e|];
          }
          assert i + |pq| <= |s| ==> s[i..i + |pq|][0] == s[i];
        }
      }
      ReplaceAbsent(s, pq, "");
      ReplaceLeading(p, rest, "");
      assert p[0] !in rest by {
        assert forall k | 0 <= k < |rest| :: rest[k] == if k < |e| then e[k] else q[k - |e|];
      }
      ReplaceWithoutFirstChar(rest, p, "");
      assert "" + rest == rest;
      StemEntityInverse(e, q);
    }
  }

  // ---------------------------------------------------------------------
  // Operations found for an entity.

  /** Every operation of every document, in order; any unreadable document fails the whole walk. */
  function SpecsOperations(specs: seq<OpenApi.SpecInfo>): (r: Result<seq<OpenApi.Operation>>)
    ensures r.Ok? <==> forall k | 0 <= k < |specs| :: OpenApi.SpecOperations(specs[k]).Ok?
    ensures r.Ok? ==> forall op :: op in r.value <==>
      exists k | 0 <= k < |specs| :: op in OpenApi.SpecOperations(specs[k]).value
  {
    if |specs| == 0 then Ok([])
    else
      var n := |specs| - 1;
      var pre := specs[..n];
      assert forall k | 0 <= k < n :: pre[k] == specs[k];
      var front :- SpecsOperations(pre);
      var last :- OpenApi.SpecOperations(specs[n]);
      Ok(front + last)
  }

  /** Walking one more document appends its operations after the earlier ones. */
  lemma SpecsOperationsStep(specs: seq<OpenApi.SpecInfo>, d: OpenApi.SpecInfo)
    ensures SpecsOperations(specs + [d]).Ok? <==> SpecsOperations(specs).Ok? && OpenApi.SpecOperations(d).Ok?
    ensures SpecsOperations(specs + [d]).Ok? ==>
      SpecsOperations(specs + [d]).value == SpecsOperations(specs).value + OpenApi.SpecOperations(d).value
  {
    assert (specs + [d])[..|specs|] == specs;
  }

  /**
    The operations of two batches of documents are those of the first batch
    followed by those of the second: document order and repeats are kept.
   */
  lemma {:induction false} SpecsOperationsAppend(a: seq<OpenApi.SpecInfo>, b: seq<OpenApi.SpecInfo>)
    ensures SpecsOperations(a + b).Ok? <==> SpecsOperations(a).Ok? && SpecsOperations(b).Ok?
    ensures SpecsOperations(a + b).Ok? ==>
      SpecsOperations(a + b).value == SpecsOperations(a).value + SpecsOperations(b).value
    decreases |b|
  {
    if |b| == 0 {
      assert a + b == a;
    } else {
      var n := |b| - 1;
      assert a + b == (a + b[..n]) + [b[n]];
      assert b == b[..n] + [b[n]];
      SpecsOperationsAppend(a, b[..n]);
      SpecsOperationsStep(a + b[..n], b[n]);
      SpecsOperationsStep(b[..n], b[n]);
    }
  }

  /** The basic CRUD operations of the entity, in order. */
  function CrudOperations(ops: seq<OpenApi.Operation>, entity: string): (r: seq<OpenApi.Operation>)
    requires Application.StringIds(ops)
    ensures Application.StringIds(r)
    ensures forall op :: op in r <==> op in ops && Infrastructure.CrudOp(op.id.s, entity)
  {
    if |ops| == 0 then []
    else
      var n := |ops| - 1;
      assert ops == ops[..n] + [ops[n]];
      CrudOperations(ops[..n], entity) + if Infrastructure.CrudOp(ops[n].id.s, entity) then [ops[n]] else []
  }

  /**
    `_find_operations_for_entity`: the operations whose id starts with
    `Create`, `Get`, `Update` or `Delete` and the entity, or is `List{E}s`.
    An id that is not a string makes `startswith` fail.
   */
  function FindOperations(specs: seq<OpenApi.SpecInfo>, entity: string): (r: Result<seq<OpenApi.Operation>>)
    ensures r.Ok? <==> SpecsOperations(specs).Ok? && Application.StringIds(SpecsOperations(specs).value)
    ensures r.Ok? ==> Application.StringIds(r.value)
    ensures r.Ok? ==> forall op :: op in r.value <==> op in SpecsOperations(specs).value && Infrastructure.CrudOp(op.id.s, entity)
  {
    var all :- SpecsOperations(specs);
    if Application.StringIds(all) then Ok(CrudOperations(all, entity))
    else Err("AttributeError: 'startswith'")
  }

  /** One element of a controller test's `complexOperations`. */
  datatype TestComplexOp = TestComplexOp(operationId: string, methodName: string, responseType: string)

  /** A non-CRUD operation that mentions the entity, ignoring case. */
  predicate ComplexFor(id: string, entity: string) {
    !Infrastructure.CrudOp(id, entity) && Contains(Lower(id), Lower(entity))
  }

  /** Whether an operation has a string id that is a complex operation of the entity. */
  function ComplexTest(entity: string): OpenApi.Operation -> bool {
    (op: OpenApi.Operation) => op.id.JStr? && ComplexFor(op.id.s, entity)
  }

  /** The test's entry for one operation. */
  function MakeComplexOp(op: OpenApi.Operation): TestComplexOp {
    var id := OpenApi.IdText(op);
    TestComplexOp(id, Application.MethodName(id), id + "ResponseContent")
  }

  /** The complex operations of the entity, one entry per operation, in operation order. */
  function ComplexOperations(ops: seq<OpenApi.Operation>, entity: string): (r: seq<TestComplexOp>)
    requires Application.StringIds(ops)
    ensures forall c | c in r :: (
      && ComplexFor(c.operationId, entity)
      && c.methodName == Application.MethodName(c.operationId)
      && c.responseType == c.operationId + "ResponseContent")
    ensures forall c | c in r :: exists i | 0 <= i < |ops| :: ops[i].id == JStr(c.operationId)
    ensures forall i | 0 <= i < |ops| && ComplexFor(ops[i].id.s, entity) :: exists c | c in r :: c.operationId == ops[i].id.s
  {
    if |ops| == 0 then []
    else
      var n := |ops| - 1;
      assert forall i | 0 <= i < n :: ops[..n][i] == ops[i];
      var id := ops[n].id.s;
      var rest := ComplexOperations(ops[..n], entity);
      if ComplexFor(id, entity) then
        var c := TestComplexOp(id, Application.MethodName(id), id + "ResponseContent");
        assert c in rest + [c];
        rest + [c]
      else rest
  }

  /** One entry per complex operation, in operation order: a map over a filter of the operations. */
  lemma {:induction false} ComplexOperationsInOrder(ops: seq<OpenApi.Operation>, entity: string)
    requires Application.StringIds(ops)
    ensures ComplexOperations(ops, entity) == Map(Filter(ops, ComplexTest(entity)), MakeComplexOp)
  {
    if |ops| > 0 {
      var n := |ops| - 1;
      assert Application.StringIds(ops[..n]) by {
        assert forall i | 0 <= i < n :: ops[..n][i] == ops[i];
      }
      ComplexOperationsInOrder(ops[..n], entity);
      MapAppend(Filter(ops[..n], ComplexTest(entity)), [ops[n]], MakeComplexOp);
    }
  }

  /** `_find_complex_operations_for_entity`. */
  function FindComplex(specs: seq<OpenApi.SpecInfo>, entity: string): (r: Result<seq<TestComplexOp>>)
    ensures r.Ok? <==> FindOperations(specs, entity).Ok?
    ensures r.Ok? ==> (SpecsOperations(specs).Ok? && Application.StringIds(SpecsOperations(specs).value)
      && r.value == ComplexOperations(SpecsOperations(specs).value, entity))
  {
    var all :- SpecsOperations(specs);
    if Application.StringIds(all) then Ok(ComplexOperations(all, entity))
    else Err("AttributeError: 'startswith'")
  }

  /** The complex operations never include one of the entity's CRUD operations. */
  lemma FindDisjoint(specs: seq<OpenApi.SpecInfo>, entity: string, op: OpenApi.Operation, c: TestComplexOp)
    requires FindOperations(specs, entity).Ok? && FindComplex(specs, entity).Ok?
    requires op in FindOperations(specs, entity).value && c in FindComplex(specs, entity).value
    ensures op.id != JStr(c.operationId)
  {
  }

  // ---------------------------------------------------------------------
  // The service of an entity.

  /** `_find_service_for_entity`: the first document with a schema named after the entity, else `entity.lower()`. */
  function ServiceFor(specs: seq<OpenApi.SpecInfo>, entity: string): (r: string)
    ensures (exists k | 0 <= k < |specs| :: Application.Mentions(specs[k], entity)) ==>
      exists k | 0 <= k < |specs| :: Application.Mentions(specs[k], entity) && r == specs[k].serviceName
        && forall j | 0 <= j < k :: !Application.Mentions(specs[j], entity)
    ensures (forall k | 0 <= k < |specs| :: !Application.Mentions(specs[k], entity)) ==> r == Lower(entity)
  {
    if |specs| == 0 then Lower(entity)
    else if Application.Mentions(specs[0], entity) then specs[0].serviceName
    else
      assert forall k | 1 <= k < |specs| :: specs[k] == specs[1..][k - 1];
      ServiceFor(specs[1..], entity)
  }

  // ---------------------------------------------------------------------
  // Flags and imports of the generated tests.

  /** The service test: the service's flags; the delete DTO is looked for only when there is a delete. */
  datatype ServiceTest = ServiceTest(flags: Application.Flags, hasDeleteDto: bool, dtoImports: seq<string>)

  function ServiceTestContext(ops: seq<OpenApi.Operation>, entity: string, service: string, dtoPackage: string,
                              existing: set<Path>, dtoDir: Path): (r: ServiceTest)
    requires Application.StringIds(ops)
    ensures r.flags == Application.OpFlags(ops, entity)
    ensures r.hasDeleteDto <==> r.flags.hasDelete && DtoExists(existing, dtoDir, "Delete" + entity + "ResponseContent")
    ensures r.dtoImports == Infrastructure.CrudImports(dtoPackage, service, entity, r.flags)
  {
    var flags := Application.OpFlags(ops, entity);
    var hasDeleteDto := if flags.hasDelete then DtoExists(existing, dtoDir, "Delete" + entity + "ResponseContent") else false;
    ServiceTest(flags, hasDeleteDto, Infrastructure.CrudImports(dtoPackage, service, entity, flags))
  }

  /** The mapper test: three DTO checks and the always-present `{E}Response` import. */
  datatype MapperTest = MapperTest(hasCreateDto: bool, hasUpdateDto: bool, hasGetDto: bool, dtoImports: seq<string>)

  function MapperTestContext(entity: string, service: string, dtoPackage: string, existing: set<Path>, dtoDir: Path): (r: MapperTest)
    ensures r.hasCreateDto <==> DtoExists(existing, dtoDir, "Create" + entity + "RequestContent")
    ensures r.hasUpdateDto <==> DtoExists(existing, dtoDir, "Update" + entity + "RequestContent")
    ensures r.hasGetDto <==> DtoExists(existing, dtoDir, "Get" + entity + "ResponseContent")
    ensures |r.dtoImports| == (if r.hasCreateDto then 2 else 0) + (if r.hasUpdateDto then 2 else 0) + (if r.hasGetDto then 1 else 0) + 1
    ensures r.dtoImports[|r.dtoImports| - 1] == Application.DtoImport(dtoPackage, service, entity + "Response")
    ensures r.hasCreateDto ==>
      r.dtoImports[..2] == [Application.DtoImport(dtoPackage, service, "Create" + entity + "RequestContent"),
                            Application.DtoImport(dtoPackage, service, "Create" + entity + "ResponseContent")]
    ensures var k := if r.hasCreateDto then 2 else 0;
      r.hasUpdateDto ==>
        r.dtoImports[k..k + 2] == [Application.DtoImport(dtoPackage, service, "Update" + entity + "RequestContent"),
                                   Application.DtoImport(dtoPackage, service, "Update" + entity + "ResponseContent")]
    ensures var k := (if r.hasCreateDto then 2 else 0) + (if r.hasUpdateDto then 2 else 0);
      r.hasGetDto ==> r.dtoImports[k] == Application.DtoImport(dtoPackage, service, "Get" + entity + "ResponseContent")
  {
    var c := DtoExists(existing, dtoDir, "Create" + entity + "RequestContent");
    var u := DtoExists(existing, dtoDir, "Update" + entity + "RequestContent");
    var g := DtoExists(existing, dtoDir, "Get" + entity + "ResponseContent");
    var imports :=
      (if c then [Application.DtoImport(dtoPackage, service, "Create" + entity + "RequestContent"),
                  Application.DtoImport(dtoPackage, service, "Create" + entity + "ResponseContent")] else [])
      + (if u then [Application.DtoImport(dtoPackage, service, "Update" + entity + "RequestContent"),
                    Application.DtoImport(dtoPackage, service, "Update" + entity + "ResponseContent")] else [])
      + (if g then [Application.DtoImport(dtoPackage, service, "Get" + entity + "ResponseContent")] else [])
      + [Application.DtoImport(dtoPackage, service, entity + "Response")];
    MapperTest(c, u, g, imports)
  }

  /** The controller test's imports: the CRUD ones, then one per complex operation. */
  function ControllerTestImports(ops: seq<OpenApi.Operation>, complex: seq<TestComplexOp>, entity: string, service: string, dtoPackage: string): (r: seq<string>)
    requires Application.StringIds(ops)
    ensures var crud := Infrastructure.CrudImports(dtoPackage, service, entity, Application.OpFlags(ops, entity));
      && |r| == |crud| + |complex|
      && r[..|crud|] == crud
      && forall i | 0 <= i < |complex| :: r[|crud| + i] == Application.DtoImport(dtoPackage, service, complex[i].responseType)
  {
    var crud := Infrastructure.CrudImports(dtoPackage, service, entity, Application.OpFlags(ops, entity));
    var extra := seq(|complex|, i requires 0 <= i < |complex| => Application.DtoImport(dtoPackage, service, complex[i].responseType));
    assert (crud + extra)[..|crud|] == crud;
    crud + extra
  }

  // ---------------------------------------------------------------------
  // Properties a repository test fills in.

  /** `prop_data.get(key)` read on a property's schema. */
  function TypeOf(data: Json): Json {
    match Get(data, "type")
    case Some(t) => t
    case None => JStr("string")
  }

  /** The Java type the repository test assumes. */
  function JavaType(data: Json): (r: string)
    ensures r == "Double" <==> TypeOf(data) == JStr("number") && Get(data, "format") == Some(JStr("double"))
    ensures r == "BigDecimal" <==> TypeOf(data) == JStr("number") && Get(data, "format") != Some(JStr("double"))
    ensures r == "Integer" <==> TypeOf(data) == JStr("integer")
    ensures r == "Boolean" <==> TypeOf(data) == JStr("boolean")
    ensures r == "String" <==> TypeOf(data) !in {JStr("number"), JStr("integer"), JStr("boolean")}
  {
    var t := TypeOf(data);
    if t == JStr("number") then
      if Get(data, "format") == Some(JStr("double")) then "Double" else "BigDecimal"
    else if t == JStr("integer") then "Integer"
    else if t == JStr("boolean") then "Boolean"
    else "String"
  }

  datatype RepoProp = RepoProp(
    name: string, required: bool,
    isString: bool, isEmail: bool, isBoolean: bool, isInteger: bool, isLong: bool, isDouble: bool, isBigDecimal: bool)

  function MakeRepoProp(name: string, data: Json, schema: Json): (r: RepoProp)
    ensures !(r.isString && r.isEmail)
    ensures r.isLong ==> r.isInteger
    ensures !(r.isDouble && r.isBigDecimal)
    ensures r.isEmail <==> Contains(Lower(name), "email")
    ensures r.required <==> Listed(schema, name)
  {
    var t := TypeOf(data);
    var email := Contains(Lower(name), "email");
    RepoProp(name, Listed(schema, name),
      t == JStr("string") && !email, email, t == JStr("boolean"), t == JStr("integer"),
      t == JStr("integer") && Get(data, "format") == Some(JStr("int64")),
      JavaType(data) == "Double", JavaType(data) == "BigDecimal")
  }

  /** The key, audit and status columns the repository test leaves out. */
  predicate Skipped(name: string, entity: string) {
    name == Lower(entity) + "Id" || name == "createdAt" || name == "updatedAt" || name == "status"
  }

  /** Whether a property is kept by the repository test. */
  function KeptFor(entity: string): ((string, Json)) -> bool {
    (x: (string, Json)) => !Skipped(x.0, entity)
  }

  /** The properties a repository test keeps, in schema order. */
  function KeptProps(props: Fields, entity: string): (r: Fields)
    ensures forall x :: x in r <==> x in props && !Skipped(x.0, entity)
    ensures r == Filter(props, KeptFor(entity))
  {
    if |props| == 0 then []
    else
      var n := |props| - 1;
      assert props == props[..n] + [props[n]];
      KeptProps(props[..n], entity) + if !Skipped(props[n].0, entity) then [props[n]] else []
  }

  /** The repository test's properties: one per kept property, in schema order. */
  function RepoProps(props: Fields, schema: Json, entity: string): (r: seq<RepoProp>)
    ensures var kept := KeptProps(props, entity);
      && |r| == |kept|
      && forall i | 0 <= i < |kept| :: r[i] == MakeRepoProp(kept[i].0, kept[i].1, schema) && !Skipped(r[i].name, entity)
  {
    var kept := KeptProps(props, entity);
    assert forall i | 0 <= i < |kept| :: kept[i] in kept;
    seq(|kept|, i requires 0 <= i < |kept| => MakeRepoProp(kept[i].0, kept[i].1, schema))
  }

  /** `{E}Response` or `Get{E}ResponseContent`. */
  predicate EntitySchemaName(name: string, entity: string) {
    name == entity + "Response" || name == "Get" + entity + "ResponseContent"
  }

  /** The first schema of a document named after the entity. */
  function FirstEntitySchema(schemas: Fields, entity: string): (r: Option<Json>)
    ensures r.Some? <==> exists i | 0 <= i < |schemas| :: EntitySchemaName(schemas[i].0, entity)
    ensures r.Some? ==> exists i | 0 <= i < |schemas| :: (
      && EntitySchemaName(schemas[i].0, entity) && schemas[i].1 == r.value
      && forall j | 0 <= j < i :: !EntitySchemaName(schemas[j].0, entity))
  {
    if |schemas| == 0 then None
    else if EntitySchemaName(schemas[0].0, entity) then Some(schemas[0].1)
    else
      assert forall i | 1 <= i < |schemas| :: schemas[i] == schemas[1..][i - 1];
      FirstEntitySchema(schemas[1..], entity)
  }

  /**
    The schema a repository test reads: the first match of the first document
    whose first match is truthy. A falsy match does not stop the search.
   */
  function EntitySchema(specs: seq<OpenApi.SpecInfo>, entity: string): (r: Option<Json>)
    ensures r.Some? ==> Truthy(r.value)
    ensures r.Some? <==> exists k | 0 <= k < |specs| :: TruthySchemaIn(specs[k], entity).Some?
    ensures r.Some? ==> exists k | 0 <= k < |specs| ::
      r == FirstEntitySchema(Application.SchemaTable(specs[k].spec), entity)
      && forall j | 0 <= j < k :: TruthySchemaIn(specs[j], entity).None?
  {
    FirstSome(specs, info => TruthySchemaIn(info, entity))
  }

  /** A document's first entity schema, when it is truthy. */
  function TruthySchemaIn(info: OpenApi.SpecInfo, entity: string): Option<Json> {
    var m := FirstEntitySchema(Application.SchemaTable(info.spec), entity);
    if m.Some? && Truthy(m.value) then m else None
  }

  /** `generate_repository_test`'s properties; none when no truthy entity schema is found. */
  function RepositoryTestProps(specs: seq<OpenApi.SpecInfo>, entity: string): (r: seq<RepoProp>)
    ensures EntitySchema(specs, entity).None? ==> r == []
    ensures forall p | p in r :: !Skipped(p.name, entity)
    ensures EntitySchema(specs, entity).Some? ==>
      var schema := EntitySchema(specs, entity).value;
      r == RepoProps(Properties(schema), schema, entity)
  {
    match EntitySchema(specs, entity)
    case Some(schema) => RepoProps(Properties(schema), schema, entity)
    case None => []
  }

  // ---------------------------------------------------------------------
  // Properties of a DTO, for the controller test.

  datatype DtoProp = DtoProp(name: string, required: bool, isString: bool, isEmail: bool, isBoolean: bool, isInteger: bool)

  function MakeDtoProp(name: string, data: Json, schema: Json): (r: DtoProp)
    ensures !(r.isString && r.isEmail)
    ensures r.required <==> Listed(schema, name)
  {
    var t := TypeOf(data);
    var email := Contains(Lower(name), "email");
    DtoProp(name, Listed(schema, name), t == JStr("string") && !email, email, t == JStr("boolean"), t == JStr("integer"))
  }

  function DtoProps(props: Fields, schema: Json): (r: seq<DtoProp>)
    ensures |r| == |props|
    ensures forall i | 0 <= i < |props| :: r[i] == MakeDtoProp(props[i].0, props[i].1, schema)
  {
    seq(|props|, i requires 0 <= i < |props| => MakeDtoProp(props[i].0, props[i].1, schema))
  }

  /** `_get_dto_properties`: the properties of the DTO in the first document that has it. */
  function DtoProperties(specs: seq<OpenApi.SpecInfo>, dtoName: string): (r: seq<DtoProp>)
    ensures (forall k | 0 <= k < |specs| :: !HasKey(Application.SchemaTable(specs[k].spec), dtoName)) ==> r == []
    ensures forall k | 0 <= k < |specs| && HasKey(Application.SchemaTable(specs[k].spec), dtoName)
        && (forall j | 0 <= j < k :: !HasKey(Application.SchemaTable(specs[j].spec), dtoName)) ::
      var schema := Lookup(Application.SchemaTable(specs[k].spec), dtoName).value;
      r == DtoProps(Properties(schema), schema)
  {
    if |specs| == 0 then []
    else
      var schemas := Application.SchemaTable(specs[0].spec);
      if HasKey(schemas, dtoName) then
        var schema := Lookup(schemas, dtoName).value;
        DtoProps(Properties(schema), schema)
      else
        assert forall k | 1 <= k < |specs| :: specs[k] == specs[1..][k - 1];
        var rest := DtoProperties(specs[1..], dtoName);
        assert forall k | 1 <= k < |specs| :: specs[1..][k - 1] == specs[k];
        rest
  }

  // ---------------------------------------------------------------------
  // The package the tests declare.

  /** As written: `package.replace('.', '.').replace('main', 'test')`. */
  function TestPackageAsWritten(pkg: string): (r: string)
    ensures |r| <= |pkg|
    ensures !Contains(pkg, "main") ==> r == pkg
  {
    ReplaceSame(pkg, ".");
    assert !Contains(pkg, "main") ==> Replace(pkg, "main", "test") == pkg by {
      if !Contains(pkg, "main") {
        ReplaceAbsent(pkg, "main", "test");
      }
    }
    Replace(Replace(pkg, ".", "."), "main", "test")
  }

  /** Replacing `.` by `.` changes nothing. */
  lemma {:induction false} ReplaceSame(s: string, pat: string)
    requires |pat| > 0
    ensures Replace(s, pat, pat) == s
    decreases |s|
  {
    if |s| >= |pat| {
      if s[..|pat|] == pat {
        ReplaceSame(s[|pat|..], pat);
        assert s == s[..|pat|] + s[|pat|..];
      } else {
        ReplaceSame(s[1..], pat);
        assert s == [s[0]] + s[1..];
      }
    }
  }

  /** A replacement whose text starts differently changes any text where the pattern occurs. */
  lemma {:induction false} ReplaceChanges(s: string, pat: string, rep: string)
    requires |pat| > 0 && |rep| == |pat| && rep[0] != pat[0]
    requires Contains(s, pat)
    ensures Replace(s, pat, rep) != s
    decreases |s|
  {
    var r := Replace(s, pat, rep);
    var i :| 0 <= i <= |s| && OccursAt(s, pat, i);
    if s[..|pat|] == pat {
      assert r[0] == rep[0];
    } else {
      assert i > 0;
      OccursShift(s, pat, i - 1);
      ReplaceChanges(s[1..], pat, rep);
      assert r == [s[0]] + Replace(s[1..], pat, rep);
    }
  }

  /** Every package with `main` anywhere in it, `domain` included, is declared under another name. */
  lemma TestPackageMismatch(pkg: string)
    requires Contains(pkg, "main")
    ensures TestPackageAsWritten(pkg) != pkg
  {
    ReplaceSame(pkg, ".");
    ReplaceChanges(pkg, "main", "test");
  }

  lemma DomainPackageMismatch()
    ensures TestPackageAsWritten("com.acme.domain") != "com.acme.domain"
  {
    var pkg := "com.acme.domain";
    assert OccursAt(pkg, "main", 11);
    TestPackageMismatch(pkg);
  }

  /** A test class belongs to the package of the class it tests. */
  function TestPackage(pkg: string): (r: string)
    ensures r == TestPackageAsWritten(pkg) <==> !Contains(pkg, "main")
  {
    assert Contains(pkg, "main") ==> TestPackageAsWritten(pkg) != pkg by {
      if Contains(pkg, "main") {
        TestPackageMismatch(pkg);
      }
    }
    pkg
  }

  /** The corrected package names the directory the test is written to. */
  lemma TestPackageMatchesDirectory(pkg: string)
    requires WellFormedPackage(pkg)
    ensures Render(TestPackagePath(pkg)) == "src/test/java/" + Replace(TestPackage(pkg), ".", "/")
  {
    TestPathText(pkg);
  }
}

=== FILE: wrappers.dfy ===
/** Failure-compatible wrappers shared by every module of the model. */
module Wrappers {

  /** A value that may be absent: Python's `None` or a missing dictionary key. */
  datatype Option<+T> = None | Some(value: T) {

    predicate IsFailure() {
      None?
    }

    function PropagateFailure<U>(): Option<U>
      requires None?
    {
      None
    }

    function Extract(): T
      requires Some?
    {
      value
    }

    /** Python's `d.get(key, default)` once the lookup has been done. */
    function GetOr(default: T): T {
      match this
      case Some(v) => v
      case None => default
    }
  }

  /** The outcome of a step that Python would abort with an exception. */
  datatype Result<+T> = Ok(value: T) | Err(error: string) {

    predicate IsFailure() {
      Err?
    }

    function PropagateFailure<U>(): Result<U>
      requires Err?
    {
      Err(error)
    }

    function Extract(): T
      requires Ok?
    {
      value
    }
  }

  /**
    `f` applied to every element in order, stopping at the first failure,
    which is the one reported.
   */
  function MapResult<A, B>(xs: seq<A>, f: A -> Result<B>): (r: Result<seq<B>>)
    ensures r.Ok? <==> forall i | 0 <= i < |xs| :: f(xs[i]).Ok?
    ensures r.Ok? ==> |r.value| == |xs| && forall i | 0 <= i < |xs| :: f(xs[i]) == Ok(r.value[i])
    ensures r.Err? ==> exists i | 0 <= i < |xs| :: f(xs[i]) == Err(r.error) && forall j | 0 <= j < i :: f(xs[j]).Ok?
  {
    if |xs| == 0 then Ok([])
    else
      var n := |xs| - 1;
      var pre := xs[..n];
      assert forall i | 0 <= i < n :: pre[i] == xs[i];
      match MapResult(pre, f)
      case Err(msg) => Err(msg)
      case Ok(front) =>
        match f(xs[n])
        case Err(msg) => Err(msg)
        case Ok(y) => Ok(front + [y])
  }

  /** The first `Some` that `f` gives along `xs`. */
  function FirstSome<A, B>(xs: seq<A>, f: A -> Option<B>): (r: Option<B>)
    ensures r.Some? <==> exists k | 0 <= k < |xs| :: f(xs[k]).Some?
    ensures r.Some? ==> exists k | 0 <= k < |xs| :: f(xs[k]) == r && forall j | 0 <= j < k :: f(xs[j]).None?
  {
    if |xs| == 0 then None
    else if f(xs[0]).Some? then f(xs[0])
    else
      assert forall k | 1 <= k < |xs| :: xs[k] == xs[1..][k - 1];
      FirstSome(xs[1..], f)
  }

  /**
    The elements of `xs` that satisfy `p`, in their order and with their
    repeats: Python's `[x for x in xs if p(x)]`.
   */
  function Filter<T(!new)>(xs: seq<T>, p: T -> bool): (r: seq<T>)
    ensures |r| <= |xs|
  {
    if |xs| == 0 then []
    else
      var n := |xs| - 1;
      assert xs == xs[..n] + [xs[n]];
      Filter(xs[..n], p) + if p(xs[n]) then [xs[n]] else []
  }

  /** The values kept are exactly those of `xs` that satisfy `p`. */
  lemma {:induction false} FilterIn<T(!new)>(xs: seq<T>, p: T -> bool)
    ensures forall x :: x in Filter(xs, p) <==> x in xs && p(x)
  {
    if |xs| > 0 {
      var n := |xs| - 1;
      assert xs == xs[..n] + [xs[n]];
      FilterIn(xs[..n], p);
    }
  }

  /** A kept value occurs as often as in `xs`; a dropped one not at all. */
  lemma {:induction false} FilterCount<T(!new)>(xs: seq<T>, p: T -> bool)
    ensures forall x :: multiset(Filter(xs, p))[x] == if p(x) then multiset(xs)[x] else 0
  {
    if |xs| > 0 {
      var n := |xs| - 1;
      assert xs == xs[..n] + [xs[n]];
      FilterCount(xs[..n], p);
    }
  }

  /** Filtering by a test and by its negation splits `xs`: together the two make a permutation of it. */
  lemma {:induction false} FilterSplit<T(!new)>(xs: seq<T>, p: T -> bool, q: T -> bool)
    requires forall x :: q(x) == !p(x)
    ensures multiset(Filter(xs, p)) + multiset(Filter(xs, q)) == multiset(xs)
  {
    if |xs| > 0 {
      var n := |xs| - 1;
      assert xs == xs[..n] + [xs[n]];
      FilterSplit(xs[..n], p, q);
    }
  }

  /** Filtering a concatenation filters each part in turn, so the order of `xs` is kept. */
  lemma {:induction false} FilterAppend<T(!new)>(a: seq<T>, b: seq<T>, p: T -> bool)
    ensures Filter(a + b, p) == Filter(a, p) + Filter(b, p)
    decreases |b|
  {
    if |b| == 0 {
      assert a + b == a;
    } else {
      var n := |b| - 1;
      var tail := if p(b[n]) then [b[n]] else [];
      assert (a + b)[..|a| + n] == a + b[..n];
      assert (a + b)[|a| + n] == b[n];
      assert Filter(a + b, p) == Filter(a + b[..n], p) + tail;
      FilterAppend(a, b[..n], p);
      assert Filter(b, p) == Filter(b[..n], p) + tail;
    }
  }

  /** `f` applied to every element, in order: Python's `[f(x) for x in xs]`. */
  function Map<A, B>(xs: seq<A>, f: A -> B): (r: seq<B>)
    ensures |r| == |xs|
    ensures forall i | 0 <= i < |xs| :: r[i] == f(xs[i])
  {
    if |xs| == 0 then [] else [f(xs[0])] + Map(xs[1..], f)
  }

  /** Mapping a concatenation maps each part in turn. */
  lemma {:induction false} MapAppend<A, B>(a: seq<A>, b: seq<A>, f: A -> B)
    ensures Map(a + b, f) == Map(a, f) + Map(b, f)
  {
    assert forall i | 0 <= i < |a| + |b| :: (a + b)[i] == if i < |a| then a[i] else b[i - |a|];
  }
}
